=== FILE: README.md ===
# NG-HASTE search engine, modelled in Dafny

NG-HASTE synthesises programs by searching over dataflow graphs. A graph's
nodes are functions of an *environment*, and its connections join a node's
output plug to another node's input plug. The search starts from a graph
that holds only the output function. It then repeatedly takes the
best-scored graph from a priority queue and expands it. An expansion fills
an open input plug, either from an output plug of an existing node or from
a new node. Each child is screened before it is kept:

- the depth limit;
- a structural duplicate check;
- the axioms.

A kept child is then either queued with a heuristic score or, when it has
no open plug left, kept as a solution.

This project models the sequential core of that engine. The repository
holds two revisions side by side: the package-root classes and the
environment-aware `impl` classes. Both are modelled, each against what it
calls.

- **Packed graphs** (`byte_codec`, `byte_utils`, `layout`, `graph_writer`,
  `root_node_graph`, `impl_node_graph`, `connection`).
  - A graph is one byte array: the node count, the node types, then four
    fields per connection.
  - Every field is big-endian at one width of 1 to 4 bytes. The `impl`
    graphs take the environment's minimum byte count, which can be 3; the
    package-root `newGraph` accepts only 1, 2 or 4.
  - `Layout.Packed` is the specification of that buffer and `Layout.Unpack`
    reads it back.
  - The `NodeGraph` classes keep the array in a `const` field. They state
    every accessor and every copy-on-append builder against the graph the
    buffer holds.
- **Environment** (`functions`, `environment`, `environment_builder`): the
  validation rules, index lookup, plug counting and the slot width.
- **Canonical hashing** (`stable_sort`, `node_reindexer`, `graph_hasher`,
  `graph_hash`).
  - The reindexer numbers nodes depth-first from the output node.
  - The hasher relabels the connections, sorts them and serialises them.
  - `GraphHash` compares by content.
  - `canonical` proves the promise of both classes: graphs of the same
    structure, whatever order their nodes and connections were added in,
    get corresponding numbers and the same hash. Two conditions apply.
    Every input plug is filled at most once (`SingleFill`). The connection
    hash code used as the sort key tells the relabelled connections apart
    (`Separates`).
- **Duplicate tracking** (`duplicate_finder`): the map from hash to the
  number of duplicates still expected.
- **Search rules** (`graph_queries`, `paths`, `axioms`, `search_rules`):
  - reachability, with the node count as recursion fuel;
  - acyclicity;
  - open-plug counting;
  - the three built-in axioms;
  - the exact set of one-step children.
- **Expansion** (`impl_search_tree`, `search_tree`): both `SearchTree`
  classes, with their loops, cycle guard, depth test, duplicate check and
  classification into queued graphs and solutions.
- **Work queues** (`impl_node_container`, `node_container`): the priority
  queue as a multiset, the solution list and the two counters.
- **Type hierarchies** (`data_obj`, `object_hierarchy`):
  - `canConnectTo` as reachability along parent links;
  - both `ObjectHeirarchy` classes, with `addDataType`, `getRootObject` and
    `getObject`.

The user-supplied parts of the engine become parameters:

- the `canConnectTo` relation between data types (`Compat`);
- the `isValid` of user axioms;
- heuristic estimates;
- `Connection.hashCode`.

Java `int` wrap-around is written out with `Wrap32` wherever a counter or a
decoded 4-byte value can overflow.

## Model

| member | source | states |
|---|---|---|
| ByteCodec.WriteNumber | src/main/java/net/whg/nghaste/NodeGraph.java:34-38 | The `numSize` bytes at `pos` become the big-endian encoding of the value, truncated to its low bytes as Java's shift-and-mask does. Every other byte is unchanged. |
| ByteCodec.ReadNumber | src/main/java/net/whg/nghaste/NodeGraph.java:51-59 | Returns the int the bytes at `pos` denote; a 4-byte value with the top bit set wraps to a negative int. |
| ByteCodec.DecodeEncode | src/main/java/net/whg/nghaste/NodeGraph.java:34-59 | Round trip: decoding the encoding of any value below 256^n gives the value back. |
| ByteCodec.EncodeDecode | src/main/java/net/whg/nghaste/NodeGraph.java:34-59 | The other direction: every byte string is the encoding of the number it decodes to. |
| ByteCodec.EncodeModulo | src/main/java/net/whg/nghaste/NodeGraph.java:34-38 | The encoding only sees the value modulo 256^n, so values that differ by 256^n are written the same. |
| ByteCodec.EncodeAt | src/main/java/net/whg/nghaste/NodeGraph.java:36-37 | Byte j of the encoding is the value shifted right by 8(n-1-j) bits, masked to 8 bits. |
| ByteCodec.ReadEncode | src/main/java/net/whg/nghaste/impl/NodeGraph.java:296-319 | readNumber after writeNumber returns the value for every value that fits the slot width. |
| ByteCodec.StoredFits | src/main/java/net/whg/nghaste/impl/NodeGraph.java:296-319 | What a slot reads back after a write always fits the width and re-encodes to the same bytes. A value that already fits reads back unchanged. |
| ByteCodec.Wrap32 | src/main/java/net/whg/nghaste/impl/NodeContainer.java:28-32 | The result is a Java int congruent to its argument modulo 2^32, and equal to it when the argument is already an int. |
| ByteUtils.CountBytesIsSmallestWidth | src/main/java/net/whg/nghaste/util/ByteUtils.java:16-30 | For every int but MIN_VALUE, the magnitude fits the width countBytes returns and does not fit one byte fewer. |
| ByteUtils.CountBytesOfMinValue | src/main/java/net/whg/nghaste/util/ByteUtils.java:18-21 | countBytes(Integer.MIN_VALUE) is 1, because Math.abs leaves MIN_VALUE negative. |
| ByteUtils.WidthOfIsSmallestWidth | src/main/java/net/whg/nghaste/Environment.java:157-169 | The width chosen for a non-negative int holds it and no smaller width does. Values below 256 get one byte. |
| ByteUtils.WidthOfAgreesWithCountBytes | src/main/java/net/whg/nghaste/GraphHasher.java:138-150 | On non-negative ints, the threshold chain shared by Environment and GraphHasher agrees with ByteUtils.countBytes. |
| ByteUtils.WidthOfMonotone | src/main/java/net/whg/nghaste/util/ByteUtils.java:20-29 | The chosen width never decreases as the value grows. |
| ByteUtils.FitsWidthOf | src/main/java/net/whg/nghaste/Environment.java:120-129 | Every value between 0 and a bound fits the width chosen for the bound. |
| ByteUtils.SignedByte | src/main/java/net/whg/nghaste/GraphHash.java:45-48 | The signed Java byte for a stored byte lies in -128..127 and agrees with it modulo 256. |
| ByteUtils.ArraysHashCode | src/main/java/net/whg/nghaste/GraphHash.java:45-48 | Arrays.hashCode of the bytes, with int wrap-around, is a Java int. |
| Connections.Connection.constructor | src/main/java/net/whg/nghaste/Connection.java:10-13 | A new connection buffer holds four zero fields. |
| Connections.Connection.Set | src/main/java/net/whg/nghaste/Connection.java:27-33 | All four fields are overwritten whatever they held, so the four getters return exactly the arguments. |
| Connections.TypedConnection.constructor | src/main/java/net/whg/nghaste/impl/NodeGraph.java:207-217 | A new six-field buffer, as impl getConnection fills it, holds zeros. |
| Connections.TypedConnection.Set | src/main/java/net/whg/nghaste/impl/NodeGraph.java:215-216 | The six-argument set overwrites the four connection fields and both end-node types. |
| Layout.UnpackPacked | src/main/java/net/whg/nghaste/impl/NodeGraph.java:163-217 | Decoding: reading the node count, node types and connections back from a graph's buffer gives the graph itself, when every slot fits the width. |
| Layout.PackedInjective | src/main/java/net/whg/nghaste/impl/NodeGraph.java:247-260 | Two well-formed graphs with the same buffer at the same width are the same graph. |
| Layout.CountsOfPacked | src/main/java/net/whg/nghaste/impl/NodeGraph.java:190-193 | On a buffer of length numSize·(1 + nodes + 4·connections), getNodeCount gives the node count. The formula (len/numSize − 1 − nodeCount)/4 gives the connection count. |
| Layout.SlotOfPacked | src/main/java/net/whg/nghaste/impl/NodeGraph.java:310-319 | Reading slot j of a buffer gives the value stored in slot j. |
| Layout.SingleNode | src/main/java/net/whg/nghaste/impl/NodeGraph.java:34-42 | The buffer of the one-node graph is the slot 1 followed by the node type. |
| GraphWriter.ReadSlot | src/main/java/net/whg/nghaste/impl/NodeGraph.java:310-319 | Reads slot j of a buffer that holds graph g: the j-th slot value of g. |
| GraphWriter.WriteSlot | src/main/java/net/whg/nghaste/impl/NodeGraph.java:296-301 | Writing one slot after an encoded prefix extends the encoded prefix by that slot. |
| GraphWriter.SingleNodeBuffer | src/main/java/net/whg/nghaste/NodeGraph.java:78-83 | newGraph's fresh buffer of two slots holds the graph with only the given node type and no connections. |
| GraphWriter.CopyData | src/main/java/net/whg/nghaste/NodeGraph.java:131-132 | The byte-by-byte copy makes the old buffer a prefix of the new one. |
| GraphWriter.CopyWithConnection | src/main/java/net/whg/nghaste/NodeGraph.java:129-137 | The fresh buffer is the old buffer verbatim followed by exactly the four fields of the new connection. |
| GraphWriter.WriteGrown | src/main/java/net/whg/nghaste/NodeGraph.java:165-183 | The buffer written with the running slot index holds the grown graph: new node count, old node types, new node type, old connections, new connection. |
| GraphWriter.CopyNodeTypes | src/main/java/net/whg/nghaste/impl/NodeGraph.java:133-134 | The loop over node types fills the next slots with the old node types. |
| GraphWriter.CopyConnectionSlots | src/main/java/net/whg/nghaste/impl/NodeGraph.java:137-138 | The loop over 4·connCount slots copies every old connection field. |
| GraphWriter.PutConnection | src/main/java/net/whg/nghaste/impl/NodeGraph.java:140-143 | The four trailing writes fill the new connection's slots. |
| GraphWriter.PutSlot | src/main/java/net/whg/nghaste/impl/NodeGraph.java:296-301 | Writing slot j fills one more slot of the target buffer. |
| GraphWriter.WriteNodeSlots | src/main/java/net/whg/nghaste/impl/NodeGraph.java:131-135 | The count slot, old node types and new node type are written first. |
| GraphWriter.WriteConnectionSlots | src/main/java/net/whg/nghaste/impl/NodeGraph.java:137-143 | The old connection slots and the new connection complete the buffer. |
| RootNodeGraph.NodeGraph.Of | src/main/java/net/whg/nghaste/NodeGraph.java:98-102 | The private constructor keeps the width and buffer; the score starts at zero. |
| RootNodeGraph.NodeGraph.NewGraph | src/main/java/net/whg/nghaste/NodeGraph.java:73-84 | IllegalArgumentException exactly when the width is not 1, 2 or 4. Otherwise a fresh graph with one node of the given type and no connections. |
| RootNodeGraph.NodeGraph.GetNodeCount | src/main/java/net/whg/nghaste/NodeGraph.java:203-206 | The number of nodes of the graph the buffer holds. |
| RootNodeGraph.NodeGraph.GetNodeType | src/main/java/net/whg/nghaste/NodeGraph.java:217-223 | IndexOutOfBounds exactly outside [0, nodeCount); otherwise that node's type. |
| RootNodeGraph.NodeGraph.GetConnectionCount | src/main/java/net/whg/nghaste/NodeGraph.java:230-233 | The number of connections the buffer holds. |
| RootNodeGraph.NodeGraph.GetConnection | src/main/java/net/whg/nghaste/NodeGraph.java:247-257 | IndexOutOfBounds exactly outside [0, connectionCount), with the out buffer untouched; otherwise the buffer holds that connection. |
| RootNodeGraph.NodeGraph.AddConnection | src/main/java/net/whg/nghaste/NodeGraph.java:121-140 | IndexOutOfBounds exactly when either node is out of range. Otherwise a fresh graph with the same nodes and the connection appended; the receiver is unchanged. |
| RootNodeGraph.NodeGraph.AddConnectionAndNode | src/main/java/net/whg/nghaste/NodeGraph.java:160-186 | IndexOutOfBounds exactly for an out-of-range input node. Otherwise the new node type is appended after the old ones, old connections are kept, and the connection (oldNodeCount, outputPlug, inputNode, inputPlug) is appended. The result is readable exactly when the new node count fits the width. |
| RootNodeGraph.NodeGraph.SetHeuristicScore | src/main/java/net/whg/nghaste/NodeGraph.java:275-278 | Only the score changes; the buffer and width cannot, as both are constants. |
| RootNodeGraph.NodeGraph.CompareTo | src/main/java/net/whg/nghaste/NodeGraph.java:281-284 | Negative exactly when this graph scores higher, positive exactly when it scores lower: best first. |
| RootNodeGraph.CompareToAntisymmetric | src/main/java/net/whg/nghaste/NodeGraph.java:281-284 | Swapping the two graphs negates the comparison. |
| ImplNodeGraph.NodeGraph.Of | src/main/java/net/whg/nghaste/impl/NodeGraph.java:57-62 | The width is the environment's minimum byte count; the score starts at zero. |
| ImplNodeGraph.NodeGraph.NewGraph | src/main/java/net/whg/nghaste/impl/NodeGraph.java:34-42 | A fresh graph of the environment with node count 1, no connections and node 0 of the given type. |
| ImplNodeGraph.NodeGraph.GetNodeCount | src/main/java/net/whg/nghaste/impl/NodeGraph.java:163-166 | The number of nodes of the graph the buffer holds. |
| ImplNodeGraph.NodeGraph.GetNodeType | src/main/java/net/whg/nghaste/impl/NodeGraph.java:177-183 | IndexOutOfBounds exactly outside [0, nodeCount); otherwise that node's type. |
| ImplNodeGraph.NodeGraph.GetConnectionCount | src/main/java/net/whg/nghaste/impl/NodeGraph.java:190-193 | The number of connections the buffer holds, through the division formula. |
| ImplNodeGraph.NodeGraph.GetConnection | src/main/java/net/whg/nghaste/impl/NodeGraph.java:207-217 | IndexOutOfBounds exactly outside [0, connectionCount), with the out buffer untouched. Otherwise the buffer holds that connection and the types of its two end nodes. |
| ImplNodeGraph.NodeGraph.AddConnection | src/main/java/net/whg/nghaste/impl/NodeGraph.java:81-100 | IndexOutOfBounds exactly when either node is out of range. Otherwise a fresh graph of the same environment with the same nodes and one more connection, equal to the arguments as stored. |
| ImplNodeGraph.NodeGraph.AddConnectionAndNode | src/main/java/net/whg/nghaste/impl/NodeGraph.java:120-146 | IndexOutOfBounds exactly for an out-of-range input node. Otherwise node count +1 with the new type last, old types and connections kept, and the connection (oldNodeCount, outputPlug, inputNode, inputPlug) appended. |
| ImplNodeGraph.NodeGraph.ToGraph | src/main/java/net/whg/nghaste/impl/NodeGraph.java:163-217 | Reading the whole buffer through the accessors gives back the graph it holds. |
| ImplNodeGraph.NodeGraph.SetHeuristicScore | src/main/java/net/whg/nghaste/impl/NodeGraph.java:235-238 | Only the score changes. |
| ImplNodeGraph.NodeGraph.CompareTo | src/main/java/net/whg/nghaste/impl/NodeGraph.java:241-244 | Negative exactly when this graph scores higher, positive exactly when it scores lower. |
| ImplNodeGraph.NodeGraph.HashCode | src/main/java/net/whg/nghaste/impl/NodeGraph.java:263-266 | Arrays.hashCode of the buffer, a Java int. |
| ImplNodeGraph.NodeGraph.CountOpenPlugs | src/main/java/net/whg/nghaste/impl/NodeGraph.java:273-286 | The input plugs of all nodes minus the connections. IndexOutOfBounds exactly when some node type is not a function of the environment. |
| ImplNodeGraph.NodeGraph.GetNodeAsFunction | src/main/java/net/whg/nghaste/impl/NodeGraph.java:330-334 | The environment function a node runs. IndexOutOfBounds for a bad node or a type outside the function list. |
| ImplNodeGraph.NodeGraph.GetOutputConnectionCount | src/main/java/net/whg/nghaste/impl/NodeGraph.java:346-367 | The number of connections leaving output (node, plug). IndexOutOfBounds exactly when the node or its output plug does not exist. |
| ImplNodeGraph.CompareToAntisymmetric | src/main/java/net/whg/nghaste/impl/NodeGraph.java:241-244 | Swapping the two graphs negates the comparison. |
| ImplNodeGraph.EqualsHashCode | src/main/java/net/whg/nghaste/impl/NodeGraph.java:247-266 | Graphs that are equal have equal hash codes. |
| ImplNodeGraph.EqualsSameGraph | src/main/java/net/whg/nghaste/impl/NodeGraph.java:247-260 | Two readable graphs at the same width whose buffers are equal hold the same graph. |
| ImplNodeGraph.FunctionIndexStored | src/main/java/net/whg/nghaste/Environment.java:120-129 | Any function index survives being stored at the environment's minimum width. |
| Functions.NewInputFunction | src/main/java/net/whg/nghaste/impl/InputFunction.java:27-45 | IllegalArgumentException exactly for no outputs. Otherwise an input function with no inputs whose outputs are the given ones. |
| Functions.NewOutputFunction | src/main/java/net/whg/nghaste/impl/OutputFunction.java:27-45 | IllegalArgumentException exactly for no inputs. Otherwise an output function with no outputs whose inputs are the given ones. |
| Functions.InputFunctionsAreConstructed | src/main/java/net/whg/nghaste/impl/InputFunction.java:27-33 | Every well-shaped input function is what the constructor builds from its own outputs. |
| Functions.OutputFunctionsAreConstructed | src/main/java/net/whg/nghaste/impl/OutputFunction.java:27-33 | Every well-shaped output function is what the constructor builds from its own inputs. |
| Environments.ValidateFunctions | src/main/java/net/whg/nghaste/Environment.java:54-74 | Succeeds exactly when the list has at least one input function and exactly one output function; IllegalArgumentException otherwise. |
| Environments.NewEnvironment | src/main/java/net/whg/nghaste/Environment.java:42-52 | Built exactly when the functions validate, holding the given lists and depth. |
| Environments.GetOutputFunction | src/main/java/net/whg/nghaste/Environment.java:81-88 | The first output function of the list; a RuntimeException (the model's IllegalState) exactly when there is none. |
| Environments.OutputFunctionUnique | src/main/java/net/whg/nghaste/Environment.java:54-88 | After validation, the output function is the only one. |
| Environments.GetIndexOf | src/main/java/net/whg/nghaste/Environment.java:100-107 | The least index holding the function, and −1 exactly when the list does not hold it. |
| Environments.MaxPlugs | src/main/java/net/whg/nghaste/Environment.java:137-148 | The largest input or output plug count of any function: no function has more, and some function attains it unless it is 0. |
| Environments.CountPlugs | src/main/java/net/whg/nghaste/Environment.java:137-148 | The loop computes MaxPlugs. |
| Environments.GetMinByteCount | src/main/java/net/whg/nghaste/Environment.java:120-129 | Corrected: the width for the largest of the function count, the plug count and one past the depth; see Findings. |
| Environments.MinByteCountHolds | src/main/java/net/whg/nghaste/Environment.java:120-169 | Corrected: every function index, every plug index and every count up to one past the depth fits the minimum byte count. |
| EnvironmentBuilders.EnvironmentBuilder.constructor | src/main/java/net/whg/nghaste/EnvironmentBuilder.java:13-17 | Empty lists and the default depth 20. |
| EnvironmentBuilders.EnvironmentBuilder.SetMaxDepth | src/main/java/net/whg/nghaste/EnvironmentBuilder.java:31-39 | IllegalArgumentException for a depth ≤ 0, leaving the depth unchanged. Otherwise the depth is set and the same builder returned; the lists never change. |
| EnvironmentBuilders.EnvironmentBuilder.AddAxiom | src/main/java/net/whg/nghaste/EnvironmentBuilder.java:53-58 | Appends exactly the one axiom and returns the same builder. |
| EnvironmentBuilders.EnvironmentBuilder.AddSolutionAxiom | src/main/java/net/whg/nghaste/EnvironmentBuilder.java:73-78 | Appends exactly the one solution axiom and returns the same builder. |
| EnvironmentBuilders.EnvironmentBuilder.AddHeuristic | src/main/java/net/whg/nghaste/EnvironmentBuilder.java:90-95 | Appends exactly the one heuristic and returns the same builder. |
| EnvironmentBuilders.EnvironmentBuilder.AddFunction | src/main/java/net/whg/nghaste/EnvironmentBuilder.java:106-111 | Appends exactly the one function and returns the same builder. |
| EnvironmentBuilders.EnvironmentBuilder.Build | src/main/java/net/whg/nghaste/EnvironmentBuilder.java:121-124 | The environment of the accumulated lists and depth, and a positive max depth. The environment's validation error propagates. |
| Axioms.NewSingleInstance | src/main/java/net/whg/nghaste/util/SingleInstanceAxiom.java:28-34 | IllegalArgumentException exactly for a null data type; otherwise the axiom for that type. |
| Axioms.CountUses | src/main/java/net/whg/nghaste/util/NoUnusedObjectAxiom.java:39-46 | The loop counts the connections leaving output (node, plug). |
| Axioms.UsedAtMostOnce | src/main/java/net/whg/nghaste/util/SingleInstanceAxiom.java:52-64 | The early-exit loop answers true exactly when at most one connection leaves the plug. |
| Axioms.SingleInstanceIsValid | src/main/java/net/whg/nghaste/util/SingleInstanceAxiom.java:37-69 | False exactly when some output plug of the axiom's type has two or more connections. |
| Axioms.NoUnusedObjectIsValid | src/main/java/net/whg/nghaste/util/NoUnusedObjectAxiom.java:24-54 | False exactly when some output plug of the axiom's type has no connection. |
| Axioms.SingleConstIsValid | src/main/java/net/whg/nghaste/util/SingleConstAxiom.java:16-33 | False exactly when two distinct nodes share a node type whose function is an input function. |
| Axioms.IsValid | src/main/java/net/whg/nghaste/IAxiom.java:9-25 | Dispatches to the built-in axioms; a user axiom answers through the given predicate. |
| Axioms.NoPlugOfTypeIsValid | src/main/java/net/whg/nghaste/util/SingleInstanceAxiom.java:49-50 | A graph with no output plug of the type passes both the single-instance and the no-unused-object axiom. |
| Axioms.RepeatedNonInputIsValid | src/main/java/net/whg/nghaste/util/SingleConstAxiom.java:21-22 | A graph with no input-function node passes the single-const axiom, however its types repeat. |
| Axioms.EqualsIsIdentity | src/main/java/net/whg/nghaste/util/SingleInstanceAxiom.java:78-91 | Two axioms are equal exactly when they are the same kind with the same data type. |
| Axioms.EqualsHashCode | src/main/java/net/whg/nghaste/util/NoUnusedObjectAxiom.java:57-87 | Equal axioms have equal hash codes, with the constants 2349082, 31 and 3124561. |
| GraphHashes.EqualsIsIdentity | src/main/java/net/whg/nghaste/GraphHash.java:32-42 | Two hashes are equal exactly when their byte arrays have the same length and contents. |
| GraphHashes.EqualsHashCode | src/main/java/net/whg/nghaste/GraphHash.java:45-48 | Equal hashes have equal hash codes. |
| GraphHashes.GraphHash.HashCode | src/main/java/net/whg/nghaste/GraphHash.java:44-48 | The hash code is a Java int. |
| StableSort.SortByIsSorted | src/main/java/net/whg/nghaste/NodeReindexer.java:89 | The list sort sorts by the key. |
| StableSort.SortByPermutes | src/main/java/net/whg/nghaste/NodeReindexer.java:77-92 | The sorted list is a permutation of the input. |
| StableSort.SortByStable | src/main/java/net/whg/nghaste/NodeReindexer.java:77-92 | The sort is stable: the elements of each key keep their input order. |
| StableSort.SortedUnique | src/main/java/net/whg/nghaste/NodeReindexer.java:77-92 | Two sorted lists with the same elements per key, in the same order, are equal. |
| StableSort.SortByDependsOnGroups | src/main/java/net/whg/nghaste/NodeReindexer.java:77-92 | The sorted list depends only on each key's elements in order, not on how keys interleave in the input. |
| StableSort.SortedSeparatedUnique | src/main/java/net/whg/nghaste/GraphHasher.java:62 | Two sorted lists with the same elements are equal when no two different elements share a key. |
| StableSort.SortBySeparated | src/main/java/net/whg/nghaste/GraphHasher.java:62 | Sorting by a key that tells the elements apart depends only on which elements there are, not on their input order. |
| NodeReindexer.SortConnections | src/main/java/net/whg/nghaste/NodeReindexer.java:77-92 | The connections sorted stably by input plug: sorted, a permutation, and each plug's connections in graph order. |
| NodeReindexer.PlaceNodes | src/main/java/net/whg/nghaste/NodeReindexer.java:49-66 | The result is PlaceFrom, the recursion of placeNodes as a function. An already-numbered node changes nothing and returns outIndex; a new node gets outIndex. The new keys get distinct consecutive numbers from outIndex up to the returned index, each reaches the node, and every feeder of a new key is numbered. |
| NodeReindexer.Reindex | src/main/java/net/whg/nghaste/NodeReindexer.java:31-34 | Existing entries are kept and node 0 gets 0. From an empty map the result is Numbering(graph): the numbers are 0..k−1, distinct, and the keys are exactly the nodes that reach node 0. |
| NodeReindexer.ClosedHoldsFeeders | src/main/java/net/whg/nghaste/NodeReindexer.java:57-63 | A key set closed under feeding holds every node that reaches a key. |
| Canonical.NumberingReordered | src/main/java/net/whg/nghaste/NodeReindexer.java:8-16 | Graphs of the same structure get corresponding numbers. One graph is the other with its nodes renamed by a permutation that keeps node 0 and the functions, and with its connections in any order. Node k of the first and its image in the second get the same number, or both none. This needs every input plug filled at most once. |
| Canonical.PlaceFromMoved | src/main/java/net/whg/nghaste/NodeReindexer.java:49-66 | placeNodes from corresponding nodes of two such graphs, over their plug-sorted connections and from corresponding maps, ends with corresponding maps and the same next number. |
| Canonical.RelabelledPermutes | src/main/java/net/whg/nghaste/GraphHasher.java:49-61 | With corresponding numberings, the relabelled connection lists of two such graphs hold the same connections. |
| Canonical.HashReordered | src/main/java/net/whg/nghaste/GraphHasher.java:8-15 | Two such graphs sort to the same relabelled connection list and have the same hash, when the connection hash code tells the relabelled connections apart. The hash is the corrected one. |
| Canonical.ConsistentGraphsReordered | src/test/java/net/whg/nghaste/unit/NodeReindexerTest.java:47-57 | The second test graph is the first with nodes 2 and 3 swapped and its last two connections swapped. |
| Canonical.ConsistentIndices | src/test/java/net/whg/nghaste/unit/NodeReindexerTest.java:44-67 | consistentIndices: nodes 0 and 1 get the same numbers in both graphs, and nodes 2 and 3 trade theirs. |
| Canonical.CompareEqualGraphs | src/test/java/net/whg/nghaste/unit/GraphHasherTest.java:13-31 | compare_equalGraphs: the two graphs have the same hash, when the hash code tells their relabelled connections apart. |
| GraphHashers.GraphHasher.constructor | src/main/java/net/whg/nghaste/GraphHasher.java:18-19 | Both buffers start empty; the connection order key is the given one. |
| GraphHashers.GraphHasher.CreateHash | src/main/java/net/whg/nghaste/GraphHasher.java:30-41 | Corrected: the hash of the reindexed, relabelled, sorted connection list, serialised with all four connection fields and the two node types. The index map is Numbering(graph), so the hash is the one HashOf names. Both buffers are empty again afterwards, so hashing is repeatable. A connection from a node that does not reach node 0 raises NullPointerException. |
| GraphHashers.GraphHasher.PrepareConnectionBuffer | src/main/java/net/whg/nghaste/GraphHasher.java:49-63 | The buffer holds every connection relabelled through the index map, sorted by the key. It fails exactly at the first connection with an unmapped endpoint. |
| GraphHashers.GraphHasher.HashConnectionList | src/main/java/net/whg/nghaste/GraphHasher.java:71-90 | Corrected: the hash array is the width byte, then every connection's four fields and two node types at that width. |
| GraphHashers.GraphHasher.GetHashSize | src/main/java/net/whg/nghaste/GraphHasher.java:92-107 | Corrected: the largest of the four connection fields and two node types over the buffer, from 0. |
| GraphHashers.GraphHasher.WriteConnection | src/main/java/net/whg/nghaste/GraphHasher.java:81-86 | Corrected: six writes append the connection's four fields and two node types and advance the index by 6·numSize. |
| GraphHashers.GraphHasher.WriteNumber | src/main/java/net/whg/nghaste/GraphHasher.java:123-129 | Only bytes [index, index+numSize) change, and the result is index+numSize. |
| GraphHashers.HashBytesShape | src/main/java/net/whg/nghaste/GraphHasher.java:73-77 | The hash is one width byte of 1 to 4 followed by 6·width bytes per connection. |
| GraphHashers.MaxOfIsMax | src/main/java/net/whg/nghaste/GraphHasher.java:92-107 | The folded maximum is at least 0, at least every field, and is 0 or some field. |
| GraphHashers.FieldsFitWidth | src/main/java/net/whg/nghaste/GraphHasher.java:138-150 | Every field fits the width chosen for the largest one. |
| GraphHashers.HashBytesInjective | src/main/java/net/whg/nghaste/GraphHasher.java:71-90 | Corrected: different relabelled connection lists have different hashes. |
| GraphHashers.FieldListInjective | src/main/java/net/whg/nghaste/GraphHasher.java:79-87 | Corrected: the six-field list determines the connections. |
| GraphHashers.WrittenHashLosesPlugs | src/main/java/net/whg/nghaste/GraphHasher.java:81-86 | As written: two connection lists differing only in the output plug produce the same hash. |
| GraphHashers.SingleNodeConnected | src/main/java/net/whg/nghaste/impl/NodeGraph.java:34-42 | A one-node graph is connected to node 0. |
| GraphHashers.AddConnectionConnected | src/main/java/net/whg/nghaste/impl/NodeGraph.java:81-100 | Adding a connection keeps every node connected to node 0. |
| GraphHashers.AddConnectionAndNodeConnected | src/main/java/net/whg/nghaste/impl/NodeGraph.java:120-146 | A new node feeding an existing node keeps the graph connected. |
| GraphHashers.ConnectedFewNodes | src/main/java/net/whg/nghaste/impl/NodeGraph.java:120-146 | A connected graph has at most one node more than it has connections, since every node but the output feeds some connection. |
| GraphHashers.ConnectedIsMapped | src/main/java/net/whg/nghaste/GraphHasher.java:49-63 | In a connected graph every endpoint has an index, so prepareConnectionBuffer never fails during the search. |
| DuplicateFinders.DuplicateFinder.constructor | src/main/java/net/whg/nghaste/DuplicateFinder.java:20 | The map starts empty. |
| DuplicateFinders.DuplicateFinder.IsUnique | src/main/java/net/whg/nghaste/DuplicateFinder.java:40-64 | The answer and the new map are Check of the graph's hash and its remaining count, and every count stays positive. It never fails on a connected graph. |
| DuplicateFinders.DuplicateFinder.Record | src/main/java/net/whg/nghaste/DuplicateFinder.java:45-63 | A seen hash: false, and the count drops by one with the key removed at zero. An unseen one: true, stored only with a positive count. |
| DuplicateFinders.DuplicateFinder.CountRemaining | src/main/java/net/whg/nghaste/DuplicateFinder.java:75-88 | The sum of output-connection counts over branching or leaf nodes, minus 1. |
| DuplicateFinders.DuplicateFinder.CountOutputs | src/main/java/net/whg/nghaste/DuplicateFinder.java:99-114 | The connections leaving the node; positive exactly when one does. |
| DuplicateFinders.DuplicateFinder.IsLeafNode | src/main/java/net/whg/nghaste/DuplicateFinder.java:127-139 | True exactly when no connection enters the node. |
| DuplicateFinders.DuplicateFinder.GetRemainingDuplicateTypes | src/main/java/net/whg/nghaste/DuplicateFinder.java:153-159 | The number of stored keys. |
| DuplicateFinders.CheckKeepsCounts | src/main/java/net/whg/nghaste/DuplicateFinder.java:45-61 | Every count stays at least 1, and the entries of other hashes are untouched. |
| DuplicateFinders.CountDown | src/main/java/net/whg/nghaste/DuplicateFinder.java:47-56 | A hash stored with count c is rejected c times, losing one each time, and is gone after the c-th. |
| DuplicateFinders.RemainingBounds | src/main/java/net/whg/nghaste/DuplicateFinder.java:75-88 | The remaining count lies between −1 and connectionCount − 1. |
| DuplicateFinders.OutputsPositive | src/main/java/net/whg/nghaste/DuplicateFinder.java:99-114 | A node's output count is positive exactly when some connection leaves it. |
| GraphQueries.OutputUsesPositive | src/main/java/net/whg/nghaste/util/NoUnusedObjectAxiom.java:39-49 | The uses of an output plug are positive exactly when some connection leaves that plug. |
| GraphQueries.ReachesMonotone | src/main/java/net/whg/nghaste/SearchTree.java:219-235 | More recursion fuel never loses a path. |
| GraphQueries.ReachesTransitive | src/main/java/net/whg/nghaste/impl/SearchTree.java:218-234 | Paths compose. |
| GraphQueries.NewEdgeAddsNoPathToItsSource | src/main/java/net/whg/nghaste/impl/SearchTree.java:113 | A new connection creates no path back into its own source node. |
| Paths.NodeCountIsEnoughFuel | src/main/java/net/whg/nghaste/impl/SearchTree.java:218-234 | In a graph of n nodes, a path exists exactly when one exists with n steps of fuel, so the fuel bound loses nothing. |
| Paths.ShortWalk | src/main/java/net/whg/nghaste/SearchTree.java:219-235 | Any walk over n nodes can be shortened to one of at most n nodes with the same ends. |
| Paths.SplitAtNewEdge | src/main/java/net/whg/nghaste/impl/SearchTree.java:113 | A path using a new edge splits into an old path to its source and a path from its target. |
| Paths.ReuseKeepsAcyclic | src/main/java/net/whg/nghaste/impl/SearchTree.java:101-102 | A connection whose source the target does not reach keeps the graph acyclic. |
| Paths.NewNodeKeepsAcyclic | src/main/java/net/whg/nghaste/impl/SearchTree.java:158 | A new node feeding an existing node keeps the graph acyclic. |
| SearchRules.ReuseMovesAre | src/main/java/net/whg/nghaste/impl/SearchTree.java:92-117 | The reuse children are exactly the output plugs that canConnectTo the target type, on nodes the target node does not reach. |
| SearchRules.CreateMovesAre | src/main/java/net/whg/nghaste/impl/SearchTree.java:131-162 | The new-node children are exactly the compatible output plugs of the functions whose inputs fit the remaining depth. |
| SearchRules.ReuseChild | src/main/java/net/whg/nghaste/impl/SearchTree.java:98-114 | A reuse child keeps the graph typed, connected and acyclic, and has one open plug fewer. |
| SearchRules.CreateChild | src/main/java/net/whg/nghaste/impl/SearchTree.java:139-159 | A new-node child keeps the graph typed, connected and acyclic. Its open plugs are the old ones minus one plus the new function's inputs. |
| SearchRules.AllValid | src/main/java/net/whg/nghaste/impl/SearchTree.java:177-187 | The axiom loop answers true exactly when every axiom holds. |
| SearchRules.SumHeuristics | src/main/java/net/whg/nghaste/impl/SearchTree.java:193-199 | The score is the sum of the heuristics' estimates. |
| SearchRules.ChildCountFits | src/main/java/net/whg/nghaste/impl/SearchTree.java:139-149 | Corrected: for a graph of the queue's shape (the start graph, or one within the depth with an open plug), the node count of a new-node child fits the corrected slot width. So addConnectionAndNode never overflows the count slot; see Findings. |
| SearchRules.IndexStored | src/main/java/net/whg/nghaste/Environment.java:120-148 | Function and plug indices survive being stored in a graph slot. |
| ImplSearchTree.HasConnection | src/main/java/net/whg/nghaste/impl/SearchTree.java:65-77 | True exactly when some connection enters the plug. The root copy at SearchTree.java:67-79 is the same. |
| ImplSearchTree.IsParentOf | src/main/java/net/whg/nghaste/impl/SearchTree.java:218-234 | The recursion with the given fuel answers exactly bounded reachability, including a == b. |
| ImplSearchTree.IsParent | src/main/java/net/whg/nghaste/SearchTree.java:219-235 | With the node count as fuel, the answer is exactly reachability along output-to-input edges. |
| ImplSearchTree.WrittenWidthLosesCount | src/main/java/net/whg/nghaste/Environment.java:120-129 | As written: with depth 255, the chain output ← 254 middle nodes ← input is a queued graph whose new-node child passes the depth test and has 256 nodes. The written width is 1 byte, where 256 is stored as 0; the corrected width is 2 bytes, where it is stored as 256. |
| ImplSearchTree.SearchTree.constructor | src/main/java/net/whg/nghaste/impl/SearchTree.java:20-22 | Both output lists start empty. |
| ImplSearchTree.SearchTree.PlaceNeighbors | src/main/java/net/whg/nghaste/impl/SearchTree.java:33-51 | Only the first open plug is expanded, scanning nodes from last to first and plugs upward. Its reuse then new-node children are recorded; with no open plug nothing is added. |
| ImplSearchTree.SearchTree.AddNewConnections | src/main/java/net/whg/nghaste/impl/SearchTree.java:92-117 | Every reuse child, in loop order, went through processGraph and was recorded. |
| ImplSearchTree.SearchTree.ConnectParents | src/main/java/net/whg/nghaste/impl/SearchTree.java:99-116 | The outer loop records one block of reuse moves per candidate node. |
| ImplSearchTree.SearchTree.TryParent | src/main/java/net/whg/nghaste/impl/SearchTree.java:101-102 | A candidate the target reaches contributes no move. |
| ImplSearchTree.SearchTree.ConnectParent | src/main/java/net/whg/nghaste/impl/SearchTree.java:104-115 | The compatible output plugs of one candidate, in order. |
| ImplSearchTree.SearchTree.ReuseStep | src/main/java/net/whg/nghaste/impl/SearchTree.java:113-114 | addConnection then processGraph, with the flag "no open plug left". |
| ImplSearchTree.SearchTree.AddNewNodes | src/main/java/net/whg/nghaste/impl/SearchTree.java:131-162 | Every new-node child within the depth budget, in loop order, went through processGraph and was recorded. |
| ImplSearchTree.SearchTree.ConnectFunctions | src/main/java/net/whg/nghaste/impl/SearchTree.java:143-161 | The outer loop records one block per function. |
| ImplSearchTree.SearchTree.TryFunction | src/main/java/net/whg/nghaste/impl/SearchTree.java:148-150 | A function whose inputs would exceed the depth contributes no move. |
| ImplSearchTree.SearchTree.ConnectFunction | src/main/java/net/whg/nghaste/impl/SearchTree.java:152-160 | The compatible output plugs of one function, in order. |
| ImplSearchTree.SearchTree.CreateStep | src/main/java/net/whg/nghaste/impl/SearchTree.java:158-159 | addConnectionAndNode then processGraph, flagged a solution exactly when no plug stays open. |
| ImplSearchTree.SearchTree.ProcessGraph | src/main/java/net/whg/nghaste/impl/SearchTree.java:174-202 | Dropped if an axiom fails. A solution must also pass the solution axioms and joins the solutions; any other child is scored with the summed heuristic and queued. |
| ImplSearchTree.QueuedAppend | src/main/java/net/whg/nghaste/impl/SearchTree.java:46-47 | What the moves of two consecutive loops queue and solve is what each loop does, concatenated. |
| RootSearchTree.RootMovesAre | src/main/java/net/whg/nghaste/SearchTree.java:94-154 | The root engine's children are exactly the plugs whose type equals the target's, on nodes the target does not reach or on new nodes of any function. |
| RootSearchTree.KeptChild | src/main/java/net/whg/nghaste/SearchTree.java:166-203 | A child that processGraph screens and admits keeps everything queued a grown child and every solution a finished one. |
| RootSearchTree.SoundStep | src/main/java/net/whg/nghaste/SearchTree.java:183-202 | Queuing a child with open plugs, or keeping one without as a solution, keeps the search sound. |
| RootSearchTree.SoundConcat | src/main/java/net/whg/nghaste/SearchTree.java:38-52 | Soundness carries across consecutive loop iterations. |
| RootSearchTree.ChildIsChild | src/main/java/net/whg/nghaste/SearchTree.java:46-50 | A move at an unconnected plug gives a child of the graph. |
| RootSearchTree.TargetChildrenAre | src/main/java/net/whg/nghaste/SearchTree.java:44-51 | The children made at one input plug are exactly its open children: none if the plug is connected, else one for each move of this search. |
| RootSearchTree.AllChildrenAre | src/main/java/net/whg/nghaste/SearchTree.java:36-53 | Completeness: a graph is among the children placeNeighbors passes to processGraph exactly when it is a child of the graph, that is, some open input plug filled by some move. |
| RootSearchTree.AllChildrenComplete | src/main/java/net/whg/nghaste/SearchTree.java:36-53 | The same, for every graph at once. |
| RootSearchTree.TargetChildrenFill | src/main/java/net/whg/nghaste/SearchTree.java:49-50 | At an open plug, the children are those of addNewConnections followed by those of addNewNodes. |
| RootSearchTree.FlatReuseMoves | src/main/java/net/whg/nghaste/SearchTree.java:100-116 | The children gathered node by node are, in order, the children of the reuse moves over the candidate nodes. |
| RootSearchTree.FlatCreateMoves | src/main/java/net/whg/nghaste/SearchTree.java:139-153 | The children gathered function by function are, in order, the children of the create moves. |
| RootSearchTree.FlatReusePlugs | src/main/java/net/whg/nghaste/SearchTree.java:109-115 | The children gathered plug by plug on one node are the children of its reuse moves. |
| RootSearchTree.FlatCreatePlugs | src/main/java/net/whg/nghaste/SearchTree.java:146-152 | The children gathered plug by plug on one function are the children of its create moves. |
| RootSearchTree.ReuseBlockChildren | src/main/java/net/whg/nghaste/SearchTree.java:102-115 | A node the target does not reach contributes a child for every output plug of the target's type. |
| RootSearchTree.CreateBlockChildren | src/main/java/net/whg/nghaste/SearchTree.java:139-152 | Every function contributes a child for every output plug of the target's type: the source tries new nodes without regard to their input count. |
| RootSearchTree.SearchTree.constructor | src/main/java/net/whg/nghaste/SearchTree.java:22-25 | Keeps the container and starts with an empty hasher and buffer. |
| RootSearchTree.SearchTree.PlaceNeighbors | src/main/java/net/whg/nghaste/SearchTree.java:36-53 | The children it passes to processGraph are, in order, AllChildren: node by node, then plug by plug, the children of every open input plug. AllChildrenAre shows these are exactly the graph's children. Its steps run processGraph on each of these children in turn (Run): each step screens the child (Screened) and admits or drops it (Admits). The steps chain the duplicate counts, queue, solutions and unprocessed counter from the state before the call to the state after it. So no child is skipped and nothing else changes that state. Everything added to the queue is a grown child with open plugs and its summed score; everything added to the solutions is a grown child with no open plug that passes the solution axioms. |
| RootSearchTree.SearchTree.FillInputs | src/main/java/net/whg/nghaste/SearchTree.java:41-51 | The children passed to processGraph for one node are those of its input plugs, plug by plug. Its steps run processGraph on each of these children in turn (Run): each step screens the child (Screened) and admits or drops it (Admits). The steps chain the duplicate counts, queue, solutions and unprocessed counter from the state before the call to the state after it. The search stays sound. |
| RootSearchTree.SearchTree.FillPlug | src/main/java/net/whg/nghaste/SearchTree.java:44-51 | A connected plug passes nothing to processGraph and leaves the state unchanged. An open plug passes the children of its reuse moves, then those of its create moves. Its steps run processGraph on each of these children in turn (Run): each step screens the child (Screened) and admits or drops it (Admits). The steps chain the duplicate counts, queue, solutions and unprocessed counter from the state before the call to the state after it. The search stays sound. |
| RootSearchTree.SearchTree.AddNewConnections | src/main/java/net/whg/nghaste/SearchTree.java:94-117 | The children passed to processGraph are, in order, those of every reuse move: each output plug of the target's type on each node the target does not reach. Its steps run processGraph on each of these children in turn (Run): each step screens the child (Screened) and admits or drops it (Admits). The steps chain the duplicate counts, queue, solutions and unprocessed counter from the state before the call to the state after it. The search stays sound. |
| RootSearchTree.SearchTree.OfferParent | src/main/java/net/whg/nghaste/SearchTree.java:100-116 | A node the target reaches is skipped, with the state unchanged. Any other passes the children of its output plugs of the target's type. Its steps run processGraph on each of these children in turn (Run): each step screens the child (Screened) and admits or drops it (Admits). The steps chain the duplicate counts, queue, solutions and unprocessed counter from the state before the call to the state after it. |
| RootSearchTree.SearchTree.ConnectParent | src/main/java/net/whg/nghaste/SearchTree.java:105-115 | The children passed to processGraph are those of the node's output plugs whose type equals the target's, in plug order. Its steps run processGraph on each of these children in turn (Run): each step screens the child (Screened) and admits or drops it (Admits). The steps chain the duplicate counts, queue, solutions and unprocessed counter from the state before the call to the state after it. The search stays sound. |
| RootSearchTree.SearchTree.OfferReuse | src/main/java/net/whg/nghaste/SearchTree.java:109-115 | Output plug k passes its child to processGraph exactly when its type equals the target's. Then its one step is that child screened and admitted, from the state before to the state after; otherwise the state is unchanged. |
| RootSearchTree.SearchTree.AddNewNodes | src/main/java/net/whg/nghaste/SearchTree.java:131-154 | The children passed to processGraph are, in order, those of every create move: each output plug of the target's type of each function, whatever its input count. Its steps run processGraph on each of these children in turn (Run): each step screens the child (Screened) and admits or drops it (Admits). The steps chain the duplicate counts, queue, solutions and unprocessed counter from the state before the call to the state after it. The search stays sound. |
| RootSearchTree.SearchTree.ConnectFunction | src/main/java/net/whg/nghaste/SearchTree.java:141-152 | The children passed to processGraph are those of the function's output plugs whose type equals the target's, in plug order. Its steps run processGraph on each of these children in turn (Run): each step screens the child (Screened) and admits or drops it (Admits). The steps chain the duplicate counts, queue, solutions and unprocessed counter from the state before the call to the state after it. The search stays sound. |
| RootSearchTree.SearchTree.OfferCreate | src/main/java/net/whg/nghaste/SearchTree.java:146-152 | Output plug k of the function passes its child to processGraph exactly when its type equals the target's. Then its one step is that child screened and admitted, from the state before to the state after; otherwise the state is unchanged. |
| RootSearchTree.RunConcat | src/main/java/net/whg/nghaste/SearchTree.java:36-53 | Two runs of processGraph, the second starting in the state the first left, are one run over both lists of children. |
| RootSearchTree.RunSnoc | src/main/java/net/whg/nghaste/SearchTree.java:36-53 | A loop's run over the blocks gathered so far, followed by the run of one more block, is a run over the blocks with that block appended. |
| RootSearchTree.RunKeeps | src/main/java/net/whg/nghaste/SearchTree.java:166-203 | A run never takes anything out of the queue or the solutions. Every child a step queued (within depth, unique, passing the axioms, with open plugs) is in the final queue, and every child a step kept as a solution is among the final solutions. |
| RootSearchTree.SearchTree.ReuseStep | src/main/java/net/whg/nghaste/SearchTree.java:114 | The child is the graph with the connection added. processGraph screens it (depth test, then the duplicate check on its hash) and admits it into the queue or the solutions exactly as ProcessGraph states. The search stays sound. |
| RootSearchTree.SearchTree.CreateStep | src/main/java/net/whg/nghaste/SearchTree.java:151 | The child is the graph with the new node and connection added. It is screened and admitted exactly as ProcessGraph states, and the search stays sound. |
| RootSearchTree.SearchTree.Processed | src/main/java/net/whg/nghaste/SearchTree.java:166-203 | processGraph on a fresh child: its exact screening and admission, and the search stays sound because the child is a child of the graph. |
| RootSearchTree.SearchTree.ProcessGraph | src/main/java/net/whg/nghaste/SearchTree.java:166-176 | A child past the depth limit is dropped with the duplicate counts unchanged. Otherwise the duplicate finder checks its hash, and only a unique child goes on to the axioms. |
| RootSearchTree.SearchTree.Admit | src/main/java/net/whg/nghaste/SearchTree.java:178-202 | Dropped if an axiom fails. With no open plug it must pass the solution axioms and joins the solutions; otherwise it is scored and queued, counting one more unprocessed graph. |
| ImplNodeContainer.FirstExists | src/main/java/net/whg/nghaste/impl/NodeContainer.java:41-49 | A non-empty queue always has a graph no other graph precedes. |
| ImplNodeContainer.FirstIsBest | src/main/java/net/whg/nghaste/impl/NodeContainer.java:41-49 | The graph handed out first has the highest score in the queue. |
| ImplNodeContainer.NodeContainer.constructor | src/main/java/net/whg/nghaste/impl/NodeContainer.java:16-19 | Empty queue, no solutions, both counters 0. |
| ImplNodeContainer.NodeContainer.AddNodeGraph | src/main/java/net/whg/nghaste/impl/NodeContainer.java:28-32 | The graph joins the queue and unprocessedGraphs grows by one with int wrap-around. |
| ImplNodeContainer.NodeContainer.GetNodeGraph | src/main/java/net/whg/nghaste/impl/NodeContainer.java:41-49 | null exactly for an empty queue. Otherwise a highest-score graph leaves the queue and totalGraphs grows by one, exactly then. |
| ImplNodeContainer.NodeContainer.Sort | src/main/java/net/whg/nghaste/impl/NodeContainer.java:59-69 | The multiset of queued graphs is unchanged. |
| ImplNodeContainer.NodeContainer.Update | src/main/java/net/whg/nghaste/impl/NodeContainer.java:82-89 | A graph the queue holds is removed and re-added, same multiset. A graph nothing in it equals changes nothing. |
| ImplNodeContainer.NodeContainer.Size | src/main/java/net/whg/nghaste/impl/NodeContainer.java:97-100 | The number of queued graphs. |
| ImplNodeContainer.NodeContainer.GetSolutionCount | src/main/java/net/whg/nghaste/impl/NodeContainer.java:107-110 | The number of solutions. |
| ImplNodeContainer.NodeContainer.GetSolution | src/main/java/net/whg/nghaste/impl/NodeContainer.java:119-122 | The solution at the index; IndexOutOfBounds exactly outside the list. |
| ImplNodeContainer.NodeContainer.RemoveSolution | src/main/java/net/whg/nghaste/impl/NodeContainer.java:131-137 | null is a no-op. Otherwise the first solution the argument equals is removed, and nothing changes when none is equal. |
| ImplNodeContainer.NodeContainer.AddSolution | src/main/java/net/whg/nghaste/impl/NodeContainer.java:145-148 | The solution is appended. |
| ImplNodeContainer.NodeContainer.GetTotalGraphsSearched | src/main/java/net/whg/nghaste/impl/NodeContainer.java:158-161 | The count of graphs taken from the queue. |
| ImplNodeContainer.NodeContainer.GetRemainingGraphs | src/main/java/net/whg/nghaste/impl/NodeContainer.java:174-177 | The count of graphs queued and not yet finished. |
| ImplNodeContainer.NodeContainer.FinishGraph | src/main/java/net/whg/nghaste/impl/NodeContainer.java:184-187 | unprocessedGraphs drops by one with int wrap-around; nothing else changes. |
| RootNodeContainer.FirstExists | src/main/java/net/whg/nghaste/NodeContainer.java:32-35 | A non-empty queue always has a graph no other graph precedes. |
| RootNodeContainer.FirstIsBest | src/main/java/net/whg/nghaste/NodeContainer.java:32-35 | The graph handed out first has the highest score in the queue. |
| RootNodeContainer.NodeContainer.constructor | src/main/java/net/whg/nghaste/NodeContainer.java:11 | The queue starts empty. |
| RootNodeContainer.NodeContainer.AddNodeGraph | src/main/java/net/whg/nghaste/NodeContainer.java:20-23 | The graph joins the queue; size grows by one. |
| RootNodeContainer.NodeContainer.GetNodeGraph | src/main/java/net/whg/nghaste/NodeContainer.java:32-35 | null exactly for an empty queue; otherwise a highest-score graph is removed and returned. |
| RootNodeContainer.NodeContainer.Sort | src/main/java/net/whg/nghaste/NodeContainer.java:45-55 | The queued graphs are unchanged. |
| RootNodeContainer.NodeContainer.Update | src/main/java/net/whg/nghaste/NodeContainer.java:68-78 | Removed and re-added only if contained; the queue is the same either way. |
| RootNodeContainer.NodeContainer.Size | src/main/java/net/whg/nghaste/NodeContainer.java:85-88 | The number of queued graphs. |
| DataObjs.GetName | src/main/java/net/whg/nghaste/codeflow/DataObj.java:47-50 | The object's name. |
| DataObjs.GetParentCount | src/main/java/net/whg/nghaste/codeflow/DataObj.java:63-66 | The length of the parent array. |
| DataObjs.GetParent | src/main/java/net/whg/nghaste/codeflow/DataObj.java:75-78 | The parent at the index, possibly null; IndexOutOfBounds exactly outside the array. |
| DataObjs.CanConnectToIsAncestor | src/main/java/net/whg/nghaste/codeflow/DataObj.java:30-40 | canConnectTo holds exactly when the target is the object itself or is reached by a chain of non-null parent links. |
| DataObjs.CanConnectToTransitive | src/main/java/net/whg/nghaste/datatypes/ObjectHeirarchy.java:40-50 | canConnectTo is transitive. |
| DataObjs.CanConnectToParent | src/main/java/net/whg/nghaste/codeflow/DataObj.java:32-39 | An object connects to itself and to each of its non-null parents. |
| DataObjs.ChainConnects | src/main/java/net/whg/nghaste/codeflow/DataObj.java:35-39 | The first object of a parent chain connects to the last. |
| ObjectHierarchies.Primitives | src/main/java/net/whg/nghaste/codeflow/ObjectHeirarchy.java:30-37 | The five built-in objects Object, Number, …, Integer, forming a valid hierarchy. |
| ObjectHierarchies.IntegerIsNumber | src/main/java/net/whg/nghaste/codeflow/ObjectHeirarchy.java:14-21 | Integer connects to Number and to Object, and to none of the other primitives. |
| ObjectHierarchies.AddKeepsHierarchy | src/main/java/net/whg/nghaste/codeflow/ObjectHeirarchy.java:53-73 | Appending an object with a fresh name and [root] ++ parents keeps names unique and parents earlier. The new object connects to the root and to each named parent, and no existing object's connections change. |
| ObjectHierarchies.ConnectsToRoot | src/main/java/net/whg/nghaste/codeflow/ObjectHeirarchy.java:63-64 | Every object of a hierarchy connects to the root. |
| ObjectHierarchies.ConnectsInPrefix | src/main/java/net/whg/nghaste/datatypes/ObjectHeirarchy.java:125-134 | Appending an object leaves canConnectTo of the earlier objects unchanged. |
| ObjectHierarchies.ObjectHeirarchy.NewCodeflowHeirarchy | src/main/java/net/whg/nghaste/codeflow/ObjectHeirarchy.java:30-37 | As written: the constructor's first addDataType fails with IndexOutOfBounds on the empty list. |
| ObjectHierarchies.ObjectHeirarchy.NewDatatypesHeirarchy | src/main/java/net/whg/nghaste/datatypes/ObjectHeirarchy.java:96-99 | As written: the constructor's addDataType("Object") fails with IndexOutOfBounds. |
| ObjectHierarchies.ObjectHeirarchy.WithRoot | src/main/java/net/whg/nghaste/datatypes/ObjectHeirarchy.java:96-99 | Corrected: the hierarchy holding only the root Object, valid. |
| ObjectHierarchies.ObjectHeirarchy.WithPrimitives | src/main/java/net/whg/nghaste/codeflow/ObjectHeirarchy.java:30-37 | Corrected: the hierarchy holding the five primitives, valid. |
| ObjectHierarchies.ObjectHeirarchy.AddPrimitive | src/main/java/net/whg/nghaste/codeflow/ObjectHeirarchy.java:33-36 | Each primitive's addDataType succeeds and extends the list by the next primitive. |
| ObjectHierarchies.ObjectHeirarchy.GetRootObject | src/main/java/net/whg/nghaste/codeflow/ObjectHeirarchy.java:80-83 | Object 0, which every object of a valid hierarchy connects to; IndexOutOfBounds exactly on an empty list. |
| ObjectHierarchies.ObjectHeirarchy.GetObject | src/main/java/net/whg/nghaste/codeflow/ObjectHeirarchy.java:93-101 | The first object with the name, or null exactly when no object has it. |
| ObjectHierarchies.ObjectHeirarchy.AddDataType | src/main/java/net/whg/nghaste/codeflow/ObjectHeirarchy.java:53-73 | IndexOutOfBounds on an empty list. IllegalArgumentException if the root is among the parents or the name exists, with the list unchanged. Otherwise the object with [root] ++ parents is appended and the hierarchy stays valid. The datatypes copy at datatypes/ObjectHeirarchy.java:115-135 does the same. |

## Left out

- Threads: the `Worker` classes and `NGHasteAlgorithm` are polling threads and are not part of this model. `synchronized`, the blocking priority queue, `AtomicInteger` and the synchronized lists are modelled as plain sequential state.
- Heuristic scores are floats in the source. Here they are integers with the same ordering, and the sum is an exact integer sum. The epsilon comparison of scores in `impl/NodeGraph.equals` is not modelled: equality there is buffer equality only.
- The priority queue is a multiset. Which of several equally scored graphs `getNodeGraph` returns is left open, as the heap leaves it. The order `sort` rebuilds is not observable and is not modelled.
- `IAxiom`, `ISolutionAxiom`, `IHeuristic`, `IDataType.canConnectTo` and `Connection.hashCode` are parameters of the model. Their code is not part of this model.
- `Connection.hashCode` is used as the sort comparator, but the six-field `Connection` it belongs to is not part of this model. Any integer key is accepted, and the subtraction overflow of `a.hashCode() - b.hashCode()` is not modelled.
- ImplSearchTree.IsParentOf: the recursion carries explicit fuel. `Paths.NodeCountIsEnoughFuel` shows that the node count as fuel answers exactly the unbounded question.
- RootSearchTree.SearchTree.PlaceNeighbors, and likewise FillInputs, FillPlug, AddNewConnections, OfferParent, ConnectParent, OfferReuse, AddNewNodes, ConnectFunction and OfferCreate: the children and the steps of processGraph are ghost results. The final queue and solutions are stated step by step through Run, not as one closed function of the children, because the duplicate counts are threaded from one child to the next.
- RootSearchTree: the root `NodeContainer` has no `getDuplicateFinder` or `addSolution`. The root search is modelled over the environment-aware container, with the duplicate finder in a field of its own.
- RootSearchTree: the depth test adds two Java ints, and overflow of that sum is not modelled.
- RootSearchTree.SearchTree.PlaceNeighbors: requires the graph to have the queue's shape (QueueShape): the start graph, or a graph within the depth with at least one open plug. processGraph queues only such graphs. An open count that is not negative relies on every input plug being filled at most once, which the search keeps. It also requires fewer than INT_MAX nodes, which Java's array length bound gives. Under these, one more node fits the corrected slot width.
- ImplSearchTree.SearchTree.PlaceNeighbors: requires the queue's shape and fewer than INT_MAX nodes, for the same reasons.
- Environments.GetMinByteCount: models the corrected width, which also covers one past the depth. The width as written is WrittenMinByteCount; see Findings.
- ObjectHierarchies.ObjectHeirarchy.AddDataType: requires every parent to be an object of this hierarchy. A parent from another hierarchy, or a null parent array, is not modelled.
- NodeReindexer.Reindex: the Java method fills the map it is given. Here the map is passed in and the filled map is returned, so aliasing of that map is not modelled.
- The `codeflow` `ObjectHeirarchy` iterator and every `toString` are left out; they only expose or print state.
- Functions.NewInputFunction: a null output array is taken to be non-null, as the source dereferences it at once.
- Functions.NewOutputFunction: a null input array is taken to be non-null, for the same reason.
- GraphHashers.GraphHasher.HashConnectionList: writes the corrected six fields per connection, not the two repeated fields the source writes. The duplicate check modelled in DuplicateFinders and both ProcessGraph methods therefore uses the corrected hash; see Findings. WrittenHashBytes and WrittenHashLosesPlugs model the bytes as written.
- GraphHashers.GraphHasher.GetHashSize: takes the maximum over the corrected six fields. The source reads outputNode and inputPlug twice and never reads outputPlug or inputNode.
- GraphHashers.GraphHasher.WriteConnection: writes the corrected six fields, for the same reason.
- GraphHashers.GraphHasher.CreateHash: returns the corrected hash, so graphs that differ only in an output plug or an input node are not duplicates in the model, while the source counts them as duplicates.
- Canonical.HashReordered: needs every input plug filled at most once and a connection hash code that tells the relabelled connections apart. Without the first, two connections into one plug can make the two numberings differ. Without the second, the sort can order equal-keyed connections differently.
- ImplNodeGraph.NodeGraph.GetNodeCount: requires Valid(): the buffer is the packed form of the model graph and every slot fits the width. A buffer in any other state is not modelled.
- ImplNodeGraph.NodeGraph.GetNodeType: requires Valid(): the buffer is the packed form of the model graph and every slot fits the width. A buffer in any other state is not modelled.
- ImplNodeGraph.NodeGraph.GetConnectionCount: requires Valid(): the buffer is the packed form of the model graph and every slot fits the width. A buffer in any other state is not modelled.
- ImplNodeGraph.NodeGraph.GetConnection: requires Valid(): the buffer is the packed form of the model graph and every slot fits the width. A buffer in any other state is not modelled.
- ImplNodeGraph.NodeGraph.GetNodeAsFunction: requires Valid(): the buffer is the packed form of the model graph and every slot fits the width. A buffer in any other state is not modelled.
- ImplNodeGraph.NodeGraph.CountOpenPlugs: requires Valid(): the buffer is the packed form of the model graph and every slot fits the width. A buffer in any other state is not modelled.
- ImplNodeGraph.NodeGraph.GetOutputConnectionCount: requires Valid(): the buffer is the packed form of the model graph and every slot fits the width. A buffer in any other state is not modelled.
- ImplNodeGraph.NodeGraph.ToGraph: requires Valid(): the buffer is the packed form of the model graph and every slot fits the width. A buffer in any other state is not modelled.
- ImplNodeGraph.NodeGraph.AddConnection: requires Valid(): the buffer is the packed form of the model graph and every slot fits the width. A buffer in any other state is not modelled.
- ImplNodeGraph.NodeGraph.AddConnectionAndNode: requires Valid(): the buffer is the packed form of the model graph and every slot fits the width. A buffer in any other state is not modelled. Its result is not promised Valid(), because the new node count may outgrow the width; the model does not follow such a graph further.
- RootNodeGraph.NodeGraph.GetNodeCount: requires Valid(): the buffer is the packed form of the model graph and every slot fits the width. A buffer in any other state is not modelled.
- RootNodeGraph.NodeGraph.GetNodeType: requires Valid(): the buffer is the packed form of the model graph and every slot fits the width. A buffer in any other state is not modelled.
- RootNodeGraph.NodeGraph.GetConnectionCount: requires Valid(): the buffer is the packed form of the model graph and every slot fits the width. A buffer in any other state is not modelled.
- RootNodeGraph.NodeGraph.GetConnection: requires Valid(): the buffer is the packed form of the model graph and every slot fits the width. A buffer in any other state is not modelled.
- RootNodeGraph.NodeGraph.AddConnection: requires Valid(): the buffer is the packed form of the model graph and every slot fits the width. A buffer in any other state is not modelled.
- RootNodeGraph.NodeGraph.AddConnectionAndNode: requires Valid(): the buffer is the packed form of the model graph and every slot fits the width. A buffer in any other state is not modelled. Its result is not promised Valid(), for the same reason as above.
- Axioms.SingleInstanceIsValid: requires every node type to name a function of the environment (Typed). On a node type outside the function list, getNodeAsFunction raises ArrayIndexOutOfBoundsException (impl/NodeGraph.java:330-334); that error path is not modelled. Every graph the search builds is Typed.
- Axioms.NoUnusedObjectIsValid: requires every node type to name a function of the environment (Typed). On a node type outside the function list, getNodeAsFunction raises ArrayIndexOutOfBoundsException (impl/NodeGraph.java:330-334); that error path is not modelled. Every graph the search builds is Typed.
- Axioms.SingleConstIsValid: requires every node type to name a function of the environment (Typed). On a node type outside the function list, getNodeAsFunction raises ArrayIndexOutOfBoundsException (impl/NodeGraph.java:330-334); that error path is not modelled. Every graph the search builds is Typed.
- Axioms.IsValid: requires every node type to name a function of the environment (Typed). On a node type outside the function list, getNodeAsFunction raises ArrayIndexOutOfBoundsException (impl/NodeGraph.java:330-334); that error path is not modelled. Every graph the search builds is Typed.
- `Environment`'s plain getters and `getEnvironment` are read directly from the model's fields.
- The runtime function and value classes (`AddIntFunction`, `IfFunction`, data instances and the like) and their `execute` bodies are not part of this model.

## Findings

| source | as written | input that shows it | evidently intended | confidence | as-written member | corrected member |
|---|---|---|---|---|---|---|
| src/main/java/net/whg/nghaste/GraphHasher.java:79-87 | Each connection is serialised as outputNode, inputPlug, outputNode, inputPlug, outputNodeType, inputNodeType. getHashSize at lines 92-107 reads the same six, so outputPlug and inputNode never reach the hash. | `[HashedConnection(1, 0, 0, 0, 0, 0)]` and `[HashedConnection(1, 1, 0, 0, 0, 0)]` differ only in the output plug and hash to the same bytes. Two different graphs are then counted as duplicates. | The four connection fields, then the two node types, so that different relabelled connection lists give different hashes | not executed | GraphHashers.WrittenHashLosesPlugs | GraphHashers.HashBytesInjective |
| src/main/java/net/whg/nghaste/codeflow/ObjectHeirarchy.java:30-37 | The constructor's first call, addDataType("Object"), runs getRootObject(), which is objects.get(0) on the still-empty list (lines 55 and 80-83). | `new ObjectHeirarchy()` throws IndexOutOfBoundsException before any object exists. | The root Object is created first, with no parent, and the primitives are then added under it | not executed | ObjectHierarchies.ObjectHeirarchy.NewCodeflowHeirarchy | ObjectHierarchies.ObjectHeirarchy.WithPrimitives |
| src/main/java/net/whg/nghaste/datatypes/ObjectHeirarchy.java:96-99 | The constructor calls addDataType("Object"), which runs getRootObject(), that is objects.get(0), on the empty list (lines 117 and 142-145). | `new ObjectHeirarchy()` throws IndexOutOfBoundsException. | The hierarchy starts with the root Object and no parents | not executed | ObjectHierarchies.ObjectHeirarchy.NewDatatypesHeirarchy | ObjectHierarchies.ObjectHeirarchy.WithRoot |
| src/main/java/net/whg/nghaste/Environment.java:120-129 | getMinByteCount sizes the slots for the largest of the function count, the plug count and nDepth. The new-node depth test at impl/SearchTree.java:146-147 keeps children with up to nDepth connections, and such a graph can hold nDepth + 1 nodes. addConnectionAndNode then writes a node count that does not fit. | With nDepth = 255 and the functions output, a one-in one-out middle function and input, the chain output ← 254 middle nodes ← input is queued. Its child that adds an input node has 256 nodes, and the 1-byte count slot stores 0. | The width also covers nDepth + 1, so every node count the search reaches fits | not executed | ImplSearchTree.WrittenWidthLosesCount | SearchRules.ChildCountFits |

=== FILE: axioms.dfy ===
/**
 * The axioms shipped with the engine: rules a candidate graph must obey to
 * stay in the search. Each `isValid` scans the graph with nested index
 * loops and returns as soon as the answer is known; the methods here keep
 * those loops and are proved against a predicate that states the rule.
 * An axiom a user supplies is known only by its identity, and the search
 * asks an oracle about it.
 */
module Axioms {
  import opened Wrappers
  import opened ByteCodec
  import opened Functions
  import opened Layout
  import opened GraphQueries

  datatype Axiom =
    | SingleInstance(dataType: DataType)
    | NoUnusedObject(maybeType: Option<DataType>)
    | SingleConst
    | Custom(id: int)

  /** The SingleInstanceAxiom constructor: a null data type is refused. */
  function NewSingleInstance(dataType: Option<DataType>): (r: Result<Axiom>)
    ensures r.Failure? <==> dataType.None?
    ensures r.Failure? ==> r.error == IllegalArgument
    ensures r.Success? ==> r.value.SingleInstance? && Some(r.value.dataType) == dataType
  {
    if dataType.None? then Failure(IllegalArgument) else Success(SingleInstance(dataType.value))
  }

  /** Output plug `plug` of `node` exists and carries data type t. */
  predicate OutputOfType(g: Graph, fs: seq<Function>, node: int, plug: int, t: DataType)
    requires Typed(g, fs)
  {
    0 <= node < |g.nodes| && 0 <= plug < |FunctionOf(g, fs, node).outputs| &&
    FunctionOf(g, fs, node).outputs[plug] == t
  }

  /** SingleInstanceAxiom: no output plug of type t feeds more than one connection. */
  ghost predicate SingleInstanceHolds(g: Graph, fs: seq<Function>, t: DataType)
    requires Typed(g, fs)
  {
    forall node, plug :: OutputOfType(g, fs, node, plug, t) ==> OutputUses(g.conns, node, plug) <= 1
  }

  /** NoUnusedObjectAxiom: every output plug of type t feeds some connection; a null type matches no plug. */
  ghost predicate NoUnusedObjectHolds(g: Graph, fs: seq<Function>, t: Option<DataType>)
    requires Typed(g, fs)
  {
    t.Some? ==> forall node, plug :: OutputOfType(g, fs, node, plug, t.value) ==> OutputUses(g.conns, node, plug) >= 1
  }

  /** SingleConstAxiom: no two nodes share a type whose function is an input function. */
  predicate SingleConstHolds(g: Graph, fs: seq<Function>)
    requires Typed(g, fs)
  {
    forall i, j :: 0 <= i < j < |g.nodes| && FunctionOf(g, fs, i).IsInput() ==> g.nodes[i] != g.nodes[j]
  }

  /** isValid of an axiom; `custom` answers for the axioms a user supplies. */
  ghost predicate Holds(a: Axiom, g: Graph, fs: seq<Function>, custom: (int, Graph) -> bool)
    requires Typed(g, fs)
  {
    match a
    case SingleInstance(t) => SingleInstanceHolds(g, fs, t)
    case NoUnusedObject(t) => NoUnusedObjectHolds(g, fs, t)
    case SingleConst => SingleConstHolds(g, fs)
    case Custom(id) => custom(id, g)
  }

  /** The connection loop of getOutputConnectionCount and of NoUnusedObjectAxiom: counts the uses of a plug. */
  method CountUses(conns: seq<Conn>, node: int, plug: int) returns (refs: int)
    ensures refs == OutputUses(conns, node, plug)
  {
    refs := 0;
    var c := 0;
    while c < |conns|
      invariant 0 <= c <= |conns| && refs == OutputUses(conns[..c], node, plug)
    {
      OutputUsesStep(conns, c, node, plug);
      if conns[c].outputNode == node && conns[c].outputPlug == plug {
        refs := refs + 1;
      }
      c := c + 1;
    }
    assert conns[..c] == conns;
  }

  /** The connection loop of SingleInstanceAxiom: stops counting at the second use. */
  method UsedAtMostOnce(conns: seq<Conn>, node: int, plug: int) returns (ok: bool)
    ensures ok <==> OutputUses(conns, node, plug) <= 1
  {
    var cons := 0;
    var c := 0;
    while c < |conns|
      invariant 0 <= c <= |conns| && cons == OutputUses(conns[..c], node, plug) && cons <= 1
    {
      OutputUsesStep(conns, c, node, plug);
      if conns[c].outputNode == node && conns[c].outputPlug == plug {
        cons := cons + 1;
        if cons > 1 {
          OutputUsesPrefix(conns, c + 1, node, plug);
          return false;
        }
      }
      c := c + 1;
    }
    assert conns[..c] == conns;
    return true;
  }

  /** SingleInstanceAxiom.isValid */
  method SingleInstanceIsValid(g: Graph, fs: seq<Function>, t: DataType) returns (valid: bool)
    requires Typed(g, fs)
    ensures valid == SingleInstanceHolds(g, fs, t)
  {
    var node := 0;
    while node < |g.nodes|
      invariant 0 <= node <= |g.nodes|
      invariant forall n, p :: 0 <= n < node && OutputOfType(g, fs, n, p, t) ==> OutputUses(g.conns, n, p) <= 1
    {
      var outputs := FunctionOf(g, fs, node).outputs;
      var plug := 0;
      while plug < |outputs|
        invariant 0 <= plug <= |outputs|
        invariant forall n, p :: 0 <= n < node && OutputOfType(g, fs, n, p, t) ==> OutputUses(g.conns, n, p) <= 1
        invariant forall p :: 0 <= p < plug && OutputOfType(g, fs, node, p, t) ==> OutputUses(g.conns, node, p) <= 1
      {
        if outputs[plug] == t {
          var ok := UsedAtMostOnce(g.conns, node, plug);
          if !ok {
            assert OutputOfType(g, fs, node, plug, t);
            return false;
          }
        }
        plug := plug + 1;
      }
      node := node + 1;
    }
    return true;
  }

  /** NoUnusedObjectAxiom.isValid */
  method NoUnusedObjectIsValid(g: Graph, fs: seq<Function>, t: Option<DataType>) returns (valid: bool)
    requires Typed(g, fs)
    ensures valid == NoUnusedObjectHolds(g, fs, t)
  {
    var node := 0;
    while node < |g.nodes|
      invariant 0 <= node <= |g.nodes|
      invariant t.Some? ==> forall n, p :: 0 <= n < node && OutputOfType(g, fs, n, p, t.value) ==> OutputUses(g.conns, n, p) >= 1
    {
      var outputs := FunctionOf(g, fs, node).outputs;
      var plug := 0;
      while plug < |outputs|
        invariant 0 <= plug <= |outputs|
        invariant t.Some? ==> forall n, p :: 0 <= n < node && OutputOfType(g, fs, n, p, t.value) ==> OutputUses(g.conns, n, p) >= 1
        invariant t.Some? ==> forall p :: 0 <= p < plug && OutputOfType(g, fs, node, p, t.value) ==> OutputUses(g.conns, node, p) >= 1
      {
        if Some(outputs[plug]) == t {
          var refs := CountUses(g.conns, node, plug);
          if refs == 0 {
            assert OutputOfType(g, fs, node, plug, t.value);
            return false;
          }
        }
        plug := plug + 1;
      }
      node := node + 1;
    }
    return true;
  }

  /** SingleConstAxiom.isValid */
  method SingleConstIsValid(g: Graph, fs: seq<Function>) returns (valid: bool)
    requires Typed(g, fs)
    ensures valid == SingleConstHolds(g, fs)
  {
    var node := 0;
    while node < |g.nodes|
      invariant 0 <= node <= |g.nodes|
      invariant forall i, j :: 0 <= i < node && i < j < |g.nodes| && FunctionOf(g, fs, i).IsInput() ==> g.nodes[i] != g.nodes[j]
    {
      if FunctionOf(g, fs, node).IsInput() {
        var typ := g.nodes[node];
        var second := node + 1;
        while second < |g.nodes|
          invariant node + 1 <= second <= |g.nodes|
          invariant forall j :: node < j < second ==> g.nodes[j] != typ
        {
          if g.nodes[second] == typ {
            return false;
          }
          second := second + 1;
        }
      }
      node := node + 1;
    }
    return true;
  }

  /** isValid of an axiom: the shipped axioms run their own scans; a user axiom is answered by `custom`. */
  method IsValid(a: Axiom, g: Graph, fs: seq<Function>, custom: (int, Graph) -> bool) returns (valid: bool)
    requires Typed(g, fs)
    ensures valid == Holds(a, g, fs, custom)
  {
    match a
    case SingleInstance(t) =>
      valid := SingleInstanceIsValid(g, fs, t);
    case NoUnusedObject(t) =>
      valid := NoUnusedObjectIsValid(g, fs, t);
    case SingleConst =>
      valid := SingleConstIsValid(g, fs);
    case Custom(id) =>
      valid := custom(id, g);
  }

  /** A graph in which no output plug has type t satisfies both plug axioms for t. */
  lemma NoPlugOfTypeIsValid(g: Graph, fs: seq<Function>, t: DataType)
    requires Typed(g, fs)
    requires forall node, plug :: !OutputOfType(g, fs, node, plug, t)
    ensures SingleInstanceHolds(g, fs, t) && NoUnusedObjectHolds(g, fs, Some(t))
  {
  }

  /** Functions that are not input functions may occur any number of times. */
  lemma RepeatedNonInputIsValid(g: Graph, fs: seq<Function>)
    requires Typed(g, fs)
    requires forall i :: 0 <= i < |g.nodes| ==> !FunctionOf(g, fs, i).IsInput()
    ensures SingleConstHolds(g, fs)
  {
  }

  /**
   * equals of the three axiom classes: same class and, where there is one,
   * the same data type (null-safe for NoUnusedObjectAxiom); a user axiom is
   * equal only to itself.
   */
  predicate Equals(a: Axiom, b: Axiom)
  {
    match a
    case SingleInstance(t) => b.SingleInstance? && t == b.dataType
    case NoUnusedObject(t) =>
      b.NoUnusedObject? && (if t.None? then b.maybeType.None? else b.maybeType.Some? && t.value == b.maybeType.value)
    case SingleConst => b.SingleConst?
    case Custom(id) => b.Custom? && id == b.id
  }

  /** hashCode of the three axiom classes, in Java int arithmetic; `typeHash` is the data types' hashCode. */
  function HashCode(a: Axiom, typeHash: DataType -> int, customHash: int -> int): int
  {
    match a
    case SingleInstance(t) => Wrap32(typeHash(t) + 2349082)
    case NoUnusedObject(t) => Wrap32(31 * 1 + (if t.None? then 0 else typeHash(t.value)))
    case SingleConst => 3124561
    case Custom(id) => customHash(id)
  }

  /** Axiom equality is value equality, so it is an equivalence. */
  lemma EqualsIsIdentity(a: Axiom, b: Axiom)
    ensures Equals(a, b) <==> a == b
  {
  }

  /** Equal axioms have equal hash codes. */
  lemma EqualsHashCode(a: Axiom, b: Axiom, typeHash: DataType -> int, customHash: int -> int)
    requires Equals(a, b)
    ensures HashCode(a, typeHash, customHash) == HashCode(b, typeHash, customHash)
  {
    EqualsIsIdentity(a, b);
  }
}

=== FILE: byte_codec.dfy ===
/**
 * The fixed-width big-endian number format of the packed node-graph buffer.
 *
 * `writeNumber` stores `value >> (8 * i) & 0xFF` for i = numSize-1 down to 0,
 * so a value is truncated to its low `numSize` bytes; `readNumber` ORs the
 * masked bytes back into a Java `int`, which for a 4-byte slot wraps to a
 * negative number when the top bit is set. Bytes are modelled as their
 * unsigned value 0..255: the Java array holds signed bytes, but every read
 * masks with 0xFF, so only the unsigned value is ever observed.
 */
module ByteCodec {

  type Byte = b: int | 0 <= b < 256

  /** A number width in bytes: a slot of the packed buffer is 1 to 4 bytes wide. */
  type Width = n: int | 1 <= n <= 4 witness 1

  const INT_MIN: int := -0x8000_0000
  const INT_MAX: int := 0x7FFF_FFFF

  predicate IsInt32(v: int) { INT_MIN <= v <= INT_MAX }

  /** Java int arithmetic: the result of an operation wraps around modulo 2^32 into the int range. */
  function Wrap32(x: int): (r: int)
    ensures IsInt32(r) && (r - x) % 0x1_0000_0000 == 0
    ensures IsInt32(x) ==> r == x
  {
    (x - INT_MIN) % 0x1_0000_0000 + INT_MIN
  }

  function Pow256(n: nat): (r: nat)
    ensures r >= 1
  {
    if n == 0 then 1 else 256 * Pow256(n - 1)
  }

  /** `value >> (8 * k)` on a Java int: an arithmetic shift is a floor division by 256, k times. */
  function Shr(value: int, k: nat): int
  {
    if k == 0 then value else Shr(value, k - 1) / 256
  }

  /** The n-byte big-endian form of `value`, truncated to its low n bytes. */
  function Encode(value: int, n: nat): (r: seq<Byte>)
    ensures |r| == n
    decreases n
  {
    if n == 0 then [] else Encode(value / 256, n - 1) + [value % 256]
  }

  /** The unsigned number a big-endian byte string denotes. */
  function Decode(s: seq<Byte>): (r: nat)
    ensures r < Pow256(|s|)
  {
    if s == [] then 0 else Decode(s[..|s| - 1]) * 256 + s[|s| - 1]
  }

  /** Java's view of an unsigned 32-bit pattern as an `int`. */
  function ToInt32(x: int): int
  {
    if x >= 0x8000_0000 then x - 0x1_0000_0000 else x
  }

  /** What `readNumber` returns for the bytes of one slot. */
  function Read(s: seq<Byte>): int
  {
    ToInt32(Decode(s))
  }

  /** The value a slot of width n holds after `value` was written to it. */
  function Stored(value: int, n: Width): int
  {
    Read(Encode(value, n))
  }

  /** `value` survives a write and a read at width n unchanged. */
  predicate Fits(value: int, n: Width)
  {
    if n < 4 then 0 <= value < Pow256(n) else IsInt32(value)
  }

  lemma Pow256Values()
    ensures Pow256(1) == 0x100 && Pow256(2) == 0x1_0000
    ensures Pow256(3) == 0x100_0000 && Pow256(4) == 0x1_0000_0000
  {
  }

  lemma {:induction false} ShrStep(value: int, k: nat)
    ensures Shr(value / 256, k) == Shr(value, k + 1)
  {
    if k > 0 {
      ShrStep(value, k - 1);
    }
  }

  /** Byte j of the encoding is the byte `writeNumber` computes with a shift of 8 * (n-1-j). */
  lemma {:induction false} EncodeAt(value: int, n: nat, j: nat)
    requires j < n
    ensures Encode(value, n)[j] == Shr(value, n - 1 - j) % 256
    decreases n
  {
    if j < n - 1 {
      EncodeAt(value / 256, n - 1, j);
      ShrStep(value, n - 2 - j);
    }
  }

  /** Decoding undoes encoding for every value below 256^n. */
  lemma {:induction false} DecodeEncode(value: int, n: nat)
    requires 0 <= value < Pow256(n)
    ensures Decode(Encode(value, n)) == value
  {
    if n > 0 {
      var e := Encode(value, n);
      assert e[..n - 1] == Encode(value / 256, n - 1);
      DecodeEncode(value / 256, n - 1);
    }
  }

  /** Encoding undoes decoding: a byte string is the encoding of the number it denotes. */
  lemma {:induction false} EncodeDecode(s: seq<Byte>)
    ensures Encode(Decode(s), |s|) == s
  {
    if s != [] {
      EncodeDecode(s[..|s| - 1]);
      assert s == s[..|s| - 1] + [s[|s| - 1]];
    }
  }

  /** The encoding depends on the value only modulo 256^n (the truncation of `writeNumber`). */
  lemma {:induction false} EncodeModulo(value: int, n: nat)
    ensures Encode(value + Pow256(n), n) == Encode(value, n)
    decreases n
  {
    if n > 0 {
      var p := Pow256(n - 1);
      assert (value + 256 * p) / 256 == value / 256 + p;
      assert (value + 256 * p) % 256 == value % 256;
      EncodeModulo(value / 256, n - 1);
    }
  }

  /** Round trip: a value that fits its slot reads back as itself. */
  lemma ReadEncode(value: int, n: Width)
    requires Fits(value, n)
    ensures Read(Encode(value, n)) == value
  {
    Pow256Values();
    if n < 4 || value >= 0 {
      DecodeEncode(value, n);
    } else {
      EncodeModulo(value, 4);
      DecodeEncode(value + Pow256(4), 4);
    }
  }

  lemma StoredIsDecoded(value: int, n: Width)
    ensures n < 4 ==> Stored(value, n) == Decode(Encode(value, n))
    ensures var d := Decode(Encode(value, n));
      Stored(value, n) == d || (n == 4 && Stored(value, n) == d - Pow256(4))
  {
    Pow256Values();
    var d := Decode(Encode(value, n));
    assert d < Pow256(n);
    if n < 4 {
      assert Pow256(n) <= Pow256(3);
    }
  }

  /** A read-back value always fits, and writing it again reproduces the same bytes. */
  lemma StoredFits(value: int, n: Width)
    ensures Fits(Stored(value, n), n)
    ensures Encode(Stored(value, n), n) == Encode(value, n)
    ensures Fits(value, n) ==> Stored(value, n) == value
  {
    var e := Encode(value, n);
    EncodeDecode(e);
    StoredIsDecoded(value, n);
    if Stored(value, n) != Decode(e) {
      EncodeModulo(Stored(value, n), 4);
    }
    if Fits(value, n) {
      ReadEncode(value, n);
    }
    assert Fits(Stored(value, n), n) by {
      Pow256Values();
    }
  }

  /** Every index below a count that fits its slot fits as well. */
  lemma FitsBelow(i: int, count: int, n: Width)
    requires 0 <= i < count && Fits(count, n)
    ensures Fits(i, n)
  {
  }

  lemma ShiftedByte(d: int, b: int, i: nat)
    ensures d * Pow256(i + 1) + b * Pow256(i) == (d * 256 + b) * Pow256(i)
  {
    assert Pow256(i + 1) == 256 * Pow256(i);
  }

  /**
   * writeNumber: stores the n-byte big-endian form of `value` at byte
   * position `pos`, leaving every other byte of the array as it was.
   */
  method WriteNumber(bytes: array<Byte>, numSize: Width, pos: int, value: int)
    requires 0 <= pos && pos + numSize <= bytes.Length
    modifies bytes
    ensures bytes[..pos + numSize] == old(bytes[..pos]) + Encode(value, numSize)
    ensures bytes[pos + numSize..] == old(bytes[pos + numSize..])
  {
    var p := pos;
    var i := numSize - 1;
    while i >= 0
      invariant -1 <= i <= numSize - 1
      invariant p == pos + (numSize - 1 - i)
      invariant bytes[..pos] == old(bytes[..pos])
      invariant bytes[pos + numSize..] == old(bytes[pos + numSize..])
      invariant forall k :: pos <= k < p ==> bytes[k] == Encode(value, numSize)[k - pos]
    {
      EncodeAt(value, numSize, p - pos);
      bytes[p] := Shr(value, i) % 256;
      p := p + 1;
      i := i - 1;
    }
    assert bytes[..pos + numSize] == old(bytes[..pos]) + Encode(value, numSize);
  }

  /** readNumber: the value held by the n bytes at byte position `pos`. */
  method ReadNumber(bytes: array<Byte>, numSize: Width, pos: int) returns (value: int)
    requires 0 <= pos && pos + numSize <= bytes.Length
    ensures value == Read(bytes[pos..pos + numSize])
  {
    // The shifted bytes do not overlap, so OR-ing them is adding them;
    // the sum is viewed as a Java int at the end.
    var acc := 0;
    var p := pos;
    var i := numSize - 1;
    while i >= 0
      invariant -1 <= i <= numSize - 1
      invariant p == pos + (numSize - 1 - i)
      invariant acc == Decode(bytes[pos..p]) * Pow256(i + 1)
    {
      ghost var before := bytes[pos..p];
      assert bytes[pos..p + 1][..p - pos] == before;
      acc := acc + bytes[p] * Pow256(i);
      assert Decode(bytes[pos..p + 1]) == Decode(before) * 256 + bytes[p];
      ShiftedByte(Decode(before), bytes[p], i);
      p := p + 1;
      i := i - 1;
    }
    value := ToInt32(acc);
  }
}

=== FILE: byte_utils.dfy ===
/**
 * The byte-width calculations: how many bytes of the packed format a value
 * needs. `ByteUtils.countBytes` works on the magnitude of a Java int; the
 * environment and the graph hasher use a private copy that compares the
 * value itself against the same thresholds. The module also holds
 * `Arrays.hashCode` of a byte array, which the graph classes hash with.
 */
module ByteUtils {
  import opened ByteCodec

  type Int32 = x: int | -0x8000_0000 <= x < 0x8000_0000

  /** `Math.abs` on a Java int: `Integer.MIN_VALUE` is its own negation. */
  function JavaAbs(v: Int32): Int32
  {
    if v == INT_MIN then v else if v < 0 then -v else v
  }

  /** ByteUtils.countBytes: the bytes needed for the magnitude of `value`. */
  function CountBytes(value: Int32): Width
  {
    var a := JavaAbs(value);
    if a < 0x100 then 1
    else if a < 0x1_0000 then 2
    else if a < 0x100_0000 then 3
    else 4
  }

  /** The private `countBytes` of Environment and GraphHasher: thresholds on the value itself. */
  function WidthOf(value: int): Width
  {
    if value >= 0x100_0000 then 4
    else if value >= 0x1_0000 then 3
    else if value >= 0x100 then 2
    else 1
  }

  /** The magnitude of every int except MIN_VALUE fits the width countBytes chooses, and no smaller width holds it. */
  lemma CountBytesIsSmallestWidth(value: Int32)
    requires value != INT_MIN
    ensures var r := CountBytes(value); var a := if value < 0 then -value else value;
      Fits(a, r) && (r > 1 ==> !Fits(a, r - 1))
  {
    Pow256Values();
  }

  /** Math.abs(MIN_VALUE) stays negative, so countBytes reports a single byte for it. */
  lemma CountBytesOfMinValue()
    ensures CountBytes(INT_MIN) == 1
  {
  }

  /** A non-negative int fits the width WidthOf chooses, and no smaller width holds it; a negative value gets one byte. */
  lemma WidthOfIsSmallestWidth(value: int)
    ensures value < 0x100 ==> WidthOf(value) == 1
    ensures 0 <= value <= INT_MAX ==> Fits(value, WidthOf(value))
    ensures value >= 0 && WidthOf(value) > 1 ==> !Fits(value, WidthOf(value) - 1)
  {
    Pow256Values();
  }

  /** The two width calculations agree on every non-negative value. */
  lemma WidthOfAgreesWithCountBytes(value: Int32)
    requires value >= 0
    ensures WidthOf(value) == CountBytes(value)
  {
  }

  /** A larger value never needs fewer bytes. */
  lemma WidthOfMonotone(a: int, b: int)
    requires a <= b
    ensures WidthOf(a) <= WidthOf(b)
  {
  }

  /** Every value from 0 up to a bound fits the width chosen for the bound. */
  lemma FitsWidthOf(v: int, bound: int)
    requires 0 <= v <= bound <= INT_MAX
    ensures Fits(v, WidthOf(bound))
  {
    Pow256Values();
  }

  /** Java's view of a byte: values from 128 up are negative. */
  function SignedByte(b: Byte): (r: int)
    ensures -128 <= r < 128 && r % 256 == b % 256
  {
    if b >= 128 then b - 256 else b
  }

  /** Arrays.hashCode of a byte array: 31 times the previous hash plus each signed byte, in int arithmetic. */
  function ArraysHashCode(s: seq<Byte>): (r: int)
    ensures IsInt32(r)
  {
    if s == [] then 1 else Wrap32(31 * ArraysHashCode(s[..|s| - 1]) + SignedByte(s[|s| - 1]))
  }
}

=== FILE: canonical.dfy ===
/**
 * The promise of the reindexer and the graph hasher: two graphs of the same
 * structure, whatever order their nodes and connections were added in, get
 * corresponding node numbers and the same hash.
 *
 * "The same structure" is a renaming p of the node indices that keeps the
 * output node 0 and the function of every node, together with any order of
 * the connections. The reindexer visits the connections into a node by
 * input plug, so the argument needs every input plug of a node filled at
 * most once, as it is in every graph the search builds; the hasher sorts
 * by the connection hash code, so the hash argument needs that code to
 * tell the relabelled connections apart.
 */
module Canonical {
  import opened Layout
  import opened StableSort
  import opened NodeReindexer
  import opened GraphHashes
  import opened GraphHashers

  /** p sends the nodes 0 .. n-1 to nodes 0 .. n-1, no two to the same one. */
  predicate IsPermutation(p: seq<int>, n: int)
  {
    |p| == n && (forall k :: 0 <= k < n ==> 0 <= p[k] < n) &&
    forall j, k :: 0 <= j < k < n ==> p[j] != p[k]
  }

  function Rename(x: int, p: seq<int>): int
  {
    if 0 <= x < |p| then p[x] else x
  }

  function Moved(c: Conn, p: seq<int>): Conn
  {
    Conn(Rename(c.outputNode, p), c.outputPlug, Rename(c.inputNode, p), c.inputPlug)
  }

  function Mover(p: seq<int>): Conn -> Conn
  {
    c => Moved(c, p)
  }

  function MapSeq<A, B>(s: seq<A>, f: A -> B): seq<B>
  {
    seq(|s|, i requires 0 <= i < |s| => f(s[i]))
  }

  function MoveConns(cs: seq<Conn>, p: seq<int>): seq<Conn>
  {
    MapSeq(cs, Mover(p))
  }

  function RenameAll(ns: seq<int>, p: seq<int>): seq<int>
  {
    seq(|ns|, i requires 0 <= i < |ns| => Rename(ns[i], p))
  }

  /** h is g with its nodes renamed by p and its connections in any order. */
  ghost predicate Reordered(g: Graph, h: Graph, p: seq<int>)
  {
    EndpointsInRange(g) && EndpointsInRange(h) && IsPermutation(p, |g.nodes|) && |h.nodes| == |g.nodes| &&
    (forall k :: 0 <= k < |g.nodes| ==> h.nodes[p[k]] == g.nodes[k]) &&
    multiset(h.conns) == multiset(MoveConns(g.conns, p))
  }

  /** Every input plug of every node is filled by at most one connection. */
  ghost predicate SingleFill(g: Graph)
  {
    forall c, d :: c in g.conns && d in g.conns && c.inputNode == d.inputNode && c.inputPlug == d.inputPlug ==> c == d
  }

  /** Node k has a number in m exactly when node p[k] has one in m', and then the same one. */
  ghost predicate Corresponds(m: map<int, int>, m': map<int, int>, p: seq<int>)
  {
    forall k :: 0 <= k < |p| ==> (k in m <==> p[k] in m') && (k in m ==> m'[p[k]] == m[k])
  }

  /** The connections into node n, in order. */
  function Into(cs: seq<Conn>, n: int): seq<Conn>
  {
    if cs == [] then [] else (if cs[0].inputNode == n then [cs[0]] else []) + Into(cs[1..], n)
  }

  function OutputNodes(cs: seq<Conn>): seq<int>
  {
    seq(|cs|, i requires 0 <= i < |cs| => cs[i].outputNode)
  }

  lemma MapAppend<A, B>(a: seq<A>, b: seq<A>, f: A -> B)
    ensures MapSeq(a + b, f) == MapSeq(a, f) + MapSeq(b, f)
  {
  }

  /** Mapping keeps equal multisets equal. */
  lemma {:induction false} MapPermutes<A, B>(a: seq<A>, b: seq<A>, f: A -> B)
    requires multiset(a) == multiset(b)
    ensures multiset(MapSeq(a, f)) == multiset(MapSeq(b, f))
    decreases |a|
  {
    if a != [] {
      var x := a[0];
      assert x in multiset(b);
      var i :| 0 <= i < |b| && b[i] == x;
      var rest := b[..i] + b[i + 1..];
      assert b == b[..i] + [x] + b[i + 1..];
      assert a == [x] + a[1..];
      assert multiset(a) == multiset(a[1..]) + multiset{x};
      assert multiset(b) == multiset(b[..i]) + multiset{x} + multiset(b[i + 1..]);
      assert multiset(rest) == multiset(b[..i]) + multiset(b[i + 1..]);
      assert multiset(b) == multiset(rest) + multiset{x};
      Cancel(multiset(a[1..]), multiset(rest), x);
      MapPermutes(a[1..], rest, f);
      MapAppend([x], a[1..], f);
      MapAppend(b[..i], [x], f);
      MapAppend(b[..i] + [x], b[i + 1..], f);
      MapAppend(b[..i], b[i + 1..], f);
    }
  }

  /** The feeders of a node are the output nodes of the connections into it. */
  lemma {:induction false} FeedersOfInto(cs: seq<Conn>, n: int)
    ensures Feeders(cs, n) == OutputNodes(Into(cs, n))
  {
    if cs != [] {
      FeedersOfInto(cs[1..], n);
      var head := if cs[0].inputNode == n then [cs[0]] else [];
      assert OutputNodes(head + Into(cs[1..], n)) == OutputNodes(head) + OutputNodes(Into(cs[1..], n));
    }
  }

  /** Into keeps exactly the copies of the connections into n. */
  lemma {:induction false} IntoCount(cs: seq<Conn>, n: int, c: Conn)
    ensures multiset(Into(cs, n))[c] == if c.inputNode == n then multiset(cs)[c] else 0
  {
    if cs != [] {
      IntoCount(cs[1..], n, c);
      assert cs == [cs[0]] + cs[1..];
    }
  }

  lemma IntoPermutes(a: seq<Conn>, b: seq<Conn>, n: int)
    requires multiset(a) == multiset(b)
    ensures multiset(Into(a, n)) == multiset(Into(b, n))
  {
    forall c
      ensures multiset(Into(a, n))[c] == multiset(Into(b, n))[c]
    {
      IntoCount(a, n, c);
      IntoCount(b, n, c);
    }
  }

  lemma IntoMember(cs: seq<Conn>, n: int, c: Conn)
    requires c in Into(cs, n)
    ensures c in cs && c.inputNode == n
  {
    IntoCount(cs, n, c);
  }

  /** A lower bound on the keys of a sequence bounds the keys of the connections into n. */
  lemma IntoAbove(cs: seq<Conn>, n: int, key: Conn -> int, lo: int)
    requires forall i :: 0 <= i < |cs| ==> lo <= key(cs[i])
    ensures forall i :: 0 <= i < |Into(cs, n)| ==> lo <= key(Into(cs, n)[i])
  {
    forall i | 0 <= i < |Into(cs, n)|
      ensures lo <= key(Into(cs, n)[i])
    {
      IntoMember(cs, n, Into(cs, n)[i]);
    }
  }

  /** Into of a sorted sequence is sorted. */
  lemma {:induction false} IntoSorted(cs: seq<Conn>, n: int, key: Conn -> int)
    requires SortedBy(cs, key)
    ensures SortedBy(Into(cs, n), key)
  {
    if cs != [] {
      var rest := cs[1..];
      assert SortedBy(rest, key);
      IntoSorted(rest, n, key);
      if cs[0].inputNode == n {
        var tail := Into(rest, n);
        assert forall i :: 0 <= i < |rest| ==> key(cs[0]) <= key(rest[i]) by {
          forall i | 0 <= i < |rest|
            ensures key(cs[0]) <= key(rest[i])
          {
            assert rest[i] == cs[i + 1];
          }
        }
        IntoAbove(rest, n, key, key(cs[0]));
        assert Into(cs, n) == [cs[0]] + tail;
      }
    }
  }

  /** Renaming commutes with picking the connections into a node. */
  lemma {:induction false} IntoMoved(cs: seq<Conn>, p: seq<int>, n: int)
    requires IsPermutation(p, |p|) && 0 <= n < |p|
    requires forall i :: 0 <= i < |cs| ==> 0 <= cs[i].inputNode < |p|
    ensures Into(MoveConns(cs, p), p[n]) == MoveConns(Into(cs, n), p)
  {
    if cs != [] {
      var rest := cs[1..];
      IntoMoved(rest, p, n);
      assert MoveConns(cs, p)[1..] == MoveConns(rest, p);
      var head := if cs[0].inputNode == n then [cs[0]] else [];
      assert Moved(cs[0], p).inputNode == p[n] <==> cs[0].inputNode == n;
      MapAppend(head, Into(rest, n), Mover(p));
    }
  }

  lemma InGraph(g: Graph, c: Conn)
    requires EndpointsInRange(g) && c in g.conns
    ensures 0 <= c.outputNode < |g.nodes| && 0 <= c.inputNode < |g.nodes|
  {
    var j :| 0 <= j < |g.conns| && g.conns[j] == c;
  }

  /** Connections of g into one node, renamed, differ in their input plugs. */
  lemma PlugsSeparate(g: Graph, p: seq<int>, k: int, into: seq<Conn>)
    requires SingleFill(g) && forall c :: c in into ==> c in g.conns && c.inputNode == k
    ensures forall x, y :: x in MoveConns(into, p) && y in MoveConns(into, p) && InputPlugKey(x) == InputPlugKey(y) ==> x == y
  {
    var a := MoveConns(into, p);
    forall x, y | x in a && y in a && InputPlugKey(x) == InputPlugKey(y)
      ensures x == y
    {
      var i :| 0 <= i < |a| && a[i] == x;
      var j :| 0 <= j < |a| && a[j] == y;
      assert into[i] in into && into[j] in into;
      assert a[i] == Moved(into[i], p) && a[j] == Moved(into[j], p);
    }
  }

  /** The connections into p[k] of h, sorted, are those into k of g, sorted and renamed, in some order. */
  lemma IntoSortedMoved(g: Graph, h: Graph, p: seq<int>, k: int)
    requires Reordered(g, h, p) && 0 <= k < |g.nodes|
    ensures multiset(Into(SortBy(h.conns, InputPlugKey), p[k])) == multiset(MoveConns(Into(SortBy(g.conns, InputPlugKey), k), p))
  {
    var sg := SortBy(g.conns, InputPlugKey);
    var sh := SortBy(h.conns, InputPlugKey);
    SortByPermutes(g.conns, InputPlugKey);
    SortByPermutes(h.conns, InputPlugKey);
    IntoPermutes(sh, h.conns, p[k]);
    IntoPermutes(h.conns, MoveConns(g.conns, p), p[k]);
    IntoMoved(g.conns, p, k);
    IntoPermutes(g.conns, sg, k);
    MapPermutes(Into(g.conns, k), Into(sg, k), Mover(p));
  }

  lemma IntoSortedByPlug(cs: seq<Conn>, n: int)
    ensures SortedBy(Into(SortBy(cs, InputPlugKey), n), InputPlugKey)
  {
    SortByIsSorted(cs, InputPlugKey);
    IntoSorted(SortBy(cs, InputPlugKey), n, InputPlugKey);
  }

  /** Renaming keeps every input plug, so it keeps the order by input plug. */
  lemma MovedSorted(cs: seq<Conn>, p: seq<int>)
    requires SortedBy(cs, InputPlugKey)
    ensures SortedBy(MoveConns(cs, p), InputPlugKey)
  {
    var a := MoveConns(cs, p);
    forall i, j | 0 <= i < j < |a|
      ensures InputPlugKey(a[i]) <= InputPlugKey(a[j])
    {
      assert a[i] == Moved(cs[i], p) && a[j] == Moved(cs[j], p);
    }
  }

  lemma IntoSortedMembers(g: Graph, k: int)
    ensures forall c :: c in Into(SortBy(g.conns, InputPlugKey), k) ==> c in g.conns && c.inputNode == k
  {
    var sg := SortBy(g.conns, InputPlugKey);
    SortByPermutes(g.conns, InputPlugKey);
    forall c | c in Into(sg, k)
      ensures c in g.conns && c.inputNode == k
    {
      IntoMember(sg, k, c);
      assert c in multiset(g.conns);
    }
  }

  lemma OutputsMoved(cs: seq<Conn>, p: seq<int>)
    ensures OutputNodes(MoveConns(cs, p)) == RenameAll(OutputNodes(cs), p)
  {
    var a := MoveConns(cs, p);
    forall i | 0 <= i < |cs|
      ensures a[i].outputNode == Rename(cs[i].outputNode, p)
    {
      assert a[i] == Moved(cs[i], p);
    }
  }

  /**
   * The reindexer meets the feeders of node p[k] of h as it meets those of
   * node k of g, renamed: the connections into one node are sorted by input
   * plug, and no two of them share one.
   */
  lemma FeedersMoved(g: Graph, h: Graph, p: seq<int>, k: int)
    requires Reordered(g, h, p) && SingleFill(g) && 0 <= k < |g.nodes|
    ensures Feeders(SortBy(h.conns, InputPlugKey), p[k]) == RenameAll(Feeders(SortBy(g.conns, InputPlugKey), k), p)
  {
    var into := Into(SortBy(g.conns, InputPlugKey), k);
    var a := MoveConns(into, p);
    var b := Into(SortBy(h.conns, InputPlugKey), p[k]);
    IntoSortedMoved(g, h, p, k);
    IntoSortedByPlug(g.conns, k);
    IntoSortedByPlug(h.conns, p[k]);
    MovedSorted(into, p);
    IntoSortedMembers(g, k);
    PlugsSeparate(g, p, k, into);
    SortedSeparatedUnique(a, b, InputPlugKey);
    FeedersOfInto(SortBy(g.conns, InputPlugKey), k);
    FeedersOfInto(SortBy(h.conns, InputPlugKey), p[k]);
    OutputsMoved(into, p);
  }

  lemma RenameAllCons(ns: seq<int>, p: seq<int>)
    requires ns != [] && 0 <= ns[0] < |p|
    ensures RenameAll(ns, p) == [p[ns[0]]] + RenameAll(ns[1..], p)
  {
  }

  /** The nodes reachable from both sorted connection lists, and how their feeders match. */
  ghost predicate Mirrors(s: seq<Conn>, s': seq<Conn>, p: seq<int>)
  {
    IsPermutation(p, |p|) && (forall x :: x in Sources(s) ==> 0 <= x < |p|) &&
    forall k {:trigger Feeders(s', p[k])} :: 0 <= k < |p| ==> Feeders(s', p[k]) == RenameAll(Feeders(s, k), p)
  }

  /** Numbering node and its image alike keeps two maps corresponding. */
  lemma CorrespondsPlace(m: map<int, int>, m': map<int, int>, p: seq<int>, node: int, outIndex: int)
    requires IsPermutation(p, |p|) && Corresponds(m, m', p) && 0 <= node < |p|
    ensures Corresponds(m[node := outIndex], m'[p[node] := outIndex], p)
  {
    forall k | 0 <= k < |p| && k != node
      ensures p[k] != p[node]
    {
      if k < node {} else {}
    }
  }

  /** placeNodes from node n of g and from node p[n] of h places corresponding nodes with equal numbers. */
  lemma {:induction false} PlaceFromMoved(m: map<int, int>, m': map<int, int>, s: seq<Conn>, s': seq<Conn>, p: seq<int>,
                                          node: int, outIndex: int, u: set<int>, u': set<int>)
    requires Mirrors(s, s', p) && Corresponds(m, m', p)
    requires 0 <= node < |p| && node in u && Sources(s) <= u && p[node] in u' && Sources(s') <= u'
    ensures var r := PlaceFrom(m, s, node, outIndex, u);
            var r' := PlaceFrom(m', s', p[node], outIndex, u');
            Corresponds(r.0, r'.0, p) && r.1 == r'.1
    decreases |u - m.Keys|, 0, 0
  {
    if node !in m {
      var m1 := m[node := outIndex];
      var m1' := m'[p[node] := outIndex];
      CorrespondsPlace(m, m', p, node, outIndex);
      PlacedShrinks(u, m, node, outIndex);
      AllFeedersAreSources(s, node);
      AllFeedersAreSources(s', p[node]);
      PlaceListMoved(m1, m1', s, s', p, Feeders(s, node), outIndex + 1, u, u');
    }
  }

  lemma {:induction false} PlaceListMoved(m: map<int, int>, m': map<int, int>, s: seq<Conn>, s': seq<Conn>, p: seq<int>,
                                          ns: seq<int>, outIndex: int, u: set<int>, u': set<int>)
    requires Mirrors(s, s', p) && Corresponds(m, m', p)
    requires Sources(s) <= u && Sources(s') <= u'
    requires forall x :: x in ns ==> x in Sources(s)
    requires forall x :: x in RenameAll(ns, p) ==> x in Sources(s')
    ensures var r := PlaceList(m, s, ns, outIndex, u);
            var r' := PlaceList(m', s', RenameAll(ns, p), outIndex, u');
            Corresponds(r.0, r'.0, p) && r.1 == r'.1
    decreases |u - m.Keys|, 1, |ns|
  {
    if ns != [] {
      assert ns[0] in ns;
      RenameAllCons(ns, p);
      PlaceFromMoved(m, m', s, s', p, ns[0], outIndex, u, u');
      var r := PlaceFrom(m, s, ns[0], outIndex, u);
      var r' := PlaceFrom(m', s', p[ns[0]], outIndex, u');
      PlaceListMoved(r.0, r'.0, s, s', p, ns[1..], r.1, u, u');
    }
  }

  /**
   * reindex numbers corresponding nodes of two reordered graphs alike: node k
   * of g is numbered exactly when node p[k] of h is, and with the same number.
   */
  lemma NumberingReordered(g: Graph, h: Graph, p: seq<int>)
    requires Reordered(g, h, p) && |p| > 0 && p[0] == 0 && SingleFill(g)
    ensures Corresponds(Numbering(g), Numbering(h), p)
  {
    var sg := SortBy(g.conns, InputPlugKey);
    var sh := SortBy(h.conns, InputPlugKey);
    SortByPermutes(g.conns, InputPlugKey);
    forall x | x in Sources(sg)
      ensures 0 <= x < |p|
    {
      var i :| 0 <= i < |sg| && sg[i].outputNode == x;
      assert sg[i] in multiset(g.conns);
      InGraph(g, sg[i]);
    }
    forall k | 0 <= k < |p|
      ensures Feeders(sh, p[k]) == RenameAll(Feeders(sg, k), p)
    {
      FeedersMoved(g, h, p, k);
    }
    PlaceFromMoved(map[], map[], sg, sh, p, 0, 0, Sources(sg) + {0}, Sources(sh) + {0});
  }

  /** A connection relabelled by the numbering m: relabel with a default for a missing number or node. */
  function Label(g: Graph, m: map<int, int>, c: Conn): HashedConnection
  {
    HashedConnection(if c.outputNode in m then m[c.outputNode] else 0, c.outputPlug,
                     if c.inputNode in m then m[c.inputNode] else 0, c.inputPlug,
                     if 0 <= c.outputNode < |g.nodes| then g.nodes[c.outputNode] else 0,
                     if 0 <= c.inputNode < |g.nodes| then g.nodes[c.inputNode] else 0)
  }

  function Labeller(g: Graph, m: map<int, int>): Conn -> HashedConnection
  {
    c => Label(g, m, c)
  }

  lemma {:induction false} RelabelAllIsMap(g: Graph, m: map<int, int>, k: nat)
    requires k <= |g.conns| && EndpointsInRange(g) && Mapped(g.conns, m, k)
    ensures RelabelAll(g, m, k) == MapSeq(g.conns[..k], Labeller(g, m))
  {
    if k > 0 {
      RelabelAllIsMap(g, m, k - 1);
      assert g.conns[..k] == g.conns[..k - 1] + [g.conns[k - 1]];
      MapAppend(g.conns[..k - 1], [g.conns[k - 1]], Labeller(g, m));
    }
  }

  /** The connection hash code tells the connections apart. */
  predicate Separates(key: HashedConnection -> int, cs: seq<HashedConnection>)
  {
    forall x, y :: x in cs && y in cs && key(x) == key(y) ==> x == y
  }

  /** Every connection of h is one of g, renamed, so its ends have numbers. */
  lemma MovedMapped(g: Graph, h: Graph, p: seq<int>, ng: map<int, int>, nh: map<int, int>)
    requires Reordered(g, h, p) && Corresponds(ng, nh, p) && Mapped(g.conns, ng, |g.conns|)
    ensures Mapped(h.conns, nh, |h.conns|)
  {
    var moved := MoveConns(g.conns, p);
    forall i | 0 <= i < |h.conns|
      ensures h.conns[i].outputNode in nh && h.conns[i].inputNode in nh
    {
      assert h.conns[i] in multiset(moved);
      var j :| 0 <= j < |moved| && moved[j] == h.conns[i];
      var c := g.conns[j];
      assert moved[j] == Moved(c, p);
      assert 0 <= c.outputNode < |p| && 0 <= c.inputNode < |p|;
      assert c.outputNode in ng && c.inputNode in ng;
    }
  }

  /** A renamed connection of h carries the label of the connection of g it came from. */
  lemma LabelMoved(g: Graph, h: Graph, p: seq<int>, ng: map<int, int>, nh: map<int, int>, c: Conn)
    requires Reordered(g, h, p) && Corresponds(ng, nh, p)
    requires 0 <= c.outputNode < |p| && 0 <= c.inputNode < |p| && c.outputNode in ng && c.inputNode in ng
    ensures Label(h, nh, Moved(c, p)) == Label(g, ng, c)
  {
  }

  lemma LabelsMoved(g: Graph, h: Graph, p: seq<int>, ng: map<int, int>, nh: map<int, int>)
    requires Reordered(g, h, p) && Corresponds(ng, nh, p) && Mapped(g.conns, ng, |g.conns|)
    ensures MapSeq(MoveConns(g.conns, p), Labeller(h, nh)) == MapSeq(g.conns, Labeller(g, ng))
  {
    var moved := MoveConns(g.conns, p);
    forall j | 0 <= j < |g.conns|
      ensures Label(h, nh, moved[j]) == Label(g, ng, g.conns[j])
    {
      assert moved[j] == Moved(g.conns[j], p);
      LabelMoved(g, h, p, ng, nh, g.conns[j]);
    }
  }

  /** The relabelled connections of h are those of g, in some order. */
  lemma RelabelledPermutes(g: Graph, h: Graph, p: seq<int>, ng: map<int, int>, nh: map<int, int>)
    requires Reordered(g, h, p) && Corresponds(ng, nh, p)
    requires Mapped(g.conns, ng, |g.conns|) && Mapped(h.conns, nh, |h.conns|)
    ensures multiset(RelabelAll(h, nh, |h.conns|)) == multiset(RelabelAll(g, ng, |g.conns|))
  {
    LabelsMoved(g, h, p, ng, nh);
    MapPermutes(h.conns, MoveConns(g.conns, p), Labeller(h, nh));
    RelabelAllIsMap(g, ng, |g.conns|);
    RelabelAllIsMap(h, nh, |h.conns|);
    assert g.conns[..|g.conns|] == g.conns && h.conns[..|h.conns|] == h.conns;
  }

  /**
   * createHash gives reordered graphs the same hash: the sorted relabelled
   * connection lists are equal, so the bytes are too, and h has no other hash.
   */
  lemma HashReordered(g: Graph, h: Graph, p: seq<int>, key: HashedConnection -> int, hash: GraphHash)
    requires Reordered(g, h, p) && |p| > 0 && p[0] == 0 && SingleFill(g)
    requires HashOf(g, key, hash)
    requires Separates(key, RelabelAll(g, Numbering(g), |g.conns|))
    ensures Mapped(h.conns, Numbering(h), |h.conns|)
    ensures SortBy(RelabelAll(h, Numbering(h), |h.conns|), key) == SortBy(RelabelAll(g, Numbering(g), |g.conns|), key)
    ensures HashOf(h, key, hash) && forall other :: HashOf(h, key, other) ==> other == hash
  {
    var ng := Numbering(g);
    var nh := Numbering(h);
    NumberingReordered(g, h, p);
    MovedMapped(g, h, p, ng, nh);
    RelabelledPermutes(g, h, p, ng, nh);
    SortBySeparated(RelabelAll(g, ng, |g.conns|), RelabelAll(h, nh, |h.conns|), key);
  }

  /** The two graphs of the consistentIndices and compare_equalGraphs tests. */
  const ConsistentGraph1 := Graph([0, 1, 2, 2], [Conn(1, 0, 0, 0), Conn(2, 0, 1, 0), Conn(3, 0, 1, 1)])
  const ConsistentGraph2 := Graph([0, 1, 2, 2], [Conn(1, 0, 0, 0), Conn(2, 0, 1, 1), Conn(3, 0, 1, 0)])

  /** The second graph is the first with nodes 2 and 3 swapped and its last two connections swapped. */
  lemma ConsistentGraphsReordered()
    ensures Reordered(ConsistentGraph1, ConsistentGraph2, [0, 1, 3, 2])
  {
    ConsistentNodesSwapped();
    ConsistentConnsSwapped();
  }

  lemma ConsistentNodesSwapped()
    ensures EndpointsInRange(ConsistentGraph1) && EndpointsInRange(ConsistentGraph2)
    ensures IsPermutation([0, 1, 3, 2], 4)
    ensures forall k :: 0 <= k < 4 ==> ConsistentGraph2.nodes[[0, 1, 3, 2][k]] == ConsistentGraph1.nodes[k]
  {
  }

  lemma ConsistentConnsSwapped()
    ensures multiset(ConsistentGraph2.conns) == multiset(MoveConns(ConsistentGraph1.conns, [0, 1, 3, 2]))
  {
    var moved := MoveConns(ConsistentGraph1.conns, [0, 1, 3, 2]);
    assert moved == [Conn(1, 0, 0, 0), Conn(3, 0, 1, 0), Conn(2, 0, 1, 1)];
    assert ConsistentGraph2.conns == [Conn(1, 0, 0, 0)] + [Conn(2, 0, 1, 1)] + [Conn(3, 0, 1, 0)];
    assert moved == [Conn(1, 0, 0, 0)] + [Conn(3, 0, 1, 0)] + [Conn(2, 0, 1, 1)];
  }

  /** Each of the three input plugs of the first graph is filled once. */
  lemma ConsistentGraphFilledOnce()
    ensures SingleFill(ConsistentGraph1)
  {
    var cs := ConsistentGraph1.conns;
    forall c, d | c in cs && d in cs && c.inputNode == d.inputNode && c.inputPlug == d.inputPlug
      ensures c == d
    {
      assert c == cs[0] || c == cs[1] || c == cs[2];
      assert d == cs[0] || d == cs[1] || d == cs[2];
    }
  }

  /** consistentIndices: nodes 0 and 1 get the same numbers in both graphs, and nodes 2 and 3 trade theirs. */
  lemma ConsistentIndices()
    ensures Corresponds(Numbering(ConsistentGraph1), Numbering(ConsistentGraph2), [0, 1, 3, 2])
  {
    ConsistentGraphsReordered();
    ConsistentGraphFilledOnce();
    NumberingReordered(ConsistentGraph1, ConsistentGraph2, [0, 1, 3, 2]);
  }

  /** compare_equalGraphs: the two graphs hash alike when the hash code tells their connections apart. */
  lemma CompareEqualGraphs(key: HashedConnection -> int, hash: GraphHash)
    requires HashOf(ConsistentGraph1, key, hash)
    requires Separates(key, RelabelAll(ConsistentGraph1, Numbering(ConsistentGraph1), 3))
    ensures HashOf(ConsistentGraph2, key, hash)
  {
    ConsistentGraphsReordered();
    ConsistentGraphFilledOnce();
    HashReordered(ConsistentGraph1, ConsistentGraph2, [0, 1, 3, 2], key, hash);
  }
}

=== FILE: connection.dfy ===
/**
 * The mutable connection buffers that graph readers fill.
 *
 * `Connection` is the four-field record of Connection.java. The
 * environment-aware graph fills a six-field variant that also carries the
 * node types of both ends; that variant's source is not part of this model,
 * so `TypedConnection` stands in for it with exactly the members its callers
 * use.
 */
module Connections {
  import opened Layout

  class Connection {
    var outputNode: int
    var outputPlug: int
    var inputNode: int
    var inputPlug: int

    constructor ()
      ensures Value() == Conn(0, 0, 0, 0)
    {
      outputNode, outputPlug, inputNode, inputPlug := 0, 0, 0, 0;
    }

    /** The four fields as a value. */
    function Value(): Conn
      reads this
    {
      Conn(outputNode, outputPlug, inputNode, inputPlug)
    }

    /** set: overwrites all four fields. */
    method Set(outputNode: int, outputPlug: int, inputNode: int, inputPlug: int)
      modifies this
      ensures Value() == Conn(outputNode, outputPlug, inputNode, inputPlug)
    {
      this.outputNode := outputNode;
      this.outputPlug := outputPlug;
      this.inputNode := inputNode;
      this.inputPlug := inputPlug;
    }

    function GetOutputNode(): int reads this { outputNode }
    function GetOutputPlug(): int reads this { outputPlug }
    function GetInputNode(): int reads this { inputNode }
    function GetInputPlug(): int reads this { inputPlug }
  }

  class TypedConnection {
    var outputNode: int
    var outputPlug: int
    var inputNode: int
    var inputPlug: int
    var outputNodeType: int
    var inputNodeType: int

    constructor ()
      ensures Value() == Conn(0, 0, 0, 0) && outputNodeType == 0 && inputNodeType == 0
    {
      outputNode, outputPlug, inputNode, inputPlug := 0, 0, 0, 0;
      outputNodeType, inputNodeType := 0, 0;
    }

    function Value(): Conn
      reads this
    {
      Conn(outputNode, outputPlug, inputNode, inputPlug)
    }

    /** The six-argument set: the four connection fields and the types of both end nodes. */
    method Set(outputNode: int, outputPlug: int, inputNode: int, inputPlug: int,
               outputNodeType: int, inputNodeType: int)
      modifies this
      ensures Value() == Conn(outputNode, outputPlug, inputNode, inputPlug)
      ensures this.outputNodeType == outputNodeType && this.inputNodeType == inputNodeType
    {
      this.outputNode := outputNode;
      this.outputPlug := outputPlug;
      this.inputNode := inputNode;
      this.inputPlug := inputPlug;
      this.outputNodeType := outputNodeType;
      this.inputNodeType := inputNodeType;
    }
  }
}

=== FILE: data_obj.dfy ===
/**
 * Data types created at run time by name. Each one has a name and an array
 * of direct parents, which may hold nulls, and it can be connected to any
 * data type it reaches by following parent links zero or more times. The
 * same class appears twice in the code: once on its own and once nested in
 * the hierarchy of the datatypes package.
 *
 * A data object is named here by its index in the list of the hierarchy
 * that made it, and a parent link by that index (None for null). Any other
 * data type is a number outside the list. An object's parents are always
 * created before it, so every parent index is smaller than the object's
 * own index, and canConnectTo terminates.
 */
module DataObjs {
  import opened Wrappers
  import opened Functions

  datatype DataObj = DataObj(name: string, parents: seq<Option<nat>>)

  /** Every parent of an object is an object created before it. */
  predicate Ordered(objs: seq<DataObj>)
  {
    forall i, k :: 0 <= i < |objs| && 0 <= k < |objs[i].parents| && objs[i].parents[k].Some? ==>
      objs[i].parents[k].value < i
  }

  /** canConnectTo: t is object i itself, or some non-null parent of i can connect to t. */
  function CanConnectTo(objs: seq<DataObj>, i: nat, t: DataType): bool
    requires Ordered(objs) && i < |objs|
    decreases i, 1
  {
    t == i || ParentsConnect(objs, i, t, |objs[i].parents|)
  }

  /** The loop of canConnectTo over the first k parents of object i. */
  function ParentsConnect(objs: seq<DataObj>, i: nat, t: DataType, k: nat): bool
    requires Ordered(objs) && i < |objs| && k <= |objs[i].parents|
    decreases i, 0, k
  {
    if k == 0 then false
    else
      var p := objs[i].parents[k - 1];
      ParentsConnect(objs, i, t, k - 1) || (p.Some? && CanConnectTo(objs, p.value, t))
  }

  /** getName */
  function GetName(objs: seq<DataObj>, i: nat): (r: string)
    requires i < |objs|
    ensures r == objs[i].name
  {
    objs[i].name
  }

  /** getParentCount: the length of the parent array, nulls included. */
  function GetParentCount(objs: seq<DataObj>, i: nat): (r: nat)
    requires i < |objs|
    ensures r == |objs[i].parents|
  {
    |objs[i].parents|
  }

  /** getParent: the parent at an index, which may be null; ArrayIndexOutOfBoundsException outside the array. */
  function GetParent(objs: seq<DataObj>, i: nat, index: int): (r: Result<Option<nat>>)
    requires i < |objs|
    ensures r.Success? <==> 0 <= index < |objs[i].parents|
    ensures r.Success? ==> r.value == objs[i].parents[index]
    ensures r.Failure? ==> r.error == IndexOutOfBounds
  {
    if 0 <= index < |objs[i].parents| then Success(objs[i].parents[index]) else Failure(IndexOutOfBounds)
  }

  /** q is a direct, non-null parent of object i. */
  predicate ParentOf(objs: seq<DataObj>, i: nat, q: nat)
    requires i < |objs|
  {
    Some(q) in objs[i].parents
  }

  /** A chain of objects, each one a direct parent of the one before it. */
  predicate IsChain(objs: seq<DataObj>, c: seq<nat>)
  {
    |c| >= 1 && (forall k :: 0 <= k < |c| ==> c[k] < |objs|) &&
    forall k :: 0 <= k < |c| - 1 ==> ParentOf(objs, c[k], c[k + 1])
  }

  /** t is object i or one of its ancestors: a chain of parent links leads from i to t. */
  ghost predicate Ancestor(objs: seq<DataObj>, i: nat, t: DataType)
  {
    exists c :: IsChain(objs, c) && c[0] == i && c[|c| - 1] == t
  }

  /** A parent that connects makes the parent loop succeed once it has passed that parent. */
  lemma {:induction false} ParentsConnectFrom(objs: seq<DataObj>, i: nat, t: DataType, k: nat, j: nat)
    requires Ordered(objs) && i < |objs| && j < k <= |objs[i].parents|
    requires objs[i].parents[j].Some? && CanConnectTo(objs, objs[i].parents[j].value, t)
    ensures ParentsConnect(objs, i, t, k)
  {
    if j < k - 1 {
      ParentsConnectFrom(objs, i, t, k - 1, j);
    }
  }

  /** When the parent loop succeeds, one of the parents it passed connects. */
  lemma {:induction false} ParentsConnectWitness(objs: seq<DataObj>, i: nat, t: DataType, k: nat) returns (j: nat)
    requires Ordered(objs) && i < |objs| && k <= |objs[i].parents|
    requires ParentsConnect(objs, i, t, k)
    ensures j < k && objs[i].parents[j].Some? && CanConnectTo(objs, objs[i].parents[j].value, t)
  {
    var p := objs[i].parents[k - 1];
    if p.Some? && CanConnectTo(objs, p.value, t) {
      j := k - 1;
    } else {
      j := ParentsConnectWitness(objs, i, t, k - 1);
    }
  }

  /** canConnectTo finds exactly the ancestors of an object, itself included. */
  lemma {:induction false} CanConnectToIsAncestor(objs: seq<DataObj>, i: nat, t: DataType)
    requires Ordered(objs) && i < |objs|
    ensures CanConnectTo(objs, i, t) <==> Ancestor(objs, i, t)
    decreases i
  {
    if CanConnectTo(objs, i, t) {
      if t == i {
        assert IsChain(objs, [i]);
      } else {
        var j := ParentsConnectWitness(objs, i, t, |objs[i].parents|);
        var p := objs[i].parents[j].value;
        CanConnectToIsAncestor(objs, p, t);
        var c :| IsChain(objs, c) && c[0] == p && c[|c| - 1] == t;
        assert objs[i].parents[j] == Some(p);
        assert IsChain(objs, [i] + c);
      }
    }
    if Ancestor(objs, i, t) {
      var c :| IsChain(objs, c) && c[0] == i && c[|c| - 1] == t;
      ChainConnects(objs, c);
    }
  }

  /** The first object of a chain can connect to its last. */
  lemma {:induction false} ChainConnects(objs: seq<DataObj>, c: seq<nat>)
    requires Ordered(objs) && IsChain(objs, c)
    ensures CanConnectTo(objs, c[0], c[|c| - 1])
    decreases |c|
  {
    if |c| > 1 {
      var rest := c[1..];
      assert IsChain(objs, rest);
      ChainConnects(objs, rest);
      assert ParentOf(objs, c[0], c[1]);
      var j :| 0 <= j < |objs[c[0]].parents| && objs[c[0]].parents[j] == Some(c[1]);
      ParentsConnectFrom(objs, c[0], c[|c| - 1], |objs[c[0]].parents|, j);
    }
  }

  /** Casting up composes: an object that connects to t connects to everything t connects to. */
  lemma CanConnectToTransitive(objs: seq<DataObj>, i: nat, j: nat, t: DataType)
    requires Ordered(objs) && i < |objs| && j < |objs|
    requires CanConnectTo(objs, i, j) && CanConnectTo(objs, j, t)
    ensures CanConnectTo(objs, i, t)
  {
    CanConnectToIsAncestor(objs, i, j);
    CanConnectToIsAncestor(objs, j, t);
    var c1 :| IsChain(objs, c1) && c1[0] == i && c1[|c1| - 1] == j;
    var c2 :| IsChain(objs, c2) && c2[0] == j && c2[|c2| - 1] == t;
    var c := c1 + c2[1..];
    assert IsChain(objs, c);
    ChainConnects(objs, c);
  }

  /** An object connects to itself and to each of its non-null parents. */
  lemma CanConnectToParent(objs: seq<DataObj>, i: nat, j: nat)
    requires Ordered(objs) && i < |objs| && j < |objs[i].parents| && objs[i].parents[j].Some?
    ensures CanConnectTo(objs, i, i)
    ensures CanConnectTo(objs, i, objs[i].parents[j].value)
  {
    ParentsConnectFrom(objs, i, objs[i].parents[j].value, |objs[i].parents|, j);
  }
}

=== FILE: duplicate_finder.dfy ===
/**
 * DuplicateFinder: remembers, per graph structure, how many more graphs of
 * that structure the search tree will still produce, so that each of them
 * is reported as a duplicate and the entry disappears after the last one.
 * The number of other graphs with a structure is estimated from the graph
 * itself: the outputs of nodes that feed more than one connection or have
 * no inputs, less one.
 */
module DuplicateFinders {
  import opened Wrappers
  import opened Layout
  import opened Connections
  import opened GraphHashes
  import opened GraphHashers
  import ImplNodeGraph

  /** The number of connections leaving `node`, on any plug. */
  function Outputs(conns: seq<Conn>, node: int): nat
  {
    if conns == [] then 0
    else Outputs(conns[..|conns| - 1], node) + (if conns[|conns| - 1].outputNode == node then 1 else 0)
  }

  /** isLeafNode: no connection enters `node`. */
  predicate IsLeaf(conns: seq<Conn>, node: int)
  {
    forall i :: 0 <= i < |conns| ==> conns[i].inputNode != node
  }

  /** What countRemaining adds for a node: its outputs, if it has more than one or is a leaf. */
  function Counted(conns: seq<Conn>, node: int): nat
  {
    var out := Outputs(conns, node);
    if out > 1 || IsLeaf(conns, node) then out else 0
  }

  /** The counted outputs of the first k nodes. */
  function CountedSum(conns: seq<Conn>, k: nat): nat
  {
    if k == 0 then 0 else CountedSum(conns, k - 1) + Counted(conns, k - 1)
  }

  /** countRemaining: the duplicates of g the search still produces, not counting g. */
  function Remaining(g: Graph): int
  {
    CountedSum(g.conns, |g.nodes|) - 1
  }

  /** The outputs of the first k nodes. */
  function OutputsSum(conns: seq<Conn>, k: nat): nat
  {
    if k == 0 then 0 else OutputsSum(conns, k - 1) + Outputs(conns, k - 1)
  }

  /** Every stored count is positive. */
  ghost predicate PositiveCounts(d: map<GraphHash, int>)
  {
    forall h :: h in d ==> d[h] >= 1
  }

  /**
   * One check of a hash against the stored counts: a stored hash is a
   * duplicate, and its count drops by one, the entry going at zero; a new
   * hash is unique, and its count of remaining duplicates is stored if
   * there are any.
   */
  function Check(d: map<GraphHash, int>, h: GraphHash, remaining: int): (bool, map<GraphHash, int>)
  {
    if h in d then
      var val := d[h] - 1;
      (false, if val == 0 then d - {h} else d[h := val])
    else
      (true, if remaining > 0 then d[h := remaining] else d)
  }

  /** The counts after k more checks of h. */
  function CheckedAgain(d: map<GraphHash, int>, h: GraphHash, k: nat): map<GraphHash, int>
  {
    if k == 0 then d else Check(CheckedAgain(d, h, k - 1), h, 0).1
  }

  lemma OutputsStep(conns: seq<Conn>, k: int, node: int)
    requires 0 <= k < |conns|
    ensures Outputs(conns[..k + 1], node) == Outputs(conns[..k], node) + (if conns[k].outputNode == node then 1 else 0)
  {
    assert conns[..k + 1][..k] == conns[..k];
  }

  /** A node has outputs exactly when some connection leaves it. */
  lemma {:induction false} OutputsPositive(conns: seq<Conn>, node: int)
    ensures Outputs(conns, node) > 0 <==> exists i :: 0 <= i < |conns| && conns[i].outputNode == node
  {
    if conns != [] {
      var init := conns[..|conns| - 1];
      OutputsPositive(init, node);
      if exists i :: 0 <= i < |init| && init[i].outputNode == node {
        var i :| 0 <= i < |init| && init[i].outputNode == node;
        assert conns[i] == init[i];
      }
    }
  }

  /** Appending a connection adds one output to its output node among the first k nodes, if it is one of them. */
  lemma {:induction false} OutputsSumAppend(conns: seq<Conn>, c: Conn, k: nat)
    ensures OutputsSum(conns + [c], k) == OutputsSum(conns, k) + (if 0 <= c.outputNode < k then 1 else 0)
  {
    assert (conns + [c])[..|conns|] == conns;
    if k > 0 {
      OutputsSumAppend(conns, c, k - 1);
    }
  }

  /** Every connection leaves exactly one node, so the outputs of all nodes add up to the connections. */
  lemma {:induction false} OutputsSumAll(conns: seq<Conn>, n: nat)
    requires forall i :: 0 <= i < |conns| ==> 0 <= conns[i].outputNode < n
    ensures OutputsSum(conns, n) == |conns|
  {
    if conns == [] {
      OutputsSumOfNone(n);
    } else {
      var init := conns[..|conns| - 1];
      OutputsSumAll(init, n);
      OutputsSumAppend(init, conns[|conns| - 1], n);
      assert init + [conns[|conns| - 1]] == conns;
    }
  }

  lemma {:induction false} OutputsSumOfNone(k: nat)
    ensures OutputsSum([], k) == 0
  {
    if k > 0 {
      OutputsSumOfNone(k - 1);
    }
  }

  lemma {:induction false} CountedBelowOutputs(conns: seq<Conn>, k: nat)
    ensures CountedSum(conns, k) <= OutputsSum(conns, k)
  {
    if k > 0 {
      CountedBelowOutputs(conns, k - 1);
    }
  }

  /** countRemaining never reports more than one duplicate per connection, and never less than -1. */
  lemma RemainingBounds(g: Graph)
    requires EndpointsInRange(g)
    ensures -1 <= Remaining(g) <= |g.conns| - 1
  {
    CountedBelowOutputs(g.conns, |g.nodes|);
    OutputsSumAll(g.conns, |g.nodes|);
  }

  /** Checking keeps every stored count positive and leaves every other hash alone. */
  lemma CheckKeepsCounts(d: map<GraphHash, int>, h: GraphHash, remaining: int)
    requires PositiveCounts(d)
    ensures PositiveCounts(Check(d, h, remaining).1)
    ensures forall k :: k != h ==> (k in Check(d, h, remaining).1 <==> k in d)
    ensures forall k :: k != h && k in d ==> Check(d, h, remaining).1[k] == d[k]
  {
  }

  /**
   * A stored count is the number of duplicates still to come: each of the
   * next d[h] checks of h reports a duplicate, the count dropping by one
   * each time, and after the last one the entry is gone while every other
   * entry is as it was.
   */
  lemma {:induction false} CountDown(d: map<GraphHash, int>, h: GraphHash, k: nat)
    requires PositiveCounts(d) && h in d && k <= d[h]
    ensures k < d[h] ==> CheckedAgain(d, h, k) == d[h := d[h] - k]
    ensures k < d[h] ==> !Check(CheckedAgain(d, h, k), h, 0).0
    ensures k == d[h] ==> CheckedAgain(d, h, k) == d - {h}
  {
    if k > 0 {
      CountDown(d, h, k - 1);
      var before := CheckedAgain(d, h, k - 1);
      assert before == d[h := d[h] - (k - 1)];
      if k == d[h] {
        assert before - {h} == d - {h};
      }
    } else {
      assert d[h := d[h]] == d;
    }
  }

  class DuplicateFinder {
    /** The hashes seen with duplicates still to come, and how many. */
    var duplicates: map<GraphHash, int>

    ghost predicate Valid()
      reads this
    {
      PositiveCounts(duplicates)
    }

    constructor ()
      ensures Valid() && duplicates == map[]
    {
      duplicates := map[];
    }

    /**
     * isUnquie: whether no graph of this structure was seen before, after
     * which the stored counts are updated as `Check` says. A hash that the
     * hasher cannot compute is its NullPointerException.
     */
    method IsUnique(hasher: GraphHasher, graph: ImplNodeGraph.NodeGraph) returns (r: Result<bool>, ghost hash: GraphHash)
      requires Valid() && hasher.Valid() && graph.Valid()
      modifies this, hasher
      ensures Valid()
      ensures r.Failure? ==> r.error == NullPointer && duplicates == old(duplicates)
      ensures Connected(graph.model) ==> r.Success?
      ensures r.Success? ==> hasher.Valid() && HashOf(graph.model, hasher.connectionHash, hash)
      ensures r.Success? ==> (r.value, duplicates) == Check(old(duplicates), hash, Remaining(graph.model))
    {
      var created, indices := hasher.CreateHash(graph);
      if Connected(graph.model) {
        ConnectedIsMapped(graph.model, indices);
      }
      if created.Failure? {
        return Failure(created.error), GraphHash([]);
      }
      var h := created.value;
      var remaining := CountRemaining(graph);
      var unique := Record(h, remaining);
      return Success(unique), h;
    }

    /** The synchronized block of isUnquie: the check of one hash against the stored counts. */
    method Record(h: GraphHash, remaining: int) returns (unique: bool)
      requires Valid()
      modifies this
      ensures Valid()
      ensures (unique, duplicates) == Check(old(duplicates), h, remaining)
    {
      CheckKeepsCounts(duplicates, h, remaining);
      if h in duplicates {
        var val := duplicates[h] - 1;
        if val == 0 {
          duplicates := duplicates - {h};
        } else {
          duplicates := duplicates[h := val];
        }
        return false;
      }
      if remaining > 0 {
        duplicates := duplicates[h := remaining];
      }
      return true;
    }

    /** countRemaining: the counted outputs of every node, less one. */
    method CountRemaining(graph: ImplNodeGraph.NodeGraph) returns (r: int)
      requires graph.Valid()
      ensures r == Remaining(graph.model)
    {
      var nodeCount := graph.GetNodeCount();
      var p := 0;
      var nodeIndex := 0;
      while nodeIndex < nodeCount
        invariant 0 <= nodeIndex <= nodeCount == |graph.model.nodes|
        invariant p == CountedSum(graph.model.conns, nodeIndex)
      {
        var out := CountOutputs(graph, nodeIndex);
        var leaf := IsLeafNode(graph, nodeIndex);
        if out > 1 || leaf {
          p := p + out;
        }
        nodeIndex := nodeIndex + 1;
      }
      return p - 1;
    }

    /** countOutputs: the connections leaving a node. */
    method CountOutputs(graph: ImplNodeGraph.NodeGraph, nodeIndex: int) returns (outputs: int)
      requires graph.Valid()
      ensures outputs == Outputs(graph.model.conns, nodeIndex)
      ensures outputs > 0 <==> exists i :: 0 <= i < |graph.model.conns| && graph.model.conns[i].outputNode == nodeIndex
    {
      outputs := 0;
      var connection := new TypedConnection();
      var connectionCount := graph.GetConnectionCount();
      var connectionIndex := 0;
      while connectionIndex < connectionCount
        invariant 0 <= connectionIndex <= connectionCount == |graph.model.conns|
        invariant outputs == Outputs(graph.model.conns[..connectionIndex], nodeIndex)
      {
        var _ := graph.GetConnection(connectionIndex, connection);
        OutputsStep(graph.model.conns, connectionIndex, nodeIndex);
        if connection.outputNode == nodeIndex {
          outputs := outputs + 1;
        }
        connectionIndex := connectionIndex + 1;
      }
      assert graph.model.conns[..connectionIndex] == graph.model.conns;
      OutputsPositive(graph.model.conns, nodeIndex);
    }

    /** isLeafNode: no connection enters the node. */
    method IsLeafNode(graph: ImplNodeGraph.NodeGraph, nodeIndex: int) returns (leaf: bool)
      requires graph.Valid()
      ensures leaf <==> IsLeaf(graph.model.conns, nodeIndex)
    {
      var connection := new TypedConnection();
      var connectionCount := graph.GetConnectionCount();
      var connectionIndex := 0;
      while connectionIndex < connectionCount
        invariant 0 <= connectionIndex <= connectionCount == |graph.model.conns|
        invariant forall i :: 0 <= i < connectionIndex ==> graph.model.conns[i].inputNode != nodeIndex
      {
        var _ := graph.GetConnection(connectionIndex, connection);
        if connection.inputNode == nodeIndex {
          return false;
        }
        connectionIndex := connectionIndex + 1;
      }
      return true;
    }

    /** getRemainingDuplicateTypes: how many structures still have duplicates to come. */
    function GetRemainingDuplicateTypes(): (r: nat)
      reads this
      ensures r == |duplicates.Keys|
    {
      |duplicates|
    }
  }
}

=== FILE: environment.dfy ===
/**
 * The environment of a search: the functions graphs may use, the axioms
 * every candidate and every solution must satisfy, the heuristics that
 * score candidates, and the maximum search depth. An environment is
 * immutable once built; it holds copies of the lists it was given, which a
 * value type gives for free.
 */
module Environments {
  import opened Wrappers
  import opened ByteCodec
  import opened ByteUtils
  import opened Functions
  import opened Axioms

  /** An IHeuristic, known by its identity; the search asks an oracle for its estimate. */
  type Heuristic = int

  datatype Environment = Environment(
    functions: seq<Function>,
    axioms: seq<Axiom>,
    solutionAxioms: seq<Axiom>,
    heuristics: seq<Heuristic>,
    nDepth: int)
  {
    /** getMaxDepth */
    function GetMaxDepth(): int { nDepth }
  }

  /** The number of functions of the given kind. */
  function CountKind(fs: seq<Function>, k: Kind): nat
  {
    if fs == [] then 0 else CountKind(fs[..|fs| - 1], k) + (if fs[|fs| - 1].kind == k then 1 else 0)
  }

  /** What the constructor demands: some input function and exactly one output function. */
  predicate ValidFunctions(fs: seq<Function>)
  {
    CountKind(fs, InputKind) > 0 && CountKind(fs, OutputKind) == 1
  }

  lemma CountKindStep(fs: seq<Function>, i: int, k: Kind)
    requires 0 <= i < |fs|
    ensures CountKind(fs[..i + 1], k) == CountKind(fs[..i], k) + (if fs[i].kind == k then 1 else 0)
  {
    assert fs[..i + 1][..i] == fs[..i];
  }

  /** A kind occurs exactly when it is counted. */
  lemma {:induction false} CountKindPositive(fs: seq<Function>, k: Kind)
    ensures CountKind(fs, k) > 0 <==> exists i :: 0 <= i < |fs| && fs[i].kind == k
  {
    if fs != [] {
      var init := fs[..|fs| - 1];
      CountKindPositive(init, k);
      if exists i :: 0 <= i < |init| && init[i].kind == k {
        var i :| 0 <= i < |init| && init[i].kind == k;
        assert fs[i] == init[i];
      }
    }
  }

  /** A kind counted once occurs at one index only. */
  lemma {:induction false} CountKindOne(fs: seq<Function>, k: Kind, i: int, j: int)
    requires CountKind(fs, k) == 1
    requires 0 <= i < |fs| && 0 <= j < |fs| && fs[i].kind == k && fs[j].kind == k
    ensures i == j
  {
    var init := fs[..|fs| - 1];
    if fs[|fs| - 1].kind == k {
      if i < |fs| - 1 {
        assert init[i] == fs[i];
        CountKindPositive(init, k);
      }
      if j < |fs| - 1 {
        assert init[j] == fs[j];
        CountKindPositive(init, k);
      }
    } else {
      assert init[i] == fs[i] && init[j] == fs[j];
      CountKindOne(init, k, i, j);
    }
  }

  /** validateFunctions: counts the input and output functions and rejects a list without exactly one output. */
  method ValidateFunctions(fs: seq<Function>) returns (r: Result<()>)
    ensures r.Success? <==> ValidFunctions(fs)
    ensures r.Failure? ==> r.error == IllegalArgument
  {
    var inputs := 0;
    var outputs := 0;
    var i := 0;
    while i < |fs|
      invariant 0 <= i <= |fs|
      invariant inputs == CountKind(fs[..i], InputKind) && outputs == CountKind(fs[..i], OutputKind)
    {
      CountKindStep(fs, i, InputKind);
      CountKindStep(fs, i, OutputKind);
      if fs[i].IsInput() {
        inputs := inputs + 1;
      }
      if fs[i].IsOutput() {
        outputs := outputs + 1;
      }
      i := i + 1;
    }
    assert fs[..i] == fs;
    if inputs == 0 {
      return Failure(IllegalArgument);
    }
    if outputs != 1 {
      return Failure(IllegalArgument);
    }
    return Success(());
  }

  /** The constructor: validates the functions and keeps its own copy of every list. */
  method NewEnvironment(functions: seq<Function>, axioms: seq<Axiom>, solutionAxioms: seq<Axiom>,
                        heuristics: seq<Heuristic>, nDepth: int) returns (r: Result<Environment>)
    ensures r.Success? <==> ValidFunctions(functions)
    ensures r.Failure? ==> r.error == IllegalArgument
    ensures r.Success? ==> r.value == Environment(functions, axioms, solutionAxioms, heuristics, nDepth)
  {
    var v := ValidateFunctions(functions);
    if v.Failure? {
      return Failure(v.error);
    }
    return Success(Environment(functions, axioms, solutionAxioms, heuristics, nDepth));
  }

  predicate NoOutputBefore(fs: seq<Function>, i: int)
  {
    forall j :: 0 <= j < i && j < |fs| ==> !fs[j].IsOutput()
  }

  /** getOutputFunction: the first output function; an environment without one is an error. */
  method GetOutputFunction(env: Environment) returns (r: Result<Function>)
    ensures r.Failure? <==> CountKind(env.functions, OutputKind) == 0
    ensures r.Failure? ==> r.error == IllegalState
    ensures r.Success? ==> r.value.IsOutput()
    ensures r.Success? ==>
      exists i :: 0 <= i < |env.functions| && env.functions[i] == r.value && NoOutputBefore(env.functions, i)
  {
    CountKindPositive(env.functions, OutputKind);
    var i := 0;
    while i < |env.functions|
      invariant 0 <= i <= |env.functions|
      invariant forall j :: 0 <= j < i ==> !env.functions[j].IsOutput()
    {
      if env.functions[i].IsOutput() {
        return Success(env.functions[i]);
      }
      i := i + 1;
    }
    return Failure(IllegalState);
  }

  /** In a validated environment the output function exists and is the only one. */
  lemma OutputFunctionUnique(env: Environment, i: int)
    requires ValidFunctions(env.functions)
    requires 0 <= i < |env.functions| && env.functions[i].IsOutput()
    ensures forall j :: 0 <= j < |env.functions| && env.functions[j].IsOutput() ==> j == i
  {
    forall j | 0 <= j < |env.functions| && env.functions[j].IsOutput() {
      CountKindOne(env.functions, OutputKind, i, j);
    }
  }

  /** getIndexOf: the first index holding an equal function, or -1. */
  method GetIndexOf(env: Environment, f: Function) returns (index: int)
    ensures -1 <= index < |env.functions|
    ensures index >= 0 ==> env.functions[index] == f && forall j :: 0 <= j < index ==> env.functions[j] != f
    ensures index == -1 <==> f !in env.functions
  {
    var i := 0;
    while i < |env.functions|
      invariant 0 <= i <= |env.functions|
      invariant forall j :: 0 <= j < i ==> env.functions[j] != f
    {
      if f == env.functions[i] {
        return i;
      }
      i := i + 1;
    }
    return -1;
  }

  /** The most input or output plugs any of the functions has (0 for none). */
  function MaxPlugs(fs: seq<Function>): (r: nat)
    ensures forall i :: 0 <= i < |fs| ==> |fs[i].inputs| <= r && |fs[i].outputs| <= r
    ensures r == 0 || exists i :: 0 <= i < |fs| && (r == |fs[i].inputs| || r == |fs[i].outputs|)
  {
    if fs == [] then 0 else
      var f := fs[|fs| - 1];
      var m := MaxPlugs(fs[..|fs| - 1]);
      var r := Max(Max(m, |f.inputs|), |f.outputs|);
      assert forall i :: 0 <= i < |fs| - 1 ==> fs[i] == fs[..|fs| - 1][i];
      r
  }

  function Max(a: int, b: int): int
  {
    if a >= b then a else b
  }

  /** countPlugs: the loop of Math.max over every function's input and output counts. */
  method CountPlugs(env: Environment) returns (plugs: int)
    ensures plugs == MaxPlugs(env.functions)
  {
    plugs := 0;
    var i := 0;
    while i < |env.functions|
      invariant 0 <= i <= |env.functions| && plugs == MaxPlugs(env.functions[..i])
    {
      assert env.functions[..i + 1][..i] == env.functions[..i];
      plugs := Max(plugs, |env.functions[i].inputs|);
      plugs := Max(plugs, |env.functions[i].outputs|);
      i := i + 1;
    }
    assert env.functions[..i] == env.functions;
  }

  /** The width getMinByteCount chooses as written: enough for the function count, any plug count and the depth. */
  function WrittenMinByteCount(env: Environment): Width
  {
    WidthOf(Max(Max(Max(0, |env.functions|), MaxPlugs(env.functions)), env.nDepth))
  }

  /**
   * The width getMinByteCount is meant to choose: enough for the function
   * count, any plug count and a node count one past the depth, since a
   * graph within the depth limit can hold nDepth + 1 nodes.
   */
  function MinByteCount(env: Environment): Width
  {
    WidthOf(Max(Max(Max(0, |env.functions|), MaxPlugs(env.functions)), env.nDepth + 1))
  }

  /** getMinByteCount, with the node count one past the depth taken into account. */
  method GetMinByteCount(env: Environment) returns (n: Width)
    ensures n == MinByteCount(env)
  {
    var max := 0;
    max := Max(max, |env.functions|);
    var plugs := CountPlugs(env);
    max := Max(max, plugs);
    max := Max(max, env.nDepth + 1);
    n := WidthOf(max);
  }

  /**
   * The chosen width holds every function index, every plug index and every
   * count up to nDepth + 1, as long as they fit a Java int; it can be 3, a width
   * the root NodeGraph.newGraph refuses.
   */
  lemma MinByteCountHolds(env: Environment, v: int)
    requires 0 <= v <= INT_MAX && (v < |env.functions| || v < MaxPlugs(env.functions) || v <= env.nDepth + 1)
    requires |env.functions| <= INT_MAX && MaxPlugs(env.functions) <= INT_MAX && env.nDepth <= INT_MAX
    ensures Fits(v, MinByteCount(env))
  {
    var m := Max(Max(Max(0, |env.functions|), MaxPlugs(env.functions)), env.nDepth + 1);
    if m <= INT_MAX {
      FitsWidthOf(v, m);
    }
  }
}

=== FILE: environment_builder.dfy ===
/**
 * EnvironmentBuilder: collects functions, axioms, solution axioms and
 * heuristics in call order, plus a search depth that is always positive,
 * and builds an Environment from them.
 */
module EnvironmentBuilders {
  import opened Wrappers
  import opened Functions
  import opened Axioms
  import opened Environments

  const DEFAULT_DEPTH: int := 20

  class EnvironmentBuilder {
    var functions: seq<Function>
    var axioms: seq<Axiom>
    var solutionAxioms: seq<Axiom>
    var heuristics: seq<Heuristic>
    var depth: int

    /** The depth is only ever set to a positive value. */
    ghost predicate Valid()
      reads this
    {
      depth > 0
    }

    constructor ()
      ensures Valid()
      ensures functions == [] && axioms == [] && solutionAxioms == [] && heuristics == []
      ensures depth == DEFAULT_DEPTH
    {
      functions, axioms, solutionAxioms, heuristics := [], [], [], [];
      depth := DEFAULT_DEPTH;
    }

    /** setMaxDepth: a depth of 0 or less is refused and changes nothing. */
    method SetMaxDepth(depth: int) returns (r: Result<EnvironmentBuilder>)
      requires Valid()
      modifies this
      ensures Valid()
      ensures depth <= 0 ==> r == Failure(IllegalArgument) && this.depth == old(this.depth)
      ensures depth > 0 ==> r == Success(this) && this.depth == depth
      ensures functions == old(functions) && axioms == old(axioms)
      ensures solutionAxioms == old(solutionAxioms) && heuristics == old(heuristics)
    {
      if depth <= 0 {
        return Failure(IllegalArgument);
      }
      this.depth := depth;
      return Success(this);
    }

    /** addAxiom: appends one axiom and returns the same builder. */
    method AddAxiom(axiom: Axiom) returns (b: EnvironmentBuilder)
      modifies this`axioms
      ensures b == this && axioms == old(axioms) + [axiom]
    {
      axioms := axioms + [axiom];
      return this;
    }

    /** addSolutionAxiom: appends one solution axiom and returns the same builder. */
    method AddSolutionAxiom(axiom: Axiom) returns (b: EnvironmentBuilder)
      modifies this`solutionAxioms
      ensures b == this && solutionAxioms == old(solutionAxioms) + [axiom]
    {
      solutionAxioms := solutionAxioms + [axiom];
      return this;
    }

    /** addHeuristic: appends one heuristic and returns the same builder. */
    method AddHeuristic(heuristic: Heuristic) returns (b: EnvironmentBuilder)
      modifies this`heuristics
      ensures b == this && heuristics == old(heuristics) + [heuristic]
    {
      heuristics := heuristics + [heuristic];
      return this;
    }

    /** addFunction: appends one function and returns the same builder. */
    method AddFunction(f: Function) returns (b: EnvironmentBuilder)
      modifies this`functions
      ensures b == this && functions == old(functions) + [f]
    {
      functions := functions + [f];
      return this;
    }

    /** build: an environment over the lists so far; the environment's validation decides success. */
    method Build() returns (r: Result<Environment>)
      requires Valid()
      ensures r.Success? <==> ValidFunctions(functions)
      ensures r.Failure? ==> r.error == IllegalArgument
      ensures r.Success? ==> r.value == Environment(functions, axioms, solutionAxioms, heuristics, depth)
      ensures r.Success? ==> r.value.GetMaxDepth() > 0
    {
      r := NewEnvironment(functions, axioms, solutionAxioms, heuristics, depth);
    }
  }
}

=== FILE: functions.dfy ===
/**
 * The node functions a graph is built from. A function is known to the
 * search only by the data types of its input plugs and of its output plugs;
 * input functions (constants and parameters) have no inputs, and the one
 * output function of an environment has no outputs. What a function
 * computes is not part of this model.
 */
module Functions {
  import opened Wrappers

  /** A data type; data types are told apart by identity and nothing else. */
  type DataType = int

  /** Which of the two special function classes a function belongs to, if any. */
  datatype Kind = InputKind | OutputKind | OtherKind

  /**
   * An IFunction: its class, an identity that tells two instances of the
   * same class apart, and the data types of its plugs.
   */
  datatype Function = Function(kind: Kind, id: int, inputs: seq<DataType>, outputs: seq<DataType>)
  {
    predicate IsInput() { kind == InputKind }
    predicate IsOutput() { kind == OutputKind }

    /** getInputs */
    function GetInputs(): seq<DataType> { inputs }

    /** getOutputs */
    function GetOutputs(): seq<DataType> { outputs }
  }

  /**
   * What the two special classes guarantee: an input function has no input
   * plugs and at least one output plug, an output function the reverse.
   */
  predicate WellShaped(f: Function)
  {
    (f.IsInput() ==> f.inputs == [] && f.outputs != []) &&
    (f.IsOutput() ==> f.outputs == [] && f.inputs != [])
  }

  /** The InputFunction constructor: the output types must not be empty. */
  function NewInputFunction(id: int, outputs: seq<DataType>): (r: Result<Function>)
    ensures r.Failure? <==> |outputs| == 0
    ensures r.Failure? ==> r.error == IllegalArgument
    ensures r.Success? ==> r.value.IsInput() && WellShaped(r.value)
    ensures r.Success? ==> r.value.GetInputs() == [] && r.value.GetOutputs() == outputs
  {
    if |outputs| == 0 then Failure(IllegalArgument) else Success(Function(InputKind, id, [], outputs))
  }

  /** The OutputFunction constructor: the input types must not be empty. */
  function NewOutputFunction(id: int, inputs: seq<DataType>): (r: Result<Function>)
    ensures r.Failure? <==> |inputs| == 0
    ensures r.Failure? ==> r.error == IllegalArgument
    ensures r.Success? ==> r.value.IsOutput() && WellShaped(r.value)
    ensures r.Success? ==> r.value.GetOutputs() == [] && r.value.GetInputs() == inputs
  {
    if |inputs| == 0 then Failure(IllegalArgument) else Success(Function(OutputKind, id, inputs, []))
  }

  /** Every well-shaped input function is what the constructor builds from its own outputs. */
  lemma InputFunctionsAreConstructed(f: Function)
    requires f.IsInput() && WellShaped(f)
    ensures NewInputFunction(f.id, f.outputs) == Success(f)
  {
  }

  /** Every well-shaped output function is what the constructor builds from its own inputs. */
  lemma OutputFunctionsAreConstructed(f: Function)
    requires f.IsOutput() && WellShaped(f)
    ensures NewOutputFunction(f.id, f.inputs) == Success(f)
  {
  }
}

=== FILE: graph_hash.dfy ===
/**
 * GraphHash: the immutable wrapper around the bytes the graph hasher
 * produces, with the equality and hash code that let it key a hash map.
 * Two hashes are equal exactly when their bytes are; the hash code is
 * `Arrays.hashCode` of the bytes.
 */
module GraphHashes {
  import opened ByteCodec
  import opened ByteUtils

  datatype GraphHash = GraphHash(data: seq<Byte>)
  {
    /** equals: the same object, or the same bytes. */
    predicate Equals(o: GraphHash)
    {
      data == o.data
    }

    function HashCode(): (r: int)
      ensures IsInt32(r)
    {
      ArraysHashCode(data)
    }
  }

  /** equals is the value equality of the bytes, so it is reflexive, symmetric and transitive. */
  lemma EqualsIsIdentity(a: GraphHash, b: GraphHash)
    ensures a.Equals(b) <==> a == b
  {
  }

  /** Equal hashes have equal hash codes, as a hash map requires. */
  lemma EqualsHashCode(a: GraphHash, b: GraphHash)
    requires a.Equals(b)
    ensures a.HashCode() == b.HashCode()
  {
  }
}

=== FILE: graph_hasher.dfy ===
/**
 * GraphHasher: the structural hash of a node graph. The nodes are numbered
 * afresh by the node reindexer, every connection is rewritten with the new
 * numbers and the types of both end nodes, the rewritten connections are
 * sorted by their hash code, and the sorted list is packed into bytes: one
 * byte giving the slot width, then six slots per connection.
 *
 * The source writes the output node and the input plug twice and never
 * writes the output plug or the input node, so graphs that differ only
 * there hash alike (`WrittenHashBytes`, `WrittenHashLosesPlugs`). The
 * hasher here writes all six fields (`HashBytes`), and `HashBytesInjective`
 * proves that the bytes then determine the sorted connection list.
 */
module GraphHashers {
  import opened Wrappers
  import opened ByteCodec
  import opened ByteUtils
  import opened Layout
  import opened StableSort
  import opened GraphHashes
  import opened Connections
  import opened GraphQueries
  import opened NodeReindexer
  import ImplNodeGraph

  /** A connection of the connection buffer: both ends renumbered, and the types of both end nodes. */
  datatype HashedConnection = HashedConnection(outputNode: int, outputPlug: int, inputNode: int, inputPlug: int,
                                               outputNodeType: int, inputNodeType: int)

  /** Both ends of each of the first k connections have a new number. */
  predicate Mapped(conns: seq<Conn>, m: map<int, int>, k: int)
    requires 0 <= k <= |conns|
  {
    forall i :: 0 <= i < k ==> conns[i].outputNode in m && conns[i].inputNode in m
  }

  /**
   * The first connection, from `from` on, with an end that has no new
   * number, or |conns| if there is none: where prepareConnectionBuffer
   * stops with a NullPointerException.
   */
  function FirstUnmapped(conns: seq<Conn>, m: map<int, int>, from: nat): (k: nat)
    requires from <= |conns|
    ensures from <= k <= |conns|
    ensures forall i :: from <= i < k ==> conns[i].outputNode in m && conns[i].inputNode in m
    ensures k < |conns| ==> conns[k].outputNode !in m || conns[k].inputNode !in m
    decreases |conns| - from
  {
    if from == |conns| then from
    else if conns[from].outputNode !in m || conns[from].inputNode !in m then from
    else FirstUnmapped(conns, m, from + 1)
  }

  /** A connection of g with its ends renumbered by m and the types of its end nodes. */
  function Relabel(g: Graph, m: map<int, int>, c: Conn): HashedConnection
    requires c.outputNode in m && c.inputNode in m
    requires 0 <= c.outputNode < |g.nodes| && 0 <= c.inputNode < |g.nodes|
  {
    HashedConnection(m[c.outputNode], c.outputPlug, m[c.inputNode], c.inputPlug,
                     g.nodes[c.outputNode], g.nodes[c.inputNode])
  }

  /** The first k connections of g, relabelled, in order. */
  function RelabelAll(g: Graph, m: map<int, int>, k: nat): (r: seq<HashedConnection>)
    requires k <= |g.conns| && EndpointsInRange(g) && Mapped(g.conns, m, k)
    ensures |r| == k
  {
    if k == 0 then [] else RelabelAll(g, m, k - 1) + [Relabel(g, m, g.conns[k - 1])]
  }

  /** The six numbers written for a connection: its four fields, then the types of its end nodes. */
  function HashFields(c: HashedConnection): seq<int>
  {
    [c.outputNode, c.outputPlug, c.inputNode, c.inputPlug, c.outputNodeType, c.inputNodeType]
  }

  /** The six numbers of every connection, in order. */
  function FieldList(cs: seq<HashedConnection>): (r: seq<int>)
    ensures |r| == 6 * |cs|
  {
    if cs == [] then [] else FieldList(cs[..|cs| - 1]) + HashFields(cs[|cs| - 1])
  }

  function Max(a: int, b: int): int
  {
    if a >= b then a else b
  }

  /** Math.max folded over the values, from 0. */
  function MaxOf(vs: seq<int>): int
  {
    if vs == [] then 0 else Max(MaxOf(vs[..|vs| - 1]), vs[|vs| - 1])
  }

  /** The hash of a connection list: its slot width, then every field at that width. */
  function HashBytes(cs: seq<HashedConnection>): seq<Byte>
  {
    var fields := FieldList(cs);
    var n := WidthOf(MaxOf(fields));
    [n] + EncodeAll(fields, n)
  }

  /** The six numbers hashConnectionList writes for a connection, as written. */
  function WrittenFields(c: HashedConnection): seq<int>
  {
    [c.outputNode, c.inputPlug, c.outputNode, c.inputPlug, c.outputNodeType, c.inputNodeType]
  }

  function WrittenList(cs: seq<HashedConnection>): (r: seq<int>)
    ensures |r| == 6 * |cs|
  {
    if cs == [] then [] else WrittenList(cs[..|cs| - 1]) + WrittenFields(cs[|cs| - 1])
  }

  /** The bytes hashConnectionList produces, as written. */
  function WrittenHashBytes(cs: seq<HashedConnection>): seq<Byte>
  {
    var fields := WrittenList(cs);
    var n := WidthOf(MaxOf(fields));
    [n] + EncodeAll(fields, n)
  }

  /**
   * As written, the hash drops the output plug: a node of type 0 feeding
   * node 0 from its first or from its second output plug gives the same
   * bytes, while the hash with all six fields tells the two apart.
   */
  lemma WrittenHashLosesPlugs()
    ensures var a := [HashedConnection(1, 0, 0, 0, 0, 0)];
            var b := [HashedConnection(1, 1, 0, 0, 0, 0)];
            a != b && WrittenHashBytes(a) == WrittenHashBytes(b) && HashBytes(a) != HashBytes(b)
  {
    var a := [HashedConnection(1, 0, 0, 0, 0, 0)];
    var b := [HashedConnection(1, 1, 0, 0, 0, 0)];
    SingleConnectionFields(a[0]);
    SingleConnectionFields(b[0]);
    assert WrittenFields(a[0]) == WrittenFields(b[0]);
    assert WrittenList(a) == WrittenList(b);
    if HashBytes(a) == HashBytes(b) {
      HashBytesInjective(a, b);
    }
  }

  /** The fields of a one-connection list are those of the connection. */
  lemma SingleConnectionFields(c: HashedConnection)
    ensures FieldList([c]) == HashFields(c) && WrittenList([c]) == WrittenFields(c)
  {
    assert [c][..0] == [];
  }

  /** Every value is at most MaxOf, which is 0 or one of the values. */
  lemma {:induction false} MaxOfIsMax(vs: seq<int>)
    ensures MaxOf(vs) >= 0 && forall i :: 0 <= i < |vs| ==> vs[i] <= MaxOf(vs)
    ensures MaxOf(vs) == 0 || exists i :: 0 <= i < |vs| && vs[i] == MaxOf(vs)
  {
    if vs != [] {
      var init := vs[..|vs| - 1];
      MaxOfIsMax(init);
      assert forall i :: 0 <= i < |init| ==> vs[i] == init[i];
    }
  }

  lemma {:induction false} MaxOfAppend(a: seq<int>, b: seq<int>)
    ensures MaxOf(a + b) == Max(MaxOf(a), MaxOf(b))
    decreases |b|
  {
    MaxOfIsMax(a);
    if b == [] {
      assert a + b == a;
    } else {
      var b' := b[..|b| - 1];
      assert (a + b)[..|a + b| - 1] == a + b';
      MaxOfAppend(a, b');
    }
  }

  lemma FieldListStep(cs: seq<HashedConnection>, k: int)
    requires 0 <= k < |cs|
    ensures FieldList(cs[..k + 1]) == FieldList(cs[..k]) + HashFields(cs[k])
  {
    assert cs[..k + 1][..k] == cs[..k];
  }

  /** The largest field after one more connection, as getHashSize folds it. */
  lemma MaxOfNext(cs: seq<HashedConnection>, k: int)
    requires 0 <= k < |cs|
    ensures var c := cs[k];
      MaxOf(FieldList(cs[..k + 1])) == Max(Max(Max(Max(Max(Max(MaxOf(FieldList(cs[..k])),
        c.outputNode), c.outputPlug), c.inputNode), c.inputPlug), c.outputNodeType), c.inputNodeType)
  {
    var six := HashFields(cs[k]);
    FieldListStep(cs, k);
    MaxOfAppend(FieldList(cs[..k]), six);
    MaxOfIsMax(FieldList(cs[..k]));
    MaxOfStep(six, 0);
    MaxOfStep(six, 1);
    MaxOfStep(six, 2);
    MaxOfStep(six, 3);
    MaxOfStep(six, 4);
    MaxOfStep(six, 5);
    assert six[..0] == [] && six[..6] == six;
  }

  /** Appending the encoding of one more value to a prefix of bytes. */
  lemma EncodeAllSnoc(before: seq<Byte>, vs: seq<int>, i: int, n: nat)
    requires 0 <= i < |vs|
    ensures before + EncodeAll(vs[..i + 1], n) == (before + EncodeAll(vs[..i], n)) + Encode(vs[i], n)
  {
    EncodeAllStep(vs, i, n);
  }

  /** Math.max of the six values of a connection, one after another. */
  lemma MaxOfStep(vs: seq<int>, i: int)
    requires 0 <= i < |vs|
    ensures MaxOf(vs[..i + 1]) == Max(MaxOf(vs[..i]), vs[i])
  {
    assert vs[..i + 1][..i] == vs[..i];
  }

  /** The field lists of two connection lists agree only when the lists do. */
  lemma {:induction false} FieldListInjective(cs: seq<HashedConnection>, ds: seq<HashedConnection>)
    requires FieldList(cs) == FieldList(ds)
    ensures cs == ds
    decreases |cs|
  {
    if cs != [] {
      var fc := FieldList(cs);
      var c := cs[|cs| - 1];
      var d := ds[|ds| - 1];
      var p := |fc| - 6;
      assert fc[p..] == HashFields(c);
      assert FieldList(ds)[p..] == HashFields(d);
      assert fc[..p] == FieldList(cs[..|cs| - 1]);
      assert FieldList(ds)[..p] == FieldList(ds[..|ds| - 1]);
      FieldListInjective(cs[..|cs| - 1], ds[..|ds| - 1]);
      assert cs == cs[..|cs| - 1] + [c] && ds == ds[..|ds| - 1] + [d];
    }
  }

  /** Every value lies between 0 and Integer.MAX_VALUE. */
  predicate NonNegativeInts(vs: seq<int>)
  {
    forall i :: 0 <= i < |vs| ==> 0 <= vs[i] <= INT_MAX
  }

  /** Kept apart so that the length step of HashBytesInjective sees only this product. */
  lemma MulCancel(a: nat, b: nat, n: Width)
    requires a * n == b * n
    ensures a == b
  {
    if n == 1 {} else if n == 2 {} else if n == 3 {} else {}
  }

  /** The hash is one width byte, between 1 and 4, followed by six slots of that width per connection. */
  lemma HashBytesShape(cs: seq<HashedConnection>)
    ensures 1 <= HashBytes(cs)[0] <= 4
    ensures |HashBytes(cs)| == 1 + 6 * |cs| * HashBytes(cs)[0]
  {
    var n := WidthOf(MaxOf(FieldList(cs)));
    EncodeAllLength(FieldList(cs), n);
    OffMul(6 * |cs|, n);
  }

  lemma FieldsFitWidth(vs: seq<int>)
    requires NonNegativeInts(vs)
    ensures FitsAll(vs, WidthOf(MaxOf(vs)))
  {
    MaxOfIsMax(vs);
    forall i | 0 <= i < |vs|
      ensures Fits(vs[i], WidthOf(MaxOf(vs)))
    {
      FitsWidthOf(vs[i], MaxOf(vs));
    }
  }

  /**
   * With all six fields written, the hash determines the connection list:
   * the first byte gives the width, and every field fits that width, so
   * each slot reads back as the field written to it.
   */
  lemma HashBytesInjective(cs: seq<HashedConnection>, ds: seq<HashedConnection>)
    requires NonNegativeInts(FieldList(cs)) && NonNegativeInts(FieldList(ds))
    requires HashBytes(cs) == HashBytes(ds)
    ensures cs == ds
  {
    var fc := FieldList(cs);
    var fd := FieldList(ds);
    var n := WidthOf(MaxOf(fc));
    assert HashBytes(cs)[0] == n && HashBytes(ds)[0] == WidthOf(MaxOf(fd));
    assert EncodeAll(fc, n) == HashBytes(cs)[1..] == EncodeAll(fd, n);
    EncodeAllLength(fc, n);
    EncodeAllLength(fd, n);
    OffMul(|fc|, n);
    OffMul(|fd|, n);
    MulCancel(|fc|, |fd|, n);
    FieldsFitWidth(fc);
    FieldsFitWidth(fd);
    forall j | 0 <= j < |fc|
      ensures fc[j] == fd[j]
    {
      SlotOfPacked(fc, n, j);
      SlotOfPacked(fd, n, j);
    }
    FieldListInjective(cs, ds);
  }

  /**
   * Every node feeds the output node 0. The search only builds such graphs,
   * and hashing one of them never meets a node the reindexer left out.
   */
  ghost predicate Connected(g: Graph)
  {
    forall x :: 0 <= x < |g.nodes| ==> ReachesSome(g.conns, x, 0)
  }

  /** newGraph: a single node is the output node itself. */
  lemma SingleNodeConnected(t: int)
    ensures Connected(Graph([t], []))
  {
    assert Reaches([], 0, 0, 0);
  }

  /** addConnection keeps every path, so a connected graph stays connected. */
  lemma AddConnectionConnected(g: Graph, c: Conn)
    requires Connected(g)
    ensures Connected(Graph(g.nodes, g.conns + [c]))
  {
    forall x | 0 <= x < |g.nodes|
      ensures ReachesSome(g.conns + [c], x, 0)
    {
      assert ReachesSome(g.conns, x, 0);
      var f: nat :| Reaches(g.conns, x, 0, f);
      ReachesSubset(g.conns, g.conns + [c], x, 0, f);
    }
  }

  /** addConnectionAndNode: the new node feeds an existing node, which feeds node 0. */
  lemma AddConnectionAndNodeConnected(g: Graph, t: int, c: Conn)
    requires Connected(g) && c.outputNode == |g.nodes| && 0 <= c.inputNode < |g.nodes|
    ensures Connected(Graph(g.nodes + [t], g.conns + [c]))
  {
    var h := g.conns + [c];
    forall x | 0 <= x < |g.nodes|
      ensures ReachesSome(h, x, 0)
    {
      assert ReachesSome(g.conns, x, 0);
      var f: nat :| Reaches(g.conns, x, 0, f);
      ReachesSubset(g.conns, h, x, 0, f);
    }
    assert ReachesSome(h, c.inputNode, 0);
    var f: nat :| Reaches(h, c.inputNode, 0, f);
    assert h[|g.conns|] == c;
    assert Reaches(h, |g.nodes|, 0, f + 1);
  }

  /** The nodes that feed some connection. */
  function SourceNodes(conns: seq<Conn>): set<int>
  {
    set i | 0 <= i < |conns| :: conns[i].outputNode
  }

  /** Each connection names one feeder, so there are no more feeders than connections. */
  lemma {:induction false} SourceNodesBound(conns: seq<Conn>)
    ensures |SourceNodes(conns)| <= |conns|
  {
    if conns != [] {
      var init := conns[..|conns| - 1];
      SourceNodesBound(init);
      assert SourceNodes(conns) == SourceNodes(init) + {conns[|conns| - 1].outputNode} by {
        forall x | x in SourceNodes(conns) ensures x in SourceNodes(init) + {conns[|conns| - 1].outputNode} {
          var i :| 0 <= i < |conns| && conns[i].outputNode == x;
          if i < |conns| - 1 {
            assert init[i] == conns[i];
          }
        }
        forall x | x in SourceNodes(init) ensures x in SourceNodes(conns) {
          var i :| 0 <= i < |init| && init[i].outputNode == x;
          assert conns[i] == init[i];
        }
      }
    }
  }

  /** A set holding the nodes 1 to n - 1 has at least n - 1 members. */
  lemma {:induction false} CoversNonOutputs(nodes: set<int>, n: nat)
    requires forall x :: 1 <= x < n ==> x in nodes
    ensures |nodes| >= n - 1
  {
    if n > 1 {
      var rest := nodes - {n - 1};
      CoversNonOutputs(rest, n - 1);
    }
  }

  /**
   * A connected graph has at most one node more than it has connections:
   * every node but the output node feeds some connection on its way to
   * node 0, and a connection has only one feeding node.
   */
  lemma ConnectedFewNodes(g: Graph)
    requires Connected(g)
    ensures |g.nodes| <= |g.conns| + 1
  {
    forall x | 1 <= x < |g.nodes|
      ensures x in SourceNodes(g.conns)
    {
      assert ReachesSome(g.conns, x, 0);
      var f: nat :| Reaches(g.conns, x, 0, f);
      var i :| 0 <= i < |g.conns| && g.conns[i].outputNode == x && Reaches(g.conns, g.conns[i].inputNode, 0, f - 1);
    }
    CoversNonOutputs(SourceNodes(g.conns), |g.nodes|);
    SourceNodesBound(g.conns);
  }

  /** In a connected graph every connection's ends are among the nodes that feed node 0. */
  lemma ConnectedIsMapped(g: Graph, m: map<int, int>)
    requires EndpointsInRange(g) && Connected(g)
    requires forall x :: x in m <==> ReachesSome(g.conns, x, 0)
    ensures Mapped(g.conns, m, |g.conns|)
  {
  }

  /**
   * h is the hash of g under the connection hash code `key`: the connections
   * of g, renumbered from the output node as reindex numbers them, sorted and
   * packed.
   */
  ghost predicate HashOf(g: Graph, key: HashedConnection -> int, h: GraphHash)
  {
    EndpointsInRange(g) && Mapped(g.conns, Numbering(g), |g.conns|) &&
    h == GraphHash(HashBytes(SortBy(RelabelAll(g, Numbering(g), |g.conns|), key)))
  }

  class GraphHasher {
    var newIndexBuffer: map<int, int>
    var connectionBuffer: seq<HashedConnection>
    /**
     * The hash code of a connection, by which the buffer is sorted; the
     * connection class that defines it is not part of this model.
     */
    const connectionHash: HashedConnection -> int

    /** Between two hashes both buffers are empty. */
    ghost predicate Valid()
      reads this
    {
      newIndexBuffer == map[] && connectionBuffer == []
    }

    constructor (connectionHash: HashedConnection -> int)
      ensures Valid() && this.connectionHash == connectionHash
    {
      newIndexBuffer := map[];
      connectionBuffer := [];
      this.connectionHash := connectionHash;
    }

    /**
     * createHash: the hash of the graph's connections renumbered from the
     * output node and sorted. A connection with an end that does not feed
     * node 0 has no new number, which is a NullPointerException that leaves
     * both buffers filled; otherwise both are cleared again.
     */
    method CreateHash(graph: ImplNodeGraph.NodeGraph) returns (r: Result<GraphHash>, ghost indices: map<int, int>)
      requires Valid() && graph.Valid()
      modifies this
      ensures Numbered(indices, {}, 0, |indices|) && 0 in indices && indices[0] == 0
      ensures forall x :: x in indices <==> ReachesSome(graph.model.conns, x, 0)
      ensures indices == Numbering(graph.model)
      ensures r.Failure? <==> !Mapped(graph.model.conns, indices, |graph.model.conns|)
      ensures r.Failure? ==> r.error == NullPointer && newIndexBuffer == indices
      ensures r.Failure? ==> connectionBuffer == RelabelAll(graph.model, indices, FirstUnmapped(graph.model.conns, indices, 0))
      ensures r.Success? ==> Valid() && HashOf(graph.model, connectionHash, r.value)
      ensures r.Success? ==> r.value == GraphHash(HashBytes(SortBy(RelabelAll(graph.model, indices, |graph.model.conns|), connectionHash)))
    {
      newIndexBuffer := Reindex(graph, newIndexBuffer);
      indices := newIndexBuffer;
      var prepared := PrepareConnectionBuffer(graph);
      if prepared.Failure? {
        return Failure(prepared.error), indices;
      }
      var hash := HashConnectionList();
      connectionBuffer := [];
      newIndexBuffer := map[];
      r := Success(GraphHash(hash[..]));
    }

    /**
     * prepareConnectionBuffer: appends every connection, renumbered and with
     * the types of its end nodes, then sorts the buffer by connection hash
     * code. It stops at the first connection with an end that has no new
     * number.
     */
    method PrepareConnectionBuffer(graph: ImplNodeGraph.NodeGraph) returns (r: Result<()>)
      requires graph.Valid() && connectionBuffer == []
      modifies this
      ensures newIndexBuffer == old(newIndexBuffer)
      ensures r.Failure? <==> !Mapped(graph.model.conns, newIndexBuffer, |graph.model.conns|)
      ensures r.Failure? ==> r.error == NullPointer
      ensures r.Failure? ==> connectionBuffer == RelabelAll(graph.model, newIndexBuffer, FirstUnmapped(graph.model.conns, newIndexBuffer, 0))
      ensures r.Success? ==> connectionBuffer == SortBy(RelabelAll(graph.model, newIndexBuffer, |graph.model.conns|), connectionHash)
    {
      ghost var g := graph.model;
      var connectionCount := graph.GetConnectionCount();
      var connectionIndex := 0;
      while connectionIndex < connectionCount
        invariant 0 <= connectionIndex <= connectionCount == |g.conns|
        invariant newIndexBuffer == old(newIndexBuffer)
        invariant Mapped(g.conns, newIndexBuffer, connectionIndex)
        invariant connectionBuffer == RelabelAll(g, newIndexBuffer, connectionIndex)
      {
        var connection := new TypedConnection();
        var _ := graph.GetConnection(connectionIndex, connection);
        if connection.outputNode !in newIndexBuffer || connection.inputNode !in newIndexBuffer {
          assert FirstUnmapped(g.conns, newIndexBuffer, 0) == connectionIndex;
          return Failure(NullPointer);
        }
        connection.Set(newIndexBuffer[connection.outputNode], connection.outputPlug,
                       newIndexBuffer[connection.inputNode], connection.inputPlug,
                       connection.outputNodeType, connection.inputNodeType);
        connectionBuffer := connectionBuffer + [HashedConnection(connection.outputNode, connection.outputPlug,
          connection.inputNode, connection.inputPlug, connection.outputNodeType, connection.inputNodeType)];
        connectionIndex := connectionIndex + 1;
      }
      connectionBuffer := SortBy(connectionBuffer, connectionHash);
      return Success(());
    }

    /** hashConnectionList: the slot width as one byte, then six slots per buffered connection. */
    method HashConnectionList() returns (hash: array<Byte>)
      ensures fresh(hash) && hash[..] == HashBytes(connectionBuffer)
    {
      var max := GetHashSize();
      var numSize := WidthOf(max);
      ghost var cs := connectionBuffer;
      OffMul(6 * |cs|, numSize);
      hash := new Byte[|connectionBuffer| * 6 * numSize + 1];
      hash[0] := numSize;
      var j := 1;
      var k := 0;
      while k < |connectionBuffer|
        invariant 0 <= k <= |cs| && hash.Length == 1 + Off(6 * |cs|, numSize)
        invariant 1 <= j <= hash.Length
        invariant hash[..j] == [numSize] + EncodeAll(FieldList(cs[..k]), numSize)
      {
        var c := connectionBuffer[k];
        HashRoom(cs, k, numSize);
        ghost var h0 := hash[..j];
        j := WriteConnection(hash, numSize, j, c);
        WrittenStep(cs, k, numSize, h0, hash[..j]);
        k := k + 1;
      }
      assert cs[..k] == cs;
      EncodeAllLength(FieldList(cs), numSize);
      assert hash[..] == hash[..j];
    }

    /** getHashSize: the largest field of the buffered connections, or 0. */
    method GetHashSize() returns (max: int)
      ensures max == MaxOf(FieldList(connectionBuffer))
    {
      max := 0;
      var k := 0;
      while k < |connectionBuffer|
        invariant 0 <= k <= |connectionBuffer|
        invariant max == MaxOf(FieldList(connectionBuffer[..k]))
      {
        var c := connectionBuffer[k];
        MaxOfNext(connectionBuffer, k);
        max := Max(max, c.outputNode);
        max := Max(max, c.outputPlug);
        max := Max(max, c.inputNode);
        max := Max(max, c.inputPlug);
        max := Max(max, c.outputNodeType);
        max := Max(max, c.inputNodeType);
        k := k + 1;
      }
      assert connectionBuffer[..k] == connectionBuffer;
    }

    /** The six writes of one connection in hashConnectionList. */
    method WriteConnection(hash: array<Byte>, numSize: Width, j: int, c: HashedConnection) returns (next: int)
      requires 0 <= j && j + 6 * numSize <= hash.Length
      modifies hash
      ensures next == j + 6 * numSize
      ensures hash[..next] == old(hash[..j]) + EncodeAll(HashFields(c), numSize)
    {
      ghost var h0 := hash[..j];
      next := WriteNumber(hash, numSize, j, c.outputNode);
      ghost var h1 := hash[..next];
      next := WriteNumber(hash, numSize, next, c.outputPlug);
      ghost var h2 := hash[..next];
      next := WriteNumber(hash, numSize, next, c.inputNode);
      ghost var h3 := hash[..next];
      next := WriteNumber(hash, numSize, next, c.inputPlug);
      ghost var h4 := hash[..next];
      next := WriteNumber(hash, numSize, next, c.outputNodeType);
      ghost var h5 := hash[..next];
      next := WriteNumber(hash, numSize, next, c.inputNodeType);
      AppendSix(h0, HashFields(c), numSize);
    }

    /** writeNumber: the value's numSize-byte form at `index`; returns the index after it. */
    method WriteNumber(bytes: array<Byte>, numSize: Width, index: int, value: int) returns (next: int)
      requires 0 <= index && index + numSize <= bytes.Length
      modifies bytes
      ensures next == index + numSize
      ensures bytes[..next] == old(bytes[..index]) + Encode(value, numSize)
    {
      ByteCodec.WriteNumber(bytes, numSize, index, value);
      next := index + numSize;
    }
  }

  /** The hash of the first k connections leaves room for six more slots. */
  lemma HashRoom(cs: seq<HashedConnection>, k: int, n: nat)
    requires 0 <= k < |cs|
    ensures |EncodeAll(FieldList(cs[..k]), n)| + 6 * n <= Off(6 * |cs|, n)
  {
    EncodeAllLength(FieldList(cs[..k]), n);
    OffAdd(6 * k, 6, n);
    OffLe(6 * k + 6, 6 * |cs|, n);
  }

  /** Six encodings appended one by one are the encoding of the six values. */
  lemma AppendSix(before: seq<Byte>, vs: seq<int>, n: nat)
    requires |vs| == 6
    ensures before + Encode(vs[0], n) + Encode(vs[1], n) + Encode(vs[2], n) + Encode(vs[3], n) +
      Encode(vs[4], n) + Encode(vs[5], n) == before + EncodeAll(vs, n)
  {
    calc {
      before + EncodeAll(vs, n);
      { assert vs[..6] == vs; }
      before + EncodeAll(vs[..6], n);
      { EncodeAllSnoc(before, vs, 5, n); }
      before + EncodeAll(vs[..5], n) + Encode(vs[5], n);
      { EncodeAllSnoc(before, vs, 4, n); }
      before + EncodeAll(vs[..4], n) + Encode(vs[4], n) + Encode(vs[5], n);
      { EncodeAllSnoc(before, vs, 3, n); }
      before + EncodeAll(vs[..3], n) + Encode(vs[3], n) + Encode(vs[4], n) + Encode(vs[5], n);
      { EncodeAllSnoc(before, vs, 2, n); }
      before + EncodeAll(vs[..2], n) + Encode(vs[2], n) + Encode(vs[3], n) + Encode(vs[4], n) + Encode(vs[5], n);
      { EncodeAllSnoc(before, vs, 1, n); }
      before + EncodeAll(vs[..1], n) + Encode(vs[1], n) + Encode(vs[2], n) + Encode(vs[3], n) +
        Encode(vs[4], n) + Encode(vs[5], n);
      { EncodeAllSnoc(before, vs, 0, n); assert before + EncodeAll(vs[..0], n) == before by { assert vs[..0] == []; } }
      before + Encode(vs[0], n) + Encode(vs[1], n) + Encode(vs[2], n) + Encode(vs[3], n) +
        Encode(vs[4], n) + Encode(vs[5], n);
    }
  }

  /** Six slots written after the hash of the first k connections give the hash of the first k + 1. */
  lemma WrittenStep(cs: seq<HashedConnection>, k: int, n: Width, before: seq<Byte>, after: seq<Byte>)
    requires 0 <= k < |cs|
    requires before == [n] + EncodeAll(FieldList(cs[..k]), n)
    requires after == before + EncodeAll(HashFields(cs[k]), n)
    ensures after == [n] + EncodeAll(FieldList(cs[..k + 1]), n)
  {
    var vs := HashFields(cs[k]);
    FieldListStep(cs, k);
    EncodeAllAppend(FieldList(cs[..k]), vs, n);
    ConcatAssoc([n], EncodeAll(FieldList(cs[..k]), n), EncodeAll(vs, n));
  }

  /** Kept apart so that the step above does not unfold the encodings to regroup them. */
  lemma ConcatAssoc(x: seq<Byte>, a: seq<Byte>, b: seq<Byte>)
    ensures x + (a + b) == (x + a) + b
  {
  }
}

=== FILE: graph_queries.dfy ===
/**
 * Questions the search asks about a graph whose node types index the
 * function list of its environment: which function a node runs, how many
 * connections use a plug, how many input plugs are still open, and which
 * nodes a node feeds, directly or through others.
 */
module GraphQueries {
  import opened Functions
  import opened Layout

  /** The first k node types name functions of fs. */
  predicate TypesInRange(g: Graph, fs: seq<Function>, k: int)
  {
    0 <= k <= |g.nodes| && forall i :: 0 <= i < k ==> 0 <= g.nodes[i] < |fs|
  }

  /** Every node type names a function of fs and every connection joins existing nodes. */
  predicate Typed(g: Graph, fs: seq<Function>)
  {
    TypesInRange(g, fs, |g.nodes|) && EndpointsInRange(g)
  }

  /** getNodeAsFunction */
  function FunctionOf(g: Graph, fs: seq<Function>, node: int): Function
    requires Typed(g, fs) && 0 <= node < |g.nodes|
  {
    fs[g.nodes[node]]
  }

  /** `node` exists, its type names a function of fs, and that function has output plug `plug`. */
  predicate OutputPlugExists(g: Graph, fs: seq<Function>, node: int, plug: int)
  {
    0 <= node < |g.nodes| && 0 <= g.nodes[node] < |fs| && 0 <= plug < |fs[g.nodes[node]].outputs|
  }

  /** The number of connections leaving output plug `plug` of `node`. */
  function OutputUses(conns: seq<Conn>, node: int, plug: int): nat
  {
    if conns == [] then 0 else
      var last := conns[|conns| - 1];
      OutputUses(conns[..|conns| - 1], node, plug) + (if last.outputNode == node && last.outputPlug == plug then 1 else 0)
  }

  /** Some connection ends at input plug `plug` of `node`. */
  predicate HasInput(conns: seq<Conn>, node: int, plug: int)
  {
    exists i :: 0 <= i < |conns| && conns[i].inputNode == node && conns[i].inputPlug == plug
  }

  /** The input plugs of the first k nodes, summed. */
  function InputPlugs(g: Graph, fs: seq<Function>, k: int): int
    requires TypesInRange(g, fs, k)
  {
    if k == 0 then 0 else InputPlugs(g, fs, k - 1) + |fs[g.nodes[k - 1]].inputs|
  }

  /** countOpenPlugs: every input plug of every node, less one per connection. */
  function OpenPlugs(g: Graph, fs: seq<Function>): int
    requires Typed(g, fs)
  {
    InputPlugs(g, fs, |g.nodes|) - |g.conns|
  }

  /**
   * isParentOf: `b` is `a` or is fed, along output-to-input connections,
   * by `a`, within `fuel` connections.
   */
  predicate Reaches(conns: seq<Conn>, a: int, b: int, fuel: nat)
    decreases fuel
  {
    a == b ||
    (fuel > 0 && exists i :: 0 <= i < |conns| && conns[i].outputNode == a && Reaches(conns, conns[i].inputNode, b, fuel - 1))
  }

  /** `a` feeds `b`, through any number of connections. */
  ghost predicate ReachesSome(conns: seq<Conn>, a: int, b: int)
  {
    exists fuel: nat :: Reaches(conns, a, b, fuel)
  }

  /** The uses of a plug grow by one exactly when the appended connection leaves that plug. */
  lemma OutputUsesAppend(conns: seq<Conn>, c: Conn, node: int, plug: int)
    ensures OutputUses(conns + [c], node, plug) ==
      OutputUses(conns, node, plug) + (if c.outputNode == node && c.outputPlug == plug then 1 else 0)
  {
    assert (conns + [c])[..|conns|] == conns;
  }

  lemma {:induction false} OutputUsesPrefix(conns: seq<Conn>, k: int, node: int, plug: int)
    requires 0 <= k <= |conns|
    ensures OutputUses(conns[..k], node, plug) <= OutputUses(conns, node, plug)
    decreases |conns|
  {
    if k < |conns| {
      assert conns[..|conns| - 1][..k] == conns[..k];
      OutputUsesPrefix(conns[..|conns| - 1], k, node, plug);
    } else {
      assert conns[..k] == conns;
    }
  }

  /** One step of a counting loop over the connections. */
  lemma OutputUsesStep(conns: seq<Conn>, k: int, node: int, plug: int)
    requires 0 <= k < |conns|
    ensures OutputUses(conns[..k + 1], node, plug) == OutputUses(conns[..k], node, plug) +
      (if conns[k].outputNode == node && conns[k].outputPlug == plug then 1 else 0)
  {
    assert conns[..k + 1][..k] == conns[..k];
  }

  /** A plug is used at least once exactly when some connection leaves it. */
  lemma {:induction false} OutputUsesPositive(conns: seq<Conn>, node: int, plug: int)
    ensures OutputUses(conns, node, plug) > 0 <==>
      exists i :: 0 <= i < |conns| && conns[i].outputNode == node && conns[i].outputPlug == plug
  {
    if conns != [] {
      var init := conns[..|conns| - 1];
      OutputUsesPositive(init, node, plug);
      if exists i :: 0 <= i < |init| && init[i].outputNode == node && init[i].outputPlug == plug {
        var i :| 0 <= i < |init| && init[i].outputNode == node && init[i].outputPlug == plug;
        assert conns[i] == init[i];
      }
    }
  }

  /** More fuel never loses a connection path. */
  lemma {:induction false} ReachesMonotone(conns: seq<Conn>, a: int, b: int, fuel: nat, more: nat)
    requires fuel <= more && Reaches(conns, a, b, fuel)
    ensures Reaches(conns, a, b, more)
    decreases fuel
  {
    if a != b {
      var i :| 0 <= i < |conns| && conns[i].outputNode == a && Reaches(conns, conns[i].inputNode, b, fuel - 1);
      ReachesMonotone(conns, conns[i].inputNode, b, fuel - 1, more - 1);
    }
  }

  /** Paths compose: a path to b followed by a path from b is a path, within the summed fuel. */
  lemma {:induction false} ReachesTransitive(conns: seq<Conn>, a: int, b: int, c: int, f1: nat, f2: nat)
    requires Reaches(conns, a, b, f1) && Reaches(conns, b, c, f2)
    ensures Reaches(conns, a, c, f1 + f2)
    decreases f1
  {
    if a == b {
      ReachesMonotone(conns, b, c, f2, f1 + f2);
    } else {
      var i :| 0 <= i < |conns| && conns[i].outputNode == a && Reaches(conns, conns[i].inputNode, b, f1 - 1);
      ReachesTransitive(conns, conns[i].inputNode, b, c, f1 - 1, f2);
    }
  }

  /** Reachability depends only on which connections exist, not on their order. */
  lemma {:induction false} ReachesSubset(a: seq<Conn>, b: seq<Conn>, x: int, y: int, fuel: nat)
    requires forall c :: c in a ==> c in b
    requires Reaches(a, x, y, fuel)
    ensures Reaches(b, x, y, fuel)
    decreases fuel
  {
    if x != y {
      var i :| 0 <= i < |a| && a[i].outputNode == x && Reaches(a, a[i].inputNode, y, fuel - 1);
      ReachesSubset(a, b, a[i].inputNode, y, fuel - 1);
      assert a[i] in b;
      var k :| 0 <= k < |b| && b[k] == a[i];
    }
  }

  /**
   * The cycle guard of the search: once the new connection runs from `from`
   * into `to`, every node that reaches `from` in the grown graph already
   * reached it before, since a path that uses the new connection has passed
   * `from` first. In particular, if `to` did not reach `from`, the new
   * connection closes no cycle.
   */
  lemma {:induction false} NewEdgeAddsNoPathToItsSource(conns: seq<Conn>, c: Conn, x: int, fuel: nat)
    requires Reaches(conns + [c], x, c.outputNode, fuel)
    ensures Reaches(conns, x, c.outputNode, fuel)
    decreases fuel
  {
    var h := conns + [c];
    if x != c.outputNode {
      var i :| 0 <= i < |h| && h[i].outputNode == x && Reaches(h, h[i].inputNode, c.outputNode, fuel - 1);
      assert i < |conns| && h[i] == conns[i];
      NewEdgeAddsNoPathToItsSource(conns, c, h[i].inputNode, fuel - 1);
    }
  }
}

=== FILE: graph_writer.dfy ===
/**
 * The buffer writes both NodeGraph classes share. `addConnection` and
 * `addConnectionAndNode` are the same algorithm in the two classes: the
 * root class addresses its buffer by byte position (`j * numSize`), the
 * environment-aware class by slot index and multiplies inside its private
 * `writeNumber`/`readNumber`. The methods here take the byte positions and
 * the source graph's buffer explicitly, so that both classes call them.
 */
module GraphWriter {
  import opened ByteCodec
  import opened Layout

  /** `data` is the width-n buffer of the well-formed graph g. */
  ghost predicate Holds(data: array<Byte>, n: Width, g: Graph)
    reads data
  {
    data[..] == Packed(n, g) && WellFormed(g, n)
  }

  /** readNumber at slot j, that is at byte position j * n. */
  method ReadSlot(data: array<Byte>, n: Width, ghost g: Graph, j: int) returns (v: int)
    requires Holds(data, n, g) && 0 <= j < |Slots(g)|
    ensures v == Slots(g)[j]
  {
    PackedSlotRead(g, n, j);
    v := ReadNumber(data, n, j * n);
  }

  /**
   * writeNumber into a buffer being filled slot by slot: `bytes` holds the
   * encoding of the slots `vs` so far, and `value` is written at the next
   * slot position, where it encodes the slot value `w`.
   */
  method WriteSlot(bytes: array<Byte>, n: Width, pos: int, value: int, ghost vs: seq<int>, ghost w: int)
    requires pos == Off(|vs|, n) && pos + n <= bytes.Length
    requires bytes[..pos] == EncodeAll(vs, n)
    requires w == value || w == Stored(value, n)
    modifies bytes
    ensures Off(|vs| + 1, n) <= bytes.Length
    ensures bytes[..Off(|vs| + 1, n)] == EncodeAll(vs + [w], n)
  {
    StoredFits(value, n);
    WriteNumber(bytes, n, pos, value);
    AppendSlot(vs, w, value, n);
  }

  /**
   * The writes of newGraph: a buffer of two slots holding the node count 1
   * and the type of the one node.
   */
  method SingleNodeBuffer(n: Width, nodeType: int) returns (bytes: array<Byte>)
    ensures fresh(bytes) && Holds(bytes, n, Graph([Stored(nodeType, n)], []))
  {
    ghost var t := Stored(nodeType, n);
    ghost var g := Graph([t], []);
    OffMul(2, n);
    bytes := new Byte[2 * n];
    assert Off(1, n) == n;
    WriteSlot(bytes, n, 0, 1, [], 1);
    StoredFits(nodeType, n);
    WriteSlot(bytes, n, n, nodeType, [1], t);
    assert bytes[..] == bytes[..Off(2, n)] == EncodeAll([1, t], n);
    SingleNode(t, n);
    assert Slots(g) == [1, t];
    assert bytes[..] == Packed(n, g) && WellFormed(g, n);
  }

  /**
   * writeNumber at byte position pos = j * n, in a buffer of |target|
   * slots being filled in order: `value` is written where `target` expects
   * the slot value it reads back as.
   */
  method PutSlot(bytes: array<Byte>, n: Width, pos: int, value: int, ghost j: int, ghost target: seq<int>)
    requires pos == j * n
    requires Filled(bytes[..], target, j, n) && j < |target| && bytes.Length == Off(|target|, n)
    requires target[j] == value || target[j] == Stored(value, n)
    modifies bytes
    ensures Filled(bytes[..], target, j + 1, n)
  {
    OffMul(j, n);
    SlotBound(j, |target|, n);
    StoredFits(value, n);
    ghost var before := bytes[..];
    WriteNumber(bytes, n, pos, value);
    FilledNext(before, bytes[..], target, j, n, value);
  }

  /** Slot j + 1 starts n bytes after slot j. */
  lemma NextSlotPos(j: int, n: int)
    ensures (j + 1) * n == j * n + n
  {
  }

  /** Two consecutive writeNumber calls, at slots j and j + 1. */
  method PutPair(bytes: array<Byte>, n: Width, pos: int, first: int, second: int,
                 ghost j: int, ghost target: seq<int>)
    requires 0 <= j && pos == j * n
    requires Filled(bytes[..], target, j, n) && j + 2 <= |target| && bytes.Length == Off(|target|, n)
    requires target[j] == first || target[j] == Stored(first, n)
    requires target[j + 1] == second || target[j + 1] == Stored(second, n)
    modifies bytes
    ensures Filled(bytes[..], target, j + 2, n)
  {
    PutSlot(bytes, n, pos, first, j, target);
    NextSlotPos(j, n);
    PutSlot(bytes, n, pos + n, second, j + 1, target);
  }

  /**
   * The four trailing writeNumber calls of addConnection and
   * addConnectionAndNode: the fields of the new connection are written at
   * byte positions pos, pos + n, pos + n * 2 and pos + n * 3, which are
   * slots j to j + 3.
   */
  method PutConnection(bytes: array<Byte>, n: Width, pos: int,
                       outputNode: int, outputPlug: int, inputNode: int, inputPlug: int,
                       ghost j: int, ghost target: seq<int>)
    requires 0 <= j && pos == Off(j, n)
    requires Filled(bytes[..], target, j, n) && j + 4 <= |target| && bytes.Length == Off(|target|, n)
    requires target[j] == outputNode && target[j + 1] == Stored(outputPlug, n)
    requires target[j + 2] == inputNode && target[j + 3] == Stored(inputPlug, n)
    modifies bytes
    ensures Filled(bytes[..], target, j + 4, n)
  {
    OffMul(j, n);
    PutPair(bytes, n, pos, outputNode, outputPlug, j, target);
    NextSlotPos(j, n);
    NextSlotPos(j + 1, n);
    PutPair(bytes, n, pos + n * 2, inputNode, inputPlug, j + 2, target);
  }

  /**
   * The node loop of addConnectionAndNode: the type of every node of g is
   * read and written from slot j0 on; the slot after them is returned.
   */
  method CopyNodeTypes(data: array<Byte>, n: Width, ghost g: Graph, bytes: array<Byte>, j0: int,
                       ghost target: seq<int>) returns (j: int)
    requires Holds(data, n, g) && bytes != data
    requires Filled(bytes[..], target, j0, n) && bytes.Length == Off(|target|, n)
    requires j0 + |g.nodes| <= |target| && target[j0..j0 + |g.nodes|] == g.nodes
    modifies bytes
    ensures j == j0 + |g.nodes| && Filled(bytes[..], target, j, n)
  {
    var nodeCount := ReadSlot(data, n, g, 0);
    j := j0;
    var i := 0;
    while i < nodeCount
      invariant 0 <= i <= nodeCount && j == j0 + i
      invariant Filled(bytes[..], target, j, n)
    {
      var typ := ReadSlot(data, n, g, i + 1);
      NodeSlotTarget(g, target, j0, i);
      PutSlot(bytes, n, j * n, typ, j, target);
      j := j + 1;
      i := i + 1;
    }
  }

  /**
   * The connection loop of addConnectionAndNode: the connection slots of g
   * are copied, one readNumber and writeNumber at a time, from slot j0 on;
   * the slot after them is returned.
   */
  method CopyConnectionSlots(data: array<Byte>, n: Width, ghost g: Graph, bytes: array<Byte>, j0: int,
                             ghost target: seq<int>) returns (j: int)
    requires Holds(data, n, g) && bytes != data
    requires Filled(bytes[..], target, j0, n) && bytes.Length == Off(|target|, n)
    requires j0 + 4 * |g.conns| <= |target| && target[j0..j0 + 4 * |g.conns|] == Fields(g.conns)
    modifies bytes
    ensures j == j0 + 4 * |g.conns| && Filled(bytes[..], target, j, n)
  {
    var nodeCount := ReadSlot(data, n, g, 0);
    var connCount := JavaDiv(data.Length / n - 1 - nodeCount, 4);
    assert connCount == |g.conns| && nodeCount == |g.nodes| by {
      CountsOfPacked(g, n);
    }
    j := j0;
    var i := 0;
    while i < connCount * 4
      invariant 0 <= i <= connCount * 4 == 4 * |g.conns| && j == j0 + i
      invariant Filled(bytes[..], target, j, n)
    {
      FieldSlotTarget(g, target, j0, i);
      var v := ReadSlot(data, n, g, nodeCount + 1 + i);
      PutSlot(bytes, n, j * n, v, j, target);
      j := j + 1;
      i := i + 1;
    }
  }

  /** The copy of addConnection: the bytes of `data` become the start of `bytes`. */
  method CopyData(data: array<Byte>, bytes: array<Byte>)
    requires bytes != data && data.Length <= bytes.Length
    modifies bytes
    ensures bytes[..data.Length] == data[..]
  {
    var i := 0;
    while i < data.Length
      invariant 0 <= i <= data.Length
      invariant bytes[..i] == data[..i]
    {
      bytes[i] := data[i];
      i := i + 1;
    }
  }

  /**
   * The writes of addConnection: g's bytes are copied into a buffer four
   * slots longer, and the connection's fields fill the last four slots, so
   * that the buffer encodes `target`.
   */
  method CopyWithConnection(data: array<Byte>, n: Width, ghost g: Graph,
                            outputNode: int, outputPlug: int, inputNode: int, inputPlug: int,
                            ghost target: seq<int>)
    returns (bytes: array<Byte>)
    requires Holds(data, n, g)
    requires ConnGrown(g, Conn(outputNode, Stored(outputPlug, n), inputNode, Stored(inputPlug, n)), target)
    ensures fresh(bytes) && bytes[..] == EncodeAll(target, n)
  {
    ConnGrownLength(g, Conn(outputNode, Stored(outputPlug, n), inputNode, Stored(inputPlug, n)), target, n);
    bytes := new Byte[data.Length + (n as int) * 4];
    CopyData(data, bytes);
    ConnGrownFilled(bytes[..], data[..], g,
      Conn(outputNode, Stored(outputPlug, n), inputNode, Stored(inputPlug, n)), target, n);
    PutConnection(bytes, n, data.Length, outputNode, outputPlug, inputNode, inputPlug, |Slots(g)|, target);
    FilledAll(bytes[..], target, |target|, n);
  }

  /**
   * The writes of addConnectionAndNode, into a buffer five slots longer
   * than g's: the node slots, then the connection slots, which together
   * encode `target`.
   */
  method WriteGrown(data: array<Byte>, n: Width, ghost g: Graph,
                    nodeType: int, outputPlug: int, inputNode: int, inputPlug: int, ghost target: seq<int>)
    returns (bytes: array<Byte>)
    requires Holds(data, n, g)
    requires Grown(g, Stored(nodeType, n), Conn(|g.nodes|, Stored(outputPlug, n), inputNode, Stored(inputPlug, n)),
      target)
    ensures fresh(bytes) && bytes[..] == EncodeAll(target, n)
  {
    GrownLength(g, Stored(nodeType, n), Conn(|g.nodes|, Stored(outputPlug, n), inputNode, Stored(inputPlug, n)),
      target, n);
    bytes := new Byte[data.Length + 5 * (n as int)];
    WriteNodeSlots(data, n, g, bytes, nodeType, target,
      Conn(|g.nodes|, Stored(outputPlug, n), inputNode, Stored(inputPlug, n)));
    WriteConnectionSlots(data, n, g, bytes, outputPlug, inputNode, inputPlug, target, Stored(nodeType, n));
    FilledAll(bytes[..], target, |target|, n);
  }

  /**
   * The first half of addConnectionAndNode's writes: the new node count,
   * the type of every node of g and the new node's type.
   */
  method WriteNodeSlots(data: array<Byte>, n: Width, ghost g: Graph, bytes: array<Byte>, nodeType: int,
                        ghost target: seq<int>, ghost c: Conn)
    requires Holds(data, n, g) && bytes != data
    requires Grown(g, Stored(nodeType, n), c, target) && bytes.Length == Off(|target|, n)
    modifies bytes
    ensures Filled(bytes[..], target, |g.nodes| + 2, n)
  {
    var nodeCount := ReadSlot(data, n, g, 0);
    assert Filled(bytes[..], target, 0, n);
    PutSlot(bytes, n, 0, nodeCount + 1, 0, target);
    var j := CopyNodeTypes(data, n, g, bytes, 1, target);
    PutSlot(bytes, n, j * n, nodeType, j, target);
  }

  /**
   * The second half of addConnectionAndNode's writes: the connection slots
   * of g, then the four fields of the new connection, whose output node is
   * the new node.
   */
  method WriteConnectionSlots(data: array<Byte>, n: Width, ghost g: Graph, bytes: array<Byte>,
                              outputPlug: int, inputNode: int, inputPlug: int, ghost target: seq<int>, ghost t: int)
    requires Holds(data, n, g) && bytes != data
    requires Grown(g, t, Conn(|g.nodes|, Stored(outputPlug, n), inputNode, Stored(inputPlug, n)), target)
    requires Filled(bytes[..], target, |g.nodes| + 2, n) && bytes.Length == Off(|target|, n)
    modifies bytes
    ensures Filled(bytes[..], target, |target|, n)
  {
    var nodeCount := ReadSlot(data, n, g, 0);
    var j := CopyConnectionSlots(data, n, g, bytes, nodeCount + 2, target);
    GrownTail(g, t, Conn(|g.nodes|, Stored(outputPlug, n), inputNode, Stored(inputPlug, n)), target, j);
    OffMul(j, n);
    PutConnection(bytes, n, j * n, nodeCount, outputPlug, inputNode, inputPlug, j, target);
  }
}

=== FILE: impl_node_container.dfy ===
/**
 * The work queue of the environment-aware engine: a priority queue of
 * graphs handed out best score first, the list of solutions waiting to be
 * collected, and two counters, of the graphs taken from the queue and of
 * the graphs not yet finished. The queue is kept as the multiset of its
 * graphs; the counters are Java ints and wrap around.
 */
module ImplNodeContainer {
  import opened Wrappers
  import opened ByteCodec
  import opened ImplNodeGraph

  /** compareTo puts no graph of q before g: g is a graph the queue may hand out first. */
  ghost predicate First(q: multiset<NodeGraph>, g: NodeGraph)
    reads q, g
  {
    g in q && forall h :: h in q ==> g.CompareTo(h) <= 0
  }

  /** A non-empty queue has a first graph. */
  lemma {:induction false} FirstExists(q: multiset<NodeGraph>)
    requires q != multiset{}
    ensures exists g :: First(q, g)
    decreases |q|
  {
    var x :| x in q;
    var rest := q - multiset{x};
    assert q == rest + multiset{x};
    if rest == multiset{} {
      assert First(q, x);
    } else {
      FirstExists(rest);
      var y :| First(rest, y);
      var best := if x.heuristic >= y.heuristic then x else y;
      forall h | h in q
        ensures best.CompareTo(h) <= 0
      {
        if h != x {
          assert h in rest && y.CompareTo(h) <= 0;
        }
      }
      assert First(q, best);
    }
  }

  /** The graph handed out first is the best one: any two candidates carry the same score, the highest in the queue. */
  lemma FirstIsBest(q: multiset<NodeGraph>, a: NodeGraph, b: NodeGraph)
    requires First(q, a) && b in q
    ensures a.heuristic >= b.heuristic
    ensures First(q, b) ==> a.heuristic == b.heuristic
  {
    assert a.CompareTo(b) <= 0;
  }

  /** Index i holds the first graph of s that x equals. */
  ghost predicate FirstEqualAt(s: seq<NodeGraph>, x: NodeGraph, i: int)
    reads x, x.data, s, set j | 0 <= j < |s| :: s[j].data
  {
    0 <= i < |s| && x.Equals(s[i]) && forall j :: 0 <= j < i ==> !x.Equals(s[j])
  }

  class NodeContainer {
    /** The graphs waiting to be expanded. */
    var queue: multiset<NodeGraph>
    /** The solutions waiting to be collected, in the order they were added. */
    var solutions: seq<NodeGraph>
    /** The graphs taken from the queue so far. */
    var totalGraphs: int
    /** The graphs added to the queue and not yet finished. */
    var unprocessedGraphs: int

    constructor ()
      ensures queue == multiset{} && solutions == [] && totalGraphs == 0 && unprocessedGraphs == 0
    {
      queue := multiset{};
      solutions := [];
      totalGraphs := 0;
      unprocessedGraphs := 0;
    }

    /** addNodeGraph: the graph joins the queue and one more graph is unprocessed. */
    method AddNodeGraph(graph: NodeGraph)
      modifies this
      ensures queue == old(queue) + multiset{graph}
      ensures unprocessedGraphs == Wrap32(old(unprocessedGraphs) + 1)
      ensures solutions == old(solutions) && totalGraphs == old(totalGraphs)
    {
      queue := queue + multiset{graph};
      unprocessedGraphs := Wrap32(unprocessedGraphs + 1);
    }

    /**
     * getNodeGraph: poll, a graph with the highest score leaves the queue
     * and is counted as searched; null (None) when the queue is empty, and
     * then nothing is counted.
     */
    method GetNodeGraph() returns (r: Option<NodeGraph>)
      modifies this
      ensures r.None? <==> old(queue) == multiset{}
      ensures r.None? ==> queue == old(queue) && totalGraphs == old(totalGraphs)
      ensures r.Some? ==> First(old(queue), r.value) && queue == old(queue) - multiset{r.value}
      ensures r.Some? ==> totalGraphs == Wrap32(old(totalGraphs) + 1)
      ensures solutions == old(solutions) && unprocessedGraphs == old(unprocessedGraphs)
    {
      if queue == multiset{} {
        return None;
      }
      FirstExists(queue);
      var graph :| graph in queue && forall h :: h in queue ==> graph.CompareTo(h) <= 0;
      queue := queue - multiset{graph};
      totalGraphs := Wrap32(totalGraphs + 1);
      return Some(graph);
    }

    /** sort: every graph of a snapshot of the queue is added back to the emptied queue. */
    method Sort()
      modifies this
      ensures queue == old(queue)
      ensures solutions == old(solutions) && totalGraphs == old(totalGraphs) && unprocessedGraphs == old(unprocessedGraphs)
    {
      var snapshot := queue;
      queue := multiset{};
      var rest := snapshot;
      while rest != multiset{}
        modifies this`queue
        invariant queue + rest == snapshot
        decreases |rest|
      {
        var o :| o in rest;
        queue := queue + multiset{o};
        rest := rest - multiset{o};
      }
    }

    /**
     * update: when the queue holds a graph that equals the argument, one
     * such graph is removed and the argument is added; otherwise nothing
     * changes. A queued graph that no other queued graph equals is thus
     * put back as it was.
     */
    method Update(graph: NodeGraph)
      modifies this
      ensures (forall e :: e in old(queue) ==> !graph.Equals(e)) ==> queue == old(queue)
      ensures (exists e :: e in old(queue) && graph.Equals(e)) ==>
        exists e :: e in old(queue) && graph.Equals(e) && queue == old(queue) - multiset{e} + multiset{graph}
      ensures graph in old(queue) && (forall e :: e in old(queue) && graph.Equals(e) ==> e == graph) ==> queue == old(queue)
      ensures |queue| == |old(queue)|
      ensures solutions == old(solutions) && totalGraphs == old(totalGraphs) && unprocessedGraphs == old(unprocessedGraphs)
    {
      if exists e :: e in queue && graph.Equals(e) {
        var e :| e in queue && graph.Equals(e);
        ghost var q := queue;
        queue := queue - multiset{e} + multiset{graph};
        assert e in q && graph.Equals(e) && queue == q - multiset{e} + multiset{graph};
      }
    }

    /** size: the graphs in the queue, not counting solutions. */
    function Size(): (r: nat)
      reads this
      ensures r == |queue|
    {
      |queue|
    }

    /** getSolutionCount */
    function GetSolutionCount(): (r: nat)
      reads this
      ensures r == |solutions|
    {
      |solutions|
    }

    /** getSolution: the solution at an index, IndexOutOfBoundsException outside the list. */
    function GetSolution(index: int): (r: Result<NodeGraph>)
      reads this
      ensures r.Success? <==> 0 <= index < |solutions|
      ensures r.Success? ==> r.value == solutions[index]
      ensures r.Failure? ==> r.error == IndexOutOfBounds
    {
      if 0 <= index < |solutions| then Success(solutions[index]) else Failure(IndexOutOfBounds)
    }

    /**
     * removeSolution: nothing for null (None); otherwise the first solution
     * the argument equals leaves the list, which is unchanged when there is
     * none.
     */
    method RemoveSolution(solution: Option<NodeGraph>)
      modifies this
      ensures solution.None? ==> solutions == old(solutions)
      ensures solution.Some? && (forall j :: 0 <= j < |old(solutions)| ==> !solution.value.Equals(old(solutions)[j])) ==>
        solutions == old(solutions)
      ensures solution.Some? && (exists j :: 0 <= j < |old(solutions)| && solution.value.Equals(old(solutions)[j])) ==>
        exists i :: FirstEqualAt(old(solutions), solution.value, i) && solutions == old(solutions)[..i] + old(solutions)[i + 1..]
      ensures queue == old(queue) && totalGraphs == old(totalGraphs) && unprocessedGraphs == old(unprocessedGraphs)
    {
      if solution.None? {
        return;
      }
      var x := solution.value;
      var i := 0;
      while i < |solutions|
        invariant 0 <= i <= |solutions| && solutions == old(solutions)
        invariant forall j :: 0 <= j < i ==> !x.Equals(solutions[j])
      {
        if x.Equals(solutions[i]) {
          assert FirstEqualAt(solutions, x, i);
          solutions := solutions[..i] + solutions[i + 1..];
          return;
        }
        i := i + 1;
      }
    }

    /** addSolution: the solution is appended. */
    method AddSolution(solution: NodeGraph)
      modifies this
      ensures solutions == old(solutions) + [solution]
      ensures queue == old(queue) && totalGraphs == old(totalGraphs) && unprocessedGraphs == old(unprocessedGraphs)
    {
      solutions := solutions + [solution];
    }

    /** getTotalGraphsSearched */
    function GetTotalGraphsSearched(): (r: int)
      reads this
      ensures r == totalGraphs
    {
      totalGraphs
    }

    /** getRemainingGraphs */
    function GetRemainingGraphs(): (r: int)
      reads this
      ensures r == unprocessedGraphs
    {
      unprocessedGraphs
    }

    /** finishGraph: one unprocessed graph fewer. */
    method FinishGraph()
      modifies this
      ensures unprocessedGraphs == Wrap32(old(unprocessedGraphs) - 1)
      ensures queue == old(queue) && solutions == old(solutions) && totalGraphs == old(totalGraphs)
    {
      unprocessedGraphs := Wrap32(unprocessedGraphs - 1);
    }
  }
}

=== FILE: impl_node_graph.dfy ===
/**
 * NodeGraph of the impl package: the same packed byte layout as the root
 * NodeGraph, but the graph belongs to an environment, whose minimum byte
 * count fixes the slot width (which may be 3), and whose function list
 * gives every node type a function. Edits return a new graph; only the
 * heuristic score is assigned in place.
 */
module ImplNodeGraph {
  import opened Wrappers
  import opened ByteCodec
  import opened ByteUtils
  import opened Layout
  import opened Connections
  import opened GraphWriter
  import opened Functions
  import opened GraphQueries
  import opened Environments

  /** A heuristic score; the float of the source is modelled as an ordered integer. */
  type Score = int

  class NodeGraph {
    const environment: Environment
    const numSize: Width
    const data: array<Byte>
    var heuristic: Score
    /** The graph the buffer holds. */
    ghost const model: Graph

    /** The buffer holds the model, in slots as wide as the environment asks. */
    ghost predicate Valid()
      reads data
    {
      Holds(data, numSize, model) && numSize == MinByteCount(environment)
    }

    /** The private constructor: a zero score around a filled buffer. */
    constructor Of(environment: Environment, data: array<Byte>, ghost model: Graph)
      ensures this.environment == environment && this.numSize == MinByteCount(environment)
      ensures this.data == data && this.model == model && heuristic == 0
    {
      this.environment := environment;
      this.numSize := MinByteCount(environment);
      this.data := data;
      this.model := model;
      heuristic := 0;
    }

    /** newGraph: a graph of the environment holding only the output node. */
    static method NewGraph(environment: Environment, nodeType: int) returns (graph: NodeGraph)
      ensures fresh(graph) && fresh(graph.data) && graph.Valid()
      ensures graph.environment == environment && graph.heuristic == 0
      ensures graph.model == Graph([Stored(nodeType, MinByteCount(environment))], [])
    {
      var n := GetMinByteCount(environment);
      var bytes := SingleNodeBuffer(n, nodeType);
      graph := new NodeGraph.Of(environment, bytes, Graph([Stored(nodeType, n)], []));
    }

    /** getNodeCount: slot 0 of the buffer. */
    method GetNodeCount() returns (count: int)
      requires Valid()
      ensures count == |model.nodes|
    {
      CountsOfPacked(model, numSize);
      count := ReadNumber(data, numSize, 0);
    }

    /** getNodeType: the type of an existing node; any other index is out of bounds. */
    method GetNodeType(node: int) returns (r: Result<int>)
      requires Valid()
      ensures r.Failure? <==> !(0 <= node < |model.nodes|)
      ensures r.Failure? ==> r.error == IndexOutOfBounds
      ensures r.Success? ==> r.value == model.nodes[node]
    {
      var count := GetNodeCount();
      if node < 0 || node >= count {
        return Failure(IndexOutOfBounds);
      }
      var t := ReadSlot(data, numSize, model, node + 1);
      return Success(t);
    }

    /** getConnectionCount: the slots after the node types, in groups of four. */
    method GetConnectionCount() returns (count: int)
      requires Valid()
      ensures count == |model.conns|
    {
      CountsOfPacked(model, numSize);
      var nodes := GetNodeCount();
      count := JavaDiv(data.Length / numSize - 1 - nodes, 4);
    }

    /**
     * getConnection: copies connection `index`, and the types of the nodes
     * at both of its ends, into `out`; any other index is out of bounds.
     */
    method GetConnection(index: int, out: TypedConnection) returns (r: Result<()>)
      requires Valid()
      modifies out
      ensures r.Failure? <==> !(0 <= index < |model.conns|)
      ensures r.Failure? ==> r.error == IndexOutOfBounds && unchanged(out)
      ensures r.Success? ==> out.Value() == model.conns[index]
      ensures r.Success? ==> out.outputNodeType == model.nodes[model.conns[index].outputNode]
      ensures r.Success? ==> out.inputNodeType == model.nodes[model.conns[index].inputNode]
    {
      var count := GetConnectionCount();
      if index < 0 || index >= count {
        return Failure(IndexOutOfBounds);
      }
      var nodes := GetNodeCount();
      var off := nodes + 1 + index * 4;
      ConnFieldSlot(model, index, 0);
      ConnFieldSlot(model, index, 1);
      ConnFieldSlot(model, index, 2);
      ConnFieldSlot(model, index, 3);
      var a := ReadSlot(data, numSize, model, off + 0);
      var b := ReadSlot(data, numSize, model, off + 1);
      var c := ReadSlot(data, numSize, model, off + 2);
      var d := ReadSlot(data, numSize, model, off + 3);
      var outputType := GetNodeType(a);
      var inputType := GetNodeType(c);
      out.Set(a, b, c, d, outputType.value, inputType.value);
      return Success(());
    }

    /** addConnection: a copy of this graph with one more connection between existing nodes. */
    method AddConnection(outputNode: int, outputPlug: int, inputNode: int, inputPlug: int)
      returns (r: Result<NodeGraph>)
      requires Valid()
      ensures r.Failure? <==> !(0 <= outputNode < |model.nodes|) || !(0 <= inputNode < |model.nodes|)
      ensures r.Failure? ==> r.error == IndexOutOfBounds
      ensures r.Success? ==> fresh(r.value) && fresh(r.value.data) && r.value.Valid()
      ensures r.Success? ==> r.value.environment == environment && r.value.heuristic == 0
      ensures r.Success? ==> r.value.model == Graph(model.nodes, model.conns +
        [Conn(outputNode, Stored(outputPlug, numSize), inputNode, Stored(inputPlug, numSize))])
    {
      var count := GetNodeCount();
      if outputNode < 0 || outputNode >= count {
        return Failure(IndexOutOfBounds);
      }
      if inputNode < 0 || inputNode >= count {
        return Failure(IndexOutOfBounds);
      }
      var n := numSize;
      ghost var c := Conn(outputNode, Stored(outputPlug, n), inputNode, Stored(inputPlug, n));
      ghost var next := Graph(model.nodes, model.conns + [c]);
      SlotsAppendConnAt(model, c);
      var bytes := CopyWithConnection(data, n, model, outputNode, outputPlug, inputNode, inputPlug, Slots(next));
      StoredFits(outputPlug, n);
      StoredFits(inputPlug, n);
      WellFormedAppendConn(model, c, n);
      var graph := new NodeGraph.Of(environment, bytes, next);
      return Success(graph);
    }

    /**
     * addConnectionAndNode: a copy of this graph with a new node whose output
     * feeds an existing node. When the new node count no longer fits its
     * slot it is truncated, and the result no longer describes a well-formed
     * graph.
     */
    method AddConnectionAndNode(nodeType: int, outputPlug: int, inputNode: int, inputPlug: int)
      returns (r: Result<NodeGraph>)
      requires Valid()
      ensures r.Failure? <==> !(0 <= inputNode < |model.nodes|)
      ensures r.Failure? ==> r.error == IndexOutOfBounds
      ensures r.Success? ==> fresh(r.value) && fresh(r.value.data)
      ensures r.Success? ==> r.value.environment == environment && r.value.heuristic == 0
      ensures r.Success? ==> r.value.model == Graph(model.nodes + [Stored(nodeType, numSize)], model.conns +
        [Conn(|model.nodes|, Stored(outputPlug, numSize), inputNode, Stored(inputPlug, numSize))])
      ensures r.Success? ==> r.value.data[..] == Packed(numSize, r.value.model)
      ensures r.Success? ==> (r.value.Valid() <==> Fits(|model.nodes| + 1, numSize))
    {
      var count := GetNodeCount();
      if inputNode < 0 || inputNode >= count {
        return Failure(IndexOutOfBounds);
      }
      var n := numSize;
      ghost var c := Conn(count, Stored(outputPlug, n), inputNode, Stored(inputPlug, n));
      ghost var t := Stored(nodeType, n);
      ghost var next := Graph(model.nodes + [t], model.conns + [c]);
      ghost var target := Slots(next);
      SlotsAppendNodeAt(model, t, c);
      var bytes := WriteGrown(data, n, model, nodeType, outputPlug, inputNode, inputPlug, target);
      StoredFits(nodeType, n);
      StoredFits(outputPlug, n);
      StoredFits(inputPlug, n);
      WellFormedAppendNode(model, t, c, n);
      var graph := new NodeGraph.Of(environment, bytes, next);
      return Success(graph);
    }

    /**
     * The graph this buffer describes, read node by node and connection by
     * connection through the accessors. The axioms and heuristics of a
     * search read a graph only through those accessors, so this model hands
     * them the graph they describe.
     */
    method ToGraph() returns (g: Graph)
      requires Valid()
      ensures g == model
    {
      var nodeCount := GetNodeCount();
      var nodes: seq<int> := [];
      while |nodes| < nodeCount
        invariant nodeCount == |model.nodes| && |nodes| <= nodeCount
        invariant nodes == model.nodes[..|nodes|]
      {
        var t := GetNodeType(|nodes|);
        nodes := nodes + [t.value];
      }
      var connection := new TypedConnection();
      var connectionCount := GetConnectionCount();
      var conns: seq<Conn> := [];
      while |conns| < connectionCount
        invariant connectionCount == |model.conns| && |conns| <= connectionCount
        invariant conns == model.conns[..|conns|]
      {
        var _ := GetConnection(|conns|, connection);
        conns := conns + [connection.Value()];
      }
      assert nodes == model.nodes && conns == model.conns;
      return Graph(nodes, conns);
    }

    function GetNumberSize(): Width
    {
      numSize
    }

    function GetEnvironment(): Environment
    {
      environment
    }

    function GetHeuristicScore(): Score
      reads this
    {
      heuristic
    }

    /** setHeuristicScore: the one field assigned in place. */
    method SetHeuristicScore(h: Score)
      modifies this`heuristic
      ensures heuristic == h
    {
      heuristic := h;
    }

    /** compareTo: graphs sort by descending score, so the best graph comes first. */
    function CompareTo(o: NodeGraph): (r: int)
      reads this, o
      ensures r < 0 <==> heuristic > o.heuristic
      ensures r > 0 <==> heuristic < o.heuristic
    {
      if heuristic > o.heuristic then -1 else if heuristic < o.heuristic then 1 else 0
    }

    /** equals: the same object, or equal bytes and (within the float tolerance, here exactly) equal scores. */
    predicate Equals(o: NodeGraph)
      reads this, o, data, o.data
    {
      o == this || (data[..] == o.data[..] && heuristic == o.heuristic)
    }

    /** hashCode: the hash of the bytes alone. */
    function HashCode(): (r: int)
      reads data
      ensures IsInt32(r)
    {
      ArraysHashCode(data[..])
    }

    /**
     * countOpenPlugs: the input plugs of every node less one per connection.
     * A node type that names no function of the environment is an error.
     */
    method CountOpenPlugs() returns (r: Result<int>)
      requires Valid()
      ensures r.Failure? <==> !Typed(model, environment.functions)
      ensures r.Failure? ==> r.error == IndexOutOfBounds
      ensures r.Success? ==> Typed(model, environment.functions) && r.value == OpenPlugs(model, environment.functions)
    {
      var connections := GetConnectionCount();
      var openPlugs := -connections;
      var nodeCount := GetNodeCount();
      var nodeIndex := 0;
      while nodeIndex < nodeCount
        invariant 0 <= nodeIndex <= nodeCount == |model.nodes|
        invariant TypesInRange(model, environment.functions, nodeIndex)
        invariant openPlugs == InputPlugs(model, environment.functions, nodeIndex) - |model.conns|
      {
        var t := GetNodeType(nodeIndex);
        var nodeType := t.value;
        if nodeType < 0 || nodeType >= |environment.functions| {
          return Failure(IndexOutOfBounds);
        }
        openPlugs := openPlugs + |environment.functions[nodeType].inputs|;
        nodeIndex := nodeIndex + 1;
      }
      return Success(openPlugs);
    }

    /** getNodeAsFunction: the function of a node; a missing node or an unknown type is out of bounds. */
    method GetNodeAsFunction(index: int) returns (r: Result<Function>)
      requires Valid()
      ensures r.Failure? <==> !(0 <= index < |model.nodes| && 0 <= model.nodes[index] < |environment.functions|)
      ensures r.Failure? ==> r.error == IndexOutOfBounds
      ensures r.Success? ==> r.value == environment.functions[model.nodes[index]]
    {
      var t := GetNodeType(index);
      if t.Failure? {
        return Failure(t.error);
      }
      if t.value < 0 || t.value >= |environment.functions| {
        return Failure(IndexOutOfBounds);
      }
      return Success(environment.functions[t.value]);
    }

    /**
     * getOutputConnectionCount: how many connections leave an output plug
     * of a node; a missing node, an unknown type or a plug the node's
     * function does not have is out of bounds.
     */
    method GetOutputConnectionCount(nodeIndex: int, plugIndex: int) returns (r: Result<int>)
      requires Valid()
      ensures r.Failure? <==> !OutputPlugExists(model, environment.functions, nodeIndex, plugIndex)
      ensures r.Failure? ==> r.error == IndexOutOfBounds
      ensures r.Success? ==> r.value == OutputUses(model.conns, nodeIndex, plugIndex)
    {
      var count := GetNodeCount();
      if nodeIndex < 0 || nodeIndex >= count {
        return Failure(IndexOutOfBounds);
      }
      var f := GetNodeAsFunction(nodeIndex);
      if f.Failure? {
        return Failure(f.error);
      }
      if plugIndex < 0 || plugIndex >= |f.value.outputs| {
        return Failure(IndexOutOfBounds);
      }
      var connection := new TypedConnection();
      var cons := 0;
      var connectionCount := GetConnectionCount();
      var k := 0;
      while k < connectionCount
        invariant 0 <= k <= connectionCount == |model.conns|
        invariant cons == OutputUses(model.conns[..k], nodeIndex, plugIndex)
      {
        var _ := GetConnection(k, connection);
        OutputUsesStep(model.conns, k, nodeIndex, plugIndex);
        if connection.outputNode == nodeIndex && connection.outputPlug == plugIndex {
          cons := cons + 1;
        }
        k := k + 1;
      }
      assert model.conns[..k] == model.conns;
      return Success(cons);
    }
  }

  /** compareTo is antisymmetric: swapping the graphs negates the answer. */
  lemma CompareToAntisymmetric(a: NodeGraph, b: NodeGraph)
    ensures a.CompareTo(b) == -b.CompareTo(a)
  {
  }

  /** Equal graphs have equal hash codes. */
  lemma EqualsHashCode(a: NodeGraph, b: NodeGraph)
    requires a.Equals(b)
    ensures a.HashCode() == b.HashCode()
  {
  }

  /** Two well-formed graphs of the same width whose bytes are equal hold the same graph. */
  lemma EqualsSameGraph(a: NodeGraph, b: NodeGraph)
    requires a.Valid() && b.Valid() && a.numSize == b.numSize && a.Equals(b)
    ensures a.model == b.model
  {
    if a != b {
      PackedInjective(a.model, b.model, a.numSize);
    }
  }

  /**
   * In an environment whose counts fit an int, a node type that indexes the
   * function list is stored unchanged, so a new node runs the function asked for.
   */
  lemma FunctionIndexStored(env: Environment, nodeType: int)
    requires 0 <= nodeType < |env.functions|
    requires |env.functions| <= INT_MAX && MaxPlugs(env.functions) <= INT_MAX && env.nDepth <= INT_MAX
    ensures Stored(nodeType, MinByteCount(env)) == nodeType
  {
    MinByteCountHolds(env, nodeType);
    ReadEncode(nodeType, MinByteCount(env));
  }
}

=== FILE: impl_search_tree.dfy ===
/**
 * The search tree of the environment-aware engine. One call of
 * placeNeighbors expands a graph at a single plug: the first input plug
 * without a connection, scanning nodes from the last to the first and the
 * plugs of a node in order. Every child passes through processGraph, which
 * drops it if an axiom fails. Otherwise it joins the solutions (when no
 * open plug remains and the solution axioms hold) or the output graphs
 * with its summed heuristic score.
 */
module ImplSearchTree {
  import opened Wrappers
  import opened ByteCodec
  import opened Functions
  import opened Layout
  import opened GraphQueries
  import opened Axioms
  import opened Environments
  import opened Connections
  import opened Paths
  import opened SearchRules
  import opened ImplNodeGraph
  import GraphHashers

  /** The first input plug of `node`, from plug p on, without a connection. */
  function OpenPlugFrom(g: Graph, fs: seq<Function>, node: int, p: nat): Option<int>
    requires Typed(g, fs) && 0 <= node < |g.nodes|
    decreases |FunctionOf(g, fs, node).inputs| - p
  {
    if p >= |FunctionOf(g, fs, node).inputs| then None
    else if !HasInput(g.conns, node, p) then Some(p)
    else OpenPlugFrom(g, fs, node, p + 1)
  }

  /** The plug placeNeighbors fills among nodes 0..k-1: the first open plug of the last node that has one. */
  function FirstOpen(g: Graph, fs: seq<Function>, k: nat): Option<Target>
    requires Typed(g, fs) && k <= |g.nodes|
  {
    if k == 0 then None
    else match OpenPlugFrom(g, fs, k - 1, 0)
      case Some(p) => Some(Target(k - 1, p))
      case None => FirstOpen(g, fs, k - 1)
  }

  /** Input plug `plug` of `node` exists and has no connection. */
  predicate IsOpen(g: Graph, fs: seq<Function>, node: int, plug: int)
    requires Typed(g, fs)
  {
    0 <= node < |g.nodes| && 0 <= plug < |FunctionOf(g, fs, node).inputs| && !HasInput(g.conns, node, plug)
  }

  /** The room the depth bound leaves for a new node's inputs: connections + open plugs + new inputs <= maxDepth. */
  function Room(g: Graph, env: Environment): int
    requires Typed(g, env.functions)
  {
    env.nDepth - |g.conns| - OpenPlugs(g, env.functions)
  }

  /** The inputs a move's new node brings, none for a reuse move. */
  function NewOpen(fs: seq<Function>, m: Move): nat
  {
    if m.Create? && 0 <= m.fn < |fs| then |fs[m.fn].inputs| else 0
  }

  /** The solution flag processGraph receives: the target was the only open plug and the move opens none. */
  function Flag(g: Graph, fs: seq<Function>, m: Move): bool
    requires Typed(g, fs)
  {
    OpenPlugs(g, fs) - 1 == 0 && NewOpen(fs, m) == 0
  }

  /** The children of one call, in the order they are built: reuse moves, then create moves. */
  ghost function Moves(g: Graph, env: Environment, compat: Compat, t: Target): seq<Move>
    requires Typed(g, env.functions) && IsTarget(g, env.functions, t)
  {
    var ty := TargetType(g, env.functions, t);
    ReuseMoves(g, env.functions, Downstream(g, t.node), ty, compat, |g.nodes|) + CreateMoves(env.functions, ty, compat, Room(g, env), |env.functions|)
  }

  /** processGraph queues a child when every axiom holds and it is not flagged as a solution. */
  ghost predicate Queues(g: Graph, env: Environment, t: Target, m: Move, custom: (int, Graph) -> bool)
    requires Typed(g, env.functions)
  {
    AllHold(env.axioms, Apply(g, t, m), env.functions, custom) && !Flag(g, env.functions, m)
  }

  /** processGraph keeps a flagged child as a solution when the axioms and the solution axioms hold. */
  ghost predicate Solves(g: Graph, env: Environment, t: Target, m: Move, custom: (int, Graph) -> bool)
    requires Typed(g, env.functions)
  {
    AllHold(env.axioms, Apply(g, t, m), env.functions, custom) && Flag(g, env.functions, m) &&
    AllHold(env.solutionAxioms, Apply(g, t, m), env.functions, custom)
  }

  /** The children of the moves ms that processGraph queues, in order. */
  ghost function Queued(g: Graph, env: Environment, t: Target, ms: seq<Move>, custom: (int, Graph) -> bool): seq<Graph>
    requires Typed(g, env.functions)
  {
    if ms == [] then []
    else
      var m := ms[|ms| - 1];
      Queued(g, env, t, ms[..|ms| - 1], custom) + (if Queues(g, env, t, m, custom) then [Apply(g, t, m)] else [])
  }

  /** The children of the moves ms that processGraph keeps as solutions, in order. */
  ghost function Solved(g: Graph, env: Environment, t: Target, ms: seq<Move>, custom: (int, Graph) -> bool): seq<Graph>
    requires Typed(g, env.functions)
  {
    if ms == [] then []
    else
      var m := ms[|ms| - 1];
      Solved(g, env, t, ms[..|ms| - 1], custom) + (if Solves(g, env, t, m, custom) then [Apply(g, t, m)] else [])
  }

  /** The output lists hold what they held at the start and then the outcome of the moves ms. */
  ghost predicate Recorded(go0: seq<NodeGraph>, so0: seq<NodeGraph>, graphOut: seq<NodeGraph>, solutionOut: seq<NodeGraph>,
                           g: Graph, env: Environment, t: Target, ms: seq<Move>, custom: (int, Graph) -> bool)
  {
    Typed(g, env.functions) && go0 <= graphOut && so0 <= solutionOut &&
    Models(graphOut) == Models(go0) + Queued(g, env, t, ms, custom) &&
    Models(solutionOut) == Models(so0) + Solved(g, env, t, ms, custom)
  }

  lemma RecordedStart(go0: seq<NodeGraph>, so0: seq<NodeGraph>, g: Graph, env: Environment, t: Target, custom: (int, Graph) -> bool)
    requires Typed(g, env.functions)
    ensures Recorded(go0, so0, go0, so0, g, env, t, [], custom)
  {
  }

  /** processGraph on the child of move m extends the record by m. */
  lemma RecordedStep(go0: seq<NodeGraph>, so0: seq<NodeGraph>, gout: seq<NodeGraph>, sout: seq<NodeGraph>,
                     gout': seq<NodeGraph>, sout': seq<NodeGraph>, child: NodeGraph,
                     g: Graph, env: Environment, t: Target, ms: seq<Move>, m: Move, custom: (int, Graph) -> bool)
    requires Recorded(go0, so0, gout, sout, g, env, t, ms, custom)
    requires child.model == Apply(g, t, m)
    requires gout' == gout + (if Queues(g, env, t, m, custom) then [child] else [])
    requires sout' == sout + (if Solves(g, env, t, m, custom) then [child] else [])
    ensures Recorded(go0, so0, gout', sout', g, env, t, ms + [m], custom)
  {
    assert (ms + [m])[..|ms|] == ms;
    if Queues(g, env, t, m, custom) {
      ModelsAppend(gout, child);
    } else {
      assert gout' == gout;
    }
    if Solves(g, env, t, m, custom) {
      ModelsAppend(sout, child);
    } else {
      assert sout' == sout;
    }
  }

  /** A move whose child processGraph never sees leaves the record as it is. */
  lemma RecordedSkip(go0: seq<NodeGraph>, so0: seq<NodeGraph>, gout: seq<NodeGraph>, sout: seq<NodeGraph>,
                     g: Graph, env: Environment, t: Target, ms: seq<Move>, skipped: seq<Move>, custom: (int, Graph) -> bool)
    requires Recorded(go0, so0, gout, sout, g, env, t, ms, custom) && skipped == []
    ensures Recorded(go0, so0, gout, sout, g, env, t, ms + skipped, custom)
  {
    assert ms + skipped == ms;
  }

  /** The moves of a list of blocks, one block after the other. */
  function Concat(blocks: seq<seq<Move>>): seq<Move>
  {
    if blocks == [] then [] else Concat(blocks[..|blocks| - 1]) + blocks[|blocks| - 1]
  }

  lemma ConcatAppend(blocks: seq<seq<Move>>, b: seq<Move>)
    ensures Concat(blocks + [b]) == Concat(blocks) + b
  {
    assert (blocks + [b])[..|blocks|] == blocks;
  }

  /** Blocks that are the reuse blocks of candidates 0..k-1 make up the reuse moves over them. */
  lemma {:induction false} BlocksAreReuseMoves(g: Graph, fs: seq<Function>, down: set<int>, ty: DataType, compat: Compat,
                                               blocks: seq<seq<Move>>, k: nat)
    requires Typed(g, fs) && k <= |g.nodes| && |blocks| == k
    requires forall p :: 0 <= p < k ==> blocks[p] == ReuseBlock(g, fs, down, ty, compat, p)
    ensures Concat(blocks) == ReuseMoves(g, fs, down, ty, compat, k)
  {
    if k > 0 {
      BlocksAreReuseMoves(g, fs, down, ty, compat, blocks[..k - 1], k - 1);
    }
  }

  /** A graph placeNeighbors may expand at target t: a valid buffer, typed nodes, int-sized counts. */
  ghost predicate Expandable(graph: NodeGraph, t: Target)
    reads graph.data
  {
    graph.Valid() && Typed(graph.model, graph.environment.functions) && IntSized(graph.environment) &&
    IsTarget(graph.model, graph.environment.functions, t)
  }

  /** The setting of addNewConnections' inner loop: an open target of type ty, a node from it may reuse and the solution flag. */
  ghost predicate ReuseSite(graph: NodeGraph, t: Target, ty: DataType, from: int, solution: bool)
    reads graph.data
  {
    Expandable(graph, t) &&
    ty == FunctionOf(graph.model, graph.environment.functions, t.node).inputs[t.plug] &&
    0 <= from < |graph.model.nodes| && from !in Downstream(graph.model, t.node) &&
    solution == Flag(graph.model, graph.environment.functions, Reuse(from, 0))
  }

  /** The setting of addNewNodes' inner loop: an open target of type ty, a function fn and the solution flag of its children. */
  ghost predicate PlugSite(graph: NodeGraph, t: Target, ty: DataType, fn: int, solution: bool)
    reads graph.data
  {
    Expandable(graph, t) && Fits(|graph.model.nodes| + 1, graph.numSize) &&
    ty == FunctionOf(graph.model, graph.environment.functions, t.node).inputs[t.plug] &&
    0 <= fn < |graph.environment.functions| &&
    solution == Flag(graph.model, graph.environment.functions, Create(fn, 0))
  }

  lemma ReusePlugsNext(done: seq<Move>, outs: seq<DataType>, from: int, ty: DataType, compat: Compat, k: nat)
    requires k < |outs|
    ensures done + ReusePlugs(outs, from, ty, compat, k + 1) ==
      done + ReusePlugs(outs, from, ty, compat, k) + (if compat(outs[k], ty) then [Reuse(from, k)] else [])
  {
  }

  lemma CreatePlugsNext(done: seq<Move>, outs: seq<DataType>, fn: int, ty: DataType, compat: Compat, k: nat)
    requires k < |outs|
    ensures done + CreatePlugs(outs, fn, ty, compat, k + 1) ==
      done + CreatePlugs(outs, fn, ty, compat, k) + (if compat(outs[k], ty) then [Create(fn, k)] else [])
  {
  }

  /** Blocks that are the create blocks of functions 0..k-1 make up the create moves over them. */
  lemma {:induction false} BlocksAreCreateMoves(fs: seq<Function>, ty: DataType, compat: Compat, room: int,
                                                blocks: seq<seq<Move>>, k: nat)
    requires k <= |fs| && |blocks| == k
    requires forall p :: 0 <= p < k ==> blocks[p] == CreateBlock(fs, ty, compat, room, p)
    ensures Concat(blocks) == CreateMoves(fs, ty, compat, room, k)
  {
    if k > 0 {
      BlocksAreCreateMoves(fs, ty, compat, room, blocks[..k - 1], k - 1);
    }
  }

  /** Two records in a row make one record of both move lists. */
  lemma RecordedConcat(go0: seq<NodeGraph>, so0: seq<NodeGraph>, go1: seq<NodeGraph>, so1: seq<NodeGraph>,
                       go2: seq<NodeGraph>, so2: seq<NodeGraph>, g: Graph, env: Environment, t: Target,
                       a: seq<Move>, b: seq<Move>, custom: (int, Graph) -> bool)
    requires Recorded(go0, so0, go1, so1, g, env, t, a, custom)
    requires Recorded(go1, so1, go2, so2, g, env, t, b, custom)
    ensures Recorded(go0, so0, go2, so2, g, env, t, a + b, custom)
  {
    QueuedAppend(g, env, t, a, b, custom);
    AppendAssociates(Models(go0), Queued(g, env, t, a, custom), Queued(g, env, t, b, custom));
    AppendAssociates(Models(so0), Solved(g, env, t, a, custom), Solved(g, env, t, b, custom));
  }

  lemma AppendAssociates(x: seq<Graph>, y: seq<Graph>, z: seq<Graph>)
    ensures x + y + z == x + (y + z)
  {
  }

  /** The outcome of a list of moves is the outcome of its first part followed by that of the rest. */
  lemma {:induction false} QueuedAppend(g: Graph, env: Environment, t: Target, a: seq<Move>, b: seq<Move>, custom: (int, Graph) -> bool)
    requires Typed(g, env.functions)
    ensures Queued(g, env, t, a + b, custom) == Queued(g, env, t, a, custom) + Queued(g, env, t, b, custom)
    ensures Solved(g, env, t, a + b, custom) == Solved(g, env, t, a, custom) + Solved(g, env, t, b, custom)
    decreases |b|
  {
    if b != [] {
      var init := b[..|b| - 1];
      assert (a + b)[..|a + b| - 1] == a + init;
      QueuedAppend(g, env, t, a, init, custom);
    } else {
      assert a + b == a;
    }
  }

  /** hasConnection, the same in both search trees: whether some connection ends at the plug. */
  method HasConnection(graph: NodeGraph, nodeIndex: int, inputPlugIndex: int, connectionBuf: TypedConnection) returns (r: bool)
    requires graph.Valid()
    modifies connectionBuf
    ensures r == HasInput(graph.model.conns, nodeIndex, inputPlugIndex)
  {
    var connectionCount := graph.GetConnectionCount();
    var connectionIndex := 0;
    while connectionIndex < connectionCount
      invariant 0 <= connectionIndex <= connectionCount == |graph.model.conns|
      invariant forall k :: 0 <= k < connectionIndex ==>
        !(graph.model.conns[k].inputNode == nodeIndex && graph.model.conns[k].inputPlug == inputPlugIndex)
    {
      var _ := graph.GetConnection(connectionIndex, connectionBuf);
      if connectionBuf.inputNode == nodeIndex && connectionBuf.inputPlug == inputPlugIndex {
        return true;
      }
      connectionIndex := connectionIndex + 1;
    }
    return false;
  }

  /** The call of isParentOf in addNewConnections, bounded by the node count: it decides reachability. */
  method IsParent(graph: NodeGraph, parentNode: int, childNode: int, connectionBuf: TypedConnection) returns (r: bool)
    requires graph.Valid()
    modifies connectionBuf
    ensures r == ReachesSome(graph.model.conns, parentNode, childNode)
  {
    var nodeCount := graph.GetNodeCount();
    r := IsParentOf(graph, parentNode, childNode, nodeCount, connectionBuf);
    NodeCountIsEnoughFuel(graph.model.conns, parentNode, childNode, nodeCount);
  }

  /**
   * isParentOf: whether `parentNode` is `childNode` or feeds it. The
   * recursion is bounded by `fuel`; addNewConnections passes the node
   * count, which finds every path.
   */
  method IsParentOf(graph: NodeGraph, parentNode: int, childNode: int, fuel: nat, connectionBuf: TypedConnection) returns (r: bool)
    requires graph.Valid()
    modifies connectionBuf
    ensures r == Reaches(graph.model.conns, parentNode, childNode, fuel)
    decreases fuel
  {
    if parentNode == childNode {
      return true;
    }
    if fuel == 0 {
      return false;
    }
    ghost var conns := graph.model.conns;
    var connectionCount := graph.GetConnectionCount();
    var connectionIndex := 0;
    while connectionIndex < connectionCount
      invariant 0 <= connectionIndex <= connectionCount == |conns|
      invariant forall k :: 0 <= k < connectionIndex && conns[k].outputNode == parentNode ==>
        !Reaches(conns, conns[k].inputNode, childNode, fuel - 1)
    {
      var _ := graph.GetConnection(connectionIndex, connectionBuf);
      if connectionBuf.outputNode == parentNode {
        var found := IsParentOf(graph, connectionBuf.inputNode, childNode, fuel - 1, connectionBuf);
        if found {
          return true;
        }
      }
      connectionIndex := connectionIndex + 1;
    }
    return false;
  }

  /** The environment of the width finding: the output function, a one-input function and an input function; depth 255. */
  function ChainEnv(): Environment
  {
    Environment([Function(OutputKind, 0, [0], []), Function(OtherKind, 1, [0], [0]), Function(InputKind, 2, [], [0])],
                [], [], [], 255)
  }

  /** The output node fed by a chain of k nodes of the one-input function, of which the last is still open. */
  function Chain(k: nat): Graph
  {
    Graph(seq(k + 1, i => if i == 0 then 0 else 1), seq(k, i => Conn(i + 1, 0, i, 0)))
  }

  /** Every node of a chain has one input plug. */
  lemma {:induction false} ChainInputs(k: nat, m: nat)
    requires m <= k + 1
    ensures TypesInRange(Chain(k), ChainEnv().functions, m) && InputPlugs(Chain(k), ChainEnv().functions, m) == m
  {
    if m > 0 {
      ChainInputs(k, m - 1);
    }
  }

  /** Node x of a chain feeds the output node through x connections. */
  lemma {:induction false} ChainReaches(k: nat, x: nat)
    requires x <= k
    ensures Reaches(Chain(k).conns, x, 0, x)
  {
    if x > 0 {
      ChainReaches(k, x - 1);
      assert Chain(k).conns[x - 1] == Conn(x, 0, x - 1, 0);
    }
  }

  /** A chain is a typed, connected graph that the search may hand to placeNeighbors. */
  lemma ChainIsQueued(k: nat)
    requires 0 < k <= 254
    ensures var g := Chain(k); var fs := ChainEnv().functions;
      Typed(g, fs) && GraphHashers.Connected(g) && OpenPlugs(g, fs) == 1 && QueueShape(g, ChainEnv())
  {
    var g := Chain(k);
    ChainInputs(k, k + 1);
    forall x | 0 <= x < |g.nodes|
      ensures ReachesSome(g.conns, x, 0)
    {
      ChainReaches(k, x);
    }
  }

  /** The open plug of a chain is the last node's input, and it is the one placeNeighbors fills. */
  lemma ChainFirstOpen(k: nat)
    requires 0 < k <= 254
    ensures Typed(Chain(k), ChainEnv().functions) &&
      FirstOpen(Chain(k), ChainEnv().functions, k + 1) == Some(Target(k, 0))
  {
    ChainIsQueued(k);
    assert !HasInput(Chain(k).conns, k, 0);
  }

  /** Creating an input node at the open plug of a chain closes the last plug. */
  lemma ChainGrown(k: nat)
    requires 0 < k <= 254
    ensures var fs := ChainEnv().functions; var child := Apply(Chain(k), Target(k, 0), Create(2, 0));
      Typed(child, fs) && OpenPlugs(child, fs) == 0 && |child.conns| == k + 1 && |child.nodes| == k + 2
  {
    var fs := ChainEnv().functions;
    var g := Chain(k);
    var child := Apply(g, Target(k, 0), Create(2, 0));
    ChainInputs(k, k + 1);
    assert child.nodes == g.nodes + [2];
    assert TypesInRange(child, fs, k + 1) by {
      assert forall i :: 0 <= i < k + 1 ==> child.nodes[i] == g.nodes[i];
    }
    InputPlugsPrefix(g, child, fs, k + 1);
  }

  /** Creating an input node at the open plug of a chain is one of the moves addNewNodes makes. */
  lemma ChainCreate(k: nat)
    requires 0 < k <= 254
    ensures var env := ChainEnv(); var g := Chain(k);
      Typed(g, env.functions) && IsTarget(g, env.functions, Target(k, 0)) &&
      Create(2, 0) in CreateMoves(env.functions, TargetType(g, env.functions, Target(k, 0)), (a, b) => a == b, Room(g, env), 3)
  {
    var env := ChainEnv();
    var g := Chain(k);
    ChainIsQueued(k);
    CreateMovesAre(env.functions, TargetType(g, env.functions, Target(k, 0)), (a, b) => a == b, Room(g, env), 3, Create(2, 0));
  }

  /** The chain environment: one byte as written, two bytes corrected, and what each does to a count of 256. */
  lemma ChainWidths()
    ensures IntSized(ChainEnv())
    ensures WrittenMinByteCount(ChainEnv()) == 1 && Stored(256, 1) == 0
    ensures MinByteCount(ChainEnv()) == 2 && Stored(256, 2) == 256
  {
    ChainPlugs();
    CountSlot();
  }

  /** A count of 256 is lost in a one-byte slot and kept in a two-byte one. */
  lemma CountSlot()
    ensures Stored(256, 1) == 0 && Stored(256, 2) == 256
  {
    Pow256Values();
    StoredFits(256, 2);
    StoredIsDecoded(256, 1);
  }

  /** No function of the chain environment has more than one plug on a side. */
  lemma ChainPlugs()
    ensures MaxPlugs(ChainEnv().functions) == 1
  {
    var fs := ChainEnv().functions;
    assert fs[..2][..1] == fs[..1];
  }

  /**
   * As written, getMinByteCount picks a width that the search outgrows.
   * With depth 255 the width is one byte. The chain of 255 nodes is a graph
   * the search queues, and its open plug is the one placeNeighbors fills.
   * Creating an input node there passes the depth test of addNewNodes and
   * that of processGraph. The child has 256 nodes, which its one-byte count
   * slot holds as 0. The corrected width is two bytes and holds 256.
   */
  lemma WrittenWidthLosesCount()
    ensures var env := ChainEnv(); var fs := env.functions; var g := Chain(254); var t := Target(254, 0);
      var child := Apply(g, t, Create(2, 0));
      Typed(g, fs) && GraphHashers.Connected(g) && QueueShape(g, env) && IntSized(env) &&
      FirstOpen(g, fs, |g.nodes|) == Some(t) &&
      Create(2, 0) in CreateMoves(fs, TargetType(g, fs, t), (a, b) => a == b, Room(g, env), |fs|) &&
      Typed(child, fs) && |child.conns| + OpenPlugs(child, fs) <= env.nDepth &&
      |child.nodes| == 256 && Stored(|child.nodes|, WrittenMinByteCount(env)) == 0 &&
      Stored(|child.nodes|, MinByteCount(env)) == 256
  {
    ChainIsQueued(254);
    ChainFirstOpen(254);
    ChainCreate(254);
    ChainGrown(254);
    ChainWidths();
  }

  class SearchTree {
    const connectionBuf: TypedConnection
    /** The children queued so far, each with its score. */
    var graphOut: seq<NodeGraph>
    /** The solutions found so far. */
    var solutionOut: seq<NodeGraph>
    /** canConnectTo of the data types. */
    const canConnect: Compat
    /** isValid of the axioms a user supplies, by identity. */
    const custom: (int, Graph) -> bool
    /** estimateHeuristic of the heuristics, by identity; the source sums floats. */
    const estimate: (Heuristic, Graph) -> int

    constructor (canConnect: Compat, custom: (int, Graph) -> bool, estimate: (Heuristic, Graph) -> int)
      ensures graphOut == [] && solutionOut == [] && Scored()
      ensures this.canConnect == canConnect && this.custom == custom && this.estimate == estimate
    {
      connectionBuf := new TypedConnection();
      graphOut := [];
      solutionOut := [];
      this.canConnect := canConnect;
      this.custom := custom;
      this.estimate := estimate;
    }

    /** getOutputGraphs */
    function GetOutputGraphs(): seq<NodeGraph>
      reads this
    {
      graphOut
    }

    /** getSolutions */
    function GetSolutions(): seq<NodeGraph>
      reads this
    {
      solutionOut
    }

    /** Every queued graph carries the summed estimate of its environment's heuristics. */
    ghost predicate Scored()
      reads this, graphOut
    {
      forall i :: 0 <= i < |graphOut| ==>
        graphOut[i].heuristic == HeuristicSum(graphOut[i].environment.heuristics, graphOut[i].model, estimate)
    }

    /**
     * placeNeighbors: expands the graph at FirstOpen, reuse moves first and
     * then create moves; a graph without an open plug has no children.
     */
    method PlaceNeighbors(graph: NodeGraph)
      requires graph.Valid() && Typed(graph.model, graph.environment.functions) && IntSized(graph.environment)
      requires GraphHashers.Connected(graph.model) && QueueShape(graph.model, graph.environment) && |graph.model.nodes| < INT_MAX
      requires Scored()
      modifies this, connectionBuf
      ensures Scored()
      ensures FirstOpen(graph.model, graph.environment.functions, |graph.model.nodes|).None? ==>
        graphOut == old(graphOut) && solutionOut == old(solutionOut)
      ensures FirstOpen(graph.model, graph.environment.functions, |graph.model.nodes|).Some? ==>
        var t := FirstOpen(graph.model, graph.environment.functions, |graph.model.nodes|).value;
        IsTarget(graph.model, graph.environment.functions, t) &&
        Recorded(old(graphOut), old(solutionOut), graphOut, solutionOut, graph.model, graph.environment, t,
                 Moves(graph.model, graph.environment, canConnect, t), custom)
    {
      ghost var g := graph.model;
      ghost var fs := graph.environment.functions;
      ChildCountFits(g, graph.environment);
      var nodeCount := graph.GetNodeCount();
      var nodeIndex := nodeCount - 1;
      while nodeIndex >= 0
        invariant -1 <= nodeIndex < nodeCount == |g.nodes|
        invariant FirstOpen(g, fs, nodeCount) == FirstOpen(g, fs, nodeIndex + 1)
        invariant graphOut == old(graphOut) && solutionOut == old(solutionOut)
      {
        var nodeType := graph.GetNodeAsFunction(nodeIndex);
        var inputPlugs := |nodeType.value.inputs|;
        var inputPlugIndex := 0;
        while inputPlugIndex < inputPlugs
          invariant 0 <= inputPlugIndex <= inputPlugs == |FunctionOf(g, fs, nodeIndex).inputs|
          invariant OpenPlugFrom(g, fs, nodeIndex, 0) == OpenPlugFrom(g, fs, nodeIndex, inputPlugIndex)
          invariant graphOut == old(graphOut) && solutionOut == old(solutionOut)
        {
          var connected := HasConnection(graph, nodeIndex, inputPlugIndex, connectionBuf);
          if !connected {
            ghost var t := Target(nodeIndex, inputPlugIndex);
            assert FirstOpen(g, fs, nodeCount) == Some(t);
            AddNewConnections(graph, nodeIndex, inputPlugIndex);
            ghost var gout, sout := graphOut, solutionOut;
            AddNewNodes(graph, nodeIndex, inputPlugIndex);
            ghost var ty := TargetType(g, fs, t);
            RecordedConcat(old(graphOut), old(solutionOut), gout, sout, graphOut, solutionOut, g, graph.environment, t,
              ReuseMoves(g, fs, Downstream(g, nodeIndex), ty, canConnect, |g.nodes|), CreateMoves(fs, ty, canConnect, Room(g, graph.environment), |fs|), custom);
            return;
          }
          inputPlugIndex := inputPlugIndex + 1;
        }
        nodeIndex := nodeIndex - 1;
      }
    }

    /**
     * addNewConnections: for every node the target node does not reach,
     * and every compatible output plug of it, the child with that
     * connection goes to processGraph.
     */
    method AddNewConnections(graph: NodeGraph, nodeIndex: int, inputPlugIndex: int)
      requires Expandable(graph, Target(nodeIndex, inputPlugIndex))
      requires Scored()
      modifies this, connectionBuf
      ensures Scored()
      ensures var t := Target(nodeIndex, inputPlugIndex);
        Recorded(old(graphOut), old(solutionOut), graphOut, solutionOut, graph.model, graph.environment, t,
          ReuseMoves(graph.model, graph.environment.functions, Downstream(graph.model, nodeIndex), TargetType(graph.model, graph.environment.functions, t),
                     canConnect, |graph.model.nodes|), custom)
    {
      var nodeType := graph.GetNodeAsFunction(nodeIndex);
      var nodeInputs := nodeType.value.inputs;
      var nodeCount := graph.GetNodeCount();
      var open := graph.CountOpenPlugs();
      var openPlugs := open.value - 1;
      ghost var done, blocks := ConnectParents(graph, nodeIndex, inputPlugIndex, nodeInputs, nodeCount, openPlugs == 0);
      BlocksAreReuseMoves(graph.model, graph.environment.functions, Downstream(graph.model, nodeIndex), nodeInputs[inputPlugIndex],
                          canConnect, blocks, nodeCount);
    }

    /**
     * The loop of addNewConnections over the candidate nodes, given the
     * target's input types, the node count and the solution flag computed
     * before it. The moves it tries are recorded block by block, one block
     * per candidate.
     */
    method ConnectParents(graph: NodeGraph, nodeIndex: int, inputPlugIndex: int, nodeInputs: seq<DataType>, nodeCount: int,
                          solution: bool)
      returns (ghost done: seq<Move>, ghost blocks: seq<seq<Move>>)
      requires Expandable(graph, Target(nodeIndex, inputPlugIndex))
      requires nodeInputs == FunctionOf(graph.model, graph.environment.functions, nodeIndex).inputs
      requires nodeCount == |graph.model.nodes|
      requires solution == Flag(graph.model, graph.environment.functions, Reuse(0, 0))
      requires Scored()
      modifies this, connectionBuf
      ensures Scored()
      ensures |blocks| == nodeCount && done == Concat(blocks)
      ensures forall p :: 0 <= p < nodeCount ==>
        blocks[p] == ReuseBlock(graph.model, graph.environment.functions, Downstream(graph.model, nodeIndex), nodeInputs[inputPlugIndex],
                                canConnect, p)
      ensures Recorded(old(graphOut), old(solutionOut), graphOut, solutionOut, graph.model, graph.environment,
                       Target(nodeIndex, inputPlugIndex), done, custom)
    {
      ghost var g := graph.model;
      ghost var env := graph.environment;
      ghost var fs := env.functions;
      ghost var t := Target(nodeIndex, inputPlugIndex);
      ghost var ty := nodeInputs[inputPlugIndex];
      done := [];
      blocks := [];
      RecordedStart(graphOut, solutionOut, g, env, t, custom);
      var parentNodeIndex := 0;
      while parentNodeIndex < nodeCount
        invariant 0 <= parentNodeIndex <= nodeCount
        invariant |blocks| == parentNodeIndex && done == Concat(blocks)
        invariant forall p :: 0 <= p < parentNodeIndex ==> blocks[p] == ReuseBlock(g, fs, Downstream(g, nodeIndex), ty, canConnect, p)
        invariant Recorded(old(graphOut), old(solutionOut), graphOut, solutionOut, g, env, t, done, custom)
        invariant Scored()
      {
        ghost var blk := TryParent(graph, nodeIndex, inputPlugIndex, nodeInputs, parentNodeIndex, solution,
                                   old(graphOut), old(solutionOut), done);
        ConcatAppend(blocks, blk);
        blocks := blocks + [blk];
        done := done + blk;
        parentNodeIndex := parentNodeIndex + 1;
      }
    }

    /** The body of addNewConnections' loop: the plugs of one candidate node, unless the target node reaches it. */
    method TryParent(graph: NodeGraph, nodeIndex: int, inputPlugIndex: int, nodeInputs: seq<DataType>,
                     parentNodeIndex: int, solution: bool,
                     ghost go0: seq<NodeGraph>, ghost so0: seq<NodeGraph>, ghost done: seq<Move>)
      returns (ghost blk: seq<Move>)
      requires Expandable(graph, Target(nodeIndex, inputPlugIndex))
      requires nodeInputs == FunctionOf(graph.model, graph.environment.functions, nodeIndex).inputs
      requires 0 <= parentNodeIndex < |graph.model.nodes|
      requires solution == Flag(graph.model, graph.environment.functions, Reuse(0, 0))
      requires Recorded(go0, so0, graphOut, solutionOut, graph.model, graph.environment, Target(nodeIndex, inputPlugIndex), done, custom)
      requires Scored()
      modifies this, connectionBuf
      ensures Scored()
      ensures blk == ReuseBlock(graph.model, graph.environment.functions, Downstream(graph.model, nodeIndex), nodeInputs[inputPlugIndex],
                                canConnect, parentNodeIndex)
      ensures Recorded(go0, so0, graphOut, solutionOut, graph.model, graph.environment, Target(nodeIndex, inputPlugIndex), done + blk, custom)
    {
      blk := ReuseBlock(graph.model, graph.environment.functions, Downstream(graph.model, nodeIndex), nodeInputs[inputPlugIndex],
                        canConnect, parentNodeIndex);
      var isParent := IsParent(graph, nodeIndex, parentNodeIndex, connectionBuf);
      if isParent {
        assert done + [] == done;
        return;
      }
      var parentNodeType := graph.GetNodeAsFunction(parentNodeIndex);
      var parentOutputs := parentNodeType.value.outputs;
      ConnectParent(graph, nodeIndex, inputPlugIndex, nodeInputs, parentNodeIndex, parentOutputs, solution, go0, so0, done);
    }

    /** The inner loop of addNewConnections: the compatible output plugs of one node the target does not reach. */
    method ConnectParent(graph: NodeGraph, nodeIndex: int, inputPlugIndex: int, nodeInputs: seq<DataType>,
                         parentNodeIndex: int, parentOutputs: seq<DataType>, solution: bool,
                         ghost go0: seq<NodeGraph>, ghost so0: seq<NodeGraph>, ghost done: seq<Move>)
      requires Expandable(graph, Target(nodeIndex, inputPlugIndex))
      requires nodeInputs == FunctionOf(graph.model, graph.environment.functions, nodeIndex).inputs
      requires 0 <= parentNodeIndex < |graph.model.nodes| && parentNodeIndex !in Downstream(graph.model, nodeIndex)
      requires parentOutputs == FunctionOf(graph.model, graph.environment.functions, parentNodeIndex).outputs
      requires solution == Flag(graph.model, graph.environment.functions, Reuse(parentNodeIndex, 0))
      requires Recorded(go0, so0, graphOut, solutionOut, graph.model, graph.environment, Target(nodeIndex, inputPlugIndex), done, custom)
      requires Scored()
      modifies this
      ensures Scored()
      ensures Recorded(go0, so0, graphOut, solutionOut, graph.model, graph.environment, Target(nodeIndex, inputPlugIndex),
          done + ReusePlugs(parentOutputs, parentNodeIndex, nodeInputs[inputPlugIndex], canConnect, |parentOutputs|), custom)
    {
      var parentOutputCount := |parentOutputs|;
      var parentOutputIndex := 0;
      ghost var ms := done;
      assert ReuseSite(graph, Target(nodeIndex, inputPlugIndex), nodeInputs[inputPlugIndex], parentNodeIndex, solution);
      while parentOutputIndex < parentOutputCount
        invariant 0 <= parentOutputIndex <= parentOutputCount
        invariant ReuseSite(graph, Target(nodeIndex, inputPlugIndex), nodeInputs[inputPlugIndex], parentNodeIndex, solution)
        invariant ms == done + ReusePlugs(parentOutputs, parentNodeIndex, nodeInputs[inputPlugIndex], canConnect, parentOutputIndex)
        invariant Recorded(go0, so0, graphOut, solutionOut, graph.model, graph.environment, Target(nodeIndex, inputPlugIndex), ms, custom)
        invariant Scored()
      {
        ReusePlugsNext(done, parentOutputs, parentNodeIndex, nodeInputs[inputPlugIndex], canConnect, parentOutputIndex);
        if canConnect(parentOutputs[parentOutputIndex], nodeInputs[inputPlugIndex]) {
          ReuseStep(graph, Target(nodeIndex, inputPlugIndex), parentNodeIndex, parentOutputIndex, solution, go0, so0, ms);
          ms := ms + [Reuse(parentNodeIndex, parentOutputIndex)];
        }
        parentOutputIndex := parentOutputIndex + 1;
      }
    }

    /** One reuse child: addConnection, then processGraph with the solution flag. */
    method ReuseStep(graph: NodeGraph, t: Target, from: int, plug: int, solution: bool,
                     ghost go0: seq<NodeGraph>, ghost so0: seq<NodeGraph>, ghost before: seq<Move>)
      requires Expandable(graph, t)
      requires 0 <= from < |graph.model.nodes| && from !in Downstream(graph.model, t.node)
      requires 0 <= plug < |FunctionOf(graph.model, graph.environment.functions, from).outputs|
      requires solution == Flag(graph.model, graph.environment.functions, Reuse(from, plug))
      requires Recorded(go0, so0, graphOut, solutionOut, graph.model, graph.environment, t, before, custom)
      requires Scored()
      modifies this
      ensures Scored()
      ensures Recorded(go0, so0, graphOut, solutionOut, graph.model, graph.environment, t, before + [Reuse(from, plug)], custom)
    {
      ghost var g := graph.model;
      ghost var env := graph.environment;
      ghost var m := Reuse(from, plug);
      var child := graph.AddConnection(from, plug, t.node, t.plug);
      IndexStored(env, plug);
      IndexStored(env, t.plug);
      ReuseChild(g, env.functions, t, m);
      ghost var gout, sout := graphOut, solutionOut;
      ProcessGraph(child.value, solution);
      RecordedStep(go0, so0, gout, sout, graphOut, solutionOut, child.value, g, env, t, before, m, custom);
    }

    /**
     * addNewNodes: for every function whose inputs fit the depth bound, and
     * every compatible output plug of it, the child with a new node of that
     * function goes to processGraph.
     */
    method AddNewNodes(graph: NodeGraph, nodeIndex: int, inputPlugIndex: int)
      requires Expandable(graph, Target(nodeIndex, inputPlugIndex))
      requires Fits(|graph.model.nodes| + 1, graph.numSize)
      requires Scored()
      modifies this
      ensures Scored()
      ensures var t := Target(nodeIndex, inputPlugIndex);
        var fs := graph.environment.functions;
        Recorded(old(graphOut), old(solutionOut), graphOut, solutionOut, graph.model, graph.environment, t,
          CreateMoves(fs, TargetType(graph.model, fs, t), canConnect, Room(graph.model, graph.environment), |fs|), custom)
    {
      var env := graph.GetEnvironment();
      var nodeType := graph.GetNodeAsFunction(nodeIndex);
      var nodeInputs := nodeType.value.inputs;
      var connectionCount := graph.GetConnectionCount();
      connectionCount := connectionCount + 1;
      var open := graph.CountOpenPlugs();
      var openPlugs := open.value - 1;
      ghost var done, blocks := ConnectFunctions(graph, nodeIndex, inputPlugIndex, nodeInputs, env, connectionCount, openPlugs);
      BlocksAreCreateMoves(env.functions, nodeInputs[inputPlugIndex], canConnect, Room(graph.model, env), blocks, |env.functions|);
    }

    /**
     * The loop of addNewNodes over the functions, given the target's input
     * types, the connection count plus one and the open plugs less one
     * computed before it. A function whose inputs would take the graph past
     * the depth limit is skipped.
     */
    method ConnectFunctions(graph: NodeGraph, nodeIndex: int, inputPlugIndex: int, nodeInputs: seq<DataType>, env: Environment,
                            connectionCount: int, openPlugs: int)
      returns (ghost done: seq<Move>, ghost blocks: seq<seq<Move>>)
      requires Expandable(graph, Target(nodeIndex, inputPlugIndex))
      requires Fits(|graph.model.nodes| + 1, graph.numSize)
      requires env == graph.environment
      requires nodeInputs == FunctionOf(graph.model, env.functions, nodeIndex).inputs
      requires connectionCount == |graph.model.conns| + 1 && openPlugs == OpenPlugs(graph.model, env.functions) - 1
      requires Scored()
      modifies this
      ensures Scored()
      ensures |blocks| == |env.functions| && done == Concat(blocks)
      ensures forall p :: 0 <= p < |env.functions| ==>
        blocks[p] == CreateBlock(env.functions, nodeInputs[inputPlugIndex], canConnect, Room(graph.model, env), p)
      ensures Recorded(old(graphOut), old(solutionOut), graphOut, solutionOut, graph.model, env, Target(nodeIndex, inputPlugIndex), done, custom)
    {
      ghost var g := graph.model;
      ghost var t := Target(nodeIndex, inputPlugIndex);
      ghost var ty := nodeInputs[inputPlugIndex];
      ghost var room := Room(g, env);
      var functions := env.functions;
      done := [];
      RecordedStart(graphOut, solutionOut, g, env, t, custom);
      blocks := [];
      var functionCount := |functions|;
      var functionIndex := 0;
      while functionIndex < functionCount
        invariant 0 <= functionIndex <= functionCount == |functions|
        invariant |blocks| == functionIndex && done == Concat(blocks)
        invariant forall p :: 0 <= p < functionIndex ==> blocks[p] == CreateBlock(functions, ty, canConnect, room, p)
        invariant Recorded(old(graphOut), old(solutionOut), graphOut, solutionOut, g, env, t, done, custom)
        invariant Scored()
      {
        ghost var blk := TryFunction(graph, nodeIndex, inputPlugIndex, nodeInputs, env, functionIndex, connectionCount, openPlugs,
                                     old(graphOut), old(solutionOut), done);
        ConcatAppend(blocks, blk);
        blocks := blocks + [blk];
        done := done + blk;
        functionIndex := functionIndex + 1;
      }
    }

    /** The body of addNewNodes' loop: the plugs of one function, unless its inputs take the graph past the depth limit. */
    method TryFunction(graph: NodeGraph, nodeIndex: int, inputPlugIndex: int, nodeInputs: seq<DataType>, env: Environment,
                       functionIndex: int, connectionCount: int, openPlugs: int,
                       ghost go0: seq<NodeGraph>, ghost so0: seq<NodeGraph>, ghost done: seq<Move>)
      returns (ghost blk: seq<Move>)
      requires Expandable(graph, Target(nodeIndex, inputPlugIndex))
      requires Fits(|graph.model.nodes| + 1, graph.numSize)
      requires env == graph.environment && 0 <= functionIndex < |env.functions|
      requires nodeInputs == FunctionOf(graph.model, env.functions, nodeIndex).inputs
      requires connectionCount == |graph.model.conns| + 1 && openPlugs == OpenPlugs(graph.model, env.functions) - 1
      requires Recorded(go0, so0, graphOut, solutionOut, graph.model, env, Target(nodeIndex, inputPlugIndex), done, custom)
      requires Scored()
      modifies this
      ensures Scored()
      ensures blk == CreateBlock(env.functions, nodeInputs[inputPlugIndex], canConnect, Room(graph.model, env), functionIndex)
      ensures Recorded(go0, so0, graphOut, solutionOut, graph.model, env, Target(nodeIndex, inputPlugIndex), done + blk, custom)
    {
      var functionOutputs := env.functions[functionIndex].outputs;
      var newOpen := |env.functions[functionIndex].inputs|;
      blk := [];
      if connectionCount + openPlugs + newOpen <= env.GetMaxDepth() {
        ConnectFunction(graph, nodeIndex, inputPlugIndex, nodeInputs, functionIndex, functionOutputs, openPlugs == 0 && newOpen == 0,
          go0, so0, done);
        blk := CreatePlugs(functionOutputs, functionIndex, nodeInputs[inputPlugIndex], canConnect, |functionOutputs|);
      } else {
        assert done + blk == done;
      }
    }

    /** The inner loop of addNewNodes: the compatible output plugs of one function. */
    method ConnectFunction(graph: NodeGraph, nodeIndex: int, inputPlugIndex: int, nodeInputs: seq<DataType>,
                           functionIndex: int, functionOutputs: seq<DataType>, solution: bool,
                           ghost go0: seq<NodeGraph>, ghost so0: seq<NodeGraph>, ghost done: seq<Move>)
      requires Expandable(graph, Target(nodeIndex, inputPlugIndex))
      requires Fits(|graph.model.nodes| + 1, graph.numSize)
      requires nodeInputs == FunctionOf(graph.model, graph.environment.functions, nodeIndex).inputs
      requires 0 <= functionIndex < |graph.environment.functions|
      requires functionOutputs == graph.environment.functions[functionIndex].outputs
      requires solution == Flag(graph.model, graph.environment.functions, Create(functionIndex, 0))
      requires Recorded(go0, so0, graphOut, solutionOut, graph.model, graph.environment, Target(nodeIndex, inputPlugIndex), done, custom)
      requires Scored()
      modifies this
      ensures Scored()
      ensures Recorded(go0, so0, graphOut, solutionOut, graph.model, graph.environment, Target(nodeIndex, inputPlugIndex),
          done + CreatePlugs(functionOutputs, functionIndex, nodeInputs[inputPlugIndex], canConnect, |functionOutputs|), custom)
    {
      var functionOutputCount := |functionOutputs|;
      var functionOutputIndex := 0;
      ghost var ms := done;
      assert PlugSite(graph, Target(nodeIndex, inputPlugIndex), nodeInputs[inputPlugIndex], functionIndex, solution);
      while functionOutputIndex < functionOutputCount
        invariant 0 <= functionOutputIndex <= functionOutputCount
        invariant PlugSite(graph, Target(nodeIndex, inputPlugIndex), nodeInputs[inputPlugIndex], functionIndex, solution)
        invariant ms == done + CreatePlugs(functionOutputs, functionIndex, nodeInputs[inputPlugIndex], canConnect, functionOutputIndex)
        invariant Recorded(go0, so0, graphOut, solutionOut, graph.model, graph.environment, Target(nodeIndex, inputPlugIndex), ms, custom)
        invariant Scored()
      {
        CreatePlugsNext(done, functionOutputs, functionIndex, nodeInputs[inputPlugIndex], canConnect, functionOutputIndex);
        if canConnect(functionOutputs[functionOutputIndex], nodeInputs[inputPlugIndex]) {
          CreateStep(graph, Target(nodeIndex, inputPlugIndex), functionIndex, functionOutputIndex, solution, go0, so0, ms);
          ms := ms + [Create(functionIndex, functionOutputIndex)];
        }
        functionOutputIndex := functionOutputIndex + 1;
      }
    }

    /** One create child: addConnectionAndNode, then processGraph with the solution flag. */
    method CreateStep(graph: NodeGraph, t: Target, fn: int, plug: int, solution: bool,
                      ghost go0: seq<NodeGraph>, ghost so0: seq<NodeGraph>, ghost before: seq<Move>)
      requires Expandable(graph, t)
      requires Fits(|graph.model.nodes| + 1, graph.numSize)
      requires 0 <= fn < |graph.environment.functions| && 0 <= plug < |graph.environment.functions[fn].outputs|
      requires solution == Flag(graph.model, graph.environment.functions, Create(fn, plug))
      requires Recorded(go0, so0, graphOut, solutionOut, graph.model, graph.environment, t, before, custom)
      requires Scored()
      modifies this
      ensures Scored()
      ensures Recorded(go0, so0, graphOut, solutionOut, graph.model, graph.environment, t, before + [Create(fn, plug)], custom)
    {
      ghost var g := graph.model;
      ghost var env := graph.environment;
      ghost var m := Create(fn, plug);
      var child := graph.AddConnectionAndNode(fn, plug, t.node, t.plug);
      IndexStored(env, fn);
      IndexStored(env, plug);
      IndexStored(env, t.plug);
      CreateChild(g, env.functions, t, m);
      ghost var gout, sout := graphOut, solutionOut;
      ProcessGraph(child.value, solution);
      RecordedStep(go0, so0, gout, sout, graphOut, solutionOut, child.value, g, env, t, before, m, custom);
    }

    /**
     * processGraph: a child that fails an axiom is dropped; a solution must
     * also pass the solution axioms and joins the solutions; any other
     * child is scored and joins the output graphs.
     */
    method ProcessGraph(graph: NodeGraph, solution: bool)
      requires graph.Valid() && Typed(graph.model, graph.environment.functions)
      requires Scored() && graph !in graphOut
      modifies this, graph`heuristic
      ensures Scored()
      ensures var fs := graph.environment.functions;
        var valid := AllHold(graph.environment.axioms, graph.model, fs, custom);
        graphOut == old(graphOut) + (if valid && !solution then [graph] else []) &&
        solutionOut == old(solutionOut) +
          (if valid && solution && AllHold(graph.environment.solutionAxioms, graph.model, fs, custom) then [graph] else [])
    {
      var env := graph.GetEnvironment();
      var g := graph.ToGraph();
      var valid := AllValid(env.axioms, g, env.functions, custom);
      if !valid {
        return;
      }
      if solution {
        var solutionValid := AllValid(env.solutionAxioms, g, env.functions, custom);
        if !solutionValid {
          return;
        }
        solutionOut := solutionOut + [graph];
      } else {
        var heuristic := SumHeuristics(env.heuristics, g, estimate);
        graph.SetHeuristicScore(heuristic);
        graphOut := graphOut + [graph];
      }
    }
  }
}

=== FILE: layout.dfy ===
/**
 * The packed buffer behind a node graph, as a value.
 *
 * A graph is a list of node types and a list of connections. Its buffer is a
 * sequence of equal-width slots: the node count, then one slot per node
 * type, then four slots per connection (output node, output plug, input
 * node, input plug), each slot written with `ByteCodec.Encode`.
 * `Unpack` is the decoder that the accessors of the node-graph classes
 * implement; `UnpackPacked` proves it inverts `Packed`.
 */
module Layout {
  import opened ByteCodec

  datatype Conn = Conn(outputNode: int, outputPlug: int, inputNode: int, inputPlug: int)

  datatype Graph = Graph(nodes: seq<int>, conns: seq<Conn>)

  function ConnFields(c: Conn): seq<int>
  {
    [c.outputNode, c.outputPlug, c.inputNode, c.inputPlug]
  }

  /** The four slots of every connection, in order. */
  function Fields(cs: seq<Conn>): (r: seq<int>)
    ensures |r| == 4 * |cs|
  {
    if cs == [] then [] else Fields(cs[..|cs| - 1]) + ConnFields(cs[|cs| - 1])
  }

  /** The slot values of a graph's buffer. */
  function Slots(g: Graph): seq<int>
  {
    [|g.nodes|] + g.nodes + Fields(g.conns)
  }

  /** The byte offset of slot j at width n, that is j * n (see OffMul). */
  function Off(j: nat, n: nat): nat
  {
    if j == 0 then 0 else Off(j - 1, n) + n
  }

  /** Every slot of `vs`, encoded at width n and concatenated. */
  function EncodeAll(vs: seq<int>, n: nat): seq<Byte>
  {
    if vs == [] then [] else EncodeAll(vs[..|vs| - 1], n) + Encode(vs[|vs| - 1], n)
  }

  /** The buffer of graph g at width n. */
  function Packed(n: Width, g: Graph): seq<Byte>
  {
    EncodeAll(Slots(g), n)
  }

  predicate FitsAll(vs: seq<int>, n: Width)
  {
    forall i :: 0 <= i < |vs| ==> Fits(vs[i], n)
  }

  /** Both ends of every connection name an existing node. */
  predicate EndpointsInRange(g: Graph)
  {
    forall i :: 0 <= i < |g.conns| ==>
      0 <= g.conns[i].outputNode < |g.nodes| && 0 <= g.conns[i].inputNode < |g.nodes|
  }

  /** A graph whose every slot survives the packed format. */
  predicate WellFormed(g: Graph, n: Width)
  {
    FitsAll(Slots(g), n) && EndpointsInRange(g)
  }

  /** Java's `/` on ints: truncation toward zero (the divisor is positive here). */
  function JavaDiv(a: int, b: int): int
    requires b > 0
  {
    if a >= 0 then a / b else -((-a) / b)
  }

  /** The value of slot j of a buffer, or 0 past its end. */
  function SlotAt(bytes: seq<Byte>, n: Width, j: int): int
  {
    if 0 <= j && Off(j, n) + n <= |bytes| then Read(bytes[Off(j, n)..Off(j, n) + n]) else 0
  }

  /** getNodeCount: slot 0. */
  function NodeCountOf(bytes: seq<Byte>, n: Width): int
  {
    SlotAt(bytes, n, 0)
  }

  /** getConnectionCount: the slots after the node types, in groups of four. */
  function ConnCountOf(bytes: seq<Byte>, n: Width): int
  {
    JavaDiv(|bytes| / n - 1 - NodeCountOf(bytes, n), 4)
  }

  /** The graph the accessors read out of a buffer. */
  function Unpack(bytes: seq<Byte>, n: Width): Graph
  {
    var nc := NodeCountOf(bytes, n);
    var cc := ConnCountOf(bytes, n);
    Graph(
      seq(if nc < 0 then 0 else nc, i => SlotAt(bytes, n, i + 1)),
      seq(if cc < 0 then 0 else cc, i =>
        Conn(SlotAt(bytes, n, nc + 1 + 4 * i), SlotAt(bytes, n, nc + 2 + 4 * i),
             SlotAt(bytes, n, nc + 3 + 4 * i), SlotAt(bytes, n, nc + 4 + 4 * i))))
  }

  lemma {:induction false} OffMul(j: nat, n: nat)
    ensures Off(j, n) == j * n
  {
    if j > 0 {
      OffMul(j - 1, n);
      assert j * n == (j - 1) * n + n;
    }
  }

  lemma {:induction false} OffAdd(j: nat, m: nat, n: nat)
    ensures Off(j + m, n) == Off(j, n) + m * n
  {
    if m > 0 {
      OffAdd(j, m - 1, n);
      assert m * n == (m - 1) * n + n;
    }
  }

  lemma {:induction false} OffLe(i: nat, j: nat, n: nat)
    requires i <= j
    ensures Off(i, n) <= Off(j, n)
    decreases j
  {
    if i < j {
      OffLe(i, j - 1, n);
    }
  }

  lemma DivMul(k: nat, n: Width)
    ensures (n * k) / n == k
  {
    if n == 1 {} else if n == 2 {} else if n == 3 {} else {}
  }

  lemma {:induction false} FieldsAt(cs: seq<Conn>, i: int, k: int)
    requires 0 <= i < |cs| && 0 <= k < 4
    ensures Fields(cs)[4 * i + k] == ConnFields(cs[i])[k]
    decreases |cs|
  {
    if i < |cs| - 1 {
      FieldsAt(cs[..|cs| - 1], i, k);
    }
  }

  lemma FieldsAppend(cs: seq<Conn>, c: Conn)
    ensures Fields(cs + [c]) == Fields(cs) + ConnFields(c)
  {
    assert (cs + [c])[..|cs|] == cs;
  }

  /** A prefix grows by one element at a time. */
  lemma SnocSlice(a: seq<int>, s: seq<int>, i: int)
    requires 0 <= i < |s|
    ensures a + s[..i + 1] == a + s[..i] + [s[i]]
  {
    assert s[..i + 1] == s[..i] + [s[i]];
  }

  lemma {:induction false} EncodeAllLength(vs: seq<int>, n: nat)
    ensures |EncodeAll(vs, n)| == Off(|vs|, n)
  {
    if vs != [] {
      EncodeAllLength(vs[..|vs| - 1], n);
    }
  }

  lemma {:induction false} EncodeAllAppend(a: seq<int>, b: seq<int>, n: nat)
    ensures EncodeAll(a + b, n) == EncodeAll(a, n) + EncodeAll(b, n)
    decreases |b|
  {
    if b != [] {
      var b' := b[..|b| - 1];
      var last := b[|b| - 1];
      assert (a + b)[..|a + b| - 1] == a + b';
      EncodeAllAppend(a, b', n);
      assert EncodeAll(a + b, n) == EncodeAll(a + b', n) + Encode(last, n);
      assert EncodeAll(b, n) == EncodeAll(b', n) + Encode(last, n);
      assert EncodeAll(a, n) + EncodeAll(b, n) == (EncodeAll(a, n) + EncodeAll(b', n)) + Encode(last, n);
    } else {
      assert a + b == a;
    }
  }

  lemma EncodeAllStep(vs: seq<int>, j: int, n: nat)
    requires 0 <= j < |vs|
    ensures EncodeAll(vs[..j + 1], n) == EncodeAll(vs[..j], n) + Encode(vs[j], n)
  {
    assert vs[..j + 1][..j] == vs[..j];
  }

  /** Slot j of the encoding holds the encoding of the j-th value. */
  lemma {:induction false} EncodeAllSlot(vs: seq<int>, n: nat, j: nat)
    requires j < |vs|
    ensures Off(j, n) + n <= |EncodeAll(vs, n)|
    ensures EncodeAll(vs, n)[Off(j, n)..Off(j, n) + n] == Encode(vs[j], n)
    decreases |vs|
  {
    var p := vs[..|vs| - 1];
    var front := EncodeAll(p, n);
    var back := Encode(vs[|vs| - 1], n);
    assert EncodeAll(vs, n) == front + back;
    var off := Off(j, n);
    if j == |vs| - 1 {
      EncodeAllLength(p, n);
      assert (front + back)[off..off + n] == back;
    } else {
      EncodeAllSlot(p, n, j);
      assert (front + back)[off..off + n] == front[off..off + n];
    }
  }

  /** Reading slot j of a packed buffer gives the j-th slot value, when it fits. */
  lemma SlotOfPacked(vs: seq<int>, n: Width, j: nat)
    requires j < |vs| && FitsAll(vs, n)
    ensures Off(j, n) + n <= |EncodeAll(vs, n)|
    ensures SlotAt(EncodeAll(vs, n), n, j) == vs[j]
  {
    EncodeAllSlot(vs, n, j);
    ReadEncode(vs[j], n);
  }

  /** The counts the accessors compute from a packed buffer. */
  lemma CountsOfPacked(g: Graph, n: Width)
    requires FitsAll(Slots(g), n)
    ensures NodeCountOf(Packed(n, g), n) == |g.nodes|
    ensures |Packed(n, g)| == n * |Slots(g)|
    ensures |Packed(n, g)| / n == 1 + |g.nodes| + 4 * |g.conns|
    ensures ConnCountOf(Packed(n, g), n) == |g.conns|
  {
    SlotOfPacked(Slots(g), n, 0);
    EncodeAllLength(Slots(g), n);
    OffMul(|Slots(g)|, n);
    DivMul(|Slots(g)|, n);
  }

  /** The node and connection counts the accessors read from a packed buffer. */
  lemma PackedCounts(g: Graph, n: Width)
    requires FitsAll(Slots(g), n)
    ensures NodeCountOf(Packed(n, g), n) == |g.nodes| && ConnCountOf(Packed(n, g), n) == |g.conns|
  {
    CountsOfPacked(g, n);
  }

  /** Slot j of a packed buffer, at the byte position j * n the accessors compute. */
  lemma PackedSlotRead(g: Graph, n: Width, j: nat)
    requires FitsAll(Slots(g), n) && j < |Slots(g)|
    ensures 0 <= j * n && j * n + n <= |Packed(n, g)|
    ensures Read(Packed(n, g)[j * n..j * n + n]) == Slots(g)[j]
  {
    OffMul(j, n);
    EncodeAllSlot(Slots(g), n, j);
    ReadEncode(Slots(g)[j], n);
  }

  /** Field k of connection i is slot |nodes| + 1 + 4 * i + k. */
  lemma ConnFieldSlot(g: Graph, i: int, k: int)
    requires 0 <= i < |g.conns| && 0 <= k < 4
    ensures |g.nodes| + 1 + i * 4 + k < |Slots(g)|
    ensures Slots(g)[|g.nodes| + 1 + i * 4 + k] == ConnFields(g.conns[i])[k]
  {
    FieldsAt(g.conns, i, k);
  }

  lemma UnpackNode(g: Graph, n: Width, i: int)
    requires FitsAll(Slots(g), n) && 0 <= i < |g.nodes|
    ensures SlotAt(Packed(n, g), n, i + 1) == g.nodes[i]
  {
    SlotOfPacked(Slots(g), n, i + 1);
  }

  lemma UnpackField(g: Graph, n: Width, i: int, k: int, p: int)
    requires FitsAll(Slots(g), n) && 0 <= i < |g.conns| && 0 <= k < 4
    requires p == |g.nodes| + 1 + 4 * i + k
    ensures SlotAt(Packed(n, g), n, p) == ConnFields(g.conns[i])[k]
  {
    SlotOfPacked(Slots(g), n, p);
    FieldsAt(g.conns, i, k);
  }

  lemma UnpackConn(g: Graph, n: Width, i: int)
    requires FitsAll(Slots(g), n) && 0 <= i < |g.conns|
    ensures var nc := |g.nodes|; var bytes := Packed(n, g);
      Conn(SlotAt(bytes, n, nc + 1 + 4 * i), SlotAt(bytes, n, nc + 2 + 4 * i),
           SlotAt(bytes, n, nc + 3 + 4 * i), SlotAt(bytes, n, nc + 4 + 4 * i)) == g.conns[i]
  {
    var nc := |g.nodes|;
    UnpackField(g, n, i, 0, nc + 1 + 4 * i);
    UnpackField(g, n, i, 1, nc + 2 + 4 * i);
    UnpackField(g, n, i, 2, nc + 3 + 4 * i);
    UnpackField(g, n, i, 3, nc + 4 + 4 * i);
  }

  lemma UnpackNodes(g: Graph, n: Width)
    requires FitsAll(Slots(g), n)
    ensures Unpack(Packed(n, g), n).nodes == g.nodes
  {
    PackedCounts(g, n);
    var u := Unpack(Packed(n, g), n).nodes;
    assert |u| == |g.nodes|;
    forall i | 0 <= i < |g.nodes|
      ensures u[i] == g.nodes[i]
    {
      UnpackNode(g, n, i);
    }
  }

  lemma UnpackConns(g: Graph, n: Width)
    requires FitsAll(Slots(g), n)
    ensures Unpack(Packed(n, g), n).conns == g.conns
  {
    PackedCounts(g, n);
    var u := Unpack(Packed(n, g), n).conns;
    assert |u| == |g.conns|;
    forall i | 0 <= i < |g.conns|
      ensures u[i] == g.conns[i]
    {
      UnpackConn(g, n, i);
    }
  }

  /** Decoding a packed buffer gives back the graph: the format loses nothing that fits. */
  lemma UnpackPacked(g: Graph, n: Width)
    requires FitsAll(Slots(g), n)
    ensures Unpack(Packed(n, g), n) == g
  {
    UnpackNodes(g, n);
    UnpackConns(g, n);
  }

  /** Two graphs that fit share a buffer only when they are the same graph. */
  lemma PackedInjective(g: Graph, h: Graph, n: Width)
    requires FitsAll(Slots(g), n) && FitsAll(Slots(h), n)
    requires Packed(n, g) == Packed(n, h)
    ensures g == h
  {
    UnpackPacked(g, n);
    UnpackPacked(h, n);
  }

  /** The graph holding just the output node: two slots, the count 1 and its type. */
  lemma SingleNode(t: int, n: Width)
    requires Fits(t, n)
    ensures Slots(Graph([t], [])) == [] + [1] + [t]
    ensures WellFormed(Graph([t], []), n)
  {
    Pow256Values();
    assert Slots(Graph([t], [])) == [1, t];
  }

  /** The slots of a graph with one more connection: the old slots and the four new fields. */
  lemma SlotsAppendConn(g: Graph, c: Conn)
    ensures Slots(Graph(g.nodes, g.conns + [c]))
      == Slots(g) + [c.outputNode] + [c.outputPlug] + [c.inputNode] + [c.inputPlug]
  {
    FieldsAppend(g.conns, c);
  }

  /** The slots of a graph with one more node and one more connection, part by part. */
  lemma SlotsAppendNode(g: Graph, t: int, c: Conn)
    ensures Slots(Graph(g.nodes + [t], g.conns + [c]))
      == [|g.nodes| + 1] + g.nodes + [t] + Fields(g.conns)
         + [c.outputNode] + [c.outputPlug] + [c.inputNode] + [c.inputPlug]
  {
    FieldsAppend(g.conns, c);
  }

  /**
   * The slot values of g with one more connection c between existing
   * nodes, as addConnection writes them: g's own slots, then the four
   * fields of c.
   */
  ghost predicate ConnGrown(g: Graph, c: Conn, target: seq<int>)
  {
    |target| == |Slots(g)| + 4 && target[..|Slots(g)|] == Slots(g) &&
    target[|Slots(g)|] == c.outputNode && target[|Slots(g)| + 1] == c.outputPlug &&
    target[|Slots(g)| + 2] == c.inputNode && target[|Slots(g)| + 3] == c.inputPlug
  }

  lemma SlotsAppendConnAt(g: Graph, c: Conn)
    ensures ConnGrown(g, c, Slots(Graph(g.nodes, g.conns + [c])))
  {
    SlotsAppendConn(g, c);
  }

  /** A connection-grown target is four slots longer than the buffer of the graph it grew from. */
  lemma ConnGrownLength(g: Graph, c: Conn, target: seq<int>, n: Width)
    requires ConnGrown(g, c, target)
    ensures Off(|Slots(g)|, n) == |Packed(n, g)| && Off(|target|, n) == |Packed(n, g)| + n * 4
  {
    var k := |Slots(g)|;
    EncodeAllLength(Slots(g), n);
    OffAdd(k, 4, n);
    assert |target| == k + 4;
  }

  /** A buffer that starts with d, the buffer of g, holds g's slots of a connection-grown target. */
  lemma ConnGrownFilled(b: seq<Byte>, d: seq<Byte>, g: Graph, c: Conn, target: seq<int>, n: Width)
    requires ConnGrown(g, c, target) && d == Packed(n, g)
    requires |d| <= |b| && b[..|d|] == d
    ensures Filled(b, target, |Slots(g)|, n)
  {
    var k := |Slots(g)|;
    EncodeAllLength(Slots(g), n);
    assert target[..k] == Slots(g);
    EncodedFilled(b, target, k, n);
  }

  /**
   * The slot values of g grown by node type t and connection c, as
   * addConnectionAndNode writes them: the new count, the old node types,
   * t, the old connection slots, then the four fields of c.
   */
  ghost predicate Grown(g: Graph, t: int, c: Conn, target: seq<int>)
  {
    |target| == |g.nodes| + 2 + 4 * |g.conns| + 4 &&
    target[0] == |g.nodes| + 1 && target[1..1 + |g.nodes|] == g.nodes && target[1 + |g.nodes|] == t &&
    target[|g.nodes| + 2..|g.nodes| + 2 + 4 * |g.conns|] == Fields(g.conns) &&
    target[|g.nodes| + 2 + 4 * |g.conns|] == c.outputNode &&
    target[|g.nodes| + 2 + 4 * |g.conns| + 1] == c.outputPlug &&
    target[|g.nodes| + 2 + 4 * |g.conns| + 2] == c.inputNode &&
    target[|g.nodes| + 2 + 4 * |g.conns| + 3] == c.inputPlug
  }

  lemma SlotsAppendNodeAt(g: Graph, t: int, c: Conn)
    ensures Grown(g, t, c, Slots(Graph(g.nodes + [t], g.conns + [c])))
  {
    var s := Slots(Graph(g.nodes + [t], g.conns + [c]));
    var m := |g.nodes|;
    var k := |Slots(g)|;
    SlotsAppendNode(g, t, c);
    assert s[1..1 + m] == g.nodes;
    assert s[2 + m..k + 1] == Fields(g.conns);
    assert s[k + 1..] == [c.outputNode, c.outputPlug, c.inputNode, c.inputPlug];
  }

  /** A grown target is five slots longer than the graph it grew from. */
  lemma GrownLength(g: Graph, t: int, c: Conn, target: seq<int>, n: nat)
    requires Grown(g, t, c, target)
    ensures Off(|target|, n) == |EncodeAll(Slots(g), n)| + 5 * n
  {
    EncodeAllLength(Slots(g), n);
    OffAdd(|Slots(g)|, 5, n);
  }

  /** The last four slots of a grown target are the fields of the new connection. */
  lemma GrownTail(g: Graph, t: int, c: Conn, target: seq<int>, j: int)
    requires Grown(g, t, c, target) && j == |g.nodes| + 2 + 4 * |g.conns|
    ensures j + 4 == |target| && target[j] == c.outputNode && target[j + 1] == c.outputPlug
    ensures target[j + 2] == c.inputNode && target[j + 3] == c.inputPlug
  {
  }

  /** Connection slot i of g is slot j0 + i of a target that holds g's connection slots from j0 on. */
  lemma FieldSlotTarget(g: Graph, target: seq<int>, j0: int, i: int)
    requires 0 <= j0 && 0 <= i < 4 * |g.conns| && j0 + 4 * |g.conns| <= |target|
    requires target[j0..j0 + 4 * |g.conns|] == Fields(g.conns)
    ensures |g.nodes| + 1 + i < |Slots(g)| && Slots(g)[|g.nodes| + 1 + i] == target[j0 + i]
  {
    assert target[j0 + i] == target[j0..j0 + 4 * |g.conns|][i];
  }

  /** Node i of g is slot j0 + i of a target that holds g's node types from j0 on. */
  lemma NodeSlotTarget(g: Graph, target: seq<int>, j0: int, i: int)
    requires 0 <= j0 && 0 <= i < |g.nodes| && j0 + |g.nodes| <= |target|
    requires target[j0..j0 + |g.nodes|] == g.nodes
    ensures g.nodes[i] == target[j0 + i]
  {
    assert target[j0 + i] == target[j0..j0 + |g.nodes|][i];
  }

  /** Slot k of `b` holds the encoding of `target[k]`. */
  ghost predicate SlotHolds(b: seq<Byte>, target: seq<int>, k: int, n: nat)
  {
    0 <= k < |target| && Off(k, n) + n <= |b| && b[Off(k, n)..Off(k, n) + n] == Encode(target[k], n)
  }

  /**
   * The first j slots of `target` are already encoded at the start of `b`.
   * The slots are only looked at where a proof asks about one of them.
   */
  ghost predicate Filled(b: seq<Byte>, target: seq<int>, j: int, n: nat)
  {
    0 <= j <= |target| && Off(j, n) <= |b| &&
    forall k {:trigger SlotHolds(b, target, k, n)} :: 0 <= k < j ==> SlotHolds(b, target, k, n)
  }

  /** A slice that ends inside a prefix is a slice of that prefix. */
  lemma SliceOfPrefix(b: seq<Byte>, p: int, lo: int, hi: int)
    requires 0 <= lo <= hi <= p <= |b|
    ensures b[lo..hi] == b[..p][lo..hi]
  {
  }

  /** A buffer that starts with the encoding of the first j values has those j slots filled. */
  lemma EncodedFilled(b: seq<Byte>, target: seq<int>, j: int, n: nat)
    requires 0 <= j <= |target| && Off(j, n) <= |b| && b[..Off(j, n)] == EncodeAll(target[..j], n)
    ensures Filled(b, target, j, n)
  {
    forall k | 0 <= k < j
      ensures SlotHolds(b, target, k, n)
    {
      EncodeAllSlot(target[..j], n, k);
      OffLe(k + 1, j, n);
      SliceOfPrefix(b, Off(j, n), Off(k, n), Off(k, n) + n);
      assert target[..j][k] == target[k];
    }
  }

  /** Whether the first j slots are filled depends only on the bytes they occupy. */
  lemma FilledFrame(b: seq<Byte>, b': seq<Byte>, target: seq<int>, j: int, n: nat)
    requires Filled(b, target, j, n) && Off(j, n) <= |b'| && b[..Off(j, n)] == b'[..Off(j, n)]
    ensures Filled(b', target, j, n)
  {
    forall k | 0 <= k < j
      ensures SlotHolds(b', target, k, n)
    {
      assert SlotHolds(b, target, k, n);
      OffLe(k + 1, j, n);
      assert b[Off(k, n)..Off(k, n) + n] == b[..Off(j, n)][Off(k, n)..Off(k, n) + n];
      assert b'[Off(k, n)..Off(k, n) + n] == b'[..Off(j, n)][Off(k, n)..Off(k, n) + n];
    }
  }

  /** Writing the encoding of slot j right after j filled slots fills j + 1 slots. */
  lemma FilledNext(before: seq<Byte>, after: seq<Byte>, target: seq<int>, j: int, n: nat, value: int)
    requires Filled(before, target, j, n) && j < |target| && Off(j, n) + n <= |after|
    requires after[..Off(j, n) + n] == before[..Off(j, n)] + Encode(value, n)
    requires Encode(value, n) == Encode(target[j], n)
    ensures Filled(after, target, j + 1, n)
  {
    assert after[..Off(j, n)] == after[..Off(j, n) + n][..Off(j, n)];
    FilledFrame(before, after, target, j, n);
    assert after[Off(j, n)..Off(j, n) + n] == after[..Off(j, n) + n][Off(j, n)..];
    assert SlotHolds(after, target, j, n);
  }

  /** Filled slots hold the encoding of the first j values of `target`. */
  lemma {:induction false} FilledPrefix(b: seq<Byte>, target: seq<int>, j: int, n: nat)
    requires Filled(b, target, j, n)
    ensures b[..Off(j, n)] == EncodeAll(target[..j], n)
    decreases j
  {
    if j > 0 {
      assert SlotHolds(b, target, j - 1, n);
      OffLe(j - 1, j, n);
      FilledPrefix(b, target, j - 1, n);
      EncodeAllStep(target, j - 1, n);
      assert b[..Off(j, n)] == b[..Off(j - 1, n)] + b[Off(j - 1, n)..Off(j, n)];
    }
  }

  /** A buffer of exactly |target| slots in which every slot is filled holds the encoding of target. */
  lemma FilledAll(b: seq<Byte>, target: seq<int>, j: int, n: nat)
    requires Filled(b, target, j, n) && j == |target| && |b| == Off(j, n)
    ensures b == EncodeAll(target, n)
  {
    FilledPrefix(b, target, j, n);
    assert target[..|target|] == target;
    assert b[..|b|] == b;
  }

  /** A slot that starts before slot `total` ends inside a buffer of `total` slots. */
  lemma SlotBound(j: nat, total: nat, n: nat)
    requires j < total
    ensures Off(j, n) + n <= Off(total, n)
  {
    OffLe(j + 1, total, n);
  }

  /**
   * One more slot, whose encoding is that of w, extends the encoding of
   * `vs` by one slot width.
   */
  lemma AppendSlot(vs: seq<int>, w: int, v: int, n: nat)
    requires Encode(v, n) == Encode(w, n)
    ensures EncodeAll(vs + [w], n) == EncodeAll(vs, n) + Encode(v, n)
    ensures Off(|vs| + 1, n) == Off(|vs|, n) + n
  {
    assert (vs + [w])[..|vs|] == vs;
  }

  /** Adding a connection between existing nodes, with plugs that fit, keeps a graph well formed. */
  lemma WellFormedAppendConn(g: Graph, c: Conn, n: Width)
    requires WellFormed(g, n)
    requires 0 <= c.outputNode < |g.nodes| && 0 <= c.inputNode < |g.nodes|
    requires Fits(c.outputPlug, n) && Fits(c.inputPlug, n)
    ensures WellFormed(Graph(g.nodes, g.conns + [c]), n)
  {
    SlotsAppendConn(g, c);
    assert Fits(|g.nodes|, n) by { assert Slots(g)[0] == |g.nodes|; }
    FitsBelow(c.outputNode, |g.nodes|, n);
    FitsBelow(c.inputNode, |g.nodes|, n);
  }

  /**
   * Adding a node fed into an existing node keeps a graph well formed
   * exactly when the new node count still fits its slot.
   */
  lemma WellFormedAppendNode(g: Graph, t: int, c: Conn, n: Width)
    requires WellFormed(g, n)
    requires c.outputNode == |g.nodes| && 0 <= c.inputNode < |g.nodes|
    requires Fits(t, n) && Fits(c.outputPlug, n) && Fits(c.inputPlug, n)
    ensures WellFormed(Graph(g.nodes + [t], g.conns + [c]), n) <==> Fits(|g.nodes| + 1, n)
  {
    var s := Slots(g);
    SlotsAppendNode(g, t, c);
    if Fits(|g.nodes| + 1, n) {
      assert Fits(|g.nodes|, n) by { assert s[0] == |g.nodes|; }
      FitsBelow(c.inputNode, |g.nodes|, n);
      forall i | 0 <= i < |g.nodes|
        ensures Fits(g.nodes[i], n)
      {
        assert s[1 + i] == g.nodes[i];
      }
      forall i | 0 <= i < |Fields(g.conns)|
        ensures Fits(Fields(g.conns)[i], n)
      {
        assert s[1 + |g.nodes| + i] == Fields(g.conns)[i];
      }
    } else {
      assert Slots(Graph(g.nodes + [t], g.conns + [c]))[0] == |g.nodes| + 1;
    }
  }

}

=== FILE: node_container.dfy ===
/**
 * The work queue of the package-root engine: a priority queue of graphs
 * that hands out the best-scoring graph first. The queue is kept as the
 * multiset of its graphs, since a heap has no order a caller can see; which
 * of several equally scored graphs comes out is left open, as the heap
 * leaves it.
 */
module RootNodeContainer {
  import opened Wrappers
  import opened RootNodeGraph

  /** compareTo puts no graph of q before g: g is a graph the queue may hand out first. */
  ghost predicate First(q: multiset<NodeGraph>, g: NodeGraph)
    reads q, g
  {
    g in q && forall h :: h in q ==> g.CompareTo(h) <= 0
  }

  /** A non-empty queue has a first graph. */
  lemma {:induction false} FirstExists(q: multiset<NodeGraph>)
    requires q != multiset{}
    ensures exists g :: First(q, g)
    decreases |q|
  {
    var x :| x in q;
    var rest := q - multiset{x};
    assert q == rest + multiset{x};
    if rest == multiset{} {
      assert First(q, x);
    } else {
      FirstExists(rest);
      var y :| First(rest, y);
      var best := if x.heuristic >= y.heuristic then x else y;
      forall h | h in q
        ensures best.CompareTo(h) <= 0
      {
        if h != x {
          assert h in rest && y.CompareTo(h) <= 0;
        }
      }
      assert First(q, best);
    }
  }

  /** The graph handed out first is the best one: any two candidates carry the same score, the highest in the queue. */
  lemma FirstIsBest(q: multiset<NodeGraph>, a: NodeGraph, b: NodeGraph)
    requires First(q, a) && b in q
    ensures a.heuristic >= b.heuristic
    ensures First(q, b) ==> a.heuristic == b.heuristic
  {
    assert a.CompareTo(b) <= 0;
  }

  class NodeContainer {
    /** The graphs waiting to be expanded. */
    var queue: multiset<NodeGraph>

    constructor ()
      ensures queue == multiset{}
    {
      queue := multiset{};
    }

    /** addNodeGraph: the graph joins the queue. */
    method AddNodeGraph(graph: NodeGraph)
      modifies this
      ensures queue == old(queue) + multiset{graph}
      ensures |queue| == |old(queue)| + 1
    {
      queue := queue + multiset{graph};
    }

    /** getNodeGraph: poll, a graph with the highest score leaves the queue; null (None) when it is empty. */
    method GetNodeGraph() returns (r: Option<NodeGraph>)
      modifies this
      ensures r.None? <==> old(queue) == multiset{}
      ensures r.None? ==> queue == old(queue)
      ensures r.Some? ==> First(old(queue), r.value) && queue == old(queue) - multiset{r.value}
    {
      if queue == multiset{} {
        return None;
      }
      FirstExists(queue);
      var graph :| graph in queue && forall h :: h in queue ==> graph.CompareTo(h) <= 0;
      queue := queue - multiset{graph};
      return Some(graph);
    }

    /** sort: every graph of a snapshot of the queue is added back to the emptied queue. */
    method Sort()
      modifies this
      ensures queue == old(queue)
    {
      var snapshot := queue;
      queue := multiset{};
      var rest := snapshot;
      while rest != multiset{}
        invariant queue + rest == snapshot
        decreases |rest|
      {
        var o :| o in rest;
        queue := queue + multiset{o};
        rest := rest - multiset{o};
      }
    }

    /** update: a queued graph is removed and added again; any other graph changes nothing. */
    method Update(graph: NodeGraph)
      modifies this
      ensures queue == old(queue)
    {
      if graph in queue {
        queue := queue - multiset{graph};
        queue := queue + multiset{graph};
      }
    }

    /** size */
    function Size(): (r: nat)
      reads this
      ensures r == |queue|
    {
      |queue|
    }
  }
}

=== FILE: node_reindexer.dfy ===
/**
 * NodeReindexer: numbers the nodes of a graph so that graphs of the same
 * shape get the same numbers, whatever order their nodes and connections
 * were added in. Numbering is a depth-first walk from the output node 0:
 * a node gets the next free number on its first visit, and then every node
 * feeding one of its input plugs is visited, the connections taken in
 * stable input-plug order.
 *
 * The map the caller passes in is filled in place in the source; here it is
 * passed in and the filled map is returned.
 */
module NodeReindexer {
  import opened Layout
  import opened Connections
  import opened GraphQueries
  import opened StableSort
  import ImplNodeGraph

  /** The sort key of sortConnections. */
  function InputPlugKey(c: Conn): int
  {
    c.inputPlug
  }

  /** The nodes that feed some connection. */
  function Sources(conns: seq<Conn>): set<int>
  {
    set i | 0 <= i < |conns| :: conns[i].outputNode
  }

  /** The nodes feeding `node` through the connections, in list order: the nodes placeNodes visits from it. */
  function Feeders(conns: seq<Conn>, node: int): seq<int>
  {
    if conns == [] then []
    else (if conns[0].inputNode == node then [conns[0].outputNode] else []) + Feeders(conns[1..], node)
  }

  /** Every feeder met from connection i on is the output node of some connection. */
  lemma {:induction false} FeedersAreSources(conns: seq<Conn>, i: nat, node: int)
    requires i <= |conns|
    ensures forall x :: x in Feeders(conns[i..], node) ==> x in Sources(conns)
    decreases |conns| - i
  {
    if i < |conns| {
      FeedersAreSources(conns, i + 1, node);
      assert conns[i..][1..] == conns[i + 1..];
      assert conns[i].outputNode in Sources(conns);
    }
  }

  lemma AllFeedersAreSources(conns: seq<Conn>, node: int)
    ensures forall x :: x in Feeders(conns, node) ==> x in Sources(conns)
  {
    FeedersAreSources(conns, 0, node);
    assert conns[0..] == conns;
  }

  /**
   * placeNodes as a function: a node already numbered is left alone;
   * otherwise it gets `outIndex` and its feeders are placed in turn. The
   * universe u holds every node that can be met, which bounds the
   * recursion.
   */
  ghost function PlaceFrom(indices: map<int, int>, conns: seq<Conn>, node: int, outIndex: int, u: set<int>): (r: (map<int, int>, int))
    requires node in u && Sources(conns) <= u
    ensures |u - r.0.Keys| <= |u - indices.Keys|
    decreases |u - indices.Keys|, 0, 0
  {
    if node in indices then (indices, outIndex)
    else
      PlacedShrinks(u, indices, node, outIndex);
      AllFeedersAreSources(conns, node);
      PlaceList(indices[node := outIndex], conns, Feeders(conns, node), outIndex + 1, u)
  }

  /** The loop of placeNodes: the nodes of the list placed one after the other. */
  ghost function PlaceList(indices: map<int, int>, conns: seq<Conn>, nodes: seq<int>, outIndex: int, u: set<int>): (r: (map<int, int>, int))
    requires Sources(conns) <= u && forall x :: x in nodes ==> x in u
    ensures |u - r.0.Keys| <= |u - indices.Keys|
    decreases |u - indices.Keys|, 1, |nodes|
  {
    if nodes == [] then (indices, outIndex)
    else
      var p := PlaceFrom(indices, conns, nodes[0], outIndex, u);
      PlaceList(p.0, conns, nodes[1..], p.1, u)
  }

  /** The numbering reindex gives a graph: placeNodes from the output node 0 over the sorted connections. */
  ghost function Numbering(g: Graph): map<int, int>
  {
    var conns := SortBy(g.conns, InputPlugKey);
    PlaceFrom(map[], conns, 0, 0, Sources(conns) + {0}).0
  }

  /**
   * The functional invariant of the loop of placeNodes: placing the
   * feeders met from connection i on, from the current map, gives `goal`.
   */
  ghost predicate Remaining(placed: map<int, int>, conns: seq<Conn>, i: int, node: int, next: int, u: set<int>,
                            goal: (map<int, int>, int))
  {
    0 <= i <= |conns| && Sources(conns) <= u && (forall x :: x in Feeders(conns[i..], node) ==> x in u) &&
    PlaceList(placed, conns, Feeders(conns[i..], node), next, u) == goal
  }

  lemma RemainingStart(indices: map<int, int>, conns: seq<Conn>, node: int, outIndex: int, u: set<int>)
    requires node in u && Sources(conns) <= u && node !in indices
    ensures Remaining(indices[node := outIndex], conns, 0, node, outIndex + 1, u, PlaceFrom(indices, conns, node, outIndex, u))
  {
    FeedersAreSources(conns, 0, node);
    assert conns[0..] == conns;
  }

  lemma RemainingSkip(placed: map<int, int>, conns: seq<Conn>, i: int, node: int, next: int, u: set<int>, goal: (map<int, int>, int))
    requires Remaining(placed, conns, i, node, next, u, goal) && i < |conns| && conns[i].inputNode != node
    ensures Remaining(placed, conns, i + 1, node, next, u, goal)
  {
    PlaceListStep(placed, conns, i, node, next, u);
  }

  lemma RemainingStep(placed: map<int, int>, conns: seq<Conn>, i: int, node: int, next: int, u: set<int>, goal: (map<int, int>, int),
                      placed': map<int, int>, next': int)
    requires Remaining(placed, conns, i, node, next, u, goal) && i < |conns| && conns[i].inputNode == node
    requires conns[i].outputNode in u && (placed', next') == PlaceFrom(placed, conns, conns[i].outputNode, next, u)
    ensures Remaining(placed', conns, i + 1, node, next', u, goal)
  {
    PlaceListStep(placed, conns, i, node, next, u);
  }

  lemma RemainingDone(placed: map<int, int>, conns: seq<Conn>, node: int, next: int, u: set<int>, goal: (map<int, int>, int))
    requires Remaining(placed, conns, |conns|, node, next, u, goal)
    ensures goal == (placed, next)
  {
    assert conns[|conns|..] == [];
  }

  /** One more connection of the loop of placeNodes: its output node is placed if it feeds the node. */
  lemma PlaceListStep(placed: map<int, int>, conns: seq<Conn>, i: int, node: int, next: int, u: set<int>)
    requires 0 <= i < |conns| && Sources(conns) <= u
    ensures forall x :: x in Feeders(conns[i..], node) ==> x in u
    ensures forall x :: x in Feeders(conns[i + 1..], node) ==> x in u
    ensures conns[i].outputNode in u
    ensures PlaceList(placed, conns, Feeders(conns[i..], node), next, u) ==
      if conns[i].inputNode == node then
        var r := PlaceFrom(placed, conns, conns[i].outputNode, next, u);
        PlaceList(r.0, conns, Feeders(conns[i + 1..], node), r.1, u)
      else PlaceList(placed, conns, Feeders(conns[i + 1..], node), next, u)
  {
    FeedersAreSources(conns, i, node);
    FeedersAreSources(conns, i + 1, node);
    assert conns[i..][1..] == conns[i + 1..];
    assert conns[i].outputNode in Sources(conns);
    var rest := Feeders(conns[i + 1..], node);
    if conns[i].inputNode == node {
      var ns := [conns[i].outputNode] + rest;
      assert Feeders(conns[i..], node) == ns;
      assert ns[0] == conns[i].outputNode && ns[1..] == rest;
    } else {
      assert Feeders(conns[i..], node) == [] + rest == rest;
    }
  }

  /**
   * The keys `after` has beyond `before` are numbered lo, lo + 1, ..., hi - 1,
   * each number used once.
   */
  ghost predicate Numbered(after: map<int, int>, before: set<int>, lo: int, hi: int)
  {
    hi - lo == |after.Keys - before| &&
    (forall k :: k in after && k !in before ==> lo <= after[k] < hi) &&
    (forall a, b :: a in after && b in after && a !in before && b !in before && a != b ==> after[a] != after[b])
  }

  /** Every connection into a node of `keys` comes from a node of `within`. */
  ghost predicate ClosedUnder(keys: set<int>, within: set<int>, conns: seq<Conn>)
  {
    forall k, j :: k in keys && 0 <= j < |conns| && conns[j].inputNode == k ==> conns[j].outputNode in within
  }

  lemma DiffShrinks(u: set<int>, a: set<int>, b: set<int>, x: int)
    requires a <= b && x in u && x in b && x !in a
    ensures |u - b| < |u - a|
  {
    assert u - a == (u - b) + ((u - a) - (u - b));
    assert x in (u - a) - (u - b);
  }

  /** Placing one more node of the universe leaves fewer to place. */
  lemma PlacedShrinks(u: set<int>, indices: map<int, int>, node: int, outIndex: int)
    requires node in u && node !in indices
    ensures |u - indices[node := outIndex].Keys| < |u - indices.Keys|
  {
    var m := indices[node := outIndex];
    assert m.Keys == indices.Keys + {node};
    DiffShrinks(u, indices.Keys, m.Keys, node);
  }

  lemma CardChain(a: set<int>, b: set<int>, c: set<int>)
    requires a <= b <= c
    ensures |c - a| == |b - a| + |c - b|
  {
    assert c - a == (b - a) + (c - b);
    assert (b - a) * (c - b) == {};
  }

  /** Numbering a first batch of new keys and then a second batch numbers both. */
  lemma NumberedChain(m0: map<int, int>, m1: map<int, int>, m2: map<int, int>, lo: int, mid: int, hi: int)
    requires m0.Keys <= m1.Keys <= m2.Keys
    requires forall k :: k in m1 ==> m2[k] == m1[k]
    requires Numbered(m1, m0.Keys, lo, mid) && Numbered(m2, m1.Keys, mid, hi)
    ensures Numbered(m2, m0.Keys, lo, hi)
  {
    CardChain(m0.Keys, m1.Keys, m2.Keys);
  }

  lemma ClosedUnderGrow(keys: set<int>, within: set<int>, within': set<int>, conns: seq<Conn>)
    requires ClosedUnder(keys, within, conns) && within <= within'
    ensures ClosedUnder(keys, within', conns)
  {
  }

  /** Closing the current node on top of the nodes placed before. */
  lemma ClosedStep(before: set<int>, placed: set<int>, after: set<int>, node: int, conns: seq<Conn>)
    requires placed <= after
    requires ClosedUnder(placed - before - {node}, placed, conns) && ClosedUnder(after - placed, after, conns)
    ensures ClosedUnder(after - before - {node}, after, conns)
  {
    forall k, j | k in after - before - {node} && 0 <= j < |conns| && conns[j].inputNode == k
      ensures conns[j].outputNode in after
    {
      if k in placed {
        assert k in placed - before - {node};
      } else {
        assert k in after - placed;
      }
    }
  }

  /** The connections before i that enter `node` come from nodes of `keys`. */
  ghost predicate FeedersIn(conns: seq<Conn>, i: int, node: int, keys: set<int>)
  {
    forall j :: 0 <= j < i && j < |conns| && conns[j].inputNode == node ==> conns[j].outputNode in keys
  }

  lemma FeedersNext(conns: seq<Conn>, i: int, node: int, before: set<int>, after: set<int>)
    requires 0 <= i < |conns| && FeedersIn(conns, i, node, before) && before <= after
    requires conns[i].inputNode == node ==> conns[i].outputNode in after
    ensures FeedersIn(conns, i + 1, node, after)
  {
  }

  lemma ClosedFinish(before: set<int>, placed: set<int>, node: int, conns: seq<Conn>)
    requires ClosedUnder(placed - before - {node}, placed, conns)
    requires FeedersIn(conns, |conns|, node, placed)
    ensures ClosedUnder(placed - before, placed, conns)
  {
    forall k, j | k in placed - before && 0 <= j < |conns| && conns[j].inputNode == k
      ensures conns[j].outputNode in placed
    {
      if k != node {
        assert k in placed - before - {node};
      }
    }
  }

  /** A node that feeds the output end of connection i feeds its input end too. */
  lemma ReachesThrough(conns: seq<Conn>, k: int, i: int)
    requires 0 <= i < |conns| && ReachesSome(conns, k, conns[i].outputNode)
    ensures ReachesSome(conns, k, conns[i].inputNode)
  {
    var f: nat :| Reaches(conns, k, conns[i].outputNode, f);
    assert Reaches(conns, conns[i].inputNode, conns[i].inputNode, 0);
    assert Reaches(conns, conns[i].outputNode, conns[i].inputNode, 1);
    ReachesTransitive(conns, k, conns[i].outputNode, conns[i].inputNode, f, 1);
  }

  /** A key set closed under feeding connections holds every node that feeds one of its keys. */
  lemma {:induction false} ClosedHoldsFeeders(keys: set<int>, conns: seq<Conn>, x: int, y: int, fuel: nat)
    requires ClosedUnder(keys, keys, conns) && y in keys && Reaches(conns, x, y, fuel)
    ensures x in keys
    decreases fuel
  {
    if x != y {
      var i :| 0 <= i < |conns| && conns[i].outputNode == x && Reaches(conns, conns[i].inputNode, y, fuel - 1);
      ClosedHoldsFeeders(keys, conns, conns[i].inputNode, y, fuel - 1);
    }
  }

  /**
   * What placeNodes promises: the keys of `indices` keep their numbers;
   * `node` is placed, with `outIndex` if it is new; the new keys are
   * numbered outIndex, ..., next - 1; each of them feeds `node`; and every
   * connection into a new key comes from a placed node.
   */
  ghost predicate Placed(indices: map<int, int>, placed: map<int, int>, conns: seq<Conn>, node: int, outIndex: int, next: int)
  {
    indices.Keys <= placed.Keys && node in placed &&
    (forall k :: k in indices ==> placed[k] == indices[k]) &&
    (node in indices ==> placed == indices && next == outIndex) &&
    (node !in indices ==> placed[node] == outIndex) &&
    Numbered(placed, indices.Keys, outIndex, next) &&
    (forall k :: k in placed && k !in indices ==> ReachesSome(conns, k, node)) &&
    ClosedUnder(placed.Keys - indices.Keys, placed.Keys, conns)
  }

  /** The invariant of the loop of placeNodes over a new node, after i connections. */
  ghost predicate Placing(indices: map<int, int>, placed: map<int, int>, conns: seq<Conn>, node: int, outIndex: int, next: int, i: int)
  {
    0 <= i <= |conns| && node !in indices &&
    indices.Keys + {node} <= placed.Keys &&
    (forall k :: k in indices ==> placed[k] == indices[k]) &&
    placed[node] == outIndex &&
    Numbered(placed, indices.Keys, outIndex, next) &&
    (forall k :: k in placed && k !in indices ==> ReachesSome(conns, k, node)) &&
    ClosedUnder(placed.Keys - indices.Keys - {node}, placed.Keys, conns) &&
    FeedersIn(conns, i, node, placed.Keys)
  }

  lemma PlacingStart(indices: map<int, int>, conns: seq<Conn>, node: int, outIndex: int)
    requires node !in indices
    ensures Placing(indices, indices[node := outIndex], conns, node, outIndex, outIndex + 1, 0)
  {
    var placed := indices[node := outIndex];
    assert placed.Keys - indices.Keys == {node};
    assert Reaches(conns, node, node, 0);
  }

  /** Connection i does not enter the node: nothing changes. */
  lemma PlacingSkip(indices: map<int, int>, placed: map<int, int>, conns: seq<Conn>, node: int, outIndex: int, next: int, i: int)
    requires Placing(indices, placed, conns, node, outIndex, next, i) && i < |conns| && conns[i].inputNode != node
    ensures Placing(indices, placed, conns, node, outIndex, next, i + 1)
  {
    FeedersNext(conns, i, node, placed.Keys, placed.Keys);
  }

  /** Connection i enters the node: placing its output node keeps the invariant. */
  lemma PlacingStep(indices: map<int, int>, before: map<int, int>, after: map<int, int>, conns: seq<Conn>,
                    node: int, i: int, outIndex: int, mid: int, next: int)
    requires Placing(indices, before, conns, node, outIndex, mid, i) && i < |conns| && conns[i].inputNode == node
    requires Placed(before, after, conns, conns[i].outputNode, mid, next)
    ensures Placing(indices, after, conns, node, outIndex, next, i + 1)
  {
    NumberedChain(indices, before, after, outIndex, mid, next);
    forall k | k in after && k !in indices
      ensures ReachesSome(conns, k, node)
    {
      if k !in before {
        ReachesThrough(conns, k, i);
      }
    }
    ClosedStep(indices.Keys, before.Keys, after.Keys, node, conns);
    FeedersNext(conns, i, node, before.Keys, after.Keys);
  }

  lemma PlacingDone(indices: map<int, int>, placed: map<int, int>, conns: seq<Conn>, node: int, outIndex: int, next: int)
    requires Placing(indices, placed, conns, node, outIndex, next, |conns|)
    ensures Placed(indices, placed, conns, node, outIndex, next)
  {
    ClosedFinish(indices.Keys, placed.Keys, node, conns);
  }

  /**
   * sortConnections: every connection of the graph, in stable ascending
   * order of input plug.
   */
  method SortConnections(graph: ImplNodeGraph.NodeGraph) returns (connections: seq<Conn>)
    requires graph.Valid()
    ensures connections == SortBy(graph.model.conns, InputPlugKey)
    ensures SortedBy(connections, InputPlugKey)
    ensures multiset(connections) == multiset(graph.model.conns)
    ensures forall plug :: WithKey(connections, plug, InputPlugKey) == WithKey(graph.model.conns, plug, InputPlugKey)
  {
    connections := [];
    var connectionCount := graph.GetConnectionCount();
    var i := 0;
    while i < connectionCount
      invariant 0 <= i <= connectionCount == |graph.model.conns|
      invariant connections == graph.model.conns[..i]
    {
      var connection := new TypedConnection();
      var _ := graph.GetConnection(i, connection);
      connections := connections + [connection.Value()];
      assert graph.model.conns[..i + 1] == graph.model.conns[..i] + [graph.model.conns[i]];
      i := i + 1;
    }
    assert connections == graph.model.conns;
    connections := SortBy(connections, InputPlugKey);
    SortByIsSorted(graph.model.conns, InputPlugKey);
    SortByPermutes(graph.model.conns, InputPlugKey);
    forall plug
      ensures WithKey(connections, plug, InputPlugKey) == WithKey(graph.model.conns, plug, InputPlugKey)
    {
      SortByStable(graph.model.conns, plug, InputPlugKey);
    }
  }

  /** Both invariants of the loop of placeNodes: what is placed so far, and what is still to come. */
  ghost predicate Loop(indices: map<int, int>, placed: map<int, int>, conns: seq<Conn>, node: int, outIndex: int, next: int, i: int,
                       u: set<int>, goal: (map<int, int>, int))
  {
    Placing(indices, placed, conns, node, outIndex, next, i) && Remaining(placed, conns, i, node, next, u, goal)
  }

  lemma LoopStart(indices: map<int, int>, conns: seq<Conn>, node: int, outIndex: int, u: set<int>)
    requires node in u && Sources(conns) <= u && node !in indices
    ensures Loop(indices, indices[node := outIndex], conns, node, outIndex, outIndex + 1, 0, u, PlaceFrom(indices, conns, node, outIndex, u))
  {
    PlacingStart(indices, conns, node, outIndex);
    RemainingStart(indices, conns, node, outIndex, u);
  }

  /** Before the recursive call: the feeder lies in the universe and the recursion measure drops. */
  lemma LoopFeeder(indices: map<int, int>, placed: map<int, int>, conns: seq<Conn>, node: int, outIndex: int, next: int, i: int,
                   u: set<int>, goal: (map<int, int>, int))
    requires Loop(indices, placed, conns, node, outIndex, next, i, u, goal) && i < |conns| && node in u
    ensures conns[i].outputNode in u && |u - placed.Keys| < |u - indices.Keys|
  {
    assert conns[i].outputNode in Sources(conns);
    DiffShrinks(u, indices.Keys, placed.Keys, node);
  }

  lemma LoopSkip(indices: map<int, int>, placed: map<int, int>, conns: seq<Conn>, node: int, outIndex: int, next: int, i: int,
                 u: set<int>, goal: (map<int, int>, int))
    requires Loop(indices, placed, conns, node, outIndex, next, i, u, goal) && i < |conns| && conns[i].inputNode != node
    ensures Loop(indices, placed, conns, node, outIndex, next, i + 1, u, goal)
  {
    PlacingSkip(indices, placed, conns, node, outIndex, next, i);
    RemainingSkip(placed, conns, i, node, next, u, goal);
  }

  lemma LoopStep(indices: map<int, int>, before: map<int, int>, after: map<int, int>, conns: seq<Conn>, node: int, outIndex: int,
                 mid: int, next: int, i: int, u: set<int>, goal: (map<int, int>, int))
    requires Loop(indices, before, conns, node, outIndex, mid, i, u, goal) && i < |conns| && conns[i].inputNode == node
    requires conns[i].outputNode in u
    requires Placed(before, after, conns, conns[i].outputNode, mid, next)
    requires (after, next) == PlaceFrom(before, conns, conns[i].outputNode, mid, u)
    ensures Loop(indices, after, conns, node, outIndex, next, i + 1, u, goal)
  {
    PlacingStep(indices, before, after, conns, node, i, outIndex, mid, next);
    RemainingStep(before, conns, i, node, mid, u, goal, after, next);
  }

  lemma LoopDone(indices: map<int, int>, placed: map<int, int>, conns: seq<Conn>, node: int, outIndex: int, next: int,
                 u: set<int>, goal: (map<int, int>, int))
    requires Loop(indices, placed, conns, node, outIndex, next, |conns|, u, goal)
    ensures Placed(indices, placed, conns, node, outIndex, next) && goal == (placed, next)
  {
    RemainingDone(placed, conns, node, next, u, goal);
    PlacingDone(indices, placed, conns, node, outIndex, next);
  }

  /**
   * placeNodes: a node already numbered is left alone; otherwise it gets
   * `outIndex`, and then every node feeding it, taken in connection order,
   * is placed in turn. Returns the next free number.
   */
  method PlaceNodes(indices: map<int, int>, connections: seq<Conn>, nodeIndex: int, outIndex: int, ghost u: set<int>)
    returns (placed: map<int, int>, next: int)
    requires nodeIndex in u && Sources(connections) <= u
    ensures Placed(indices, placed, connections, nodeIndex, outIndex, next)
    ensures (placed, next) == PlaceFrom(indices, connections, nodeIndex, outIndex, u)
    decreases |u - indices.Keys|
  {
    if nodeIndex in indices {
      return indices, outIndex;
    }
    placed := indices[nodeIndex := outIndex];
    next := outIndex + 1;
    ghost var goal := PlaceFrom(indices, connections, nodeIndex, outIndex, u);
    LoopStart(indices, connections, nodeIndex, outIndex, u);
    var i := 0;
    while i < |connections|
      invariant Loop(indices, placed, connections, nodeIndex, outIndex, next, i, u, goal)
    {
      if connections[i].inputNode == nodeIndex {
        ghost var before := placed;
        ghost var mid := next;
        LoopFeeder(indices, placed, connections, nodeIndex, outIndex, next, i, u, goal);
        placed, next := PlaceNodes(placed, connections, connections[i].outputNode, next, u);
        LoopStep(indices, before, placed, connections, nodeIndex, outIndex, mid, next, i, u, goal);
      } else {
        LoopSkip(indices, placed, connections, nodeIndex, outIndex, next, i, u, goal);
      }
      i := i + 1;
    }
    LoopDone(indices, placed, connections, nodeIndex, outIndex, next, u, goal);
  }

  /**
   * reindex: places the nodes from the output node 0 with numbers from 0.
   * Into an empty map this numbers exactly the nodes that feed node 0,
   * directly or not, with 0, 1, ..., each number once, and node 0 with 0.
   */
  method Reindex(graph: ImplNodeGraph.NodeGraph, out: map<int, int>) returns (indices: map<int, int>)
    requires graph.Valid()
    ensures out.Keys <= indices.Keys && forall k :: k in out ==> indices[k] == out[k]
    ensures 0 in indices && (0 !in out ==> indices[0] == 0)
    ensures out == map[] ==> Numbered(indices, {}, 0, |indices|)
    ensures out == map[] ==> forall x :: x in indices <==> ReachesSome(graph.model.conns, x, 0)
    ensures out == map[] ==> indices == Numbering(graph.model)
  {
    var connections := SortConnections(graph);
    forall c | c in connections
      ensures c in graph.model.conns
    {
      assert c in multiset(connections);
    }
    forall c | c in graph.model.conns
      ensures c in connections
    {
      assert c in multiset(graph.model.conns);
    }
    ghost var u := Sources(connections) + {0};
    var next;
    indices, next := PlaceNodes(out, connections, 0, 0, u);
    if out == map[] {
      assert indices.Keys - out.Keys == indices.Keys;
      forall x
        ensures x in indices <==> ReachesSome(graph.model.conns, x, 0)
      {
        if x in indices {
          var f: nat :| Reaches(connections, x, 0, f);
          ReachesSubset(connections, graph.model.conns, x, 0, f);
        }
        if ReachesSome(graph.model.conns, x, 0) {
          var f: nat :| Reaches(graph.model.conns, x, 0, f);
          ReachesSubset(graph.model.conns, connections, x, 0, f);
          ClosedHoldsFeeders(indices.Keys, connections, x, 0, f);
        }
      }
    }
  }
}

=== FILE: object_hierarchy.dfy ===
/**
 * A registry of data types created by name, with single-root inheritance:
 * every data type added extends the root object, plus any parents named
 * for it. One class models both copies of the registry (the codeflow one
 * and the datatypes one), which share addDataType, getRootObject and
 * getObject word for word and differ only in their constructors.
 *
 * Both constructors, as written, fail: their first call is
 * addDataType("Object"), which begins by asking for the root object of the
 * still-empty list. NewCodeflowHeirarchy and NewDatatypesHeirarchy model
 * that; WithPrimitives and WithRoot create the root object directly, as
 * intended, and then add the remaining primitive types.
 */
module ObjectHierarchies {
  import opened Wrappers
  import opened DataObjs
  import opened Functions

  /**
   * A well-formed registry: a root object at index 0, parents created
   * before their children, names unique, and every object other than the
   * root extending the root through its first parent slot.
   */
  predicate Hierarchy(objs: seq<DataObj>)
  {
    |objs| >= 1 && Ordered(objs) &&
    (forall i, j :: 0 <= i < j < |objs| ==> objs[i].name != objs[j].name) &&
    forall i :: 1 <= i < |objs| ==> |objs[i].parents| >= 1 && objs[i].parents[0] == Some(0)
  }

  /** The parents a new data type gets: the root first, then the ones named for it. */
  function ParentsFor(parents: seq<Option<nat>>): (r: seq<Option<nat>>)
    ensures |r| == |parents| + 1 && r[0] == Some(0) && r[1..] == parents
  {
    [Some(0)] + parents
  }

  /** Parent links that name objects of the registry (or are null). */
  predicate Known(objs: seq<DataObj>, parents: seq<Option<nat>>)
  {
    forall k :: 0 <= k < |parents| && parents[k].Some? ==> parents[k].value < |objs|
  }

  /** Adding a data type leaves the way the existing ones connect unchanged. */
  lemma {:induction false} ConnectsInPrefix(objs: seq<DataObj>, x: DataObj, i: int, t: DataType)
    requires Ordered(objs) && Ordered(objs + [x]) && 0 <= i < |objs|
    ensures CanConnectTo(objs + [x], i, t) == CanConnectTo(objs, i, t)
    decreases i, 1
  {
    ParentsInPrefix(objs, x, i, t, |objs[i].parents|);
  }

  lemma {:induction false} ParentsInPrefix(objs: seq<DataObj>, x: DataObj, i: nat, t: DataType, k: nat)
    requires Ordered(objs) && Ordered(objs + [x]) && i < |objs| && k <= |objs[i].parents|
    ensures (objs + [x])[i] == objs[i]
    ensures ParentsConnect(objs + [x], i, t, k) == ParentsConnect(objs, i, t, k)
    decreases i, 0, k
  {
    assert (objs + [x])[i] == objs[i];
    if k > 0 {
      ParentsInPrefix(objs, x, i, t, k - 1);
      var p := objs[i].parents[k - 1];
      if p.Some? {
        ConnectsInPrefix(objs, x, p.value, t);
      }
    }
  }

  /** In a well-formed registry every data type can connect to the root. */
  lemma ConnectsToRoot(objs: seq<DataObj>, i: int)
    requires Hierarchy(objs) && 0 <= i < |objs|
    ensures CanConnectTo(objs, i, 0)
  {
    if i > 0 {
      CanConnectToParent(objs, i, 0);
    }
  }

  /**
   * A successful addDataType keeps the registry well-formed; the new data
   * type connects to the root and to every parent named for it, and the
   * others connect as before.
   */
  lemma AddKeepsHierarchy(objs: seq<DataObj>, name: string, parents: seq<Option<nat>>)
    requires Hierarchy(objs) && Known(objs, parents)
    requires forall j :: 0 <= j < |objs| ==> objs[j].name != name
    ensures Hierarchy(objs + [DataObj(name, ParentsFor(parents))])
    ensures CanConnectTo(objs + [DataObj(name, ParentsFor(parents))], |objs|, 0)
    ensures forall k :: 0 <= k < |parents| && parents[k].Some? ==>
      CanConnectTo(objs + [DataObj(name, ParentsFor(parents))], |objs|, parents[k].value)
    ensures forall i, t :: 0 <= i < |objs| ==>
      CanConnectTo(objs + [DataObj(name, ParentsFor(parents))], i, t) == CanConnectTo(objs, i, t)
  {
    var next := objs + [DataObj(name, ParentsFor(parents))];
    HierarchyAppend(objs, DataObj(name, ParentsFor(parents)), parents);
    ConnectsToRoot(next, |objs|);
    NamedParentsConnect(objs, DataObj(name, ParentsFor(parents)), parents);
    PrefixConnectsAsBefore(objs, DataObj(name, ParentsFor(parents)));
  }

  /** A data type with a fresh name, the root as first parent and known parents after it extends a registry. */
  lemma HierarchyAppend(objs: seq<DataObj>, x: DataObj, parents: seq<Option<nat>>)
    requires Hierarchy(objs) && Known(objs, parents) && x.parents == ParentsFor(parents)
    requires forall j :: 0 <= j < |objs| ==> objs[j].name != x.name
    ensures Hierarchy(objs + [x])
  {
  }

  /** A new data type connects to every parent named for it. */
  lemma NamedParentsConnect(objs: seq<DataObj>, x: DataObj, parents: seq<Option<nat>>)
    requires Ordered(objs + [x]) && x.parents == ParentsFor(parents)
    ensures forall k :: 0 <= k < |parents| && parents[k].Some? ==> CanConnectTo(objs + [x], |objs|, parents[k].value)
  {
    forall k | 0 <= k < |parents| && parents[k].Some? {
      NamedParentConnects(objs, x, parents, k);
    }
  }

  /** Appending a data type leaves every existing one connecting as before. */
  lemma PrefixConnectsAsBefore(objs: seq<DataObj>, x: DataObj)
    requires Ordered(objs) && Ordered(objs + [x])
    ensures forall i, t :: 0 <= i < |objs| ==> CanConnectTo(objs + [x], i, t) == CanConnectTo(objs, i, t)
  {
    forall i, t | 0 <= i < |objs| {
      ConnectsInPrefix(objs, x, i, t);
    }
  }

  /** The k-th parent named for a new data type sits in slot k + 1, after the root, so the new type connects to it. */
  lemma NamedParentConnects(objs: seq<DataObj>, x: DataObj, parents: seq<Option<nat>>, k: int)
    requires Ordered(objs + [x]) && x.parents == ParentsFor(parents)
    requires 0 <= k < |parents| && parents[k].Some?
    ensures CanConnectTo(objs + [x], |objs|, parents[k].value)
  {
    var next := objs + [x];
    assert next[|objs|].parents[k + 1] == parents[k];
    CanConnectToParent(next, |objs|, k + 1);
  }

  /** The primitive types the codeflow registry is documented to hold. */
  function Primitives(): (r: seq<DataObj>)
    ensures Hierarchy(r)
    ensures |r| == 5 && r[0].name == "Object" && r[1].name == "Number" && r[4].name == "Integer"
  {
    [ DataObj("Object", [None]),
      DataObj("Number", [Some(0)]),
      DataObj("Boolean", [Some(0)]),
      DataObj("String", [Some(0)]),
      DataObj("Integer", [Some(0), Some(1)]) ]
  }

  /** The five primitive names differ pairwise. */
  lemma PrimitiveNames()
    ensures forall i, j :: 0 <= i < 5 && 0 <= j < 5 && i != j ==> Primitives()[i].name != Primitives()[j].name
  {
    var p := Primitives();
    assert p[0].name[0] == 'O' && p[1].name[0] == 'N' && p[2].name[0] == 'B' && p[3].name[0] == 'S' && p[4].name[0] == 'I';
  }

  /** Integer casts up to Number and to Object, but not to Boolean or String. */
  lemma IntegerIsNumber()
    ensures CanConnectTo(Primitives(), 4, 1) && CanConnectTo(Primitives(), 4, 0)
    ensures !CanConnectTo(Primitives(), 4, 2) && !CanConnectTo(Primitives(), 4, 3)
  {
    var p := Primitives();
    CanConnectToParent(p, 4, 1);
    ConnectsToRoot(p, 4);
    assert !CanConnectTo(p, 0, 2) && !CanConnectTo(p, 0, 3);
    assert !CanConnectTo(p, 1, 2) && !CanConnectTo(p, 1, 3);
  }

  class ObjectHeirarchy {
    /** The data types in the order they were added. */
    var objects: seq<DataObj>

    ghost predicate Valid()
      reads this
    {
      Hierarchy(objects)
    }

    /** The field initialiser: an empty list, before any constructor body runs. */
    constructor Empty()
      ensures objects == []
    {
      objects := [];
    }

    /** The codeflow constructor as written: its first addDataType fails on the empty list. */
    static method NewCodeflowHeirarchy() returns (r: Result<ObjectHeirarchy>)
      ensures r == Failure(IndexOutOfBounds)
    {
      var h := new ObjectHeirarchy.Empty();
      var o := h.AddDataType("Object", []);
      return Failure(o.error);
    }

    /** The datatypes constructor as written: the same failure. */
    static method NewDatatypesHeirarchy() returns (r: Result<ObjectHeirarchy>)
      ensures r == Failure(IndexOutOfBounds)
    {
      var h := new ObjectHeirarchy.Empty();
      var o := h.AddDataType("Object", []);
      return Failure(o.error);
    }

    /** The datatypes constructor as intended: the root object alone. */
    constructor WithRoot()
      ensures objects == [DataObj("Object", [None])] && Valid()
    {
      objects := [DataObj("Object", [None])];
    }

    /** The codeflow constructor as intended: Object, Number, Boolean, String, and Integer extending Number. */
    constructor WithPrimitives()
      ensures objects == Primitives() && Valid()
    {
      objects := [DataObj("Object", [None])];
      new;
      var p := Primitives();
      PrimitiveNames();
      assert objects == p[..1];
      AddPrimitive(1, []);
      AddPrimitive(2, []);
      AddPrimitive(3, []);
      var number := GetObject("Number");
      assert number == Some(1);
      AddPrimitive(4, [number]);
    }

    /** One addDataType call of WithPrimitives, which succeeds: the k-th primitive type joins the first k. */
    method AddPrimitive(k: nat, parents: seq<Option<nat>>)
      requires 1 <= k < 5 && objects == Primitives()[..k] && Primitives()[k].parents == ParentsFor(parents)
      requires Known(objects, parents) && Some(0) !in parents
      modifies this
      ensures objects == Primitives()[..k + 1]
    {
      PrimitiveNames();
      var r := AddDataType(Primitives()[k].name, parents);
      assert r.Success?;
    }

    /** getRootObject: the first data type; IndexOutOfBoundsException on an empty list. */
    function GetRootObject(): (r: Result<nat>)
      reads this
      ensures r.Success? <==> objects != []
      ensures r.Success? ==> r.value == 0 && (Valid() ==> forall i :: 0 <= i < |objects| ==> CanConnectTo(objects, i, r.value))
      ensures r.Failure? ==> r.error == IndexOutOfBounds
    {
      if objects == [] then Failure(IndexOutOfBounds)
      else
        assert Valid() ==> forall i :: 0 <= i < |objects| ==> CanConnectTo(objects, i, 0) by {
          if Valid() {
            forall i | 0 <= i < |objects| ensures CanConnectTo(objects, i, 0) {
              ConnectsToRoot(objects, i);
            }
          }
        }
        Success(0)
    }

    /** getObject: the first data type with the name, or null (None). */
    method GetObject(name: string) returns (r: Option<nat>)
      ensures r.Some? ==> r.value < |objects| && objects[r.value].name == name
      ensures r.Some? ==> forall j :: 0 <= j < r.value ==> objects[j].name != name
      ensures r.None? ==> forall j :: 0 <= j < |objects| ==> objects[j].name != name
    {
      var i := 0;
      while i < |objects|
        invariant 0 <= i <= |objects|
        invariant forall j :: 0 <= j < i ==> objects[j].name != name
      {
        if objects[i].name == name {
          return Some(i);
        }
        i := i + 1;
      }
      return None;
    }

    /**
     * addDataType: IndexOutOfBoundsException when there is no root yet;
     * IllegalArgumentException when the root is among the parents or the
     * name is taken; otherwise a data type with the root followed by the
     * given parents is appended and its index returned.
     */
    method AddDataType(name: string, parents: seq<Option<nat>>) returns (r: Result<nat>)
      requires Known(objects, parents)
      modifies this
      ensures old(objects) == [] ==> r == Failure(IndexOutOfBounds)
      ensures old(objects) != [] && Some(0) in parents ==> r == Failure(IllegalArgument)
      ensures old(objects) != [] && Some(0) !in parents && (exists j :: 0 <= j < |old(objects)| && old(objects)[j].name == name) ==>
        r == Failure(IllegalArgument)
      ensures r.Failure? ==> objects == old(objects)
      ensures r.Success? <==> old(objects) != [] && Some(0) !in parents && forall j :: 0 <= j < |old(objects)| ==> old(objects)[j].name != name
      ensures r.Success? ==> r.value == |old(objects)| && objects == old(objects) + [DataObj(name, ParentsFor(parents))]
      ensures old(Valid()) ==> Valid()
    {
      var root := GetRootObject();
      if root.Failure? {
        return Failure(root.error);
      }
      var k := 0;
      while k < |parents|
        invariant 0 <= k <= |parents| && Some(0) !in parents[..k]
      {
        if parents[k] == Some(root.value) {
          return Failure(IllegalArgument);
        }
        k := k + 1;
      }
      assert parents[..k] == parents;
      var existing := GetObject(name);
      if existing.Some? {
        return Failure(IllegalArgument);
      }
      var p := new Option<nat>[|parents| + 1];
      p[0] := Some(root.value);
      var i := 0;
      while i < |parents|
        modifies p
        invariant 0 <= i <= |parents| && p[0] == Some(0) && p[1..i + 1] == parents[..i]
      {
        p[i + 1] := parents[i];
        i := i + 1;
      }
      assert p[..] == ParentsFor(parents) by {
        assert p[1..] == parents;
      }
      if Valid() {
        AddKeepsHierarchy(objects, name, parents);
      }
      objects := objects + [DataObj(name, p[..])];
      return Success(|objects| - 1);
    }
  }
}

=== FILE: paths.dfy ===
/**
 * Paths along output-to-input connections. A connection path that repeats
 * a node can be cut short, so in a graph of N nodes a node reaches another
 * at all exactly when it does within N connections: that is why a
 * recursive parent search bounded by the node count decides reachability.
 * The search only ever adds a connection into a node that does not reach
 * the connection's source, or from a brand-new node, and both moves keep a
 * graph free of cycles.
 */
module Paths {
  import opened Layout
  import opened GraphQueries

  /** Some connection runs from an output of `a` into an input of `b`. */
  predicate Edge(conns: seq<Conn>, a: int, b: int)
  {
    exists i :: 0 <= i < |conns| && conns[i].outputNode == a && conns[i].inputNode == b
  }

  /** A walk: consecutive nodes are joined by a connection. */
  predicate Walk(conns: seq<Conn>, p: seq<int>)
  {
    forall k :: 0 <= k < |p| - 1 ==> Edge(conns, p[k], p[k + 1])
  }

  /** Every connection joins nodes below n. */
  predicate Within(conns: seq<Conn>, n: int)
  {
    forall i :: 0 <= i < |conns| ==> 0 <= conns[i].outputNode < n && 0 <= conns[i].inputNode < n
  }

  /** No connection closes a cycle: its input end never feeds its output end. */
  ghost predicate Acyclic(conns: seq<Conn>)
  {
    forall i :: 0 <= i < |conns| ==> !ReachesSome(conns, conns[i].inputNode, conns[i].outputNode)
  }

  /** A connection path within `fuel` steps is a walk of at most fuel + 1 nodes. */
  lemma {:induction false} ReachesWalk(conns: seq<Conn>, a: int, b: int, fuel: nat) returns (p: seq<int>)
    requires Reaches(conns, a, b, fuel)
    ensures Walk(conns, p) && 1 <= |p| <= fuel + 1 && p[0] == a && p[|p| - 1] == b
    decreases fuel
  {
    if a == b {
      p := [a];
    } else {
      var i :| 0 <= i < |conns| && conns[i].outputNode == a && Reaches(conns, conns[i].inputNode, b, fuel - 1);
      var q := ReachesWalk(conns, conns[i].inputNode, b, fuel - 1);
      p := [a] + q;
      assert Edge(conns, p[0], p[1]);
      forall k | 1 <= k < |p| - 1
        ensures Edge(conns, p[k], p[k + 1])
      {
        assert p[k] == q[k - 1] && p[k + 1] == q[k];
      }
    }
  }

  /** A walk is a connection path as long as itself. */
  lemma {:induction false} WalkReaches(conns: seq<Conn>, p: seq<int>)
    requires Walk(conns, p) && |p| >= 1
    ensures Reaches(conns, p[0], p[|p| - 1], |p| - 1)
  {
    if |p| > 1 {
      var q := p[1..];
      assert Walk(conns, q) by {
        forall k | 0 <= k < |q| - 1
          ensures Edge(conns, q[k], q[k + 1])
        {
          assert q[k] == p[k + 1] && q[k + 1] == p[k + 2];
        }
      }
      WalkReaches(conns, q);
      assert Edge(conns, p[0], p[1]);
      var i :| 0 <= i < |conns| && conns[i].outputNode == p[0] && conns[i].inputNode == p[1];
      if p[0] != p[|p| - 1] {
        assert conns[i].inputNode == q[0];
      }
    }
  }

  /** Cutting out the loop between two visits of the same node leaves a walk. */
  lemma CutLoop(conns: seq<Conn>, p: seq<int>, i: int, j: int)
    requires Walk(conns, p) && 0 <= i < j < |p| && p[i] == p[j]
    ensures Walk(conns, p[..i] + p[j..])
  {
    var q := p[..i] + p[j..];
    forall k | 0 <= k < |q| - 1
      ensures Edge(conns, q[k], q[k + 1])
    {
      if k < i - 1 {
        assert q[k] == p[k] && q[k + 1] == p[k + 1];
      } else if k == i - 1 {
        assert q[k] == p[i - 1] && q[k + 1] == p[j];
      } else {
        assert q[k] == p[k - i + j] && q[k + 1] == p[k - i + j + 1];
      }
    }
  }

  /** Pigeonhole: more than n values below n repeat one of them. */
  lemma {:induction false} Pigeonhole(p: seq<int>, n: nat) returns (i: int, j: int)
    requires |p| > n
    requires forall k :: 0 <= k < |p| ==> 0 <= p[k] < n
    ensures 0 <= i < j < |p| && p[i] == p[j]
    decreases n
  {
    assert 0 <= p[0] < n;
    var top := n - 1;
    if exists a, b :: 0 <= a < b < |p| && p[a] == top && p[b] == top {
      i, j :| 0 <= i < j < |p| && p[i] == top && p[j] == top;
    } else if exists a :: 0 <= a < |p| && p[a] == top {
      var a :| 0 <= a < |p| && p[a] == top;
      var q := p[..a] + p[a + 1..];
      forall k | 0 <= k < |q|
        ensures 0 <= q[k] < top
      {
        if k < a {
          assert q[k] == p[k];
        } else {
          assert q[k] == p[k + 1];
        }
      }
      var i', j' := Pigeonhole(q, top);
      i := if i' < a then i' else i' + 1;
      j := if j' < a then j' else j' + 1;
      assert p[i] == q[i'] && p[j] == q[j'];
    } else {
      i, j := Pigeonhole(p, top);
    }
  }

  /** A walk through nodes below n can be shortened to at most n nodes, keeping its ends. */
  lemma {:induction false} ShortWalk(conns: seq<Conn>, p: seq<int>, n: nat) returns (q: seq<int>)
    requires Walk(conns, p) && |p| >= 1
    requires forall k :: 0 <= k < |p| ==> 0 <= p[k] < n
    ensures Walk(conns, q) && 1 <= |q| <= n && q[0] == p[0] && q[|q| - 1] == p[|p| - 1]
    decreases |p|
  {
    if |p| <= n {
      q := p;
    } else {
      var i, j := Pigeonhole(p, n);
      CutLoop(conns, p, i, j);
      var r := p[..i] + p[j..];
      assert r[0] == p[0] by {
        if i == 0 {
          assert r[0] == p[j] == p[0];
        }
      }
      assert r[|r| - 1] == p[|p| - 1];
      q := ShortWalk(conns, r, n);
    }
  }

  /** A walk whose first step is a connection has every node below n when the connections do. */
  lemma WalkWithin(conns: seq<Conn>, p: seq<int>, n: int)
    requires Walk(conns, p) && |p| >= 2 && Within(conns, n)
    ensures forall k :: 0 <= k < |p| ==> 0 <= p[k] < n
  {
    forall k | 0 <= k < |p|
      ensures 0 <= p[k] < n
    {
      if k < |p| - 1 {
        assert Edge(conns, p[k], p[k + 1]);
      } else {
        assert Edge(conns, p[k - 1], p[k]);
      }
    }
  }

  /**
   * In a graph of n nodes, whatever a node reaches it reaches within n
   * connections: a recursion bounded by the node count finds every path.
   */
  lemma NodeCountIsEnoughFuel(conns: seq<Conn>, a: int, b: int, n: nat)
    requires Within(conns, n)
    ensures ReachesSome(conns, a, b) <==> Reaches(conns, a, b, n)
  {
    if ReachesSome(conns, a, b) && a != b {
      var f: nat :| Reaches(conns, a, b, f);
      var p := ReachesWalk(conns, a, b, f);
      WalkWithin(conns, p, n);
      var q := ShortWalk(conns, p, n);
      WalkReaches(conns, q);
      ReachesMonotone(conns, a, b, |q| - 1, n);
    }
  }

  /**
   * A path in the graph grown by connection c either avoids c, or first
   * reaches c's output end without it and continues from c's input end.
   */
  lemma {:induction false} SplitAtNewEdge(conns: seq<Conn>, c: Conn, a: int, b: int, fuel: nat)
    requires Reaches(conns + [c], a, b, fuel)
    ensures Reaches(conns, a, b, fuel) || (ReachesSome(conns, a, c.outputNode) && ReachesSome(conns + [c], c.inputNode, b))
    decreases fuel
  {
    var h := conns + [c];
    if a != b {
      var i :| 0 <= i < |h| && h[i].outputNode == a && Reaches(h, h[i].inputNode, b, fuel - 1);
      if i == |conns| {
        assert Reaches(conns, a, a, 0);
      } else {
        assert h[i] == conns[i];
        var next := h[i].inputNode;
        SplitAtNewEdge(conns, c, next, b, fuel - 1);
        if !Reaches(conns, next, b, fuel - 1) {
          var f: nat :| Reaches(conns, next, c.outputNode, f);
          assert Reaches(conns, a, c.outputNode, f + 1);
        }
      }
    }
  }

  /** A path from one node to another ends with a connection into the last one. */
  lemma {:induction false} PathEndsAtInput(conns: seq<Conn>, a: int, b: int, fuel: nat)
    requires Reaches(conns, a, b, fuel) && a != b
    ensures exists i :: 0 <= i < |conns| && conns[i].inputNode == b
    decreases fuel
  {
    var i :| 0 <= i < |conns| && conns[i].outputNode == a && Reaches(conns, conns[i].inputNode, b, fuel - 1);
    if conns[i].inputNode != b {
      PathEndsAtInput(conns, conns[i].inputNode, b, fuel - 1);
    }
  }

  /** Paths of the grown graph that start at an old node never use the new node's connection. */
  lemma {:induction false} OldNodesKeepTheirPaths(conns: seq<Conn>, c: Conn, m: int, a: int, b: int, fuel: nat)
    requires Within(conns, m) && c.outputNode == m && c.inputNode < m && a != m
    requires Reaches(conns + [c], a, b, fuel)
    ensures Reaches(conns, a, b, fuel)
    decreases fuel
  {
    var h := conns + [c];
    if a != b {
      var i :| 0 <= i < |h| && h[i].outputNode == a && Reaches(h, h[i].inputNode, b, fuel - 1);
      assert i < |conns| && h[i] == conns[i];
      OldNodesKeepTheirPaths(conns, c, m, h[i].inputNode, b, fuel - 1);
    }
  }

  /**
   * The cycle guard of a reuse move: a new connection whose input end does
   * not reach its output end keeps an acyclic graph acyclic.
   */
  lemma ReuseKeepsAcyclic(conns: seq<Conn>, c: Conn)
    requires Acyclic(conns) && !ReachesSome(conns, c.inputNode, c.outputNode)
    ensures Acyclic(conns + [c])
  {
    var h := conns + [c];
    forall i | 0 <= i < |h|
      ensures !ReachesSome(h, h[i].inputNode, h[i].outputNode)
    {
      if ReachesSome(h, h[i].inputNode, h[i].outputNode) {
        var f: nat :| Reaches(h, h[i].inputNode, h[i].outputNode, f);
        if i == |conns| {
          NewEdgeAddsNoPathToItsSource(conns, c, c.inputNode, f);
          assert false;
        } else {
          var u, v := conns[i].outputNode, conns[i].inputNode;
          assert h[i] == conns[i];
          SplitAtNewEdge(conns, c, v, u, f);
          if Reaches(conns, v, u, f) {
            assert false;
          } else {
            var f1: nat :| Reaches(h, c.inputNode, u, f1);
            var f2: nat :| Reaches(conns, v, c.outputNode, f2);
            ReachesSubset(conns, h, v, c.outputNode, f2);
            assert Reaches(h, u, c.outputNode, f2 + 1);
            ReachesTransitive(h, c.inputNode, u, c.outputNode, f1, f2 + 1);
            NewEdgeAddsNoPathToItsSource(conns, c, c.inputNode, f1 + f2 + 1);
            assert false;
          }
        }
      }
    }
  }

  /** A connection out of a brand-new node keeps an acyclic graph acyclic. */
  lemma NewNodeKeepsAcyclic(conns: seq<Conn>, c: Conn, m: int)
    requires Acyclic(conns) && Within(conns, m) && c.outputNode == m && 0 <= c.inputNode < m
    ensures Acyclic(conns + [c])
  {
    var h := conns + [c];
    forall i | 0 <= i < |h|
      ensures !ReachesSome(h, h[i].inputNode, h[i].outputNode)
    {
      if ReachesSome(h, h[i].inputNode, h[i].outputNode) {
        var f: nat :| Reaches(h, h[i].inputNode, h[i].outputNode, f);
        if i == |conns| {
          OldNodesKeepTheirPaths(conns, c, m, c.inputNode, m, f);
          PathEndsAtInput(conns, c.inputNode, m, f);
          assert false;
        } else {
          assert h[i] == conns[i];
          OldNodesKeepTheirPaths(conns, c, m, conns[i].inputNode, conns[i].outputNode, f);
          assert false;
        }
      }
    }
  }
}

=== FILE: root_node_graph.dfy ===
/**
 * NodeGraph of the root package: a graph packed into one byte array whose
 * slot width (1, 2 or 4 bytes) is chosen by the caller. The array is never
 * changed after the graph is built; edits return a new graph. Only the
 * heuristic score is assigned in place.
 */
module RootNodeGraph {
  import opened Wrappers
  import opened ByteCodec
  import opened Layout
  import opened Connections
  import opened GraphWriter

  /** A heuristic score; the float of the source is modelled as an ordered integer. */
  type Score = int

  class NodeGraph {
    const numSize: Width
    const data: array<Byte>
    var heuristic: Score
    /** The graph the buffer holds. */
    ghost const model: Graph

    ghost predicate Valid()
      reads data
    {
      Holds(data, numSize, model)
    }

    /** The private constructor: a zero score around a filled buffer. */
    constructor Of(numSize: Width, data: array<Byte>, ghost model: Graph)
      ensures this.numSize == numSize && this.data == data && this.model == model && heuristic == 0
    {
      this.numSize := numSize;
      this.data := data;
      this.model := model;
      heuristic := 0;
    }

    /** newGraph: a graph holding only the output node; the width must be 1, 2 or 4. */
    static method NewGraph(numSize: int, nodeType: int) returns (r: Result<NodeGraph>)
      ensures r.Failure? <==> numSize != 1 && numSize != 2 && numSize != 4
      ensures r.Failure? ==> r.error == IllegalArgument
      ensures r.Success? ==> fresh(r.value) && fresh(r.value.data) && r.value.Valid()
      ensures r.Success? ==> r.value.numSize == numSize && r.value.heuristic == 0
      ensures r.Success? ==> r.value.model == Graph([Stored(nodeType, numSize)], [])
    {
      if numSize != 1 && numSize != 2 && numSize != 4 {
        return Failure(IllegalArgument);
      }
      var bytes := SingleNodeBuffer(numSize, nodeType);
      var graph := new NodeGraph.Of(numSize, bytes, Graph([Stored(nodeType, numSize)], []));
      return Success(graph);
    }

    /** getNodeCount: slot 0 of the buffer. */
    method GetNodeCount() returns (count: int)
      requires Valid()
      ensures count == |model.nodes|
    {
      CountsOfPacked(model, numSize);
      count := ReadNumber(data, numSize, 0);
    }

    /** getNodeType: the type of an existing node; any other index is out of bounds. */
    method GetNodeType(node: int) returns (r: Result<int>)
      requires Valid()
      ensures r.Failure? <==> !(0 <= node < |model.nodes|)
      ensures r.Failure? ==> r.error == IndexOutOfBounds
      ensures r.Success? ==> r.value == model.nodes[node]
    {
      var count := GetNodeCount();
      if node < 0 || node >= count {
        return Failure(IndexOutOfBounds);
      }
      var t := GraphWriter.ReadSlot(data, numSize, model, node + 1);
      return Success(t);
    }

    /** getConnectionCount: the slots after the node types, in groups of four. */
    method GetConnectionCount() returns (count: int)
      requires Valid()
      ensures count == |model.conns|
    {
      CountsOfPacked(model, numSize);
      var nodes := GetNodeCount();
      count := JavaDiv(data.Length / numSize - 1 - nodes, 4);
    }

    /** getConnection: copies connection `index` into `out`; any other index is out of bounds. */
    method GetConnection(index: int, out: Connection) returns (r: Result<()>)
      requires Valid()
      modifies out
      ensures r.Failure? <==> !(0 <= index < |model.conns|)
      ensures r.Failure? ==> r.error == IndexOutOfBounds
      ensures r.Success? ==> out.Value() == model.conns[index]
      ensures r.Failure? ==> unchanged(out)
    {
      var count := GetConnectionCount();
      if index < 0 || index >= count {
        return Failure(IndexOutOfBounds);
      }
      var nodes := GetNodeCount();
      var off := nodes + 1 + index * 4;
      ConnFieldSlot(model, index, 0);
      ConnFieldSlot(model, index, 1);
      ConnFieldSlot(model, index, 2);
      ConnFieldSlot(model, index, 3);
      var a := GraphWriter.ReadSlot(data, numSize, model, off + 0);
      var b := GraphWriter.ReadSlot(data, numSize, model, off + 1);
      var c := GraphWriter.ReadSlot(data, numSize, model, off + 2);
      var d := GraphWriter.ReadSlot(data, numSize, model, off + 3);
      out.Set(a, b, c, d);
      return Success(());
    }

    /** addConnection: a copy of this graph with one more connection between existing nodes. */
    method AddConnection(outputNode: int, outputPlug: int, inputNode: int, inputPlug: int)
      returns (r: Result<NodeGraph>)
      requires Valid()
      ensures r.Failure? <==> !(0 <= outputNode < |model.nodes|) || !(0 <= inputNode < |model.nodes|)
      ensures r.Failure? ==> r.error == IndexOutOfBounds
      ensures r.Success? ==> fresh(r.value) && fresh(r.value.data) && r.value.Valid()
      ensures r.Success? ==> r.value.numSize == numSize && r.value.heuristic == 0
      ensures r.Success? ==> r.value.model == Graph(model.nodes, model.conns +
        [Conn(outputNode, Stored(outputPlug, numSize), inputNode, Stored(inputPlug, numSize))])
    {
      var count := GetNodeCount();
      if outputNode < 0 || outputNode >= count {
        return Failure(IndexOutOfBounds);
      }
      if inputNode < 0 || inputNode >= count {
        return Failure(IndexOutOfBounds);
      }
      var n := numSize;
      ghost var c := Conn(outputNode, Stored(outputPlug, n), inputNode, Stored(inputPlug, n));
      ghost var next := Graph(model.nodes, model.conns + [c]);
      SlotsAppendConnAt(model, c);
      var bytes := GraphWriter.CopyWithConnection(data, n, model, outputNode, outputPlug, inputNode, inputPlug, Slots(next));
      StoredFits(outputPlug, n);
      StoredFits(inputPlug, n);
      WellFormedAppendConn(model, c, n);
      var graph := new NodeGraph.Of(n, bytes, next);
      return Success(graph);
    }

    /**
     * addConnectionAndNode: a copy of this graph with a new node whose output
     * feeds an existing node. When the new node count no longer fits its
     * slot it is truncated, and the result no longer describes a well-formed
     * graph.
     */
    method AddConnectionAndNode(nodeType: int, outputPlug: int, inputNode: int, inputPlug: int)
      returns (r: Result<NodeGraph>)
      requires Valid()
      ensures r.Failure? <==> !(0 <= inputNode < |model.nodes|)
      ensures r.Failure? ==> r.error == IndexOutOfBounds
      ensures r.Success? ==> fresh(r.value) && fresh(r.value.data)
      ensures r.Success? ==> r.value.numSize == numSize && r.value.heuristic == 0
      ensures r.Success? ==> r.value.model == Graph(model.nodes + [Stored(nodeType, numSize)], model.conns +
        [Conn(|model.nodes|, Stored(outputPlug, numSize), inputNode, Stored(inputPlug, numSize))])
      ensures r.Success? ==> r.value.data[..] == Packed(numSize, r.value.model)
      ensures r.Success? ==> (r.value.Valid() <==> Fits(|model.nodes| + 1, numSize))
    {
      var count := GetNodeCount();
      if inputNode < 0 || inputNode >= count {
        return Failure(IndexOutOfBounds);
      }
      var n := numSize;
      ghost var c := Conn(count, Stored(outputPlug, n), inputNode, Stored(inputPlug, n));
      ghost var t := Stored(nodeType, n);
      ghost var next := Graph(model.nodes + [t], model.conns + [c]);
      ghost var target := Slots(next);
      SlotsAppendNodeAt(model, t, c);
      var bytes := GraphWriter.WriteGrown(data, n, model, nodeType, outputPlug, inputNode, inputPlug, target);
      StoredFits(nodeType, n);
      StoredFits(outputPlug, n);
      StoredFits(inputPlug, n);
      WellFormedAppendNode(model, t, c, n);
      var graph := new NodeGraph.Of(n, bytes, next);
      return Success(graph);
    }

    function GetNumberSize(): Width
    {
      numSize
    }

    function GetHeuristicScore(): Score
      reads this
    {
      heuristic
    }

    /** setHeuristicScore: the one field assigned in place. */
    method SetHeuristicScore(h: Score)
      modifies this`heuristic
      ensures heuristic == h
    {
      heuristic := h;
    }

    /** compareTo: graphs sort by descending score, so the best graph comes first. */
    function CompareTo(o: NodeGraph): (r: int)
      reads this, o
      ensures r < 0 <==> heuristic > o.heuristic
      ensures r > 0 <==> heuristic < o.heuristic
    {
      if heuristic > o.heuristic then -1 else if heuristic < o.heuristic then 1 else 0
    }
  }

  /** compareTo is antisymmetric: swapping the graphs negates the answer. */
  lemma CompareToAntisymmetric(a: NodeGraph, b: NodeGraph)
    ensures a.CompareTo(b) == -b.CompareTo(a)
  {
  }
}

=== FILE: search_rules.dfy ===
/**
 * What one step of the search does to a graph, stated on graph values and
 * shared by both search trees. A step fills one open input plug (the
 * target) in every way the environment allows:
 *   - a reuse move connects an output plug of an existing node. The
 *     target node must not reach that node, which is the cycle guard.
 *   - a create move connects an output plug of a new node running some
 *     function of the environment.
 * Only output plugs whose data type is compatible with the target plug's
 * type are used. Each child then passes through the axioms and is either
 * queued with its summed heuristic score or kept as a solution.
 */
module SearchRules {
  import opened ByteCodec
  import opened Functions
  import opened Layout
  import opened GraphQueries
  import opened Axioms
  import opened Environments
  import opened Paths
  import opened GraphHashers
  import ImplNodeGraph

  /** The data-type compatibility a search uses (canConnectTo, or plain equality). */
  type Compat = (DataType, DataType) -> bool

  /** Every count an environment holds fits a Java int, as the list sizes and the depth of the source do. */
  predicate IntSized(env: Environment)
  {
    |env.functions| <= INT_MAX && MaxPlugs(env.functions) <= INT_MAX && env.nDepth <= INT_MAX
  }

  /** Function and plug indices survive the slot width the environment chooses. */
  lemma IndexStored(env: Environment, v: int)
    requires IntSized(env) && 0 <= v && (v < |env.functions| || v < MaxPlugs(env.functions))
    ensures Stored(v, MinByteCount(env)) == v
  {
    MinByteCountHolds(env, v);
    StoredFits(v, MinByteCount(env));
  }

  /**
   * The graphs the search hands to placeNeighbors: the start graph, or a
   * child that processGraph queued, which is within the depth limit and
   * still has an open plug.
   */
  predicate QueueShape(g: Graph, env: Environment)
    requires Typed(g, env.functions)
  {
    |g.nodes| == 1 || (|g.conns| + OpenPlugs(g, env.functions) <= env.nDepth && OpenPlugs(g, env.functions) > 0)
  }

  /**
   * Every child such a graph can have keeps its node count within the
   * width the environment chooses: the depth limit and the open plug bound
   * the connections, and a connected graph has at most one node more than
   * it has connections.
   */
  lemma ChildCountFits(g: Graph, env: Environment)
    requires Typed(g, env.functions) && Connected(g) && QueueShape(g, env)
    requires IntSized(env) && |g.nodes| < INT_MAX
    ensures Fits(|g.nodes| + 1, MinByteCount(env))
  {
    if |g.nodes| == 1 {
      Pow256Values();
    } else {
      ConnectedFewNodes(g);
      MinByteCountHolds(env, |g.nodes| + 1);
    }
  }

  /** The input plug a search step fills. */
  datatype Target = Target(node: int, plug: int)

  /**
   * One child of a search step: a connection from output `plug` of the
   * existing node `from`, or from output `plug` of a new node running
   * function `fn`.
   */
  datatype Move = Reuse(from: int, plug: int) | Create(fn: int, plug: int)

  /** The child a move builds: addConnection for a reuse move, addConnectionAndNode for a create move. */
  function Apply(g: Graph, t: Target, m: Move): Graph
  {
    match m
    case Reuse(from, plug) => Graph(g.nodes, g.conns + [Conn(from, plug, t.node, t.plug)])
    case Create(fn, plug) => Graph(g.nodes + [fn], g.conns + [Conn(|g.nodes|, plug, t.node, t.plug)])
  }

  /** The target names an existing node and one of its input plugs. */
  predicate IsTarget(g: Graph, fs: seq<Function>, t: Target)
    requires Typed(g, fs)
  {
    0 <= t.node < |g.nodes| && 0 <= t.plug < |FunctionOf(g, fs, t.node).inputs|
  }

  /** The data type of the target plug. */
  function TargetType(g: Graph, fs: seq<Function>, t: Target): DataType
    requires Typed(g, fs) && IsTarget(g, fs, t)
  {
    FunctionOf(g, fs, t.node).inputs[t.plug]
  }

  /** Reuse moves from output plugs 0..k-1 of node `from`, for those compatible with type `ty`. */
  function ReusePlugs(outs: seq<DataType>, from: int, ty: DataType, compat: Compat, k: nat): seq<Move>
    requires k <= |outs|
  {
    if k == 0 then []
    else ReusePlugs(outs, from, ty, compat, k - 1) + (if compat(outs[k - 1], ty) then [Reuse(from, k - 1)] else [])
  }

  /** Create moves from output plugs 0..k-1 of function `fn`, for those compatible with type `ty`. */
  function CreatePlugs(outs: seq<DataType>, fn: int, ty: DataType, compat: Compat, k: nat): seq<Move>
    requires k <= |outs|
  {
    if k == 0 then []
    else CreatePlugs(outs, fn, ty, compat, k - 1) + (if compat(outs[k - 1], ty) then [Create(fn, k - 1)] else [])
  }

  /** The existing nodes that node a reaches: those a reuse move into a must not connect. */
  ghost function Downstream(g: Graph, a: int): set<int>
  {
    set p | 0 <= p < |g.nodes| && ReachesSome(g.conns, a, p)
  }

  /** The reuse moves for candidate node p: none if p is in `down`, else its compatible output plugs. */
  function ReuseBlock(g: Graph, fs: seq<Function>, down: set<int>, ty: DataType, compat: Compat, p: int): seq<Move>
    requires Typed(g, fs) && 0 <= p < |g.nodes|
  {
    var outs := FunctionOf(g, fs, p).outputs;
    if p in down then [] else ReusePlugs(outs, p, ty, compat, |outs|)
  }

  /** The reuse moves over candidate nodes 0..k-1, in order. */
  function ReuseMoves(g: Graph, fs: seq<Function>, down: set<int>, ty: DataType, compat: Compat, k: nat): seq<Move>
    requires Typed(g, fs) && k <= |g.nodes|
  {
    if k == 0 then [] else ReuseMoves(g, fs, down, ty, compat, k - 1) + ReuseBlock(g, fs, down, ty, compat, k - 1)
  }

  /** The create moves for function k: none if it has more than `room` inputs, else its compatible output plugs. */
  function CreateBlock(fs: seq<Function>, ty: DataType, compat: Compat, room: int, k: nat): seq<Move>
    requires k < |fs|
  {
    if |fs[k].inputs| > room then [] else CreatePlugs(fs[k].outputs, k, ty, compat, |fs[k].outputs|)
  }

  /** The create moves over functions 0..k-1, in order. */
  function CreateMoves(fs: seq<Function>, ty: DataType, compat: Compat, room: int, k: nat): seq<Move>
    requires k <= |fs|
  {
    if k == 0 then [] else CreateMoves(fs, ty, compat, room, k - 1) + CreateBlock(fs, ty, compat, room, k - 1)
  }

  lemma {:induction false} ReusePlugsAre(outs: seq<DataType>, from: int, ty: DataType, compat: Compat, k: nat, m: Move)
    requires k <= |outs|
    ensures m in ReusePlugs(outs, from, ty, compat, k) <==>
      m.Reuse? && m.from == from && 0 <= m.plug < k && compat(outs[m.plug], ty)
  {
    if k > 0 {
      ReusePlugsAre(outs, from, ty, compat, k - 1, m);
    }
  }

  lemma {:induction false} CreatePlugsAre(outs: seq<DataType>, fn: int, ty: DataType, compat: Compat, k: nat, m: Move)
    requires k <= |outs|
    ensures m in CreatePlugs(outs, fn, ty, compat, k) <==>
      m.Create? && m.fn == fn && 0 <= m.plug < k && compat(outs[m.plug], ty)
  {
    if k > 0 {
      CreatePlugsAre(outs, fn, ty, compat, k - 1, m);
    }
  }

  /** A reuse move that connects a compatible output plug of a node outside `down`. */
  predicate GuardedReuse(g: Graph, fs: seq<Function>, down: set<int>, ty: DataType, compat: Compat, m: Move)
    requires Typed(g, fs)
  {
    m.Reuse? && 0 <= m.from < |g.nodes| && m.from !in down &&
    0 <= m.plug < |FunctionOf(g, fs, m.from).outputs| && compat(FunctionOf(g, fs, m.from).outputs[m.plug], ty)
  }

  lemma ReuseBlockAre(g: Graph, fs: seq<Function>, down: set<int>, ty: DataType, compat: Compat, p: int, m: Move)
    requires Typed(g, fs) && 0 <= p < |g.nodes|
    ensures m in ReuseBlock(g, fs, down, ty, compat, p) <==> GuardedReuse(g, fs, down, ty, compat, m) && m.from == p
  {
    var outs := FunctionOf(g, fs, p).outputs;
    ReusePlugsAre(outs, p, ty, compat, |outs|, m);
  }

  /** The create moves over functions 0..k-1 are those over 0..k-2 followed by function k-1's block. */
  lemma CreateMovesStep(z: seq<Move>, x: seq<Move>, y: seq<Move>, m: Move, fits: bool, k: nat)
    requires z == x + y
    requires fits ==> m.Create?
    requires m in x <==> fits && m.fn < k - 1
    requires m in y <==> fits && m.fn == k - 1
    ensures m in z <==> fits && m.fn < k
  {
    InConcat(x, y, m);
  }

  /** Membership in a concatenation. */
  lemma InConcat<T>(x: seq<T>, y: seq<T>, e: T)
    ensures e in x + y <==> e in x || e in y
  {
  }

  /** The reuse moves over nodes 0..k-1 are the compatible output plugs of those nodes outside `down`. */
  lemma {:induction false} GuardedReuseMoves(g: Graph, fs: seq<Function>, down: set<int>, ty: DataType, compat: Compat, k: nat, m: Move)
    requires Typed(g, fs) && k <= |g.nodes|
    ensures m in ReuseMoves(g, fs, down, ty, compat, k) <==> GuardedReuse(g, fs, down, ty, compat, m) && m.from < k
  {
    if k > 0 {
      var before := ReuseMoves(g, fs, down, ty, compat, k - 1);
      var block := ReuseBlock(g, fs, down, ty, compat, k - 1);
      assert ReuseMoves(g, fs, down, ty, compat, k) == before + block;
      InConcat(before, block, m);
      GuardedReuseMoves(g, fs, down, ty, compat, k - 1, m);
      ReuseBlockAre(g, fs, down, ty, compat, k - 1, m);
    }
  }

  /**
   * The reuse moves into target t are exactly the compatible output plugs
   * of the nodes the target node does not reach: no node downstream of the
   * target is ever connected into it.
   */
  lemma ReuseMovesAre(g: Graph, fs: seq<Function>, t: Target, ty: DataType, compat: Compat, m: Move)
    requires Typed(g, fs)
    ensures m in ReuseMoves(g, fs, Downstream(g, t.node), ty, compat, |g.nodes|) <==>
      m.Reuse? && 0 <= m.from < |g.nodes| && !ReachesSome(g.conns, t.node, m.from) &&
      0 <= m.plug < |FunctionOf(g, fs, m.from).outputs| && compat(FunctionOf(g, fs, m.from).outputs[m.plug], ty)
  {
    GuardedReuseMoves(g, fs, Downstream(g, t.node), ty, compat, |g.nodes|, m);
  }

  /** A create move that connects a compatible output plug of a function with at most `room` inputs. */
  predicate FittingCreate(fs: seq<Function>, ty: DataType, compat: Compat, room: int, m: Move)
  {
    m.Create? && 0 <= m.fn < |fs| && |fs[m.fn].inputs| <= room &&
    0 <= m.plug < |fs[m.fn].outputs| && compat(fs[m.fn].outputs[m.plug], ty)
  }

  lemma CreateBlockAre(fs: seq<Function>, ty: DataType, compat: Compat, room: int, k: nat, m: Move)
    requires k < |fs|
    ensures m in CreateBlock(fs, ty, compat, room, k) <==> FittingCreate(fs, ty, compat, room, m) && m.fn == k
  {
    CreatePlugsAre(fs[k].outputs, k, ty, compat, |fs[k].outputs|, m);
  }

  /** The create moves are exactly the compatible output plugs of the functions with at most `room` inputs. */
  lemma {:induction false} CreateMovesAre(fs: seq<Function>, ty: DataType, compat: Compat, room: int, k: nat, m: Move)
    requires k <= |fs|
    ensures m in CreateMoves(fs, ty, compat, room, k) <==> FittingCreate(fs, ty, compat, room, m) && m.fn < k
  {
    if k > 0 {
      var fits := FittingCreate(fs, ty, compat, room, m);
      var before := CreateMoves(fs, ty, compat, room, k - 1);
      var block := CreateBlock(fs, ty, compat, room, k - 1);
      assert m in before <==> fits && m.fn < k - 1 by {
        CreateMovesAre(fs, ty, compat, room, k - 1, m);
      }
      assert m in block <==> fits && m.fn == k - 1 by {
        CreateBlockAre(fs, ty, compat, room, k - 1, m);
      }
      CreateMovesStep(CreateMoves(fs, ty, compat, room, k), before, block, m, fits, k);
    }
  }

  /** The input plugs of the first k nodes depend on those nodes' types only. */
  lemma {:induction false} InputPlugsPrefix(g: Graph, h: Graph, fs: seq<Function>, k: nat)
    requires TypesInRange(g, fs, k) && TypesInRange(h, fs, k)
    requires forall i :: 0 <= i < k ==> g.nodes[i] == h.nodes[i]
    ensures InputPlugs(g, fs, k) == InputPlugs(h, fs, k)
  {
    if k > 0 {
      InputPlugsPrefix(g, h, fs, k - 1);
    }
  }

  /**
   * A reuse move that respects the cycle guard keeps a graph typed, keeps
   * it connected and acyclic, and trades an open plug for a connection.
   */
  lemma ReuseChild(g: Graph, fs: seq<Function>, t: Target, m: Move)
    requires Typed(g, fs) && IsTarget(g, fs, t)
    requires m.Reuse? && 0 <= m.from < |g.nodes| && !ReachesSome(g.conns, t.node, m.from)
    ensures Typed(Apply(g, t, m), fs)
    ensures OpenPlugs(Apply(g, t, m), fs) == OpenPlugs(g, fs) - 1
    ensures Connected(g) ==> Connected(Apply(g, t, m))
    ensures Acyclic(g.conns) ==> Acyclic(Apply(g, t, m).conns)
  {
    var c := Conn(m.from, m.plug, t.node, t.plug);
    var child := Apply(g, t, m);
    assert child.conns == g.conns + [c];
    InputPlugsPrefix(g, child, fs, |g.nodes|);
    if Connected(g) {
      AddConnectionConnected(g, c);
    }
    if Acyclic(g.conns) {
      ReuseKeepsAcyclic(g.conns, c);
    }
  }

  /**
   * A create move keeps a graph typed, connected and acyclic; the new
   * node's inputs become open plugs and the target plug stops being one.
   */
  lemma CreateChild(g: Graph, fs: seq<Function>, t: Target, m: Move)
    requires Typed(g, fs) && IsTarget(g, fs, t)
    requires m.Create? && 0 <= m.fn < |fs|
    ensures Typed(Apply(g, t, m), fs)
    ensures OpenPlugs(Apply(g, t, m), fs) == OpenPlugs(g, fs) - 1 + |fs[m.fn].inputs|
    ensures Connected(g) ==> Connected(Apply(g, t, m))
    ensures Acyclic(g.conns) ==> Acyclic(Apply(g, t, m).conns)
  {
    var c := Conn(|g.nodes|, m.plug, t.node, t.plug);
    var child := Apply(g, t, m);
    assert child.conns == g.conns + [c];
    InputPlugsPrefix(g, child, fs, |g.nodes|);
    if Connected(g) {
      AddConnectionAndNodeConnected(g, m.fn, c);
    }
    if Acyclic(g.conns) {
      NewNodeKeepsAcyclic(g.conns, c, |g.nodes|);
    }
  }

  /** Every axiom of the list holds for a typed graph. */
  ghost predicate AllHold(axioms: seq<Axiom>, g: Graph, fs: seq<Function>, custom: (int, Graph) -> bool)
  {
    forall i :: 0 <= i < |axioms| ==> Typed(g, fs) && Holds(axioms[i], g, fs, custom)
  }

  /** The axiom loops of processGraph: false at the first axiom that fails. */
  method AllValid(axioms: seq<Axiom>, g: Graph, fs: seq<Function>, custom: (int, Graph) -> bool) returns (ok: bool)
    requires Typed(g, fs)
    ensures ok == AllHold(axioms, g, fs, custom)
  {
    var i := 0;
    while i < |axioms|
      invariant 0 <= i <= |axioms|
      invariant forall k :: 0 <= k < i ==> Holds(axioms[k], g, fs, custom)
    {
      var valid := IsValid(axioms[i], g, fs, custom);
      if !valid {
        return false;
      }
      i := i + 1;
    }
    return true;
  }

  /** The estimates of the heuristics, summed in order. */
  function HeuristicSum(hs: seq<Heuristic>, g: Graph, estimate: (Heuristic, Graph) -> int): int
  {
    if hs == [] then 0 else HeuristicSum(hs[..|hs| - 1], g, estimate) + estimate(hs[|hs| - 1], g)
  }

  /** The heuristic loop of processGraph. */
  method SumHeuristics(hs: seq<Heuristic>, g: Graph, estimate: (Heuristic, Graph) -> int) returns (score: int)
    ensures score == HeuristicSum(hs, g, estimate)
  {
    score := 0;
    var i := 0;
    while i < |hs|
      invariant 0 <= i <= |hs| && score == HeuristicSum(hs[..i], g, estimate)
    {
      assert hs[..i + 1][..i] == hs[..i];
      score := score + estimate(hs[i], g);
      i := i + 1;
    }
    assert hs[..i] == hs;
  }

  /** The graphs a list of graph objects describes. */
  ghost function Models(s: seq<ImplNodeGraph.NodeGraph>): seq<Graph>
  {
    if s == [] then [] else Models(s[..|s| - 1]) + [s[|s| - 1].model]
  }

  lemma ModelsAppend(s: seq<ImplNodeGraph.NodeGraph>, x: ImplNodeGraph.NodeGraph)
    ensures Models(s + [x]) == Models(s) + [x.model]
  {
    assert (s + [x])[..|s|] == s;
  }
}

=== FILE: search_tree.dfy ===
/**
 * The search step of the package-root engine. Unlike the environment-aware
 * engine it fills every open input plug of a graph, not only one; it
 * matches data types by equality; it offers every function of the
 * environment as a new node; and it screens each child before keeping it:
 * a child whose connections and open plugs together exceed the depth limit
 * is dropped, and so is one whose structure the duplicate finder has seen
 * before and expects no more of.
 *
 * The Java class stores its results in a container whose getDuplicateFinder
 * and addSolution the root container lacks. The model stores them in the
 * environment-aware container, which has addSolution and the same queue,
 * and holds the duplicate finder in a field of its own.
 */
module RootSearchTree {
  import opened Wrappers
  import opened ByteCodec
  import opened Functions
  import opened Layout
  import opened GraphQueries
  import opened Axioms
  import opened Environments
  import opened Connections
  import opened Paths
  import opened SearchRules
  import opened GraphHashes
  import opened GraphHashers
  import opened DuplicateFinders
  import opened ImplNodeGraph
  import opened ImplNodeContainer
  import ImplSearchTree

  /** equals on data types: the compatibility this search uses. */
  const Equal: Compat := (a: DataType, b: DataType) => a == b

  /**
   * A child this search makes at target t: an output plug of an existing
   * node that t's node does not reach, or an output plug of a new node
   * running any function, whose data type equals the target plug's.
   */
  ghost predicate RootMove(g: Graph, fs: seq<Function>, t: Target, m: Move)
    requires Typed(g, fs) && IsTarget(g, fs, t)
  {
    match m
    case Reuse(from, plug) =>
      0 <= from < |g.nodes| && !ReachesSome(g.conns, t.node, from) &&
      0 <= plug < |FunctionOf(g, fs, from).outputs| && FunctionOf(g, fs, from).outputs[plug] == TargetType(g, fs, t)
    case Create(fn, plug) =>
      0 <= fn < |fs| && 0 <= plug < |fs[fn].outputs| && fs[fn].outputs[plug] == TargetType(g, fs, t)
  }

  /** The moves of the shared search rules, with equality for compatibility and no bound on a new node's inputs. */
  ghost function RootMoves(g: Graph, fs: seq<Function>, t: Target): seq<Move>
    requires Typed(g, fs) && IsTarget(g, fs, t)
  {
    var ty := TargetType(g, fs, t);
    ReuseMoves(g, fs, Downstream(g, t.node), ty, Equal, |g.nodes|) + CreateMoves(fs, ty, Equal, MaxPlugs(fs), |fs|)
  }

  /** This search makes exactly the moves of the shared rules with equality and no depth pre-filter. */
  lemma RootMovesAre(g: Graph, fs: seq<Function>, t: Target, m: Move)
    requires Typed(g, fs) && IsTarget(g, fs, t)
    ensures m in RootMoves(g, fs, t) <==> RootMove(g, fs, t, m)
  {
    var ty := TargetType(g, fs, t);
    ReuseMovesAre(g, fs, t, ty, Equal, m);
    CreateMovesAre(fs, ty, Equal, MaxPlugs(fs), |fs|, m);
  }

  /** c is g with its open input plug t filled by one move of this search. */
  ghost predicate OpenChild(g: Graph, fs: seq<Function>, t: Target, c: Graph)
    requires Typed(g, fs)
  {
    IsTarget(g, fs, t) && !HasInput(g.conns, t.node, t.plug) && exists m: Move :: RootMove(g, fs, t, m) && c == Apply(g, t, m)
  }

  /** c is a child of g: one open input plug of g filled by one move of this search. */
  ghost predicate ChildOf(g: Graph, fs: seq<Function>, c: Graph)
    requires Typed(g, fs)
  {
    exists t: Target :: OpenChild(g, fs, t, c)
  }

  /** The children the moves ms make at target t, in the order of the moves. */
  function Children(g: Graph, t: Target, ms: seq<Move>): seq<Graph>
  {
    seq(|ms|, i requires 0 <= i < |ms| => Apply(g, t, ms[i]))
  }

  lemma ChildrenAppend(g: Graph, t: Target, a: seq<Move>, b: seq<Move>)
    ensures Children(g, t, a + b) == Children(g, t, a) + Children(g, t, b)
  {
  }

  /** The children placeNeighbors makes at target t: none if t is connected, else one per move of this search. */
  ghost function TargetChildren(g: Graph, fs: seq<Function>, t: Target): seq<Graph>
    requires Typed(g, fs) && IsTarget(g, fs, t)
  {
    if HasInput(g.conns, t.node, t.plug) then [] else Children(g, t, RootMoves(g, fs, t))
  }

  /** The blocks f(0), ..., f(k-1), one after the other. */
  function Joined<T>(f: int -> seq<T>, k: nat): seq<T>
  {
    if k == 0 then [] else Joined(f, k - 1) + f(k - 1)
  }

  lemma {:induction false} JoinedHas<T>(f: int -> seq<T>, k: nat, j: int, x: T)
    requires 0 <= j < k && x in f(j)
    ensures x in Joined(f, k)
  {
    if j < k - 1 {
      JoinedHas(f, k - 1, j, x);
    }
  }

  lemma {:induction false} JoinedFrom<T>(f: int -> seq<T>, k: nat, x: T)
    requires x in Joined(f, k)
    ensures exists j :: 0 <= j < k && x in f(j)
  {
    if x !in f(k - 1) {
      JoinedFrom(f, k - 1, x);
    }
  }

  /** A list of blocks, one after the other. */
  function Flat<T>(blocks: seq<seq<T>>): seq<T>
  {
    if blocks == [] then [] else Flat(blocks[..|blocks| - 1]) + blocks[|blocks| - 1]
  }

  lemma FlatSnoc<T>(blocks: seq<seq<T>>, more: seq<T>)
    ensures Flat(blocks + [more]) == Flat(blocks) + more
  {
    assert (blocks + [more])[..|blocks|] == blocks;
  }

  /** The blocks a loop has gathered after k rounds: f(0), ..., f(k-1). */
  ghost predicate Ledger<T>(blocks: seq<seq<T>>, f: int -> seq<T>, k: nat)
  {
    |blocks| == k && forall p :: 0 <= p < k ==> blocks[p] == f(p)
  }

  /** One more round adds block f(k). */
  lemma LedgerStep<T>(blocks: seq<seq<T>>, f: int -> seq<T>, k: nat, more: seq<T>)
    requires Ledger(blocks, f, k) && more == f(k)
    ensures Ledger(blocks + [more], f, k + 1)
  {
  }

  /** The blocks gathered after k rounds make up Joined(f, k). */
  lemma {:induction false} FlatJoined<T>(f: int -> seq<T>, blocks: seq<seq<T>>, k: nat)
    requires Ledger(blocks, f, k)
    ensures Flat(blocks) == Joined(f, k)
  {
    if k > 0 {
      FlatJoined(f, blocks[..k - 1], k - 1);
    }
  }

  /** The children placeNeighbors makes at input plug j of a node. */
  ghost function PlugBlock(g: Graph, fs: seq<Function>, node: int): int -> seq<Graph>
  {
    j => if Typed(g, fs) && 0 <= node < |g.nodes| && 0 <= j < |FunctionOf(g, fs, node).inputs|
         then TargetChildren(g, fs, Target(node, j)) else []
  }

  /** The children placeNeighbors makes at the input plugs 0..k-1 of one node, in the order it tries them. */
  ghost function PlugChildren(g: Graph, fs: seq<Function>, node: int, k: nat): seq<Graph>
  {
    Joined(PlugBlock(g, fs, node), k)
  }

  /** The children placeNeighbors makes at all input plugs of node n. */
  ghost function NodeBlock(g: Graph, fs: seq<Function>): int -> seq<Graph>
  {
    n => if Typed(g, fs) && 0 <= n < |g.nodes| then PlugChildren(g, fs, n, |FunctionOf(g, fs, n).inputs|) else []
  }

  /** The children placeNeighbors makes at the nodes 0..k-1, in the order it tries them. */
  ghost function AllChildren(g: Graph, fs: seq<Function>, k: nat): seq<Graph>
  {
    Joined(NodeBlock(g, fs), k)
  }

  /** The children placeNeighbors makes at a target are exactly the open children there. */
  lemma TargetChildrenAre(g: Graph, fs: seq<Function>, t: Target, c: Graph)
    requires Typed(g, fs) && IsTarget(g, fs, t)
    ensures c in TargetChildren(g, fs, t) <==> OpenChild(g, fs, t, c)
  {
    if !HasInput(g.conns, t.node, t.plug) {
      var ms := RootMoves(g, fs, t);
      if c in Children(g, t, ms) {
        var i :| 0 <= i < |ms| && Children(g, t, ms)[i] == c;
        RootMovesAre(g, fs, t, ms[i]);
      }
      if OpenChild(g, fs, t, c) {
        var m :| RootMove(g, fs, t, m) && c == Apply(g, t, m);
        RootMovesAre(g, fs, t, m);
        var i :| 0 <= i < |ms| && ms[i] == m;
        assert Children(g, t, ms)[i] == c;
      }
    }
  }

  /**
   * Completeness of placeNeighbors: the children it tries are exactly the
   * children of the graph, every open input plug filled by every move of
   * this search.
   */
  lemma AllChildrenAre(g: Graph, fs: seq<Function>, c: Graph)
    requires Typed(g, fs)
    ensures c in AllChildren(g, fs, |g.nodes|) <==> ChildOf(g, fs, c)
  {
    if c in AllChildren(g, fs, |g.nodes|) {
      JoinedFrom(NodeBlock(g, fs), |g.nodes|, c);
      var n :| 0 <= n < |g.nodes| && c in NodeBlock(g, fs)(n);
      JoinedFrom(PlugBlock(g, fs, n), |FunctionOf(g, fs, n).inputs|, c);
      var j :| 0 <= j < |FunctionOf(g, fs, n).inputs| && c in PlugBlock(g, fs, n)(j);
      TargetChildrenAre(g, fs, Target(n, j), c);
    }
    if ChildOf(g, fs, c) {
      var t: Target :| OpenChild(g, fs, t, c);
      TargetChildrenAre(g, fs, t, c);
      assert c in PlugBlock(g, fs, t.node)(t.plug);
      JoinedHas(PlugBlock(g, fs, t.node), |FunctionOf(g, fs, t.node).inputs|, t.plug, c);
      assert c in NodeBlock(g, fs)(t.node);
      JoinedHas(NodeBlock(g, fs), |g.nodes|, t.node, c);
    }
  }

  lemma AllChildrenComplete(g: Graph, fs: seq<Function>)
    requires Typed(g, fs)
    ensures forall c :: c in AllChildren(g, fs, |g.nodes|) <==> ChildOf(g, fs, c)
  {
    forall c
      ensures c in AllChildren(g, fs, |g.nodes|) <==> ChildOf(g, fs, c)
    {
      AllChildrenAre(g, fs, c);
    }
  }

  /** The children at the open plug t are those of its reuse moves and then those of its create moves. */
  lemma TargetChildrenFill(g: Graph, fs: seq<Function>, t: Target, reused: seq<Graph>, created: seq<Graph>)
    requires Typed(g, fs) && IsTarget(g, fs, t) && !HasInput(g.conns, t.node, t.plug)
    requires reused == Children(g, t, ReuseMoves(g, fs, Downstream(g, t.node), TargetType(g, fs, t), Equal, |g.nodes|))
    requires created == Children(g, t, CreateMoves(fs, TargetType(g, fs, t), Equal, MaxPlugs(fs), |fs|))
    ensures TargetChildren(g, fs, t) == reused + created
  {
    var ty := TargetType(g, fs, t);
    ChildrenAppend(g, t, ReuseMoves(g, fs, Downstream(g, t.node), ty, Equal, |g.nodes|), CreateMoves(fs, ty, Equal, MaxPlugs(fs), |fs|));
  }

  /** The children addNewConnections tries at candidate node p. */
  ghost function ReuseNodeBlock(g: Graph, fs: seq<Function>, t: Target, down: set<int>, ty: DataType): int -> seq<Graph>
  {
    p => if Typed(g, fs) && 0 <= p < |g.nodes| then Children(g, t, ReuseBlock(g, fs, down, ty, Equal, p)) else []
  }

  /** The children addNewNodes tries with function p. */
  ghost function CreateFunctionBlock(g: Graph, fs: seq<Function>, t: Target, ty: DataType): int -> seq<Graph>
  {
    p => if 0 <= p < |fs| then Children(g, t, CreateBlock(fs, ty, Equal, MaxPlugs(fs), p)) else []
  }

  /** One more round of addNewNodes adds the block of function k. */
  lemma CreateLedgerStep(g: Graph, fs: seq<Function>, t: Target, ty: DataType, blocks: seq<seq<Graph>>, k: nat, more: seq<Graph>)
    requires Ledger(blocks, CreateFunctionBlock(g, fs, t, ty), k) && k < |fs|
    requires more == Children(g, t, CreateBlock(fs, ty, Equal, MaxPlugs(fs), k))
    ensures Ledger(blocks + [more], CreateFunctionBlock(g, fs, t, ty), k + 1)
  {
    LedgerStep(blocks, CreateFunctionBlock(g, fs, t, ty), k, more);
  }

  /** The child addNewConnections tries at output plug j of node `from`, if that plug has type ty. */
  ghost function ReusePlugBlock(g: Graph, t: Target, outs: seq<DataType>, from: int, ty: DataType): int -> seq<Graph>
  {
    j => if 0 <= j < |outs| && outs[j] == ty then [Apply(g, t, Reuse(from, j))] else []
  }

  /** The child addNewNodes tries at output plug j of function fn, if that plug has type ty. */
  ghost function CreatePlugBlock(g: Graph, t: Target, outs: seq<DataType>, fn: int, ty: DataType): int -> seq<Graph>
  {
    j => if 0 <= j < |outs| && outs[j] == ty then [Apply(g, t, Create(fn, j))] else []
  }

  /** The children of the candidate nodes 0..k-1, node by node, are the children of the reuse moves over them. */
  lemma {:induction false} FlatReuseMoves(g: Graph, fs: seq<Function>, t: Target, down: set<int>, ty: DataType,
                                          blocks: seq<seq<Graph>>, k: nat)
    requires Typed(g, fs) && k <= |g.nodes| && Ledger(blocks, ReuseNodeBlock(g, fs, t, down, ty), k)
    ensures Flat(blocks) == Children(g, t, ReuseMoves(g, fs, down, ty, Equal, k))
  {
    if k > 0 {
      var f := ReuseNodeBlock(g, fs, t, down, ty);
      var before, here := ReuseMoves(g, fs, down, ty, Equal, k - 1), ReuseBlock(g, fs, down, ty, Equal, k - 1);
      assert Ledger(blocks[..k - 1], f, k - 1);
      FlatReuseMoves(g, fs, t, down, ty, blocks[..k - 1], k - 1);
      assert blocks[k - 1] == f(k - 1) == Children(g, t, here);
      ChildrenAppend(g, t, before, here);
    }
  }

  /** The children of the functions 0..k-1, function by function, are the children of the create moves over them. */
  lemma {:induction false} FlatCreateMoves(g: Graph, fs: seq<Function>, t: Target, ty: DataType, blocks: seq<seq<Graph>>, k: nat)
    requires k <= |fs| && Ledger(blocks, CreateFunctionBlock(g, fs, t, ty), k)
    ensures Flat(blocks) == Children(g, t, CreateMoves(fs, ty, Equal, MaxPlugs(fs), k))
  {
    if k > 0 {
      var f, room := CreateFunctionBlock(g, fs, t, ty), MaxPlugs(fs);
      var before, here := CreateMoves(fs, ty, Equal, room, k - 1), CreateBlock(fs, ty, Equal, room, k - 1);
      assert Ledger(blocks[..k - 1], f, k - 1);
      FlatCreateMoves(g, fs, t, ty, blocks[..k - 1], k - 1);
      assert blocks[k - 1] == f(k - 1) == Children(g, t, here);
      ChildrenAppend(g, t, before, here);
    }
  }

  /** The children tried at output plugs 0..k-1 of a reused node, plug by plug, are those of its reuse moves. */
  lemma {:induction false} FlatReusePlugs(g: Graph, t: Target, outs: seq<DataType>, from: int, ty: DataType,
                                          blocks: seq<seq<Graph>>, k: nat)
    requires k <= |outs| && Ledger(blocks, ReusePlugBlock(g, t, outs, from, ty), k)
    ensures Flat(blocks) == Children(g, t, ReusePlugs(outs, from, ty, Equal, k))
  {
    if k > 0 {
      var f := ReusePlugBlock(g, t, outs, from, ty);
      var here := if Equal(outs[k - 1], ty) then [Reuse(from, k - 1)] else [];
      assert Ledger(blocks[..k - 1], f, k - 1);
      FlatReusePlugs(g, t, outs, from, ty, blocks[..k - 1], k - 1);
      assert blocks[k - 1] == f(k - 1) == Children(g, t, here);
      ChildrenAppend(g, t, ReusePlugs(outs, from, ty, Equal, k - 1), here);
    }
  }

  /** The children tried at output plugs 0..k-1 of a new node's function, plug by plug, are those of its create moves. */
  lemma {:induction false} FlatCreatePlugs(g: Graph, t: Target, outs: seq<DataType>, fn: int, ty: DataType,
                                           blocks: seq<seq<Graph>>, k: nat)
    requires k <= |outs| && Ledger(blocks, CreatePlugBlock(g, t, outs, fn, ty), k)
    ensures Flat(blocks) == Children(g, t, CreatePlugs(outs, fn, ty, Equal, k))
  {
    if k > 0 {
      var f := CreatePlugBlock(g, t, outs, fn, ty);
      var here := if Equal(outs[k - 1], ty) then [Create(fn, k - 1)] else [];
      assert Ledger(blocks[..k - 1], f, k - 1);
      FlatCreatePlugs(g, t, outs, fn, ty, blocks[..k - 1], k - 1);
      assert blocks[k - 1] == f(k - 1) == Children(g, t, here);
      ChildrenAppend(g, t, CreatePlugs(outs, fn, ty, Equal, k - 1), here);
    }
  }

  /** The reuse block of a node the target node does not reach holds all its output plugs of the target's type. */
  lemma ReuseBlockChildren(g: Graph, fs: seq<Function>, t: Target, ty: DataType, from: int)
    requires Typed(g, fs) && 0 <= from < |g.nodes| && !ReachesSome(g.conns, t.node, from)
    ensures Children(g, t, ReuseBlock(g, fs, Downstream(g, t.node), ty, Equal, from)) ==
      Children(g, t, ReusePlugs(FunctionOf(g, fs, from).outputs, from, ty, Equal, |FunctionOf(g, fs, from).outputs|))
  {
    assert from !in Downstream(g, t.node);
  }

  /** No function has more inputs than the room placeNeighbors leaves, so every create block holds all its plugs of the type. */
  lemma CreateBlockChildren(g: Graph, fs: seq<Function>, t: Target, ty: DataType, fn: nat)
    requires fn < |fs|
    ensures Children(g, t, CreateBlock(fs, ty, Equal, MaxPlugs(fs), fn)) ==
      Children(g, t, CreatePlugs(fs[fn].outputs, fn, ty, Equal, |fs[fn].outputs|))
  {
  }

  /** A graph this search may keep from g: a well-formed, connected child within the depth limit that passes the axioms. */
  ghost predicate Grown(g: Graph, env: Environment, q: NodeGraph, custom: (int, Graph) -> bool)
    requires Typed(g, env.functions)
  {
    q.environment == env && Typed(q.model, env.functions) && Connected(q.model) &&
    ChildOf(g, env.functions, q.model) &&
    |q.model.conns| + OpenPlugs(q.model, env.functions) <= env.nDepth &&
    AllHold(env.axioms, q.model, env.functions, custom)
  }

  /**
   * Since the queue held q0 and the solutions s0, the search of g only
   * added graphs: queued ones are grown children with open plugs and their
   * summed heuristic, solutions are grown children without open plugs that
   * pass the solution axioms.
   */
  ghost predicate Sound(g: Graph, env: Environment, custom: (int, Graph) -> bool, estimate: (Heuristic, Graph) -> int,
                        q0: multiset<NodeGraph>, s0: seq<NodeGraph>, queue: multiset<NodeGraph>, sols: seq<NodeGraph>)
    requires Typed(g, env.functions)
    reads set q | q in queue
  {
    q0 <= queue && s0 <= sols &&
    (forall q :: q in queue - q0 ==>
      Grown(g, env, q, custom) && OpenPlugs(q.model, env.functions) != 0 &&
      q.heuristic == HeuristicSum(env.heuristics, q.model, estimate)) &&
    (forall i :: |s0| <= i < |sols| ==>
      Grown(g, env, sols[i], custom) && OpenPlugs(sols[i].model, env.functions) == 0 &&
      AllHold(env.solutionAxioms, sols[i].model, env.functions, custom))
  }

  lemma SoundStart(g: Graph, env: Environment, custom: (int, Graph) -> bool, estimate: (Heuristic, Graph) -> int,
                   q0: multiset<NodeGraph>, s0: seq<NodeGraph>)
    requires Typed(g, env.functions)
    ensures Sound(g, env, custom, estimate, q0, s0, q0, s0)
  {
  }

  /** One processed child keeps the search sound: it is added only when it qualifies. */
  lemma SoundStep(g: Graph, env: Environment, custom: (int, Graph) -> bool, estimate: (Heuristic, Graph) -> int,
                  q0: multiset<NodeGraph>, s0: seq<NodeGraph>, qb: multiset<NodeGraph>, sb: seq<NodeGraph>,
                  qa: multiset<NodeGraph>, sa: seq<NodeGraph>, c: NodeGraph, queued: bool, solved: bool)
    requires Typed(g, env.functions)
    requires Sound(g, env, custom, estimate, q0, s0, qb, sb)
    requires qa == qb + (if queued then multiset{c} else multiset{})
    requires sa == sb + (if solved then [c] else [])
    requires queued || solved ==> Grown(g, env, c, custom)
    requires queued ==> OpenPlugs(c.model, env.functions) != 0 && c.heuristic == HeuristicSum(env.heuristics, c.model, estimate)
    requires solved ==> OpenPlugs(c.model, env.functions) == 0 && AllHold(env.solutionAxioms, c.model, env.functions, custom)
    ensures Sound(g, env, custom, estimate, q0, s0, qa, sa)
  {
    forall i | |s0| <= i < |sa|
      ensures Grown(g, env, sa[i], custom) && OpenPlugs(sa[i].model, env.functions) == 0 &&
        AllHold(env.solutionAxioms, sa[i].model, env.functions, custom)
    {
      if i < |sb| {
        assert sa[i] == sb[i];
      }
    }
  }

  /** Sound searches compose: the graphs added by two stretches of a search are those of the whole. */
  lemma SoundConcat(g: Graph, env: Environment, custom: (int, Graph) -> bool, estimate: (Heuristic, Graph) -> int,
                    q0: multiset<NodeGraph>, s0: seq<NodeGraph>, q1: multiset<NodeGraph>, s1: seq<NodeGraph>,
                    q2: multiset<NodeGraph>, s2: seq<NodeGraph>)
    requires Typed(g, env.functions)
    requires Sound(g, env, custom, estimate, q0, s0, q1, s1) && Sound(g, env, custom, estimate, q1, s1, q2, s2)
    ensures Sound(g, env, custom, estimate, q0, s0, q2, s2)
  {
    forall q | q in q2 - q0
      ensures Grown(g, env, q, custom) && OpenPlugs(q.model, env.functions) != 0 &&
        q.heuristic == HeuristicSum(env.heuristics, q.model, estimate)
    {
      if q !in q2 - q1 {
        assert q in q1 - q0;
      }
    }
  }

  /** The target of a search step: an open input plug of a well-formed, connected graph. */
  ghost predicate Fillable(graph: NodeGraph, t: Target)
    reads graph.data
  {
    ImplSearchTree.Expandable(graph, t) && !HasInput(graph.model.conns, t.node, t.plug) && Connected(graph.model)
  }

  /** The depth test of processGraph: connections and open plugs together within the depth limit. */
  ghost predicate InDepth(g: Graph, env: Environment)
    requires Typed(g, env.functions)
  {
    |g.conns| + OpenPlugs(g, env.functions) <= env.nDepth
  }

  /**
   * The screening of processGraph: within the depth limit, the duplicate
   * finder checks the graph's hash and updates its counts; past it, the
   * graph is not unique and the counts stay.
   */
  ghost predicate Screened(g: Graph, env: Environment, key: HashedConnection -> int,
                           d0: map<GraphHash, int>, d1: map<GraphHash, int>, unique: bool, hash: GraphHash)
    requires Typed(g, env.functions)
  {
    if InDepth(g, env) then HashOf(g, key, hash) && (unique, d1) == Check(d0, hash, Remaining(g))
    else !unique && d1 == d0
  }

  /**
   * What processGraph does with a screened child whose score is then
   * `score`: if it passed the screen and the axioms, a child with open plugs
   * is scored and queued and a child without is kept as a solution if it
   * passes the solution axioms.
   */
  ghost predicate Admits(graph: NodeGraph, score: Score, custom: (int, Graph) -> bool, estimate: (Heuristic, Graph) -> int,
                         passed: bool, q0: multiset<NodeGraph>, s0: seq<NodeGraph>, u0: int,
                         q1: multiset<NodeGraph>, s1: seq<NodeGraph>, u1: int)
    requires Typed(graph.model, graph.environment.functions)
  {
    var g := graph.model;
    var env := graph.environment;
    var kept := passed && AllHold(env.axioms, g, env.functions, custom);
    var queued := kept && OpenPlugs(g, env.functions) != 0;
    q1 == q0 + (if queued then multiset{graph} else multiset{}) &&
    s1 == s0 + (if kept && OpenPlugs(g, env.functions) == 0 && AllHold(env.solutionAxioms, g, env.functions, custom) then [graph] else []) &&
    u1 == (if queued then Wrap32(u0 + 1) else u0) &&
    (queued ==> score == HeuristicSum(env.heuristics, g, estimate))
  }

  /** Admits, with the score the child now holds. */
  ghost predicate Admitted(graph: NodeGraph, custom: (int, Graph) -> bool, estimate: (Heuristic, Graph) -> int, passed: bool,
                           q0: multiset<NodeGraph>, s0: seq<NodeGraph>, u0: int,
                           q1: multiset<NodeGraph>, s1: seq<NodeGraph>, u1: int)
    requires Typed(graph.model, graph.environment.functions)
    reads graph
  {
    Admits(graph, graph.heuristic, custom, estimate, passed, q0, s0, u0, q1, s1, u1)
  }

  /** What processGraph reads and changes: the duplicate counts, the queue, the solutions and the unprocessed counter. */
  datatype State = State(duplicates: map<GraphHash, int>, queue: multiset<NodeGraph>, solutions: seq<NodeGraph>, unprocessed: int)

  /** One call of processGraph: the child, the score it was left with, the screen's answer and hash, and the state around the call. */
  datatype Step = Step(child: NodeGraph, score: Score, unique: bool, hash: GraphHash, before: State, after: State)

  /** Step s is processGraph on a child whose graph is c: c is screened, then admitted or dropped. */
  ghost predicate Handles(env: Environment, key: HashedConnection -> int, custom: (int, Graph) -> bool,
                          estimate: (Heuristic, Graph) -> int, c: Graph, s: Step)
  {
    s.child.model == c && s.child.environment == env && Typed(c, env.functions) &&
    Screened(c, env, key, s.before.duplicates, s.after.duplicates, s.unique, s.hash) &&
    Admits(s.child, s.score, custom, estimate, InDepth(c, env) && s.unique,
           s.before.queue, s.before.solutions, s.before.unprocessed, s.after.queue, s.after.solutions, s.after.unprocessed)
  }

  /**
   * processGraph ran on the children, one after the other and in order,
   * through the steps, and took the state from a to b.
   */
  ghost predicate Run(env: Environment, key: HashedConnection -> int, custom: (int, Graph) -> bool,
                      estimate: (Heuristic, Graph) -> int, children: seq<Graph>, steps: seq<Step>, a: State, b: State)
    decreases |steps|
  {
    |steps| == |children| &&
    if steps == [] then a == b
    else steps[0].before == a && Handles(env, key, custom, estimate, children[0], steps[0]) &&
         Run(env, key, custom, estimate, children[1..], steps[1..], steps[0].after, b)
  }

  /** Two runs, one after the other, are one run. */
  lemma {:induction false} RunConcat(env: Environment, key: HashedConnection -> int, custom: (int, Graph) -> bool,
                                     estimate: (Heuristic, Graph) -> int, cs: seq<Graph>, ss: seq<Step>,
                                     ds: seq<Graph>, ts: seq<Step>, a: State, b: State, c: State)
    requires Run(env, key, custom, estimate, cs, ss, a, b) && Run(env, key, custom, estimate, ds, ts, b, c)
    ensures Run(env, key, custom, estimate, cs + ds, ss + ts, a, c)
    decreases |ss|
  {
    if ss == [] {
      assert cs + ds == ds && ss + ts == ts;
    } else {
      RunConcat(env, key, custom, estimate, cs[1..], ss[1..], ds, ts, ss[0].after, b, c);
      HeadTail(cs, ds);
      HeadTail(ss, ts);
    }
  }

  /** A loop's run over its blocks, followed by the run of one more block. */
  lemma RunSnoc(env: Environment, key: HashedConnection -> int, custom: (int, Graph) -> bool,
                estimate: (Heuristic, Graph) -> int, blocks: seq<seq<Graph>>, ss: seq<Step>,
                more: seq<Graph>, ms: seq<Step>, a: State, b: State, c: State)
    requires Run(env, key, custom, estimate, Flat(blocks), ss, a, b) && Run(env, key, custom, estimate, more, ms, b, c)
    ensures Run(env, key, custom, estimate, Flat(blocks + [more]), ss + ms, a, c)
  {
    RunConcat(env, key, custom, estimate, Flat(blocks), ss, more, ms, a, b, c);
    FlatSnoc(blocks, more);
  }

  /**
   * Nothing a run adds is lost: the queue and the solutions only grow, so
   * every child a step queued is in the final queue and every child a step
   * kept as a solution is among the final solutions.
   */
  lemma {:induction false} RunKeeps(env: Environment, key: HashedConnection -> int, custom: (int, Graph) -> bool,
                                    estimate: (Heuristic, Graph) -> int, cs: seq<Graph>, ss: seq<Step>, a: State, b: State)
    requires Run(env, key, custom, estimate, cs, ss, a, b)
    ensures a.queue <= b.queue && a.solutions <= b.solutions
    ensures forall i :: 0 <= i < |ss| ==>
      Typed(cs[i], env.functions) &&
      (Queued(env, custom, cs[i], ss[i]) ==> ss[i].child in b.queue) &&
      (Solved(env, custom, cs[i], ss[i]) ==> ss[i].child in b.solutions)
    decreases |ss|
  {
    if ss != [] {
      var rest := ss[1..];
      RunKeeps(env, key, custom, estimate, cs[1..], rest, ss[0].after, b);
      forall i | 0 <= i < |ss|
        ensures Typed(cs[i], env.functions)
        ensures Queued(env, custom, cs[i], ss[i]) ==> ss[i].child in b.queue
        ensures Solved(env, custom, cs[i], ss[i]) ==> ss[i].child in b.solutions
      {
        if i > 0 {
          assert ss[i] == rest[i - 1] && cs[i] == cs[1..][i - 1];
        } else if Solved(env, custom, cs[0], ss[0]) {
          assert ss[0].after.solutions[|ss[0].before.solutions|] == ss[0].child;
        }
      }
    }
  }

  /** Step s left child c, which passed the screen and the axioms and has open plugs, in the queue. */
  ghost predicate Queued(env: Environment, custom: (int, Graph) -> bool, c: Graph, s: Step)
    requires Typed(c, env.functions)
  {
    InDepth(c, env) && s.unique && AllHold(env.axioms, c, env.functions, custom) && OpenPlugs(c, env.functions) != 0
  }

  /** Step s kept child c, which passed the screen and every axiom and has no open plug, as a solution. */
  ghost predicate Solved(env: Environment, custom: (int, Graph) -> bool, c: Graph, s: Step)
    requires Typed(c, env.functions)
  {
    InDepth(c, env) && s.unique && AllHold(env.axioms, c, env.functions, custom) && OpenPlugs(c, env.functions) == 0 &&
    AllHold(env.solutionAxioms, c, env.functions, custom)
  }

  /** The head and tail of a concatenation whose front is not empty. */
  lemma HeadTail<T>(x: seq<T>, y: seq<T>)
    requires x != []
    ensures (x + y)[0] == x[0] && (x + y)[1..] == x[1..] + y
  {
  }

  /** The witness of ChildOf: an open target and a move of this search. */
  lemma ChildIsChild(g: Graph, fs: seq<Function>, t: Target, m: Move, c: Graph)
    requires Typed(g, fs) && IsTarget(g, fs, t) && !HasInput(g.conns, t.node, t.plug) && RootMove(g, fs, t, m)
    requires c == Apply(g, t, m)
    ensures ChildOf(g, fs, c)
  {
    assert OpenChild(g, fs, t, c);
  }

  /** A child that processGraph screened and admitted keeps the search sound. */
  lemma KeptChild(g: Graph, env: Environment, custom: (int, Graph) -> bool, estimate: (Heuristic, Graph) -> int,
                  q0: multiset<NodeGraph>, s0: seq<NodeGraph>, qb: multiset<NodeGraph>, sb: seq<NodeGraph>,
                  qa: multiset<NodeGraph>, sa: seq<NodeGraph>, ub: int, ua: int, c: NodeGraph, passed: bool)
    requires Typed(g, env.functions)
    requires Sound(g, env, custom, estimate, q0, s0, qb, sb)
    requires c.environment == env && Typed(c.model, env.functions) && Connected(c.model)
    requires ChildOf(g, env.functions, c.model)
    requires passed ==> InDepth(c.model, env)
    requires Admitted(c, custom, estimate, passed, qb, sb, ub, qa, sa, ua)
    ensures Sound(g, env, custom, estimate, q0, s0, qa, sa)
  {
    var fs := env.functions;
    var kept := passed && AllHold(env.axioms, c.model, fs, custom);
    SoundStep(g, env, custom, estimate, q0, s0, qb, sb, qa, sa, c,
      kept && OpenPlugs(c.model, fs) != 0, kept && OpenPlugs(c.model, fs) == 0 && AllHold(env.solutionAxioms, c.model, fs, custom));
  }

  class SearchTree {
    const connectionBuf: TypedConnection
    const hasher: GraphHasher
    const container: NodeContainer
    /** The duplicate finder of the container. */
    const finder: DuplicateFinder
    /** isValid of the axioms a user supplies, by identity. */
    const custom: (int, Graph) -> bool
    /** estimateHeuristic of the heuristics, by identity; the source sums floats. */
    const estimate: (Heuristic, Graph) -> int

    /** The constructor: a fresh hasher and connection buffer around the given container. */
    constructor (container: NodeContainer, finder: DuplicateFinder, connectionHash: HashedConnection -> int,
                 custom: (int, Graph) -> bool, estimate: (Heuristic, Graph) -> int)
      requires finder.Valid()
      ensures Ready() && fresh(hasher) && fresh(connectionBuf)
      ensures this.container == container && this.finder == finder && hasher.connectionHash == connectionHash
      ensures this.custom == custom && this.estimate == estimate
    {
      connectionBuf := new TypedConnection();
      hasher := new GraphHasher(connectionHash);
      this.container := container;
      this.finder := finder;
      this.custom := custom;
      this.estimate := estimate;
    }

    /** Ready, and the search of graph since the queue held q0 and the solutions s0 is sound. */
    ghost predicate Searched(graph: NodeGraph, q0: multiset<NodeGraph>, s0: seq<NodeGraph>)
      reads finder, hasher, container, set q | q in container.queue
    {
      Typed(graph.model, graph.environment.functions) && Ready() &&
      Sound(graph.model, graph.environment, custom, estimate, q0, s0, container.queue, container.solutions)
    }

    /** The state processGraph works on. */
    ghost function Now(): State
      reads finder, container
    {
      State(finder.duplicates, container.queue, container.solutions, container.unprocessedGraphs)
    }

    /** The duplicate finder keeps its counts positive and the hasher's buffers are empty between hashes. */
    ghost predicate Ready()
      reads finder, hasher
    {
      finder.Valid() && hasher.Valid()
    }

    /**
     * placeNeighbors: every open input plug of every node, in node order,
     * is filled by addNewConnections and then addNewNodes. The steps it
     * records run through the children of the graph one by one, in order:
     * each child is screened by the duplicate finder and admitted (or not)
     * by processGraph, and the steps chain the search state from before the
     * call to after it, so no child is skipped and nothing else happens.
     */
    method PlaceNeighbors(graph: NodeGraph) returns (ghost tried: seq<Graph>, ghost steps: seq<Step>)
      requires graph.Valid() && Typed(graph.model, graph.environment.functions) && IntSized(graph.environment)
      requires Connected(graph.model) && QueueShape(graph.model, graph.environment) && |graph.model.nodes| < INT_MAX
      requires Ready()
      modifies container, finder, hasher, connectionBuf
      ensures Ready()
      ensures Sound(graph.model, graph.environment, custom, estimate, old(container.queue), old(container.solutions),
                    container.queue, container.solutions)
      ensures tried == AllChildren(graph.model, graph.environment.functions, |graph.model.nodes|)
      ensures Run(graph.environment, hasher.connectionHash, custom, estimate, tried, steps, old(Now()), Now())
    {
      ghost var start := Now();
      ghost var g := graph.model;
      ghost var env := graph.environment;
      ghost var q0, s0 := container.queue, container.solutions;
      SoundStart(g, env, custom, estimate, q0, s0);
      ChildCountFits(g, env);
      ghost var blocks: seq<seq<Graph>> := [];
      steps := [];
      var nodeCount := graph.GetNodeCount();
      var nodeIndex := 0;
      while nodeIndex < nodeCount
        invariant 0 <= nodeIndex <= nodeCount == |g.nodes|
        invariant Searched(graph, q0, s0)
        invariant Ledger(blocks, NodeBlock(g, env.functions), nodeIndex)
        invariant Run(graph.environment, hasher.connectionHash, custom, estimate, Flat(blocks), steps, start, Now())
      {
        ghost var mid := Now();
        ghost var more, ms := FillInputs(graph, nodeIndex, q0, s0);
        RunSnoc(graph.environment, hasher.connectionHash, custom, estimate, blocks, steps, more, ms, start, mid, Now());
        LedgerStep(blocks, NodeBlock(g, env.functions), nodeIndex, more);
        blocks := blocks + [more];
        steps := steps + ms;
        nodeIndex := nodeIndex + 1;
      }
      FlatJoined(NodeBlock(g, env.functions), blocks, nodeCount);
      tried := Flat(blocks);
    }

    /** The inner loop of placeNeighbors: every open input plug of one node, in plug order. */
    method FillInputs(graph: NodeGraph, nodeIndex: int, ghost q0: multiset<NodeGraph>, ghost s0: seq<NodeGraph>)
      returns (ghost tried: seq<Graph>, ghost steps: seq<Step>)
      requires graph.Valid() && Typed(graph.model, graph.environment.functions) && IntSized(graph.environment)
      requires Connected(graph.model) && Fits(|graph.model.nodes| + 1, graph.numSize)
      requires 0 <= nodeIndex < |graph.model.nodes|
      requires Searched(graph, q0, s0)
      modifies container, finder, hasher, connectionBuf
      ensures Searched(graph, q0, s0)
      ensures tried == PlugChildren(graph.model, graph.environment.functions, nodeIndex,
                                    |FunctionOf(graph.model, graph.environment.functions, nodeIndex).inputs|)
      ensures Run(graph.environment, hasher.connectionHash, custom, estimate, tried, steps, old(Now()), Now())
    {
      ghost var start := Now();
      ghost var g := graph.model;
      ghost var env := graph.environment;
      ghost var blocks: seq<seq<Graph>> := [];
      steps := [];
      var nodeType := graph.GetNodeAsFunction(nodeIndex);
      var inputPlugs := |nodeType.value.inputs|;
      var inputPlugIndex := 0;
      while inputPlugIndex < inputPlugs
        invariant 0 <= inputPlugIndex <= inputPlugs == |FunctionOf(g, env.functions, nodeIndex).inputs|
        invariant Searched(graph, q0, s0)
        invariant Ledger(blocks, PlugBlock(g, env.functions, nodeIndex), inputPlugIndex)
        invariant Run(graph.environment, hasher.connectionHash, custom, estimate, Flat(blocks), steps, start, Now())
      {
        ghost var mid := Now();
        ghost var more, ms := FillPlug(graph, nodeIndex, inputPlugIndex, q0, s0);
        RunSnoc(graph.environment, hasher.connectionHash, custom, estimate, blocks, steps, more, ms, start, mid, Now());
        LedgerStep(blocks, PlugBlock(g, env.functions, nodeIndex), inputPlugIndex, more);
        blocks := blocks + [more];
        steps := steps + ms;
        inputPlugIndex := inputPlugIndex + 1;
      }
      FlatJoined(PlugBlock(g, env.functions, nodeIndex), blocks, inputPlugs);
      tried := Flat(blocks);
    }

    /** The body of placeNeighbors' inner loop: one input plug, filled by addNewConnections and addNewNodes when it is open. */
    method FillPlug(graph: NodeGraph, nodeIndex: int, inputPlugIndex: int, ghost q0: multiset<NodeGraph>, ghost s0: seq<NodeGraph>)
      returns (ghost more: seq<Graph>, ghost steps: seq<Step>)
      requires graph.Valid() && Typed(graph.model, graph.environment.functions) && IntSized(graph.environment)
      requires Connected(graph.model) && Fits(|graph.model.nodes| + 1, graph.numSize)
      requires 0 <= nodeIndex < |graph.model.nodes| && 0 <= inputPlugIndex < |FunctionOf(graph.model, graph.environment.functions, nodeIndex).inputs|
      requires Searched(graph, q0, s0)
      modifies container, finder, hasher, connectionBuf
      ensures Searched(graph, q0, s0)
      ensures more == TargetChildren(graph.model, graph.environment.functions, Target(nodeIndex, inputPlugIndex))
      ensures Run(graph.environment, hasher.connectionHash, custom, estimate, more, steps, old(Now()), Now())
    {
      ghost var start := Now();
      ghost var g := graph.model;
      ghost var env := graph.environment;
      more, steps := [], [];
      var connected := ImplSearchTree.HasConnection(graph, nodeIndex, inputPlugIndex, connectionBuf);
      if !connected {
        ghost var reused, rs := AddNewConnections(graph, nodeIndex, inputPlugIndex, q0, s0);
        ghost var mid := Now();
        ghost var created, cs := AddNewNodes(graph, nodeIndex, inputPlugIndex, q0, s0);
        RunConcat(env, hasher.connectionHash, custom, estimate, reused, rs, created, cs, start, mid, Now());
        TargetChildrenFill(g, env.functions, Target(nodeIndex, inputPlugIndex), reused, created);
        more, steps := reused + created, rs + cs;
      }
    }

    /**
     * addNewConnections: for every node the target node does not reach,
     * and every output plug of it whose type equals the target plug's, the
     * child with that connection goes to processGraph. The children it
     * tries are those of the reuse moves, in order.
     */
    method AddNewConnections(graph: NodeGraph, nodeIndex: int, inputPlugIndex: int,
                             ghost q0: multiset<NodeGraph>, ghost s0: seq<NodeGraph>)
      returns (ghost tried: seq<Graph>, ghost steps: seq<Step>)
      requires Fillable(graph, Target(nodeIndex, inputPlugIndex))
      requires Searched(graph, q0, s0)
      modifies container, finder, hasher, connectionBuf
      ensures Searched(graph, q0, s0)
      ensures tried == Children(graph.model, Target(nodeIndex, inputPlugIndex),
        ReuseMoves(graph.model, graph.environment.functions, Downstream(graph.model, nodeIndex),
                   TargetType(graph.model, graph.environment.functions, Target(nodeIndex, inputPlugIndex)), Equal, |graph.model.nodes|))
      ensures Run(graph.environment, hasher.connectionHash, custom, estimate, tried, steps, old(Now()), Now())
    {
      ghost var start := Now();
      ghost var g := graph.model;
      ghost var env := graph.environment;
      ghost var t := Target(nodeIndex, inputPlugIndex);
      ghost var down := Downstream(g, nodeIndex);
      ghost var ty := TargetType(g, env.functions, t);
      ghost var blocks: seq<seq<Graph>> := [];
      steps := [];
      var nodeType := graph.GetNodeAsFunction(nodeIndex);
      var nodeInputs := nodeType.value.inputs;
      var nodeCount := graph.GetNodeCount();
      var parentNodeIndex := 0;
      while parentNodeIndex < nodeCount
        invariant 0 <= parentNodeIndex <= nodeCount == |g.nodes|
        invariant Searched(graph, q0, s0)
        invariant Ledger(blocks, ReuseNodeBlock(g, env.functions, t, down, ty), parentNodeIndex)
        invariant Run(graph.environment, hasher.connectionHash, custom, estimate, Flat(blocks), steps, start, Now())
      {
        ghost var mid := Now();
        ghost var more, ms := OfferParent(graph, nodeIndex, inputPlugIndex, nodeInputs, parentNodeIndex, q0, s0);
        RunSnoc(graph.environment, hasher.connectionHash, custom, estimate, blocks, steps, more, ms, start, mid, Now());
        LedgerStep(blocks, ReuseNodeBlock(g, env.functions, t, down, ty), parentNodeIndex, more);
        blocks := blocks + [more];
        steps := steps + ms;
        parentNodeIndex := parentNodeIndex + 1;
      }
      FlatReuseMoves(g, env.functions, t, down, ty, blocks, nodeCount);
      tried := Flat(blocks);
    }

    /** The body of addNewConnections' loop: the output plugs of one node, unless the target node reaches it. */
    method OfferParent(graph: NodeGraph, nodeIndex: int, inputPlugIndex: int, nodeInputs: seq<DataType>,
                       parentNodeIndex: int, ghost q0: multiset<NodeGraph>, ghost s0: seq<NodeGraph>)
      returns (ghost more: seq<Graph>, ghost steps: seq<Step>)
      requires Fillable(graph, Target(nodeIndex, inputPlugIndex))
      requires nodeInputs == FunctionOf(graph.model, graph.environment.functions, nodeIndex).inputs
      requires 0 <= parentNodeIndex < |graph.model.nodes|
      requires Searched(graph, q0, s0)
      modifies container, finder, hasher, connectionBuf
      ensures Searched(graph, q0, s0)
      ensures more == Children(graph.model, Target(nodeIndex, inputPlugIndex),
        ReuseBlock(graph.model, graph.environment.functions, Downstream(graph.model, nodeIndex), nodeInputs[inputPlugIndex],
                   Equal, parentNodeIndex))
      ensures Run(graph.environment, hasher.connectionHash, custom, estimate, more, steps, old(Now()), Now())
    {
      ghost var start := Now();
      more, steps := [], [];
      var isParent := ImplSearchTree.IsParent(graph, nodeIndex, parentNodeIndex, connectionBuf);
      if !isParent {
        more, steps := ConnectParent(graph, nodeIndex, inputPlugIndex, nodeInputs, parentNodeIndex, q0, s0);
      } else {
        assert parentNodeIndex in Downstream(graph.model, nodeIndex);
      }
    }

    /** The inner loop of addNewConnections: the output plugs of one node the target node does not reach. */
    method ConnectParent(graph: NodeGraph, nodeIndex: int, inputPlugIndex: int, nodeInputs: seq<DataType>,
                         parentNodeIndex: int, ghost q0: multiset<NodeGraph>, ghost s0: seq<NodeGraph>)
      returns (ghost tried: seq<Graph>, ghost steps: seq<Step>)
      requires Fillable(graph, Target(nodeIndex, inputPlugIndex))
      requires nodeInputs == FunctionOf(graph.model, graph.environment.functions, nodeIndex).inputs
      requires 0 <= parentNodeIndex < |graph.model.nodes| && !ReachesSome(graph.model.conns, nodeIndex, parentNodeIndex)
      requires Searched(graph, q0, s0)
      modifies container, finder, hasher
      ensures Searched(graph, q0, s0)
      ensures tried == Children(graph.model, Target(nodeIndex, inputPlugIndex),
        ReuseBlock(graph.model, graph.environment.functions, Downstream(graph.model, nodeIndex), nodeInputs[inputPlugIndex],
                   Equal, parentNodeIndex))
      ensures Run(graph.environment, hasher.connectionHash, custom, estimate, tried, steps, old(Now()), Now())
    {
      ghost var start := Now();
      ghost var g := graph.model;
      ghost var t := Target(nodeIndex, inputPlugIndex);
      ghost var ty := nodeInputs[inputPlugIndex];
      ghost var blocks: seq<seq<Graph>> := [];
      steps := [];
      var parentNodeType := graph.GetNodeAsFunction(parentNodeIndex);
      var parentOutputs := parentNodeType.value.outputs;
      var parentOutputCount := |parentOutputs|;
      var parentOutputIndex := 0;
      while parentOutputIndex < parentOutputCount
        invariant 0 <= parentOutputIndex <= parentOutputCount == |parentOutputs|
        invariant Searched(graph, q0, s0)
        invariant Ledger(blocks, ReusePlugBlock(g, t, parentOutputs, parentNodeIndex, ty), parentOutputIndex)
        invariant Run(graph.environment, hasher.connectionHash, custom, estimate, Flat(blocks), steps, start, Now())
      {
        ghost var mid := Now();
        ghost var more, ms := OfferReuse(graph, nodeIndex, inputPlugIndex, nodeInputs, parentNodeIndex, parentOutputs, parentOutputIndex, q0, s0);
        RunSnoc(graph.environment, hasher.connectionHash, custom, estimate, blocks, steps, more, ms, start, mid, Now());
        LedgerStep(blocks, ReusePlugBlock(g, t, parentOutputs, parentNodeIndex, ty), parentOutputIndex, more);
        blocks := blocks + [more];
        steps := steps + ms;
        parentOutputIndex := parentOutputIndex + 1;
      }
      FlatReusePlugs(g, t, parentOutputs, parentNodeIndex, ty, blocks, parentOutputCount);
      tried := Flat(blocks);
      ReuseBlockChildren(g, graph.environment.functions, t, nodeInputs[inputPlugIndex], parentNodeIndex);
    }

    /**
     * addNewNodes: for every function of the environment, and every output
     * plug of it whose type equals the target plug's, the child with a new
     * node of that function goes to processGraph. The children it tries are
     * those of the create moves, in order.
     */
    method AddNewNodes(graph: NodeGraph, nodeIndex: int, inputPlugIndex: int,
                       ghost q0: multiset<NodeGraph>, ghost s0: seq<NodeGraph>)
      returns (ghost tried: seq<Graph>, ghost steps: seq<Step>)
      requires Fillable(graph, Target(nodeIndex, inputPlugIndex)) && Fits(|graph.model.nodes| + 1, graph.numSize)
      requires Searched(graph, q0, s0)
      modifies container, finder, hasher
      ensures Searched(graph, q0, s0)
      ensures tried == Children(graph.model, Target(nodeIndex, inputPlugIndex),
        CreateMoves(graph.environment.functions, TargetType(graph.model, graph.environment.functions, Target(nodeIndex, inputPlugIndex)),
                    Equal, MaxPlugs(graph.environment.functions), |graph.environment.functions|))
      ensures Run(graph.environment, hasher.connectionHash, custom, estimate, tried, steps, old(Now()), Now())
    {
      ghost var start := Now();
      ghost var g := graph.model;
      ghost var t := Target(nodeIndex, inputPlugIndex);
      ghost var env := graph.environment;
      ghost var ty := TargetType(g, env.functions, t);
      ghost var blocks: seq<seq<Graph>> := [];
      steps := [];
      var nodeType := graph.GetNodeAsFunction(nodeIndex);
      var nodeInputs := nodeType.value.inputs;
      assert ty == nodeInputs[inputPlugIndex];
      var functionCount := |graph.GetEnvironment().functions|;
      var functionIndex := 0;
      while functionIndex < functionCount
        invariant 0 <= functionIndex <= functionCount == |env.functions|
        invariant Searched(graph, q0, s0)
        invariant Ledger(blocks, CreateFunctionBlock(g, env.functions, t, ty), functionIndex)
        invariant Run(env, hasher.connectionHash, custom, estimate, Flat(blocks), steps, start, Now())
      {
        ghost var mid := Now();
        ghost var more, ms := ConnectFunction(graph, nodeIndex, inputPlugIndex, nodeInputs, functionIndex, q0, s0);
        RunSnoc(env, hasher.connectionHash, custom, estimate, blocks, steps, more, ms, start, mid, Now());
        CreateLedgerStep(g, env.functions, t, ty, blocks, functionIndex, more);
        blocks := blocks + [more];
        steps := steps + ms;
        functionIndex := functionIndex + 1;
      }
      FlatCreateMoves(g, env.functions, t, ty, blocks, functionCount);
      tried := Flat(blocks);
    }

    /** The inner loop of addNewNodes: the output plugs of one function. */
    method ConnectFunction(graph: NodeGraph, nodeIndex: int, inputPlugIndex: int, nodeInputs: seq<DataType>,
                           functionIndex: int, ghost q0: multiset<NodeGraph>, ghost s0: seq<NodeGraph>)
      returns (ghost tried: seq<Graph>, ghost steps: seq<Step>)
      requires Fillable(graph, Target(nodeIndex, inputPlugIndex)) && Fits(|graph.model.nodes| + 1, graph.numSize)
      requires nodeInputs == FunctionOf(graph.model, graph.environment.functions, nodeIndex).inputs
      requires 0 <= functionIndex < |graph.environment.functions|
      requires Searched(graph, q0, s0)
      modifies container, finder, hasher
      ensures Searched(graph, q0, s0)
      ensures tried == Children(graph.model, Target(nodeIndex, inputPlugIndex),
        CreateBlock(graph.environment.functions, nodeInputs[inputPlugIndex], Equal, MaxPlugs(graph.environment.functions), functionIndex))
      ensures Run(graph.environment, hasher.connectionHash, custom, estimate, tried, steps, old(Now()), Now())
    {
      ghost var start := Now();
      ghost var g := graph.model;
      ghost var t := Target(nodeIndex, inputPlugIndex);
      ghost var ty := nodeInputs[inputPlugIndex];
      ghost var blocks: seq<seq<Graph>> := [];
      steps := [];
      var functionOutputs := graph.GetEnvironment().functions[functionIndex].outputs;
      var functionOutputCount := |functionOutputs|;
      var functionOutputIndex := 0;
      while functionOutputIndex < functionOutputCount
        invariant 0 <= functionOutputIndex <= functionOutputCount == |functionOutputs|
        invariant functionOutputs == graph.environment.functions[functionIndex].outputs
        invariant Searched(graph, q0, s0)
        invariant Ledger(blocks, CreatePlugBlock(g, t, functionOutputs, functionIndex, ty), functionOutputIndex)
        invariant Run(graph.environment, hasher.connectionHash, custom, estimate, Flat(blocks), steps, start, Now())
      {
        ghost var mid := Now();
        ghost var more, ms := OfferCreate(graph, nodeIndex, inputPlugIndex, nodeInputs, functionIndex, functionOutputs, functionOutputIndex, q0, s0);
        RunSnoc(graph.environment, hasher.connectionHash, custom, estimate, blocks, steps, more, ms, start, mid, Now());
        LedgerStep(blocks, CreatePlugBlock(g, t, functionOutputs, functionIndex, ty), functionOutputIndex, more);
        blocks := blocks + [more];
        steps := steps + ms;
        functionOutputIndex := functionOutputIndex + 1;
      }
      FlatCreatePlugs(g, t, functionOutputs, functionIndex, ty, blocks, functionOutputCount);
      tried := Flat(blocks);
      CreateBlockChildren(g, graph.environment.functions, t, nodeInputs[inputPlugIndex], functionIndex);
    }

    /** The body of addNewConnections' inner loop: output plug k of a node, tried when its type equals the target plug's. */
    method OfferReuse(graph: NodeGraph, nodeIndex: int, inputPlugIndex: int, nodeInputs: seq<DataType>, parentNodeIndex: int,
                      parentOutputs: seq<DataType>, k: int, ghost q0: multiset<NodeGraph>, ghost s0: seq<NodeGraph>)
      returns (ghost more: seq<Graph>, ghost steps: seq<Step>)
      requires Fillable(graph, Target(nodeIndex, inputPlugIndex))
      requires nodeInputs == FunctionOf(graph.model, graph.environment.functions, nodeIndex).inputs
      requires 0 <= parentNodeIndex < |graph.model.nodes| && !ReachesSome(graph.model.conns, nodeIndex, parentNodeIndex)
      requires parentOutputs == FunctionOf(graph.model, graph.environment.functions, parentNodeIndex).outputs && 0 <= k < |parentOutputs|
      requires Searched(graph, q0, s0)
      modifies container, finder, hasher
      ensures Searched(graph, q0, s0)
      ensures more == if parentOutputs[k] == nodeInputs[inputPlugIndex]
                      then [Apply(graph.model, Target(nodeIndex, inputPlugIndex), Reuse(parentNodeIndex, k))] else []
      ensures Run(graph.environment, hasher.connectionHash, custom, estimate, more, steps, old(Now()), Now())
    {
      ghost var start := Now();
      more, steps := [], [];
      if parentOutputs[k] == nodeInputs[inputPlugIndex] {
        ghost var c, unique, hash := ReuseStep(graph, Target(nodeIndex, inputPlugIndex), Reuse(parentNodeIndex, k), q0, s0);
        more, steps := [c.model], [Step(c, c.heuristic, unique, hash, start, Now())];
      }
    }

    /** The body of addNewNodes' inner loop: output plug k of a function, tried when its type equals the target plug's. */
    method OfferCreate(graph: NodeGraph, nodeIndex: int, inputPlugIndex: int, nodeInputs: seq<DataType>, functionIndex: int,
                       functionOutputs: seq<DataType>, k: int, ghost q0: multiset<NodeGraph>, ghost s0: seq<NodeGraph>)
      returns (ghost more: seq<Graph>, ghost steps: seq<Step>)
      requires Fillable(graph, Target(nodeIndex, inputPlugIndex)) && Fits(|graph.model.nodes| + 1, graph.numSize)
      requires nodeInputs == FunctionOf(graph.model, graph.environment.functions, nodeIndex).inputs
      requires 0 <= functionIndex < |graph.environment.functions|
      requires functionOutputs == graph.environment.functions[functionIndex].outputs && 0 <= k < |functionOutputs|
      requires Searched(graph, q0, s0)
      modifies container, finder, hasher
      ensures Searched(graph, q0, s0)
      ensures more == if functionOutputs[k] == nodeInputs[inputPlugIndex]
                      then [Apply(graph.model, Target(nodeIndex, inputPlugIndex), Create(functionIndex, k))] else []
      ensures Run(graph.environment, hasher.connectionHash, custom, estimate, more, steps, old(Now()), Now())
    {
      ghost var start := Now();
      more, steps := [], [];
      if functionOutputs[k] == nodeInputs[inputPlugIndex] {
        ghost var c, unique, hash := CreateStep(graph, Target(nodeIndex, inputPlugIndex), Create(functionIndex, k), q0, s0);
        more, steps := [c.model], [Step(c, c.heuristic, unique, hash, start, Now())];
      }
    }

    /** One reuse child: addConnection, then processGraph on the child, which the result names. */
    method ReuseStep(graph: NodeGraph, t: Target, m: Move, ghost q0: multiset<NodeGraph>, ghost s0: seq<NodeGraph>)
      returns (ghost c: NodeGraph, ghost unique: bool, ghost hash: GraphHash)
      requires Fillable(graph, t) && m.Reuse? && RootMove(graph.model, graph.environment.functions, t, m)
      requires Searched(graph, q0, s0)
      modifies container, finder, hasher
      ensures Searched(graph, q0, s0)
      ensures c.model == Apply(graph.model, t, m) && c.environment == graph.environment
      ensures Typed(c.model, graph.environment.functions)
      ensures Screened(c.model, graph.environment, hasher.connectionHash, old(finder.duplicates), finder.duplicates, unique, hash)
      ensures Admitted(c, custom, estimate, InDepth(c.model, graph.environment) && unique,
                       old(container.queue), old(container.solutions), old(container.unprocessedGraphs),
                       container.queue, container.solutions, container.unprocessedGraphs)
    {
      ghost var g := graph.model;
      ghost var env := graph.environment;
      var child := graph.AddConnection(m.from, m.plug, t.node, t.plug);
      IndexStored(env, m.plug);
      IndexStored(env, t.plug);
      ReuseChild(g, env.functions, t, m);
      ChildIsChild(g, env.functions, t, m, child.value.model);
      unique, hash := Processed(graph, child.value, q0, s0);
      c := child.value;
    }

    /** One create child: addConnectionAndNode, then processGraph on the child, which the result names. */
    method CreateStep(graph: NodeGraph, t: Target, m: Move, ghost q0: multiset<NodeGraph>, ghost s0: seq<NodeGraph>)
      returns (ghost c: NodeGraph, ghost unique: bool, ghost hash: GraphHash)
      requires Fillable(graph, t) && Fits(|graph.model.nodes| + 1, graph.numSize)
      requires m.Create? && RootMove(graph.model, graph.environment.functions, t, m)
      requires Searched(graph, q0, s0)
      modifies container, finder, hasher
      ensures Searched(graph, q0, s0)
      ensures c.model == Apply(graph.model, t, m) && c.environment == graph.environment
      ensures Typed(c.model, graph.environment.functions)
      ensures Screened(c.model, graph.environment, hasher.connectionHash, old(finder.duplicates), finder.duplicates, unique, hash)
      ensures Admitted(c, custom, estimate, InDepth(c.model, graph.environment) && unique,
                       old(container.queue), old(container.solutions), old(container.unprocessedGraphs),
                       container.queue, container.solutions, container.unprocessedGraphs)
    {
      ghost var g := graph.model;
      ghost var env := graph.environment;
      var child := graph.AddConnectionAndNode(m.fn, m.plug, t.node, t.plug);
      IndexStored(env, m.fn);
      IndexStored(env, m.plug);
      IndexStored(env, t.plug);
      CreateChild(g, env.functions, t, m);
      ChildIsChild(g, env.functions, t, m, child.value.model);
      unique, hash := Processed(graph, child.value, q0, s0);
      c := child.value;
    }

    /** processGraph on a fresh child of the graph: the child is screened and admitted, and the search stays sound. */
    method Processed(graph: NodeGraph, c: NodeGraph, ghost q0: multiset<NodeGraph>, ghost s0: seq<NodeGraph>)
      returns (ghost unique: bool, ghost hash: GraphHash)
      requires graph.Valid() && Typed(graph.model, graph.environment.functions)
      requires c.Valid() && c.environment == graph.environment
      requires Typed(c.model, graph.environment.functions) && Connected(c.model)
      requires ChildOf(graph.model, graph.environment.functions, c.model)
      requires c !in container.queue
      requires Searched(graph, q0, s0)
      modifies container, finder, hasher, c`heuristic
      ensures Searched(graph, q0, s0)
      ensures Screened(c.model, graph.environment, hasher.connectionHash, old(finder.duplicates), finder.duplicates, unique, hash)
      ensures Admitted(c, custom, estimate, InDepth(c.model, graph.environment) && unique,
                       old(container.queue), old(container.solutions), old(container.unprocessedGraphs),
                       container.queue, container.solutions, container.unprocessedGraphs)
    {
      ghost var g := graph.model;
      ghost var env := graph.environment;
      ghost var qb, sb, ub := container.queue, container.solutions, container.unprocessedGraphs;
      unique, hash := ProcessGraph(c);
      KeptChild(g, env, custom, estimate, q0, s0, qb, sb, container.queue, container.solutions, ub, container.unprocessedGraphs,
        c, InDepth(c.model, env) && unique);
    }

    /**
     * processGraph: a child past the depth limit is dropped, as is one the
     * duplicate finder rejects; what remains goes to Admit.
     */
    method ProcessGraph(graph: NodeGraph) returns (ghost unique: bool, ghost hash: GraphHash)
      requires graph.Valid() && Typed(graph.model, graph.environment.functions) && Connected(graph.model)
      requires Ready() && graph !in container.queue
      modifies container, finder, hasher, graph`heuristic
      ensures Ready()
      ensures Screened(graph.model, graph.environment, hasher.connectionHash, old(finder.duplicates), finder.duplicates, unique, hash)
      ensures Admitted(graph, custom, estimate, InDepth(graph.model, graph.environment) && unique,
                       old(container.queue), old(container.solutions), old(container.unprocessedGraphs),
                       container.queue, container.solutions, container.unprocessedGraphs)
      ensures container.totalGraphs == old(container.totalGraphs)
      ensures forall q :: q in old(container.queue) ==> q.heuristic == old(q.heuristic)
    {
      var env := graph.GetEnvironment();
      var connectionCount := graph.GetConnectionCount();
      var open := graph.CountOpenPlugs();
      var openPlugs := open.value;
      if connectionCount + openPlugs > env.GetMaxDepth() {
        return false, GraphHash([]);
      }
      var isUnique;
      isUnique, hash := finder.IsUnique(hasher, graph);
      unique := isUnique.value;
      if !isUnique.value {
        return;
      }
      Admit(graph, openPlugs);
    }

    /**
     * The rest of processGraph: a child that fails an axiom is dropped. A
     * child without open plugs must also pass the solution axioms and joins
     * the solutions; any other child is scored and queued.
     */
    method Admit(graph: NodeGraph, openPlugs: int)
      requires graph.Valid() && Typed(graph.model, graph.environment.functions)
      requires openPlugs == OpenPlugs(graph.model, graph.environment.functions)
      requires graph !in container.queue
      modifies container, graph`heuristic
      ensures Admitted(graph, custom, estimate, true, old(container.queue), old(container.solutions), old(container.unprocessedGraphs),
                       container.queue, container.solutions, container.unprocessedGraphs)
      ensures container.totalGraphs == old(container.totalGraphs)
      ensures forall q :: q in old(container.queue) ==> q.heuristic == old(q.heuristic)
    {
      var env := graph.GetEnvironment();
      var g := graph.ToGraph();
      var valid := AllValid(env.axioms, g, env.functions, custom);
      if !valid {
        return;
      }
      if openPlugs == 0 {
        var solutionValid := AllValid(env.solutionAxioms, g, env.functions, custom);
        if !solutionValid {
          return;
        }
        container.AddSolution(graph);
      } else {
        var heuristic := SumHeuristics(env.heuristics, g, estimate);
        graph.SetHeuristicScore(heuristic);
        container.AddNodeGraph(graph);
      }
    }
  }
}

=== FILE: stable_sort.dfy ===
/**
 * The stable sort of java.util.List.sort, by an integer key: elements with
 * smaller keys come first, and elements with equal keys keep their order.
 * `SortBy` is insertion sort, which is stable; the lemmas say that its
 * result is sorted, is a permutation of its input, keeps every group of
 * equal keys in input order, and is the only sequence that does all three.
 */
module StableSort {
  /** Inserts x after every element, counted from the back, whose key is not larger. */
  function Insert<T>(s: seq<T>, x: T, key: T -> int): (r: seq<T>)
    ensures |r| == |s| + 1
  {
    if s == [] then [x]
    else if key(s[|s| - 1]) <= key(x) then s + [x]
    else Insert(s[..|s| - 1], x, key) + [s[|s| - 1]]
  }

  function SortBy<T>(s: seq<T>, key: T -> int): (r: seq<T>)
    ensures |r| == |s|
  {
    if s == [] then [] else Insert(SortBy(s[..|s| - 1], key), s[|s| - 1], key)
  }

  predicate SortedBy<T>(s: seq<T>, key: T -> int)
  {
    forall i, j :: 0 <= i < j < |s| ==> key(s[i]) <= key(s[j])
  }

  /** The elements of s whose key is k, in order. */
  function WithKey<T>(s: seq<T>, k: int, key: T -> int): seq<T>
  {
    if s == [] then [] else WithKey(s[..|s| - 1], k, key) + (if key(s[|s| - 1]) == k then [s[|s| - 1]] else [])
  }

  lemma {:induction false} InsertPermutes<T>(s: seq<T>, x: T, key: T -> int)
    ensures multiset(Insert(s, x, key)) == multiset(s) + multiset{x}
  {
    if s != [] && key(s[|s| - 1]) > key(x) {
      var init := s[..|s| - 1];
      InsertPermutes(init, x, key);
      assert s == init + [s[|s| - 1]];
    }
  }

  lemma {:induction false} InsertSorted<T>(s: seq<T>, x: T, key: T -> int)
    requires SortedBy(s, key)
    ensures SortedBy(Insert(s, x, key), key)
  {
    if s != [] && key(s[|s| - 1]) > key(x) {
      var init := s[..|s| - 1];
      var last := s[|s| - 1];
      InsertSorted(init, x, key);
      InsertPermutes(init, x, key);
      var r := Insert(init, x, key);
      forall i | 0 <= i < |r|
        ensures key(r[i]) <= key(last)
      {
        assert r[i] in multiset(r);
        if r[i] != x {
          assert r[i] in multiset(init);
          var j :| 0 <= j < |init| && init[j] == r[i];
          assert s[j] == init[j];
        }
      }
    }
  }

  /** Inserting x adds it to the end of its own key group and changes no other group. */
  lemma {:induction false} InsertWithKey<T>(s: seq<T>, x: T, k: int, key: T -> int)
    ensures WithKey(Insert(s, x, key), k, key) == WithKey(s, k, key) + (if key(x) == k then [x] else [])
  {
    if s == [] {
    } else if key(s[|s| - 1]) <= key(x) {
      assert (s + [x])[..|s|] == s;
    } else {
      var init := s[..|s| - 1];
      var last := s[|s| - 1];
      var r := Insert(init, x, key);
      InsertWithKey(init, x, k, key);
      assert (r + [last])[..|r|] == r;
    }
  }

  /** SortBy returns a sorted sequence. */
  lemma {:induction false} SortByIsSorted<T>(s: seq<T>, key: T -> int)
    ensures SortedBy(SortBy(s, key), key)
  {
    if s != [] {
      SortByIsSorted(s[..|s| - 1], key);
      InsertSorted(SortBy(s[..|s| - 1], key), s[|s| - 1], key);
    }
  }

  /** SortBy returns a permutation of its input. */
  lemma {:induction false} SortByPermutes<T>(s: seq<T>, key: T -> int)
    ensures multiset(SortBy(s, key)) == multiset(s)
  {
    if s != [] {
      SortByPermutes(s[..|s| - 1], key);
      InsertPermutes(SortBy(s[..|s| - 1], key), s[|s| - 1], key);
      assert s == s[..|s| - 1] + [s[|s| - 1]];
    }
  }

  /** SortBy is stable: every group of equal keys keeps its input order. */
  lemma {:induction false} SortByStable<T>(s: seq<T>, k: int, key: T -> int)
    ensures WithKey(SortBy(s, key), k, key) == WithKey(s, k, key)
  {
    if s != [] {
      SortByStable(s[..|s| - 1], k, key);
      InsertWithKey(SortBy(s[..|s| - 1], key), s[|s| - 1], k, key);
    }
  }

  lemma {:induction false} WithKeyEmpty<T>(s: seq<T>, k: int, key: T -> int)
    ensures WithKey(s, k, key) == [] <==> forall i :: 0 <= i < |s| ==> key(s[i]) != k
  {
    if s != [] {
      WithKeyEmpty(s[..|s| - 1], k, key);
      assert forall i :: 0 <= i < |s| - 1 ==> s[..|s| - 1][i] == s[i];
    }
  }

  /** A group of a sorted sequence is empty when its key is above the last key. */
  lemma NoneAboveLast<T>(s: seq<T>, k: int, key: T -> int)
    requires SortedBy(s, key) && s != [] && k > key(s[|s| - 1])
    ensures WithKey(s, k, key) == []
  {
    WithKeyEmpty(s, k, key);
  }

  lemma LastInGroup<T>(s: seq<T>, key: T -> int)
    requires s != []
    ensures WithKey(s, key(s[|s| - 1]), key) != []
  {
  }

  /** Two sorted sequences with the same key groups are equal. */
  lemma {:induction false} SortedUnique<T>(a: seq<T>, b: seq<T>, key: T -> int)
    requires SortedBy(a, key) && SortedBy(b, key)
    requires forall k :: WithKey(a, k, key) == WithKey(b, k, key)
    ensures a == b
    decreases |a|
  {
    if a == [] && b != [] {
      LastInGroup(b, key);
    } else if a != [] && b == [] {
      LastInGroup(a, key);
    } else if a != [] {
      var ka := key(a[|a| - 1]);
      var kb := key(b[|b| - 1]);
      if ka < kb {
        NoneAboveLast(a, kb, key);
      } else if kb < ka {
        NoneAboveLast(b, ka, key);
      }
      var a' := a[..|a| - 1];
      var b' := b[..|b| - 1];
      assert WithKey(a, ka, key) == WithKey(a', ka, key) + [a[|a| - 1]];
      assert WithKey(b, ka, key) == WithKey(b', ka, key) + [b[|b| - 1]];
      forall k
        ensures WithKey(a', k, key) == WithKey(b', k, key)
      {
        if k == ka {
          assert WithKey(a, k, key)[..|WithKey(a, k, key)| - 1] == WithKey(a', k, key);
          assert WithKey(b, k, key)[..|WithKey(b, k, key)| - 1] == WithKey(b', k, key);
        } else {
          assert WithKey(a, k, key) == WithKey(a', k, key);
          assert WithKey(b, k, key) == WithKey(b', k, key);
        }
      }
      SortedUnique(a', b', key);
      var ga := WithKey(a, ka, key);
      assert ga == WithKey(b, ka, key);
      assert a[|a| - 1] == ga[|ga| - 1] == b[|b| - 1];
      assert a == a' + [a[|a| - 1]] && b == b' + [b[|b| - 1]];
    }
  }

  /**
   * Sorting sees only the key groups: inputs whose groups agree, however
   * the groups interleave, sort to the same sequence.
   */
  lemma SortByDependsOnGroups<T>(a: seq<T>, b: seq<T>, key: T -> int)
    requires forall k :: WithKey(a, k, key) == WithKey(b, k, key)
    ensures SortBy(a, key) == SortBy(b, key)
  {
    SortByIsSorted(a, key);
    SortByIsSorted(b, key);
    forall k
      ensures WithKey(SortBy(a, key), k, key) == WithKey(SortBy(b, key), k, key)
    {
      SortByStable(a, k, key);
      SortByStable(b, k, key);
    }
    SortedUnique(SortBy(a, key), SortBy(b, key), key);
  }

  lemma DropLast<T>(s: seq<T>)
    requires s != []
    ensures s == s[..|s| - 1] + [s[|s| - 1]]
    ensures multiset(s) == multiset(s[..|s| - 1]) + multiset{s[|s| - 1]}
  {
    assert s == s[..|s| - 1] + [s[|s| - 1]];
  }

  lemma Cancel<T>(a: multiset<T>, b: multiset<T>, x: T)
    requires a + multiset{x} == b + multiset{x}
    ensures a == b
  {
    forall z
      ensures a[z] == b[z]
    {
      assert (a + multiset{x})[z] == (b + multiset{x})[z];
    }
  }

  /** The last elements of two sorted sequences with the same elements have the same key. */
  lemma LastKeysAgree<T>(a: seq<T>, b: seq<T>, key: T -> int)
    requires SortedBy(a, key) && SortedBy(b, key) && multiset(a) == multiset(b) && a != [] && b != []
    ensures key(a[|a| - 1]) == key(b[|b| - 1])
  {
    var x := a[|a| - 1];
    var y := b[|b| - 1];
    assert x in multiset(b) && y in multiset(a);
    var j :| 0 <= j < |b| && b[j] == x;
    var i :| 0 <= i < |a| && a[i] == y;
    assert key(x) <= key(y) by {
      if j < |b| - 1 { assert key(b[j]) <= key(b[|b| - 1]); }
    }
    assert key(y) <= key(x) by {
      if i < |a| - 1 { assert key(a[i]) <= key(a[|a| - 1]); }
    }
  }

  /**
   * Two sorted sequences with the same elements are equal when no two
   * different elements of the first share a key.
   */
  lemma {:induction false} SortedSeparatedUnique<T>(a: seq<T>, b: seq<T>, key: T -> int)
    requires SortedBy(a, key) && SortedBy(b, key) && multiset(a) == multiset(b)
    requires forall x, y :: x in a && y in a && key(x) == key(y) ==> x == y
    ensures a == b
    decreases |a|
  {
    assert |a| == |multiset(a)| == |multiset(b)| == |b|;
    if a != [] {
      var x := a[|a| - 1];
      LastKeysAgree(a, b, key);
      assert b[|b| - 1] in multiset(a);
      assert x == b[|b| - 1];
      var a' := a[..|a| - 1];
      var b' := b[..|b| - 1];
      DropLast(a);
      DropLast(b);
      Cancel(multiset(a'), multiset(b'), x);
      assert SortedBy(a', key) && SortedBy(b', key);
      assert forall z :: z in a' ==> z in a;
      SortedSeparatedUnique(a', b', key);
    }
  }

  /**
   * Sorting by a key that tells the elements apart sees only which elements
   * there are: inputs with the same elements, in any order, sort alike.
   */
  lemma SortBySeparated<T>(a: seq<T>, b: seq<T>, key: T -> int)
    requires multiset(a) == multiset(b)
    requires forall x, y :: x in a && y in a && key(x) == key(y) ==> x == y
    ensures SortBy(b, key) == SortBy(a, key)
  {
    SortByPermutes(a, key);
    SortByPermutes(b, key);
    SortByIsSorted(a, key);
    SortByIsSorted(b, key);
    forall x | x in SortBy(a, key)
      ensures x in a
    {
      assert x in multiset(SortBy(a, key));
    }
    SortedSeparatedUnique(SortBy(a, key), SortBy(b, key), key);
  }
}

=== FILE: wrappers.dfy ===
/**
 * Result and option wrappers shared by every module of the model.
 *
 * The Java code signals misuse by throwing unchecked exceptions; the model
 * returns `Failure(e)` instead, naming the exception class that would have
 * been thrown.
 */
module Wrappers {

  datatype Option<T> = None | Some(value: T)

  /** The unchecked exceptions the modelled code throws. */
  datatype Error =
    | IndexOutOfBounds      // IndexOutOfBoundsException and ArrayIndexOutOfBoundsException
    | IllegalArgument       // IllegalArgumentException
    | IllegalState          // RuntimeException for an environment without an output function
    | NullPointer           // NullPointerException on a missing map entry or a null argument

  datatype Result<T> = Success(value: T) | Failure(error: Error)
}
